=== FILE: README.md ===
# A Dafny model of the my-app page builder

This project models the core of the my-app page builder in Dafny. In that application a user:

- builds landing pages out of typed sections (hero, features, pricing, testimonials, blog and the other section kinds);
- styles each section's text, colours, spacing and buttons;
- previews pages on several device sizes;
- scores pages for search engines and loading speed;
- exports pages to static HTML;
- publishes, shares and lists pages through an in-memory store and a small REST API.

Each part of the application is one module, and every operation is a pure function over immutable data:

- Shared helpers: `Wrappers` (Option and Result), `Seqs`, `Text` (trimming, case, splitting, number parsing), `Json`, and `Js` (JavaScript truthiness, property access, logical-or fallbacks and template-literal stringification).
- Data types and stores: `Types` (the page, section and style records and the section-type names), `Sections` (starter content and styles), `DataStore` and `Api` (the server-side store and its route handlers), and `PagesStore` (the browser-side store).
- The editor: `Editor` (the page builder with its undo and redo history), `Ordering` (the stable sort used by the preview and the exporter), `Catalogue` (the add-section sidebar), `Panel` (the customisation panel and the editable preview) and `Preview` (the page preview and its template).
- Controls: `Color`, `Fonts`, `Spacing`, `Button`, `RichText` and `Image`.
- Page tools: `Seo`, `Speed`, `Responsive`, `Exporter`, `Publisher`, `Settings`, `Slugs`, `Links`, `Analytics` and `PageList`.

Anything the application gets from its environment is a parameter of the operation that needs it. That covers:

- fresh ids and random tokens;
- the current time;
- the site origin and the window size;
- the answers to confirm and prompt dialogs;
- the outcome of reading an uploaded file;
- the base stylesheet of the exporter;
- the registry of section components.

Where an operation can throw or return null in the application, the model returns a `Result` or an `Option`, so the error path is modelled as well.

Three behaviours of the code are worth stating because they are easy to assume otherwise:

- The slug the builder derives from a page title keeps a leading or trailing hyphen (components/page-builder/page-builder.tsx:238-250); `Slugs.TitleSlugKeepsEdges` shows one. Only the settings dialog strips them.
- An imported page gets " (Imported)" appended to its title, and fresh timestamps (lib/pages-store.ts:125-154).
- The static exporter gives every section type without a dedicated template its generic title-and-description block (components/export-deployment/static-exporter.tsx); `Exporter.GenericFallback` states this.

## Model

| member | source | states |
|---|---|---|
| Analytics.FormatDuration | components/page-management/page-analytics.tsx:67-71 | the text is whole minutes, a colon, then the seconds as exactly two digits |
| Analytics.SecondsField | components/page-management/page-analytics.tsx:69-70 | seconds below 60 padded to two digits read back as the same number |
| Analytics.DurationRoundTrip | components/page-management/page-analytics.tsx:67-71 | the formatted duration splits at its one colon into minutes and a seconds field below 60 that together give back the total seconds |
| Analytics.FormatNumber | components/page-management/page-analytics.tsx:73-78 | counts of 1000 or more show the thousands (one decimal) followed by `k`; smaller counts show their decimal digits |
| Analytics.SmallNumberReadsBack | components/page-management/page-analytics.tsx:73-78 | below 1000 the shown text is plain digits that read back as the count and carries no `k` |
| Api.GetPages | app/api/pages/route.ts:6-27 | 400 with "User ID is required" exactly when no user id is given; otherwise 200 with the store's pages of that user |
| Api.PageData | app/api/pages/route.ts:51-58 | the new page takes the request's user id, title and slug, and defaults to no sections and unpublished unless the body supplies them |
| Api.PostPage | app/api/pages/route.ts:30-69 | as written: 500 for an unparsable body, 400 when user id, title or slug is missing, 409 when the slug is taken, otherwise 201 with the created page appended, carrying the body's id when it has one and the generated id otherwise, the request's owner, title, slug, sections (default none) and published flag (default false); every failure leaves the pages unchanged |
| Api.PostDuplicatesId | app/api/pages/route.ts:51-58 | as written: a complete body with a fresh slug and an existing page's id is accepted with 201 and leaves two pages with that id |
| Api.PostPageFixed | app/api/pages/route.ts:30-69 | corrected: the same statuses and the same page as the route, except that the page always has the generated id |
| Api.PostAgreesWithoutId | app/api/pages/route.ts:51-58 | the route and its corrected form give the same answer and store for every body without an id |
| Api.PostKeepsStoreUnique | app/api/pages/route.ts:42-60 | corrected: creating pages through the corrected route keeps slugs distinct, and keeps ids distinct when the generated id is fresh |
| Api.PostThenFind | app/api/pages/route.ts:51-60 | a page the route creates from a body without an id, under a fresh generated id, is found again under that id |
| Api.PostSection | app/api/sections/route.ts:7-37 | 500 for an unparsable body, 400 without page id or type, 404 for an unknown page, otherwise 201 with a section of the requested type, variant defaulting to `default` and order to 0, appended last to that page |
| Api.PostSectionLocal | app/api/sections/route.ts:19-29 | a successful request changes only the named page and the new section carries its type's default content |
| Button.PresetsShape | components/content-management/button-styler.tsx:33-137 | there are six presets, and every one sets a background, a border width and a padding whose top equals its bottom and whose left equals its right |
| Button.PresetNamesDistinct | components/content-management/button-styler.tsx:33-137 | no two presets share a name |
| Button.HandleStyleChange | components/content-management/button-styler.tsx:147-149 | each field of the emitted style is the update's value where the update sets it and the current value elsewhere |
| Button.HandlePresetSelect | components/content-management/button-styler.tsx:151-153 | the preset's style is emitted as it stands, nothing of the previous style surviving; a catalogue preset sets the colours, the radius and a padding equal top to bottom and left to right |
| Button.StyleChangeLaws | components/content-management/button-styler.tsx:147-149 | an empty update emits the style unchanged, and applying the same update twice is applying it once |
| Button.PresetReplaces | components/content-management/button-styler.tsx:151-153 | choosing a preset gives the same style whatever the style was before, and a catalogue preset leaves a symmetric padding |
| Button.SetSide | components/content-management/button-styler.tsx:157-162 | replacing one side of a padding changes that side only |
| Button.HandlePaddingChange | components/content-management/button-styler.tsx:155-163 | the emitted style differs from the current one only in its padding, which is the current padding (12/24/12/24 when unset) with the one side set |
| Button.TopBottomEmissions | components/content-management/button-styler.tsx:382-387 | the top/bottom input emits two styles, the first with the new top and the second with the new bottom |
| Button.LeftRightEmissions | components/content-management/button-styler.tsx:395-400 | the left/right input emits two styles, the first with the new left and the second with the new right |
| Button.TwoEmissionsLoseFirstSide | components/content-management/button-styler.tsx:382-400 | after both emissions the parent holds the old top (left): the first emission is overwritten |
| Button.TopBottomExample | components/content-management/button-styler.tsx:382-387 | typing 20 into the top/bottom input of a 12/24/12/24 button leaves 12/24/20/24 |
| Button.TopBottomChange | components/content-management/button-styler.tsx:382-387 | the corrected input sets top and bottom together and changes nothing but the padding |
| Button.LeftRightChange | components/content-management/button-styler.tsx:395-400 | the corrected input sets left and right together and changes nothing but the padding |
| Button.PairedChangesSymmetric | components/content-management/button-styler.tsx:376-402 | the corrected inputs give padding n/m/n/m, keep the other pair of sides, show back the typed non-zero values, and show 12 for a typed zero |
| Button.BorderColor | components/content-management/button-styler.tsx:168 | the border is drawn in the border colour, else the background colour, else blue, skipping empty strings |
| Button.Preview | components/content-management/button-styler.tsx:165-175 | the preview's border, background and weight use the style's values with each unset or falsy field replaced by its default |
| Button.PreviewFallbacks | components/content-management/button-styler.tsx:165-175 | a zero border width or an empty border colour previews as if unset, and an empty style previews a 2px blue border and the default padding |
| Catalogue.SectionTypesComplete | components/sections/section-registry.tsx:166-182 | the type list has fifteen entries, contains every section type and repeats none |
| Catalogue.VariantsOf | components/sections/section-registry.tsx:155-157 | an unknown type name has no variants (names inherited from Object.prototype are left out); a known type has two with distinct ids, all with empty default content and styles |
| Catalogue.VariantsShape | components/sections/section-registry.tsx:29-147 | every type offers exactly two variants with distinct ids and empty defaults |
| Catalogue.FindVariant | components/sections/section-registry.tsx:29-147 | a variant found is one of the type's variants with the requested id; none is found only when no variant of the type has that id |
| Catalogue.ComponentFor | components/sections/section-registry.tsx:9-26 | a name outside the section types gets the unknown-type renderer naming it (names inherited from Object.prototype are left out); header, hero, features and pricing get their dedicated templates |
| Catalogue.FilterTypes | components/page-builder/section-sidebar.tsx:53-55 | the filter keeps, in order, exactly the types whose display name contains the search term ignoring case |
| Catalogue.FilteredSectionTypes | components/page-builder/section-sidebar.tsx:31-55 | the listed types are the catalogue's types matching the search, in catalogue order |
| Catalogue.EmptySearchListsAll | components/page-builder/section-sidebar.tsx:53-55 | an empty search lists every type in catalogue order |
| Catalogue.VariantCount | components/page-builder/section-sidebar.tsx:129 | the count beside a type is its number of variants: two for a known type, zero for any other name not inherited from Object.prototype |
| Catalogue.ChooseVariant | components/page-builder/section-sidebar.tsx:178-182 | pressing Add Section on a variant requests that type and variant and closes the variant list, keeping the search |
| Color.SkipNonDigits | components/content-management/color-picker.tsx:81 | the result is the suffix of the input that starts at its first ASCII digit; everything dropped is a non-digit |
| Color.RunsOf | components/content-management/color-picker.tsx:81 | a run of digits between non-digits is the next match of the global digit pattern |
| Color.Hex2Channel | components/content-management/color-picker.tsx:86 | a channel below 256 prints as exactly two hex digits that read back as the channel |
| Color.ExtractHex | components/content-management/color-picker.tsx:75-90 | a `#` value is returned as it is; a value that is neither `#…` nor `rgb…` with three numbers shows white |
| Color.ChannelsRead | components/content-management/color-picker.tsx:86 | the converted colour passes the hex validation and its three digit pairs read back as red, green and blue |
| Color.RgbRuns | components/content-management/color-picker.tsx:81-85 | the three numbers of `rgb(R, G, B)` are the first three digit matches |
| Color.RgbToHex | components/content-management/color-picker.tsx:75-90 | `rgb(r, g, b)` with channels below 256 converts to the hex colour of those channels, which passes the validation |
| Color.PresetsAreHex | components/content-management/color-picker.tsx:14-27 | there are 62 solid presets and each passes the hex validation |
| Color.Open | components/content-management/color-picker.tsx:48 | the picker opens on its value, or on white when the value is empty |
| Color.Step | components/content-management/color-picker.tsx:63-258 | whenever a colour is emitted the picker shows it; typed hex is emitted exactly when it passes the validation and is otherwise ignored; typing a custom value emits nothing until blur; the transparent, clear and swatch buttons emit their colour |
| Color.HexBoxText | components/content-management/color-picker.tsx:221 | the hex box shows a `#` colour as it is and white otherwise |
| Color.HexTypedShows | components/content-management/color-picker.tsx:68-73 | a valid hex typed into the box is what the box then shows and what the swatch input reads |
| DataStore.GetPages | lib/data-store.ts:44-46 | exactly the pages of the user, in store order |
| DataStore.CreatePageSpread | lib/data-store.ts:56-65 | as written: the page is appended, and an `id` key in the spread data overrides the generated id |
| DataStore.SpreadDuplicatesId | lib/data-store.ts:56-65 | as written: data carrying an existing page's id creates a second page with that id, ids stop being unique and the id still finds only the older page |
| DataStore.CreatePage | lib/data-store.ts:56-65 | one page is appended with the fresh id, the data's title, slug, owner and sections and both timestamps set to now; it is found under its id and keeps ids unique |
| DataStore.CreateKeepsIdsUnique | lib/data-store.ts:56-65 | with the generated id always used, ids stay unique whatever the data carries, and the page is the one built from the data without an id |
| DataStore.Merge | lib/data-store.ts:71-75 | each of the eleven fields the update sets takes its value and each one it leaves unset keeps the page's, and the update time is now |
| DataStore.UpdatePage | lib/data-store.ts:67-77 | null exactly for an unknown id with the store unchanged; otherwise the first page with the id is merged in place and every other page stays |
| DataStore.UpdateThenFind | lib/data-store.ts:67-77 | an update that keeps the id is found again under that id, as the page that was there merged with the update |
| DataStore.UpdateKeepsOthers | lib/data-store.ts:67-77 | an update that keeps the id leaves what every other id finds unchanged |
| DataStore.DeletePage | lib/data-store.ts:79-85 | false exactly for an unknown id with the store unchanged; otherwise exactly the first page with the id is removed |
| DataStore.CreateThenDelete | lib/data-store.ts:56-85 | deleting a page just created under a fresh id gives back the store and reports success |
| DataStore.DeleteUnique | lib/data-store.ts:79-85 | with unique ids, the deleted id is gone and ids stay unique |
| DataStore.DuplicatePage | lib/data-store.ts:87-103 | null exactly for an unknown page or another owner's page, with the store unchanged; otherwise an unpublished copy with the new id, " (Copy)" title and `-copy-` slug is appended |
| DataStore.DuplicateOwned | lib/data-store.ts:87-103 | a copy belongs to the one who asked for it and is listed among their pages |
| DataStore.UpdatePageSections | lib/data-store.ts:106-111 | null exactly for an unknown page; otherwise that page with the given sections and a new update time |
| DataStore.SectionsThenFind | lib/data-store.ts:106-111 | after the sections are set, the page's id finds them, and every other id finds what it found before |
| DataStore.AddSectionToPage | lib/data-store.ts:113-119 | null exactly for an unknown page; otherwise the section is appended after the page's sections, with its order as given, and the page is found updated |
| DataStore.RemoveSectionFromPage | lib/data-store.ts:121-127 | null exactly for an unknown page; otherwise the sections with the id are filtered out, the others keeping their orders |
| DataStore.AddThenRemove | lib/data-store.ts:113-127 | removing a section just added under an unused id gives back the page's sections |
| DataStore.InitializeDemoData | lib/data-store.ts:130-141 | a non-empty store is unchanged; an empty one gets the demo user's unpublished, empty landing page |
| Editor.BlankPage | components/page-builder/page-builder.tsx:217-227 | the page started when nothing is loaded is the unpublished, empty "New Page" with slug `new-page`, created and updated now |
| Editor.LoadPage | components/page-builder/page-builder.tsx:210-235 | loading shows the given page (or a blank one) as the only history entry, with nothing selected and the panel closed |
| Editor.Commit | components/page-builder/page-builder.tsx:166-171 | an edit keeps the history up to the cursor, appends the new page and points the cursor at it |
| Editor.Undo | components/page-builder/page-builder.tsx:173-179 | undo steps the cursor back one and shows that snapshot, and does nothing at the first entry; the history is kept |
| Editor.Redo | components/page-builder/page-builder.tsx:181-187 | redo steps the cursor forward one and shows that snapshot, and does nothing at the last entry; the history is kept |
| Editor.UndoRedo | components/page-builder/page-builder.tsx:173-187 | redo reverses an undo and undo reverses a redo |
| Editor.CommitThenUndo | components/page-builder/page-builder.tsx:166-187 | after an edit there is nothing to redo, and undo brings back the page and cursor from before the edit |
| Editor.AddSection | components/page-builder/page-builder.tsx:48-71 | a variant the catalogue does not offer changes nothing; otherwise exactly one section of that type and variant is appended with order equal to the previous count, earlier sections are untouched, the new section is selected, the panel opens and a dense page stays dense |
| Editor.Apply | components/page-builder/page-builder.tsx:76 | each of the six fields the update sets takes its value, and each one it leaves unset keeps the section's |
| Editor.MapMatching | components/page-builder/page-builder.tsx:75-77 | every section with the id is merged with the update and every other section is kept |
| Editor.UpdateSection | components/page-builder/page-builder.tsx:74-87 | only the sections with the id change; a missing id still records a history entry with the same sections; an update without an order keeps a dense page dense |
| Editor.UpdateReadsBack | components/page-builder/page-builder.tsx:74-87 | an update that keeps the id is found again at the same place, reading back the content, styles and type it set |
| Editor.FindByIdAt | components/page-builder/page-builder.tsx:139 | looking a section up by id reports the first position holding the id |
| Editor.RemoveId | components/page-builder/page-builder.tsx:91-92 | the sections without the id, in their previous order |
| Editor.DeleteSection | components/page-builder/page-builder.tsx:90-105 | the sections with the id are gone, the rest keep their relative order and are renumbered from 0, and the selection is cleared with the panel closed |
| Editor.DeleteAfterAdd | components/page-builder/page-builder.tsx:48-105 | deleting a section just added to a dense page restores the page's sections |
| Editor.FindById | components/page-builder/page-builder.tsx:109 | the position found holds the first section with the id; none is found only when no section has it |
| Editor.Shift | components/page-builder/page-builder.tsx:121-124 | every section keeps its place with its order raised by one |
| Editor.DuplicateSection | components/page-builder/page-builder.tsx:108-135 | as written: an unknown id changes nothing; otherwise the copy with the new id and order + 1 is spliced in at index order + 1 (clamped) and every later section's order goes up by one |
| Editor.DuplicateDense | components/page-builder/page-builder.tsx:108-135 | on a dense page the copy lands right after the original, every other section keeps its place and the page stays dense |
| Editor.DenseInsert | components/page-builder/page-builder.tsx:118-125 | splicing a copy ordered i + 1 after position i of a dense list and raising the later orders gives a dense list |
| Editor.DuplicateNonDense | components/page-builder/page-builder.tsx:108-125 | as written: on a page whose two sections both have order 0 the copy of the second lands before its original, where the corrected duplicate puts it after |
| Editor.DuplicateSectionByPosition | components/page-builder/page-builder.tsx:108-135 | corrected: the copy is inserted directly after the first match by position and the result is dense whatever the orders were |
| Editor.FindIndex | components/page-builder/page-builder.tsx:139 | the index of the first section with the id, or -1 exactly when none has it |
| Editor.SpliceMove | components/page-builder/page-builder.tsx:145-147 | removing a section and reinserting it at the neighbouring index swaps the two |
| Editor.MoveSection | components/page-builder/page-builder.tsx:138-163 | an unknown id, the first section moving up or the last moving down change nothing; otherwise the section trades places with its neighbour and all orders are renumbered from 0 |
| Editor.MoveDownUp | components/page-builder/page-builder.tsx:138-163 | on a dense page with distinct ids, moving a section down and then up restores the sections |
| Editor.UpdateTitle | components/page-builder/page-builder.tsx:238-255 | the title is set verbatim and the slug derived from it is non-empty, uses only lower-case letters, digits and hyphens, and has no doubled hyphen |
| Exporter.Each | components/export-deployment/static-exporter.tsx:50-52 | mapping a list succeeds exactly when every item's markup succeeds, and an empty list gives no markup |
| Exporter.MapJoin | components/export-deployment/static-exporter.tsx:48-54 | a truthy field that is not an array throws when mapped; an array maps item by item |
| Exporter.LinkParts | components/export-deployment/static-exporter.tsx:51 | reading a link throws exactly on a missing or null value; otherwise the target is `href` or `#` and the text is `text` or else `label` |
| Exporter.OptButton | components/export-deployment/static-exporter.tsx:55-59 | a falsy button field gives no markup; a truthy one gives its anchor |
| Exporter.Markup | components/export-deployment/static-exporter.tsx:47 | a falsy field gives no markup; a truthy one gives the tag around its printed value |
| Exporter.SectionHtml | components/export-deployment/static-exporter.tsx:38-156 | the fragment is the section's element, with its type, variant and id, around the template's markup, and it fails exactly when the template throws |
| Exporter.OnlyListsThrow | components/export-deployment/static-exporter.tsx:48-54 | only header, features and footer sections can make the export throw, through their mapped lists |
| Exporter.GenericFallback | components/export-deployment/static-exporter.tsx:146-154 | a type without its own template, pricing for one, gets the title-and-description block and never an error |
| Exporter.EmptyContentBare | components/export-deployment/static-exporter.tsx:38-156 | a section with empty content exports as its bare template: no field produces markup and nothing throws |
| Exporter.FactoryHeroExportsEmpty | components/export-deployment/static-exporter.tsx:64-83 | a hero with the factory's starter content exports as an empty container, with no heading |
| Exporter.LinkFallbacks | components/export-deployment/static-exporter.tsx:51 | a link without `href` points at `#`, and a link with empty `text` shows its `label` |
| Exporter.NavigationErrors | components/export-deployment/static-exporter.tsx:48-54 | a null navigation entry throws on reading `href`, and a navigation string throws because it has no `map` |
| Exporter.ColorDecls | components/export-deployment/static-exporter.tsx:162-163 | a set background colour and text colour each give their declaration, and nothing else is emitted there |
| Exporter.PaddingDecls | components/export-deployment/static-exporter.tsx:164-169 | a padding box gives the four px declarations top, bottom, left, right; no box gives `padding: 4rem 0;` |
| Exporter.MarginDecls | components/export-deployment/static-exporter.tsx:170-173 | a margin gives margin-top and margin-bottom only; no margin gives nothing |
| Exporter.FallbackPaddingIff | components/export-deployment/static-exporter.tsx:164-169 | the fallback padding declaration appears exactly when there is no padding box |
| Exporter.MarginIff | components/export-deployment/static-exporter.tsx:170-173 | a margin declaration appears exactly when the styles have a margin |
| Exporter.SectionCss | components/export-deployment/static-exporter.tsx:158-178 | the block opens with the `.section-{type}.{variant}` selector, closes with a brace, and between them holds exactly the colour, padding (or the `padding: 4rem 0;` fallback) and margin declarations followed by the section's custom CSS, if any |
| Exporter.Fragments | components/export-deployment/static-exporter.tsx:184 | the fragments exist exactly when every section's markup succeeds, one per section in list order |
| Exporter.Blocks | components/export-deployment/static-exporter.tsx:187 | one CSS block per section, in list order |
| Exporter.SeoPart | components/export-deployment/static-exporter.tsx:371-381 | the SEO tags are present exactly when the option asks for them |
| Exporter.AnalyticsPart | components/export-deployment/static-exporter.tsx:384-393 | the analytics snippet is present exactly when the option asks for it |
| Exporter.PageCss | components/export-deployment/static-exporter.tsx:406 | the page's CSS is included exactly when the option is on and the page has non-empty CSS |
| Exporter.PageJs | components/export-deployment/static-exporter.tsx:412 | the page's script is included, wrapped in a script element, exactly when the option is on and the page has a non-empty script |
| Exporter.Compose | components/export-deployment/static-exporter.tsx:180-187 | the export succeeds exactly when every section's markup does; fragments and CSS blocks follow the sections sorted by order, in the same order as each other; the title is the SEO title or else the title; each optional block appears exactly under its option |
| Exporter.Render | components/export-deployment/static-exporter.tsx:395-419 | the exported text starts with the doctype, the fixed head tags, the title element, the SEO tags, the analytics snippet and the opening style tag with the base stylesheet, in that order and with nothing between; it contains the section blocks, the page CSS, the closing style and head tags, the opening body tag, the fragments and the page script as one run; and it ends with the generator comment and script and the closing body and html tags |
| Exporter.CompleteHtml | components/export-deployment/static-exporter.tsx:180-420 | the document is a function of page, options and the fixed base stylesheet only, and exists exactly when its parts do |
| Exporter.SortedInPlace | components/export-deployment/static-exporter.tsx:181 | the sort leaves the page with its sections sorted by order and otherwise unchanged, as a permutation |
| Exporter.ExportAfterSort | components/export-deployment/static-exporter.tsx:181 | exporting again after the in-place sort gives the same document, and a densely numbered page is not reordered at all |
| Exporter.SameOrder | components/export-deployment/static-exporter.tsx:180-187 | two pages that agree in every field and in their sorted sections export the same parts |
| Fonts.CatalogueShape | components/content-management/font-selector.tsx:14-47 | there are 22 fonts, the six system fonts first and then the web fonts, every font offers a weight and no two share a name |
| Fonts.WeightsOffered | components/content-management/font-selector.tsx:14-47 | every font offers at least one weight |
| Fonts.NamesDistinct | components/content-management/font-selector.tsx:14-47 | no two fonts share a name |
| Fonts.FirstDenoting | components/content-management/font-selector.tsx:73-74 | the position found holds the first font whose CSS family or name is the value; none is found only when no font has it |
| Fonts.CurrentFont | components/content-management/font-selector.tsx:71-75 | the current font is a catalogue font; when some font is named by the value it is the first such font in catalogue order, and otherwise the first system font |
| Fonts.FirstDenotingAt | components/content-management/font-selector.tsx:73-74 | the search stops at the first font denoting the value |
| Fonts.CurrentFontExamples | components/content-management/font-selector.tsx:73-75 | the family `Inter, sans-serif` and the name `inter` both find Inter |
| Fonts.CurrentFontUnknown | components/content-management/font-selector.tsx:73-75 | a family no font has shows the first system font |
| Fonts.FilterFonts | components/content-management/font-selector.tsx:77-81 | the filter keeps, in order, exactly the fonts whose display name contains the term ignoring case and whose category matches or is `all` |
| Fonts.FilteredFonts | components/content-management/font-selector.tsx:77-81 | the listed fonts are the catalogue fonts matching search and category, in catalogue order |
| Fonts.NoFilterListsAll | components/content-management/font-selector.tsx:77-81 | no search term with category `all` lists every font |
| Fonts.HandleFontSelect | components/content-management/font-selector.tsx:102-110 | the font's CSS family is emitted; a weight is emitted exactly when there is a weight handler and the font lacks the current weight, and it is 400 when offered and else the font's first weight |
| Fonts.SelectionWeightOffered | components/content-management/font-selector.tsx:102-110 | after a selection with a weight handler the weight in effect is offered by the font, and an offered weight is never changed |
| Image.ValidateFile | components/content-management/image-upload.tsx:33-43 | a file is accepted exactly when its type starts with `image/` and its size is at most the limit; otherwise the type message, or the size message naming the limit in MB |
| Image.LimitInclusive | components/content-management/image-upload.tsx:38-40 | an image of exactly the limit is accepted and one byte more is rejected |
| Image.HandleFileUpload | components/content-management/image-upload.tsx:45-73 | an invalid file sets its error and emits nothing; a valid file that reads emits the data URL and clears the error; a failed read sets the read error |
| Image.HandleFiles | components/content-management/image-upload.tsx:85-100 | no files change nothing; otherwise only the first file is uploaded |
| Image.UploadEmitsOnlyValid | components/content-management/image-upload.tsx:45-73 | something is emitted exactly for a valid file that reads, it is what the reader produced, and when nothing is emitted an error is shown |
| Image.HandleUrlInput | components/content-management/image-upload.tsx:102-107 | a blank URL changes nothing; otherwise the trimmed URL is emitted and the error cleared |
| Image.UrlEmittedClean | components/content-management/image-upload.tsx:102-107 | an emitted URL is non-empty with no edge whitespace, and entering it again emits it unchanged |
| Image.HandleRemove | components/content-management/image-upload.tsx:113-120 | the remove handler is called when given, else the empty value is emitted; either way the error is cleared |
| Links.DefaultLink | components/export-deployment/shareable-links.tsx:59-73 | the default link has the id `public`, never expires, has no password and points at the page's public URL |
| Links.LoadLinks | components/export-deployment/shareable-links.tsx:43-75 | stored links are used as they are; with nothing stored the list is just the default public link |
| Links.Token | components/export-deployment/shareable-links.tsx:91 | the URL token is the first eight characters of the random UUID, or all of it when it is shorter |
| Links.CreateLink | components/export-deployment/shareable-links.tsx:82-117 | a name that trims to empty changes nothing; otherwise one link is appended after the others with the form's fields, no views or visitors, never accessed, a password only when protected, and the form is cleared |
| Links.WithoutLink | components/export-deployment/shareable-links.tsx:123 | exactly the links with a different id remain |
| Links.WithoutLinkCounts | components/export-deployment/shareable-links.tsx:123 | each surviving link remains as many times as it was there, and none with the id remains |
| Links.WithoutLinkOrdered | components/export-deployment/shareable-links.tsx:123 | the surviving links keep their order |
| Links.DeleteLink | components/export-deployment/shareable-links.tsx:119-126 | the public link is never deleted and nothing changes without confirmation; otherwise exactly the links with another id remain |
| Links.IsExpired | components/export-deployment/shareable-links.tsx:138-140 | a link without an expiry never expires; one with an expiry is live up to that moment and expired after it |
| Links.PublicSurvives | components/export-deployment/shareable-links.tsx:119-126 | whatever is deleted, a public link that was there stays |
| Links.WithoutAbsent | components/export-deployment/shareable-links.tsx:123 | removing an id no link carries changes nothing |
| Links.WithoutAppend | components/export-deployment/shareable-links.tsx:123 | the filter distributes over concatenation |
| Links.CreateThenDelete | components/export-deployment/shareable-links.tsx:82-126 | deleting a link just created under a fresh id, and confirming, restores the list |
| Links.ExpiryFacts | components/export-deployment/shareable-links.tsx:138-140 | the default link never expires, and an expired link stays expired later on |
| Ordering.Renumber | components/page-builder/page-builder.tsx:150-153 | renumbering keeps every section in its place with its position as its order, so the result is dense, with the same ids |
| Ordering.RenumberDense | components/page-builder/page-builder.tsx:150-153 | a dense list is its own renumbering |
| Ordering.InsertSorted | components/export-deployment/static-exporter.tsx:181 | one insertion step into a sorted list keeps it sorted by order |
| Ordering.InsertPermutes | components/export-deployment/static-exporter.tsx:181 | one insertion step adds exactly the inserted section |
| Ordering.InsertWithOrder | components/export-deployment/static-exporter.tsx:181 | one insertion step keeps every group of equal order in its previous relative order, with the inserted section last in its group |
| Ordering.InsertionSortFacts | components/export-deployment/static-exporter.tsx:181 | the insertion sort sorts by order, is a permutation, and keeps sections of equal order in their previous relative order |
| Ordering.SortByOrder | components/export-deployment/static-exporter.tsx:181 | the comparator sort by `order` gives a list sorted by order that is a permutation of the input and is stable |
| Ordering.SortSorted | components/page-builder/page-preview.tsx:72-73 | an already sorted list comes back unchanged |
| Ordering.SortIdempotent | components/page-management/page-preview.tsx:87 | sorting twice is sorting once, so the in-place sorts of the renderers do not compound |
| Ordering.DenseSorted | components/page-builder/page-preview.tsx:72-73 | a dense list is not reordered by the sort |
| Ordering.InsertionSortSorts | components/export-deployment/static-exporter.tsx:181 | the insertion sort leaves the sections sorted by order |
| Ordering.InsertionSortPermutes | components/export-deployment/static-exporter.tsx:181 | the insertion sort neither loses nor adds a section |
| Ordering.InsertionSortStable | components/export-deployment/static-exporter.tsx:181 | the insertion sort keeps sections of equal order in their relative order, as `Array.prototype.sort` must |
| Ordering.InsertionSortSorted | components/export-deployment/static-exporter.tsx:181 | the insertion sort leaves a sorted list unchanged |
| PageList.IndexOf | lib/data-store.ts:68 | the index of the first page with the id, or none exactly when no page has it |
| PageList.Find | lib/pages-store.ts:41-44 | the first page with the id, or null exactly when no page has it |
| PageList.FindCons | lib/data-store.ts:48-50 | a lookup checks the first page, then the rest |
| PageList.IndexOfPrefix | lib/data-store.ts:56-65 | appending pages cannot change where an id already present is found first |
| PageList.WithoutId | lib/pages-store.ts:51 | exactly the pages with another id remain |
| PageList.WithoutIdCounts | lib/pages-store.ts:51 | each surviving page remains as many times as it was there, and none with the id remains |
| PageList.WithoutIdOrdered | lib/pages-store.ts:51 | the surviving pages keep their order, and removing an absent id changes nothing |
| PageList.OwnedBy | lib/data-store.ts:44-46 | exactly the user's pages remain |
| PageList.OwnedByOrdered | lib/data-store.ts:44-46 | the user's pages keep their store order |
| PageList.FindBySlug | lib/data-store.ts:52-54 | a page with the slug, or null exactly when no page has it |
| PagesStore.Stamped | lib/pages-store.ts:26-30 | a saved page gets the update time now, and a new one also the creation time now; nothing else changes |
| PagesStore.SavePage | lib/pages-store.ts:19-39 | the page becomes current; an existing id is replaced in place and a new one appended; the id then finds the stamped page and every other page stays where it was |
| PagesStore.SaveKeepsOthers | lib/pages-store.ts:19-39 | saving leaves what every other id looks up unchanged |
| PagesStore.DeletePage | lib/pages-store.ts:46-65 | every page with the id goes and nothing else, and the current page is cleared exactly when it had that id |
| PagesStore.DeleteKeepsOthers | lib/pages-store.ts:46-65 | deleting one id leaves what every other id looks up unchanged |
| PagesStore.DuplicatePage | lib/pages-store.ts:67-86 | null exactly for an unknown id with the store unchanged; otherwise an unpublished copy with the new id, " (Copy)" title and `-copy-` slug is saved |
| PagesStore.DuplicateAppends | lib/pages-store.ts:67-86 | with a fresh id the copy, with the original's sections, is added after the existing pages, which stay as they were |
| PagesStore.ExportPage | lib/pages-store.ts:118-123 | null exactly for an unknown id; otherwise the serialised page |
| PagesStore.ImportPage | lib/pages-store.ts:125-154 | rejected, with the store unchanged, exactly when the id or title is empty or the sections are not an array; otherwise saved as an unpublished page with a fresh id, " (Imported)" title and an `imported-` slug |
| PagesStore.ExportThenImport | lib/pages-store.ts:118-154 | an exported page imports back as a new page with the same sections, owner and SEO fields, found under its new id |
| PagesStore.ClearAllPages | lib/pages-store.ts:156-161 | afterwards no id finds a page and there is no current page |
| Panel.SelectedSection | components/page-builder/page-builder.tsx:257 | the panel's section is one on the page carrying the selected id; it is absent when nothing is selected or no section carries that id |
| Panel.HandleContentChange | components/page-builder/customization-panel.tsx:35-38 | a content edit is sent for the panel's own section, as a content-only update that sets the one key and keeps every other key; with no section nothing is sent |
| Panel.ContentChangeSameValue | components/page-builder/customization-panel.tsx:35-38 | sending a key's present value back leaves the content as it was |
| Panel.ContentChangeApplied | components/page-builder/customization-panel.tsx:35-38 | once the editor applies the update, the selected section reads the new value at the key, keeps its styles, and every other section is unchanged |
| Panel.MergeStyles | components/page-builder/customization-panel.tsx:40-43 | each style key present in the update replaces the section's value, and each absent key keeps it |
| Panel.MergeLaws | components/page-builder/customization-panel.tsx:40-43 | merging nothing is the identity, merging an update twice equals merging it once, and two merges in a row equal one merge of the combined update |
| Panel.HandleStyleChange | components/page-builder/customization-panel.tsx:40-43 | a style edit is sent for the panel's own section as a styles-only update carrying the merged styles; with no section nothing is sent |
| Panel.ShownPadding | components/page-builder/customization-panel.tsx:348 | the padding control shows the section's padding box side for side, or all zeros when it has none |
| Panel.PaddingChange | components/page-builder/customization-panel.tsx:346-352 | a padding edit sets the edited side (all four when linked), keeps the other sides as shown, and changes no other style |
| Panel.ShownMargin | components/page-builder/customization-panel.tsx:357 | the margin control shows the section's top and bottom margin and zero left and right, or all zeros when it has no margin |
| Panel.MarginOf | components/page-builder/customization-panel.tsx:358-363 | only the control's top and bottom are kept, a missing side reading as zero |
| Panel.MarginChange | components/page-builder/customization-panel.tsx:355-367 | a margin edit is a styles-only update for the section that changes nothing but the margin |
| Panel.MarginChangeEffect | components/page-builder/customization-panel.tsx:357-363 | a linked edit sets top and bottom, a top or bottom edit sets that side, and a left or right edit leaves the margin as it was |
| Panel.EditPrimary | components/page-builder/customization-panel.tsx:96-137 | the primary-button inputs exist only for hero and CTA sections with a truthy `cta`; typing sets that field of `cta.primary` and keeps every key the spreads of `cta.primary`, of `cta` and of the content copy |
| Panel.Fields | components/page-builder/customization-panel.tsx:107-111 | an object spread copies an object's own fields, a string's characters and an array's items under the keys "0", "1", ..., and nothing from `undefined`, `null`, booleans and numbers |
| Panel.EditPrimarySpreadsCta | components/page-builder/customization-panel.tsx:107-111 | when `cta` is a string or an array, the new `cta` object keeps each character or item under its index key beside `primary` |
| Panel.SpreadGo | components/page-builder/customization-panel.tsx:109 | spreading the string "Go" gives exactly the keys "0" and "1" holding "G" and "o" |
| Panel.SpreadTwo | components/page-builder/customization-panel.tsx:109 | spreading any two-character string gives exactly the keys "0" and "1" holding its two characters |
| Panel.EditPrimaryOnStringCta | components/page-builder/customization-panel.tsx:105-111 | for a hero whose `cta` is the string "Go", typing "Buy" as the button text makes the content exactly `cta = {"0": "G", "1": "o", "primary": {"text": "Buy"}}` |
| Panel.ShownPrimary | components/page-builder/customization-panel.tsx:105-124 | the input shows the truthy `cta.primary` value if there is one, else the truthy legacy `primaryButton` value, else the empty string, so it never shows another falsy value |
| Panel.EditPrimaryShows | components/page-builder/customization-panel.tsx:102-137 | a non-empty value typed into the text or URL input is what that input then shows |
| Panel.ClickSection | components/page-builder/page-preview.tsx:25-28 | clicking the selected section deselects it, and clicking any other section selects it |
| Panel.ClickTwice | components/page-builder/page-preview.tsx:25-51 | a click on the selected section acts like a click on the background, and a second click undoes the first only when that section or nothing was selected |
| Panel.ClickBackground | components/page-builder/page-preview.tsx:51 | a click on the background clears the selection |
| Panel.Select | components/page-builder/page-preview.tsx:25-28 | selecting toggles whether the clicked section is selected and leaves the page and its history alone |
| Panel.Render | components/page-builder/page-preview.tsx:72-73 | drawing sorts the page's sections by order in place: the same sections, now sorted, the rest of the page unchanged, and nothing changes on a dense page |
| Panel.MoveOfferedIffPerformed | components/page-builder/page-preview.tsx:96-177 | on a dense page with distinct ids, the move buttons are enabled exactly when the template is given the move handlers, and exactly when the editor's move changes anything |
| Panel.ForwardContent | components/page-builder/page-preview.tsx:172 | a content edit inside a section is forwarded under that section's id and sets neither its id, type, variant nor order |
| Panel.ForwardStyles | components/page-builder/page-preview.tsx:173 | a style edit inside a section is forwarded under that section's id and sets neither its id, type, variant nor order |
| Panel.ForwardedEditLocal | components/page-builder/page-preview.tsx:170-178 | a forwarded edit keeps a dense page dense and leaves every other section as it was |
| Preview.ViewportStyles | components/page-management/page-preview.tsx:40-47 | the page container takes the full width exactly on a desktop, and a fixed pixel width, equal to its max-width, on a tablet or phone |
| Preview.FrameStyles | components/page-management/page-preview.tsx:49-72 | a device frame is drawn exactly when asked for, and it is positioned relatively exactly for a tablet or phone |
| Preview.RenderSection | components/page-management/page-preview.tsx:13-38 | a section is drawn by its registered component with its own id, variant, content and styles; an unregistered type gives the "not found" panel keyed by the section's id and naming the type |
| Preview.RenderPage | components/page-management/page-preview.tsx:74-109 | the page's sections are sorted in place and drawn one item per section in that order; custom CSS and JS are included exactly when they are non-empty; the frame and width follow the device |
| Preview.RenderedInOrder | components/page-management/page-preview.tsx:86-88 | items are drawn in ascending order of their sections' orders, and sorting loses or adds no section |
| Preview.Capitalize | components/page-management/page-preview.tsx:122 | only the first character is upper-cased; the length and the rest are kept |
| Preview.CapitalizeLower | components/page-management/page-preview.tsx:122 | lower-casing a capitalised word gives the lower-cased word back |
| Preview.HeadingNamesType | components/page-management/page-preview.tsx:121-123 | a block's heading is the capitalised type followed by " Section", the type can be read back from it, and two types never share a heading |
| Preview.HeadingRecovers | components/page-management/page-preview.tsx:121-123 | a lower-case type name is read back from its heading by dropping " Section" and lower-casing |
| Preview.TypeNameInjective | types/index.ts:35-50 | no two section types share a name |
| Preview.Line | components/page-management/page-preview.tsx:127-128 | a title or description line appears exactly when the content value is truthy, and then is that value wrapped in its tags |
| Preview.BlockShape | components/page-management/page-preview.tsx:118-131 | a section's block opens with a tag naming its type, variant and id, and closes with its title and description lines |
| Preview.DescriptionMeta | components/page-management/page-preview.tsx:141 | the description meta tag appears exactly when the SEO description is non-empty, and then carries it |
| Preview.Script | components/page-management/page-preview.tsx:159 | the script tag appears exactly when the custom JS is non-empty |
| Preview.Parts | components/page-management/page-preview.tsx:113-163 | the document's title is the SEO title or else the page title, its CSS is the custom CSS or nothing, and it has one block per section |
| Preview.PreviewHtml | components/page-management/page-preview.tsx:113-163 | the new-tab text starts with the doctype, the fixed head tags, the title element holding the SEO title or else the title, the description tag, the fixed assets and the stylesheet ending with the page's custom CSS, closed and followed by the watermark, in that order; it contains the page container holding the section blocks sorted by order; and it ends with the page script and the closing body and html tags |
| Preview.BlocksInOrder | components/page-management/page-preview.tsx:114-132 | the blocks are those of the sections sorted by order: each block is of a section of the page and each section has one |
| Preview.BlocksCover | components/page-management/page-preview.tsx:114-116 | a reordering of the sections holds exactly the same sections |
| Publisher.PublicUrl | components/page-management/page-publisher.tsx:51-54 | the public URL is the origin, then `/p/`, then the slug |
| Publisher.Toggle | components/page-management/page-publisher.tsx:16-34 | the page's published flag flips and its update time is now; publishing shows the public URL and unpublishing clears it |
| Publisher.ToggleTwice | components/page-management/page-publisher.tsx:16-34 | toggling twice gives the page back with only its update time changed, and a URL is shown exactly when the page ends up published |
| Publisher.PublishedUrlIsPublic | components/page-management/page-publisher.tsx:27-54 | the URL shown on publishing is the page's public URL |
| Types.ParseType | types/index.ts:35-50 | a string parses to the section type of that name, and to nothing exactly when no type has that name |
| Settings.OpenForm | components/page-management/page-settings.tsx:13-20 | the dialog opens on the page's title and slug, and on each optional text field or "" when it is unset or empty |
| Settings.HandleInputChange | components/page-management/page-settings.tsx:24-29 | a field edit sets that one field to the typed text and keeps every other field, the slug included |
| Settings.HandleSlugChange | components/page-management/page-settings.tsx:31-44 | a slug edit changes only the slug, which is always lower-case letters, digits and single hyphens, with no hyphen at either end |
| Settings.IsFormValid | components/page-management/page-settings.tsx:70 | the form is valid exactly when neither the title nor the slug is all whitespace |
| Settings.SlugEditStable | components/page-management/page-settings.tsx:31-44 | retyping the slug the dialog shows leaves the form unchanged |
| Settings.SlugNotBlank | components/page-management/page-settings.tsx:70 | a slug is blank to `trim()` only when it is empty |
| Settings.SlugEditValidity | components/page-management/page-settings.tsx:70-227 | after a slug edit, Save is enabled exactly when the title is not blank and the normalised slug is not empty |
| Settings.Unset | components/page-management/page-settings.tsx:54-57 | an empty field becomes absent, and any other text is kept as is |
| Settings.HandleSave | components/page-management/page-settings.tsx:46-59 | the saved page takes title, slug and optional text from the form, turns empty text into absent fields, is updated now, and keeps its id, owner, sections, publication and creation time |
| Settings.SaveThenOpen | components/page-management/page-settings.tsx:13-59 | reopening the dialog on a saved page shows the form that was saved |
| Settings.OpenThenSave | components/page-management/page-settings.tsx:13-59 | saving an untouched form changes only the update time, except that empty optional text on the page becomes absent |
| Slugs.KeepSlugInput | components/page-management/page-settings.tsx:35 | exactly the lower-case letters, digits, hyphens and whitespace of the input are kept, input made only of those is kept whole, and the letters and digits of the result are those of the input in their order |
| Slugs.SkipWhile | components/page-management/page-settings.tsx:36-37 | the leading run of whitespace (or of hyphens) is dropped, and what is left starts with neither |
| Slugs.SpacesToHyphens | components/page-management/page-settings.tsx:36 | no whitespace is left, every character is a hyphen or one of the input's, the result starts with a hyphen exactly when the input starts with a hyphen or whitespace, input without whitespace is kept, and the characters other than hyphens and whitespace come through in their order |
| Slugs.SqueezeHyphens | components/page-management/page-settings.tsx:37 | no two hyphens remain in a row, the characters other than hyphens come through in their order, the alphabet is kept, a leading hyphen is kept exactly when there was one, a trailing hyphen only when there was one, and only empty input gives empty output |
| Slugs.SqueezeDash | components/page-management/page-settings.tsx:37 | a hyphen run at the front becomes a single hyphen in front of the squeezed rest |
| Slugs.SqueezeKeep | components/page-management/page-settings.tsx:37 | a non-hyphen first character is kept in front of the squeezed rest |
| Slugs.Normalize | components/page-management/page-settings.tsx:33-37 | lower-casing, filtering, hyphenating whitespace and squeezing hyphens always gives a well-formed slug whose characters other than hyphens are exactly the lower-cased input's letters and digits, in their order |
| Slugs.KeepAppend | components/page-management/page-settings.tsx:35 | filtering a concatenation filters each part and concatenates the results |
| Slugs.SpaceBetween | components/page-management/page-settings.tsx:36 | a single space after whitespace-free text, before a non-space, becomes one hyphen |
| Slugs.NormalizeThreeWords | components/page-management/page-settings.tsx:33-37 | three words joined by single spaces, followed by nothing that survives filtering, normalise to the three lower-cased words joined by hyphens |
| Slugs.TitleSlugExample | components/page-builder/page-builder.tsx:238-250 | the title "My Cool Page!!" is stored under the slug "my-cool-page" |
| Slugs.TitleSlugSqueezes | components/page-builder/page-builder.tsx:238-250 | the title "a--b" is stored under the slug "a-b" |
| Slugs.TrimSlug | components/page-builder/page-builder.tsx:244 | a well-formed slug holds no whitespace, so `trim()` leaves it alone |
| Slugs.TitleSlug | components/page-builder/page-builder.tsx:238-250 | the slug stored for a new title is well formed and never empty: the normalised title when something of it survives, and "untitled" otherwise |
| Slugs.TitleSlugFixed | components/page-builder/page-builder.tsx:238-250 | a title that already is a slug is stored as it is, and the stored slug retyped as the title gives the same slug |
| Slugs.StripEdgeHyphens | components/page-management/page-settings.tsx:38 | once one leading and one trailing hyphen are removed, a well-formed slug has no hyphen at either end |
| Slugs.SettingsSlug | components/page-management/page-settings.tsx:31-38 | the dialog's slug is well formed with no hyphen at either end |
| Slugs.LowerSlug | components/page-management/page-settings.tsx:34 | lower-casing leaves a well-formed slug alone |
| Slugs.SqueezeWellFormed | components/page-management/page-settings.tsx:37 | squeezing a string with no two hyphens in a row leaves it alone |
| Slugs.NormalizeFixed | components/page-management/page-settings.tsx:33-37 | normalising a well-formed slug gives it back |
| Slugs.SettingsSlugIdempotent | components/page-management/page-settings.tsx:31-38 | typing the dialog's own slug back in gives the same slug |
| Slugs.TitleSlugKeepsEdges | components/page-builder/page-builder.tsx:239-244 | the builder turns " a " into "-a-": its slug keeps edge hyphens |
| Slugs.HyphenAround | components/page-management/page-settings.tsx:36 | a word between two single spaces becomes the word between two hyphens |
| Slugs.SettingsSlugStripsEdges | components/page-management/page-settings.tsx:33-38 | the settings dialog turns the same " a " into "a" |
| Spacing.All | components/content-management/spacing-controls.tsx:55-60 | all four sides carry the one number |
| Spacing.SetSide | components/content-management/spacing-controls.tsx:63-66 | the named side is set and the other three are kept |
| Spacing.HandleValueChange | components/content-management/spacing-controls.tsx:52-68 | a linked edit sets every side to the number, an unlinked one sets the named side and keeps the others, and a complete value stays complete |
| Spacing.HandleUniformChange | components/content-management/spacing-controls.tsx:70-77 | the slider sets every side to its number, which the uniform reading then gives back |
| Spacing.HandlePresetSelect | components/content-management/spacing-controls.tsx:79-81 | a preset from the list emits a complete, uniform value |
| Spacing.CurrentUniformValue | components/content-management/spacing-controls.tsx:83-86 | when the sides read the same, that reading is the slider's value; otherwise the slider shows 0 |
| Spacing.UniformIff | components/content-management/spacing-controls.tsx:88-91 | the sides are uniform exactly when every two sides read the same, a missing side reading as 0 |
| Spacing.PresetsUniform | components/content-management/spacing-controls.tsx:25-33 | every preset sets all four sides to one value, and the presets grow strictly from None to 2XL |
| Spacing.AllUniform | components/content-management/spacing-controls.tsx:83-91 | a value with one number on all sides reads back as that number |
| Spacing.LinkedEditReadsBack | components/content-management/spacing-controls.tsx:52-91 | a linked edit, read back by the slider, gives the number typed |
| Spacing.UnlinkedEditSame | components/content-management/spacing-controls.tsx:63-66 | retyping a side's current value changes nothing |
| Spacing.UnlinkedEditTwice | components/content-management/spacing-controls.tsx:63-66 | of two unlinked edits of the same side, the second wins |
| Spacing.InputMin | components/content-management/spacing-controls.tsx:50 | the inputs' minimum is minus the maximum when negatives are allowed, and the given minimum otherwise |
| Spacing.RangeShape | components/content-management/spacing-controls.tsx:50 | with negatives allowed the accepted range is symmetric around 0 and ignores the minimum; without, nothing below the minimum is accepted |
| RichText.FormatText | components/content-management/rich-text-editor.tsx:25-77 | nothing happens for an empty selection or a cancelled or empty URL; otherwise the text before and after the selection is kept, a marker is written on both sides with the selection restored between them, or the selection becomes a `[text](url)` link that is then selected |
| RichText.Replace | components/content-management/rich-text-editor.tsx:65 | the selection is replaced: the text before it and after it is kept and the replacement sits in between |
| RichText.UnwrapRestores | components/content-management/rich-text-editor.tsx:38-75 | the restored selection sits exactly between the two markers, and removing them gives back the original text |
| RichText.CursorLine | components/content-management/rich-text-editor.tsx:84-95 | the cursor's line is the first line whose end the cursor does not pass, or line 0 when it lies beyond the text |
| RichText.LineFrom | components/content-management/rich-text-editor.tsx:89-95 | the scan from a line onwards stops at the first line the cursor reaches, and gives 0 when there is none |
| RichText.StripListMarker | components/content-management/rich-text-editor.tsx:98 | removing a leading ordered or bulleted list marker leaves a suffix of the line |
| RichText.ListLine | components/content-management/rich-text-editor.tsx:97-98 | the cursor's line starts with the chosen list marker |
| RichText.StripWritten | components/content-management/rich-text-editor.tsx:97-98 | the marker the editor writes is exactly the marker it strips |
| RichText.ListLineLaws | components/content-management/rich-text-editor.tsx:97-98 | making a line a list item twice equals doing it once, and switching list kind replaces the marker instead of stacking a second one |
| RichText.InsertList | components/content-management/rich-text-editor.tsx:79-101 | split into lines, the new text is the old one with only the cursor's line turned into a list item |
| RichText.ListKeepsOtherLines | components/content-management/rich-text-editor.tsx:84-100 | the number of lines is kept and every line but the cursor's is unchanged |
| RichText.InsertListTwice | components/content-management/rich-text-editor.tsx:79-101 | a second list command of the same kind on the same line changes nothing more |
| RichText.CursorAtStart | components/content-management/rich-text-editor.tsx:89-95 | a cursor at the very start is on the first line |
| RichText.InsertHeading | components/content-management/rich-text-editor.tsx:109-125 | the selection, or the word Heading when nothing is selected, is put behind `level` hashes and a space, the text around it is kept, and the heading text is then selected |
| Sections.DefaultContentIgnoresVariant | lib/sections.ts:21-177 | two variants of one type start with the same content |
| Sections.DefaultStyles | lib/sections.ts:180-264 | every default style sets both colours and a padding box that is the same at top and bottom and 24 px at each side, with no margin, custom CSS or font; a type outside the catalogue, other than a name inherited from Object.prototype, gets white, black and 40 px |
| Sections.CreateSection | lib/sections.ts:5-18 | a new section carries the fresh id, the type and variant asked for, order 0 unless one is given, and its type's default content and styles |
| Seo.TitleCategory | components/export-deployment/seo-optimizer.tsx:76-97 | a missing title scores 0; otherwise 20 comes off under 30 characters and 30 over 60; 10 more comes off without an SEO title, so the score lies between -10 and 100; the SEO-title tip is made exactly when there is no SEO title |
| Seo.DescriptionCategory | components/export-deployment/seo-optimizer.tsx:99-116 | the description scores 0 exactly when it is missing, 80 under 120 characters, 70 over 160 and 100 otherwise; the "add a meta description" tip is made exactly when it is missing |
| Seo.HeadingsCategory | components/export-deployment/seo-optimizer.tsx:118-140 | 50 comes off without a hero, features, about or CTA section, and 30 without a hero section with a truthy title |
| Seo.TotalWords | components/export-deployment/seo-optimizer.tsx:153-156 | the word count is at least 1 when some section has text and 0 when none has |
| Seo.ContentCategory | components/export-deployment/seo-optimizer.tsx:142-162 | 60 comes off when no section has a description or content, and 40 under 300 words, so a page without text scores 0 |
| Seo.ImagesCategory | components/export-deployment/seo-optimizer.tsx:164-177 | the image score is 70 exactly when some section has an image or images, and 80 otherwise |
| Seo.PerformanceCategory | components/export-deployment/seo-optimizer.tsx:179-195 | 20 comes off for more than 5000 characters of custom CSS, 30 for more than 10000 of custom JS and 10 for more than 15 sections |
| Seo.RoundSixth | components/export-deployment/seo-optimizer.tsx:207 | the overall score is the sum divided by six, rounded to the nearest integer |
| Seo.AnalyzePage | components/export-deployment/seo-optimizer.tsx:66-209 | the analysis holds the six categories of the page, and its overall score is their rounded mean |
| Seo.ScoreBounds | components/export-deployment/seo-optimizer.tsx:66-209 | every category scores at most 100, only the title can go below zero, images score 70 or 80, and the overall score lies between 20 and 97 |
| Seo.TitleCanBeNegative | components/export-deployment/seo-optimizer.tsx:77-97 | a page without title or SEO title scores -10 on its title |
| Seo.ScoreBand | components/export-deployment/seo-optimizer.tsx:212-222 | 80 and above is shown as good, below 60 as poor, and the rest as fair |
| Seo.ScoreColor | components/export-deployment/seo-optimizer.tsx:212-216 | the text colour is a `text-…-600` class |
| Seo.ScoreBackground | components/export-deployment/seo-optimizer.tsx:218-222 | the background is a `bg-…-100` class |
| Seo.ColoursAgree | components/export-deployment/seo-optimizer.tsx:212-222 | the text colour and the background always show the hue of the same band |
| Seo.BandMonotone | components/export-deployment/seo-optimizer.tsx:212-222 | a higher score never shows in a worse band |
| Seo.PageStructuredData | components/export-deployment/seo-optimizer.tsx:243-255 | the structured data is named by the SEO title or else the title, carries the SEO description, and its URL is `/` and the slug |
| Seo.QuickFix | components/export-deployment/seo-optimizer.tsx:224-241 | a quick fix changes at most the SEO title or the description: the SEO title only for the title category, to the page title, and the description only for the description category, to the generated text |
| Seo.ContainsFirst | components/export-deployment/seo-optimizer.tsx:362 | text that contains a non-empty string contains its first character |
| Seo.TitleTipsLackAddOrSeo | components/export-deployment/seo-optimizer.tsx:80-96 | no title suggestion contains both `Add` and `SEO title` |
| Seo.TitleTipLetters | components/export-deployment/seo-optimizer.tsx:80-96 | the add-title tip has no capital S, and the other three title tips have no capital A |
| Seo.TitleFixNeverApplies | components/export-deployment/seo-optimizer.tsx:224-362 | as written, clicking any fix button offered for a title suggestion leaves the page unchanged |
| Seo.TitleFixOffered | components/export-deployment/seo-optimizer.tsx:94-241 | once the button is offered for its own text, a titled page without an SEO title is offered the SEO-title fix, and applying it removes the suggestion and adds 10 to the title score |
| Seo.DescriptionFixApplies | components/export-deployment/seo-optimizer.tsx:100-104 | a missing description is offered its fix, and applying it leaves a description that no longer scores 0 or draws the tip |
| Seo.DescriptionTipWords | components/export-deployment/seo-optimizer.tsx:103 | the description tip contains both `Add` and `meta description` |
| Speed.SectionImages | components/export-deployment/page-speed-optimizer.tsx:79-84 | a section adds images only when it has a truthy `image` or `images`; then it adds the length of `images` when that is an array, and one image otherwise |
| Speed.Images | components/export-deployment/page-speed-optimizer.tsx:74-97 | a page whose sections add no images has none |
| Speed.ContentSize | components/export-deployment/page-speed-optimizer.tsx:76-77 | the content size counts at least the serialised content of the first section |
| Speed.ImagesAppend | components/export-deployment/page-speed-optimizer.tsx:74-97 | the image count adds up over a split of the sections |
| Speed.ImagesSnoc | components/export-deployment/page-speed-optimizer.tsx:74-85 | visiting one more section adds that section's images to the count so far |
| Speed.ContentSizeAppend | components/export-deployment/page-speed-optimizer.tsx:74-77 | the content size adds up over a split of the sections |
| Speed.ContentSizeSnoc | components/export-deployment/page-speed-optimizer.tsx:74-77 | visiting one more section adds the length of its serialised content to the size so far |
| Speed.CodeLength | components/export-deployment/page-speed-optimizer.tsx:100-115 | custom code counts towards the size exactly when it is non-empty |
| Speed.LoadTime | components/export-deployment/page-speed-optimizer.tsx:150-156 | the estimated load time is 800 ms plus the content size over 100 capped at 2000, 200 per image and 300 per script, rounded to the nearest millisecond |
| Speed.PageMetrics | components/export-deployment/page-speed-optimizer.tsx:61-156 | one request for the page and one per image, one stylesheet, a script exactly when there is custom JS, the size of contents and custom code, and a load time between 800 ms and 2800 ms plus the image and script costs |
| Speed.SectionIssues | components/export-deployment/page-speed-optimizer.tsx:88-96 | one warning for each section whose own custom CSS is over 1000 characters, and nothing else |
| Speed.HeavySections | components/export-deployment/page-speed-optimizer.tsx:88 | no more sections are heavy than there are sections |
| Speed.Flag | components/export-deployment/page-speed-optimizer.tsx:99-148 | an issue is raised exactly when its condition holds |
| Speed.PageWideIssues | components/export-deployment/page-speed-optimizer.tsx:99-148 | one issue each for custom CSS over 10000 characters, custom JS over 20000, more than 12 sections and more than 8 images; the first two are critical, and none is informational |
| Speed.PageIssues | components/export-deployment/page-speed-optimizer.tsx:74-148 | the issues are the section warnings followed by the page-wide ones: critical exactly for the oversized CSS and JS, never informational |
| Speed.Count | components/export-deployment/page-speed-optimizer.tsx:204-208 | no more issues have a kind than there are issues |
| Speed.CountAppend | components/export-deployment/page-speed-optimizer.tsx:204-208 | counting issues of a kind adds up over a split of the list |
| Speed.AllWarnings | components/export-deployment/page-speed-optimizer.tsx:88-96 | a list of warnings has no critical or informational issue |
| Speed.LoadPenalty | components/export-deployment/page-speed-optimizer.tsx:210-213 | a slow estimated load costs points exactly when it is over 1000 ms |
| Speed.Score | components/export-deployment/page-speed-optimizer.tsx:203-215 | the score is 100 less 25 per critical issue, 15 per warning, 5 per informational issue and the load penalty, floored at 0; it is 100 exactly when there are no issues and the load is at most 1000 ms |
| Speed.AnalyzePage | components/export-deployment/page-speed-optimizer.tsx:60-223 | the analysis carries the page's metrics, its issues and the six optimisations, and scores 15 off per heavy section, 25 each for oversized CSS or JS, 15 each for many sections or images, and the load penalty, floored at 0 |
| Speed.Partition | components/export-deployment/page-speed-optimizer.tsx:204-208 | every issue is counted under exactly one kind |
| Speed.EmptyPageIsFast | components/export-deployment/page-speed-optimizer.tsx:60-223 | a page with no sections and no custom code loads in 800 ms with one request, raises no issue and scores 100 |
| Speed.OptimizationsDisabled | components/export-deployment/page-speed-optimizer.tsx:158-201 | the analysis always suggests the same six optimisations, none of them applied |
| Speed.ScoreBand | components/export-deployment/page-speed-optimizer.tsx:266-278 | 90 and above is fast, 70 to 89 moderate, 50 to 69 slow and below 50 poor |
| Speed.ScoreColor | components/export-deployment/page-speed-optimizer.tsx:266-271 | the text colour is a `text-…-600` class |
| Speed.ScoreBackground | components/export-deployment/page-speed-optimizer.tsx:273-278 | the background is a `bg-…-100` class |
| Speed.ColoursAgree | components/export-deployment/page-speed-optimizer.tsx:266-278 | the text colour and the background always show the hue of the same band |
| Speed.IssueColor | components/export-deployment/page-speed-optimizer.tsx:280-287 | each issue kind is shown in a `text-…-600` colour |
| Responsive.ConfigOf | components/export-deployment/responsive-preview.tsx:21-52 | every device has a positive size, and only the desktop is wider than it is tall |
| Responsive.DisplaySize | components/export-deployment/responsive-preview.tsx:60-61 | the size shown is the device's, with width and height swapped when rotated |
| Responsive.Rotate | components/export-deployment/responsive-preview.tsx:127-129 | rotating flips the orientation and swaps the size shown, keeping the device and zoom |
| Responsive.DesktopStaysUpright | components/export-deployment/responsive-preview.tsx:73-129 | the desktop starts upright, and choosing a device, zooming and the rotate button (offered only for the tablet and the phone) keep it upright |
| Responsive.RotateTwice | components/export-deployment/responsive-preview.tsx:129 | rotating twice gives the same view back |
| Responsive.ChangeViewport | components/export-deployment/responsive-preview.tsx:73-76 | choosing a device shows it upright at its own size, keeping the zoom |
| Responsive.ChangeZoom | components/export-deployment/responsive-preview.tsx:78-80 | the zoom is clamped to 25% to 200%: a zoom in range is kept, and one outside is set to the nearer end |
| Responsive.ZoomIn | components/export-deployment/responsive-preview.tsx:159-161 | zooming in adds a quarter, stopping at 200%, never lowers a zoom in range, and keeps the device and rotation |
| Responsive.ZoomOut | components/export-deployment/responsive-preview.tsx:142-144 | zooming out takes off a quarter, stopping at 25%, never raises a zoom in range, and keeps the device and rotation |
| Responsive.CanZoomIn | components/export-deployment/responsive-preview.tsx:161 | for a zoom in range, the zoom-in button is enabled exactly when a click on it would change the zoom |
| Responsive.CanZoomOut | components/export-deployment/responsive-preview.tsx:144 | for a zoom in range, the zoom-out button is enabled exactly when a click on it would change the zoom |
| Responsive.ZoomSteps | components/export-deployment/responsive-preview.tsx:142-161 | zooming in and back out returns to the same view while the step up stays in range, and clamping twice equals clamping once |
| Responsive.ScaleToFit | components/export-deployment/responsive-preview.tsx:63-71 | the fit scale is never above 1, the scaled size fits the window less 300 pixels across and 200 down, and the scale is as large as that allows |
| Responsive.AutoFit | components/export-deployment/responsive-preview.tsx:82-85 | auto-fit sets the zoom to exactly the fit scale, which is at most 1, and changes nothing else in the view |
| Responsive.AutoFitBelowRange | components/export-deployment/responsive-preview.tsx:63-85 | auto-fit is not clamped: a desktop in a 500-pixel-wide window is fitted at one sixth, below the 25% the zoom buttons keep to |
| Js.Get | types/index.ts:52-55 | reading a content key gives its value when the key is present, and `undefined` exactly when it is absent |
| Js.Member | components/export-deployment/static-exporter.tsx:48-54 | a property read throws exactly on `null` or `undefined`, and finds a value only on an object that has the key |
| Js.OrStr | components/page-builder/customization-panel.tsx:59 | a logical or with a literal text fallback keeps a truthy value and otherwise gives the text |
| Text.Trim | components/page-management/page-settings.tsx:70 | trimming gives "" exactly for all-whitespace text, and otherwise text that neither starts nor ends with whitespace |
| Text.TrimStart | components/page-management/page-settings.tsx:70 | only a leading whitespace run is removed, and what is left does not start with whitespace |
| Text.TrimEnd | components/page-management/page-settings.tsx:70 | only a trailing whitespace run is removed, and what is left does not end with whitespace |
| Text.Lower | components/page-management/page-settings.tsx:34 | lower-casing keeps the length and lower-cases each character in place |
| Text.SplitPiecesFree | components/content-management/rich-text-editor.tsx:84 | no piece of a split contains the separator |
| Text.JoinSplit | components/content-management/rich-text-editor.tsx:84-100 | joining the pieces of a split gives back the original text |
| Text.SplitJoin | components/content-management/rich-text-editor.tsx:84-100 | splitting a join of separator-free pieces gives back the pieces |
| Text.Repeat | components/content-management/rich-text-editor.tsx:117 | `c.repeat(n)` is n copies of c |
| Text.ParseToBase | components/content-management/color-picker.tsx:86 | reading back a number printed in a base from 2 to 16 gives the number |
| Seqs.SliceIndex | components/page-builder/page-builder.tsx:118-125 | `slice` cuts at the index when it lies within the list, at the end when it lies beyond, and counts a negative index from the end, clamped at 0 |

## Left out

- React rendering mechanics are left out: component state, effects, stale closures, `setTimeout` delays, the `if (!textarea) return` ref guards and the text selection restored after a list or heading is inserted. Each handler is modelled as a function from the state before the event to the state after it.
- Browser storage is left out: localStorage and the JSON encoding and decoding of stored pages and links. This covers the storage helpers `getAllPages`, `getCurrentPage` and `setCurrentPage`, the `typeof window` checks and storage exceptions. The stores are modelled as sequences of pages held in the state.
- The user records of lib/data-store.ts are left out (`getUser`, `getUserByEmail`, `createUser`, `getDemoUser`). Pages carry an owner id that is compared, and nothing else about users is used.
- Nondeterministic values are parameters and their generation is not modelled: `nanoid`, `crypto.randomUUID` and `Date.now`. The default date of a blog post is the `now` parameter.
- Browser inputs are parameters: the window size, the answer to `confirm` (a `confirmed` flag), `prompt` results and clipboard writes.
- The regular-expression minification that the speed optimiser's optimise handler applies to the generated code is left out. The model keeps the optimisation list and the scores.
- Encoding and locale formatting are left out: `encodeURIComponent`, `toLocaleDateString` and the `toFixed(1)` thousands branch of the analytics number format. The formatted thousands text is a parameter.
- String lengths count code points, where JavaScript counts UTF-16 units. Case conversion covers ASCII letters only.
- The exact whitespace between tags in the exporter's and the template's HTML is not reproduced; tags, attributes, values and their order are. The base stylesheet is a parameter, and no HTML escaping is performed because the application performs none.
- Floating-point numbers are left out. The zoom is a `real`, the content size and the estimated load time are given as inputs, and numbers inside section content are integers.
- The outcome of `FileReader` in the image upload is an input to the model. A failed read is modelled through the reader's error callback. The "Upload failed" catch path, for a reader that throws synchronously, is left out.
- The JSX templates of the individual section components are left out.
- The section registry is a map parameter. components/page-management/page-preview.tsx:4 and components/export-deployment/static-exporter.tsx:5 import a name `SectionRegistry` that components/sections/section-registry.tsx does not export (its table is exported as `SECTION_COMPONENTS`, line 9), so the lookup at components/page-management/page-preview.tsx:14 reads a binding with no table behind it. The model takes the table the lookup is evidently meant to read as a parameter and does not model the failure of the missing export.
- The dashboard, custom-domain and authentication screens are left out; they hold no logic beyond the operations modelled here.
- Fonts.HandleFontSelect requires a non-empty weight list. Every font in the catalogue has one, which `Fonts.WeightsOffered` states.
- Slugs.SqueezeHyphens states that the characters other than hyphens keep their order and that no hyphens are doubled, but not where each single hyphen falls between them, apart from the two ends.
- Slugs.SpacesToHyphens states that the characters other than hyphens and whitespace keep their order, but not where each hyphen falls between them, apart from the start.
- Catalogue.VariantsOf, and the other lookups of a type name in an object literal, do not model names inherited from Object.prototype. In the application `"constructor"` or `"toString"` find an inherited function, so the fallback is not taken. The model only has section data to return.
- Catalogue.ComponentFor does not model inherited names: for `"constructor"` the application would render with `Object` rather than the unknown-type panel.
- Catalogue.VariantCount does not model inherited names: for `"constructor"` the application would show `Object.length`, which is 1.
- Sections.DefaultStyles does not model inherited names: for `"toString"` the application returns a function instead of the white, black and 40 px fallback.
- Sections.DefaultContent does not model inherited names either, and it only maps a section type to its starter table, so no row above lists it. A lemma about the whole starter table is too large for the solver; `Sections.DefaultContentIgnoresVariant` and `Sections.CreateSection` state what is used.

## Findings

| source | as written | input that shows it | evidently intended | confidence | as-written member | corrected member |
|---|---|---|---|---|---|---|
| components/content-management/button-styler.tsx:382-400 | The Top/Bottom control calls the padding handler twice, and both calls start from the same stale style. The second call therefore restores the old top; Left/Right likewise loses the left. | Padding 12/24/12/24 (top/right/bottom/left), type 20 into Top/Bottom: the result is 12/24/20/24 | Both sides become 20: 20/24/20/24 | not executed | Button.TwoEmissionsLoseFirstSide, Button.TopBottomExample | Button.TopBottomChange, Button.LeftRightChange, Button.PairedChangesSymmetric |
| components/page-builder/page-builder.tsx:108-125 | The duplicate is spliced in at index `order + 1`, which is the section's `order` field, not its position | Two sections that both have order 0 (the API's default) and a request to duplicate the second: the copy lands before the original | The copy goes directly after the original | not executed | Editor.DuplicateNonDense, Editor.DuplicateSection | Editor.DuplicateSectionByPosition |
| app/api/pages/route.ts:51-60, lib/data-store.ts:56-65 | The new page spreads the request data after the fresh id, so an `id` in the body overrides it | A POST body carrying the id of an existing page: the store holds two pages with that id | Every created page gets the fresh id | not executed | Api.PostPage, Api.PostDuplicatesId, DataStore.CreatePageSpread, DataStore.SpreadDuplicatesId | Api.PostPageFixed, Api.PostKeepsStoreUnique, DataStore.CreatePage, DataStore.CreateKeepsIdsUnique |
| components/export-deployment/seo-optimizer.tsx:81, 97, 228-231, 362 | The quick-fix button is shown only for title and description suggestions that contain "Add", and the title fix applies only to a suggestion that contains "SEO title". The one title suggestion with "Add" is about a missing title and lacks "SEO title", so its button does nothing. The SEO-title suggestion lacks "Add", so it never gets a button. | A page without an SEO title: the suggestion to set one is made but no fix is offered; a page without a title: the offered button changes nothing | The SEO-title suggestion gets a working quick fix | not executed | Seo.TitleFixNeverApplies | Seo.TitleFixOffered |

=== FILE: analytics.dfy ===
/** The two number formatters of the analytics panel. The analytics figures
    themselves are random mock data and are not part of this model. */
module Analytics {
  import opened Text

  /** `${n}` padded to two digits, as the seconds of a duration. */
  function TwoDigits(n: nat): string {
    PadStart(NatToString(n), 2, '0')
  }

  /** `formatDuration(seconds)`: whole minutes, a colon, and the remaining
      seconds padded to two digits. */
  function FormatDuration(seconds: nat): (r: string)
    ensures |r| >= 4 && r[|r| - 3] == ':'
    ensures AllDigits(r[..|r| - 3]) && AllDigits(r[|r| - 2..])
  {
    var m := NatToString(seconds / 60);
    var s := TwoDigits(seconds % 60);
    SecondsField(seconds % 60);
    ToBaseDigits(seconds / 60, 10);
    var r := m + ":" + s;
    assert r[..|r| - 3] == m && r[|r| - 2..] == s;
    r
  }

  /** The seconds field is two digits reading back as the value, for values below 60. */
  lemma SecondsField(n: nat)
    requires n < 60
    ensures |TwoDigits(n)| == 2 && AllDigits(TwoDigits(n))
    ensures ParseBase(TwoDigits(n), 10) == n
  {
    ToBaseShort(n, 10);
    ToBaseDigits(n, 10);
    ParseToBase(n, 10);
    var t := NatToString(n);
    if |t| == 1 {
      assert TwoDigits(n) == ['0'] + t;
      ParseLeadingZero(t, 10);
    }
  }

  /** Reading a duration back: the two fields around the colon. */
  function ParseDuration(r: string): nat {
    var parts := Split(r, ':');
    if |parts| == 2 then ParseBase(parts[0], 10) * 60 + ParseBase(parts[1], 10) else 0
  }

  lemma DigitsFree(s: string)
    requires AllDigits(s)
    ensures Free(s, ':')
  {
  }

  /** A formatted duration splits into exactly two fields, the seconds field is
      below 60, and minutes times 60 plus seconds is the original number. */
  lemma DurationRoundTrip(seconds: nat)
    ensures |Split(FormatDuration(seconds), ':')| == 2
    ensures ParseBase(Split(FormatDuration(seconds), ':')[1], 10) < 60
    ensures ParseDuration(FormatDuration(seconds)) == seconds
  {
    var m := NatToString(seconds / 60);
    var s := TwoDigits(seconds % 60);
    SecondsField(seconds % 60);
    ToBaseDigits(seconds / 60, 10);
    ParseToBase(seconds / 60, 10);
    DigitsFree(m);
    DigitsFree(s);
    SplitAcross(m, ':', s);
    SplitFree(s, ':');
    assert FormatDuration(seconds) == m + [':'] + s;
  }

  /** `formatNumber(n)`. The branch from 1000 on prints `(n / 1000).toFixed(1)`,
      a floating-point rendering that is passed in as `thousands`. */
  function FormatNumber(n: int, thousands: string): (r: string)
    ensures n >= 1000 ==> EndsWith(r, "k") && r[..|r| - 1] == thousands
    ensures n < 1000 ==> r == IntToString(n)
  {
    if n >= 1000 then thousands + "k" else IntToString(n)
  }

  /** Below 1000 a non-negative count prints in plain decimal and reads back as itself. */
  lemma SmallNumberReadsBack(n: nat)
    requires n < 1000
    ensures AllDigits(FormatNumber(n, "")) && ParseBase(FormatNumber(n, ""), 10) == n
    ensures !EndsWith(FormatNumber(n, ""), "k")
  {
    ToBaseDigits(n, 10);
    ParseToBase(n, 10);
    var r := NatToString(n);
    assert IsDigit(r[|r| - 1]);
  }
}

=== FILE: api.dfy ===
/** The two collection routes of the HTTP API, as functions from a request
    and the data store's pages to a response and the new pages. A body that
    fails to parse as JSON is None. */
module Api {
  import opened Wrappers
  import opened Text
  import opened Types
  import opened PageList
  import opened Sections
  import DataStore

  datatype Reply =
    | Failure(error: string)
    | Listed(pages: seq<Page>)
    | CreatedPage(page: Page)
    | AddedSection(section: Section, page: Page)

  datatype Response = Response(status: nat, reply: Reply)

  /** `GET /api/pages?userId=…`: 400 without a user id, else the user's pages. */
  function GetPages(pages: seq<Page>, userId: Option<string>): (r: Response)
    ensures r.status == 400 <==> !Filled(userId)
    ensures r.status != 400 ==> r == Response(200, Listed(DataStore.GetPages(pages, userId.value)))
    ensures r.status == 400 ==> r.reply == Failure("User ID is required")
  {
    if !Filled(userId) then Response(400, Failure("User ID is required"))
    else Response(200, Listed(DataStore.GetPages(pages, userId.value)))
  }

  /** The keys of a page-creation request the route reads or spreads; an
      absent key is None. */
  datatype PageBody = PageBody(
    userId: Option<string>,
    title: Option<string>,
    slug: Option<string>,
    id: Option<string>,
    sections: Option<seq<Section>>,
    isPublished: Option<bool>,
    seoTitle: Option<string>,
    seoDescription: Option<string>,
    customCss: Option<string>,
    customJs: Option<string>)

  predicate Complete(b: PageBody) {
    Filled(b.userId) && Filled(b.title) && Filled(b.slug)
  }

  /** `{ userId, title, slug, sections: [], isPublished: false, ...body }`. */
  function PageData(b: PageBody): (d: DataStore.NewPage)
    requires Complete(b)
    ensures d.sections == b.sections.GetOr([]) && d.isPublished == b.isPublished.GetOr(false)
    ensures d.userId == b.userId.value && d.title == b.title.value && d.slug == b.slug.value
  {
    DataStore.NewPage(b.id, b.userId.value, b.title.value, b.slug.value,
      b.sections.GetOr([]), b.isPublished.GetOr(false),
      b.seoTitle, b.seoDescription, b.customCss, b.customJs)
  }

  /** `POST /api/pages`: 400 for a missing user id, title or slug, 409 for a
      slug any page already has, else 201 with the created page. The body is
      spread over the generated id, so an `id` in the body is the one stored. */
  function PostPage(pages: seq<Page>, body: Option<PageBody>, newId: string, now: int): (r: (seq<Page>, Response))
    ensures r.1.status in {201, 400, 409, 500}
    ensures r.1.status == 500 <==> body.None?
    ensures r.1.status == 400 <==> body.Some? && !Complete(body.value)
    ensures r.1.status == 409 <==> body.Some? && Complete(body.value) && FindBySlug(pages, body.value.slug.value).Some?
    ensures r.1.status != 201 ==> r.0 == pages
    ensures r.1.status == 201 ==>
      var b := body.value;
      && r.1.reply.CreatedPage?
      && r.0 == pages + [r.1.reply.page]
      && r.1.reply.page.id == b.id.GetOr(newId)
      && r.1.reply.page.userId == b.userId.value && r.1.reply.page.title == b.title.value
      && r.1.reply.page.slug == b.slug.value && r.1.reply.page.sections == b.sections.GetOr([])
      && r.1.reply.page.isPublished == b.isPublished.GetOr(false)
      && r.1.reply.page.createdAt == now && r.1.reply.page.updatedAt == now
  {
    match body
    case None => (pages, Response(500, Failure("Failed to create page")))
    case Some(b) =>
      if !Complete(b) then (pages, Response(400, Failure("User ID, title, and slug are required")))
      else if FindBySlug(pages, b.slug.value).Some? then
        (pages, Response(409, Failure("A page with this slug already exists")))
      else
        var (ps, p) := DataStore.CreatePageSpread(pages, PageData(b), newId, now);
        (ps, Response(201, CreatedPage(p)))
  }

  /** A body that names an existing page's id, with a fresh slug, is accepted
      and leaves two pages with that id. */
  lemma PostDuplicatesId(pages: seq<Page>, b: PageBody, newId: string, now: int)
    requires Complete(b) && FindBySlug(pages, b.slug.value).None?
    requires b.id.Some? && HasId(pages, b.id.value)
    ensures PostPage(pages, Some(b), newId, now).1.status == 201
    ensures !UniqueIds(PostPage(pages, Some(b), newId, now).0)
  {
    DataStore.SpreadDuplicatesId(pages, PageData(b), newId, now);
  }

  /** The route with the generated id always used. */
  function PostPageFixed(pages: seq<Page>, body: Option<PageBody>, newId: string, now: int): (r: (seq<Page>, Response))
    ensures r.1.status == PostPage(pages, body, newId, now).1.status
    ensures r.1.status != 201 ==> r == PostPage(pages, body, newId, now)
    ensures r.1.status == 201 ==>
      && r.1.reply.CreatedPage? && r.1.reply.page.id == newId
      && r.0 == pages + [r.1.reply.page]
      && r.1.reply.page == PostPage(pages, body, newId, now).1.reply.page.(id := newId)
  {
    match body
    case None => (pages, Response(500, Failure("Failed to create page")))
    case Some(b) =>
      if !Complete(b) then (pages, Response(400, Failure("User ID, title, and slug are required")))
      else if FindBySlug(pages, b.slug.value).Some? then
        (pages, Response(409, Failure("A page with this slug already exists")))
      else
        var (ps, p) := DataStore.CreatePage(pages, PageData(b), newId, now);
        (ps, Response(201, CreatedPage(p)))
  }

  /** The two routes agree on every body that carries no id. */
  lemma PostAgreesWithoutId(pages: seq<Page>, body: Option<PageBody>, newId: string, now: int)
    requires body.Some? ==> body.value.id.None?
    ensures PostPage(pages, body, newId, now) == PostPageFixed(pages, body, newId, now)
  {
  }

  /** No two pages share a slug. */
  predicate UniqueSlugs(pages: seq<Page>) {
    forall i, j :: 0 <= i < j < |pages| ==> pages[i].slug != pages[j].slug
  }

  /** Pages created only through the fixed route keep distinct slugs and,
      with a fresh generated id, distinct ids. */
  lemma PostKeepsStoreUnique(pages: seq<Page>, body: Option<PageBody>, newId: string, now: int)
    requires UniqueSlugs(pages) && UniqueIds(pages) && !HasId(pages, newId)
    ensures UniqueSlugs(PostPageFixed(pages, body, newId, now).0)
    ensures UniqueIds(PostPageFixed(pages, body, newId, now).0)
  {
    var r := PostPageFixed(pages, body, newId, now);
    if r.1.status == 201 {
      var p := r.1.reply.page;
      assert p.slug == body.value.slug.value;
      forall i | 0 <= i < |pages|
        ensures pages[i].slug != p.slug
      {
      }
      assert p == DataStore.CreatePage(pages, PageData(body.value), newId, now).1;
    }
  }

  /** A page the route as written creates under the generated id, when the
      body has no id and that id is fresh, is found again under it. */
  lemma PostThenFind(pages: seq<Page>, b: PageBody, newId: string, now: int)
    requires b.id.None? && !HasId(pages, newId)
    requires PostPage(pages, Some(b), newId, now).1.status == 201
    ensures Find(PostPage(pages, Some(b), newId, now).0, newId) == Some(PostPage(pages, Some(b), newId, now).1.reply.page)
  {
    PostAgreesWithoutId(pages, Some(b), newId, now);
    assert PostPageFixed(pages, Some(b), newId, now).1.reply.page == DataStore.CreatePage(pages, PageData(b), newId, now).1;
  }

  /** The keys of a section-creation request. */
  datatype SectionBody = SectionBody(
    pageId: Option<string>,
    kind: Option<string>,
    variant: Option<string>,
    order: Option<int>)

  /** `POST /api/sections`: 400 without a page id or a type, 404 for an unknown
      page, else 201 with the new section appended to the page. The variant
      defaults to `default`, the order to 0, and neither is checked. */
  function PostSection(pages: seq<Page>, body: Option<SectionBody>, newId: string, today: string, now: int): (r: (seq<Page>, Response))
    ensures r.1.status in {201, 400, 404, 500}
    ensures r.1.status == 500 <==> body.None?
    ensures r.1.status == 400 <==> body.Some? && (!Filled(body.value.pageId) || !Filled(body.value.kind))
    ensures r.1.status == 404 <==>
      body.Some? && Filled(body.value.pageId) && Filled(body.value.kind) && !HasId(pages, body.value.pageId.value)
    ensures r.1.status != 201 ==> r.0 == pages
    ensures r.1.status == 201 ==>
      var b := body.value;
      && r.1.reply.AddedSection?
      && r.1.reply.section.id == newId && r.1.reply.section.kind == b.kind.value
      && r.1.reply.section.variant == OrElse(b.variant, "default")
      && r.1.reply.section.order == b.order.GetOr(0)
      && r.1.reply.page.sections == Find(pages, b.pageId.value).value.sections + [r.1.reply.section]
      && Find(r.0, b.pageId.value) == Some(r.1.reply.page)
  {
    match body
    case None => (pages, Response(500, Failure("Failed to add section")))
    case Some(b) =>
      if !Filled(b.pageId) || !Filled(b.kind) then
        (pages, Response(400, Failure("Page ID and section type are required")))
      else
        var s := CreateSection(newId, b.kind.value, OrElse(b.variant, "default"), Some(b.order.GetOr(0)), today);
        var (ps, p) := DataStore.AddSectionToPage(pages, b.pageId.value, s, now);
        if p.None? then (pages, Response(404, Failure("Page not found")))
        else (ps, Response(201, AddedSection(s, p.value)))
  }

  /** A successful section request touches only the named page, and the
      section it adds is last on that page with the default content of its type. */
  lemma PostSectionLocal(pages: seq<Page>, b: SectionBody, newId: string, today: string, now: int)
    requires PostSection(pages, Some(b), newId, today, now).1.status == 201
    ensures var r := PostSection(pages, Some(b), newId, today, now);
      && |r.0| == |pages|
      && (forall i :: 0 <= i < |pages| && pages[i].id != b.pageId.value ==> r.0[i] == pages[i])
      && r.1.reply.section.content == DefaultContent(b.kind.value, OrElse(b.variant, "default"), today)
  {
    var k := IndexOf(pages, b.pageId.value).value;
    forall i | 0 <= i < |pages| && pages[i].id != b.pageId.value
      ensures PostSection(pages, Some(b), newId, today, now).0[i] == pages[i]
    {
      assert i != k;
    }
  }
}

=== FILE: button.dfy ===
/** The button styler: a button style record edited by merging partial
    updates, replaced wholesale by a preset, and previewed with fall-backs for
    the fields that are unset or falsy. */
module Button {
  import opened Wrappers
  import opened Text
  import Spacing

  datatype Pad = Pad(top: int, right: int, bottom: int, left: int)

  /** `ButtonStyle`: every field is optional. */
  datatype ButtonStyle = ButtonStyle(
    backgroundColor: Option<string>,
    textColor: Option<string>,
    borderColor: Option<string>,
    borderWidth: Option<int>,
    borderRadius: Option<int>,
    fontSize: Option<int>,
    fontWeight: Option<string>,
    padding: Option<Pad>,
    shadow: Option<string>,
    hoverBackgroundColor: Option<string>,
    hoverTextColor: Option<string>,
    hoverBorderColor: Option<string>)

  const NoStyle := ButtonStyle(None, None, None, None, None, None, None, None, None, None, None, None)

  datatype Preset = Preset(name: string, style: ButtonStyle)

  function P(bg: string, fg: string, border: string, width: int, radius: int, size: int, weight: string,
             pad: Pad, shadow: string, hoverBg: string, hoverFg: string, hoverBorder: string): ButtonStyle {
    ButtonStyle(Some(bg), Some(fg), Some(border), Some(width), Some(radius), Some(size), Some(weight),
                Some(pad), Some(shadow), Some(hoverBg), Some(hoverFg), Some(hoverBorder))
  }

  /** `BUTTON_PRESETS`. */
  const Presets: seq<Preset> := [
    Preset("Primary", P("#3b82f6", "#ffffff", "#3b82f6", 2, 6, 16, "600", Pad(12, 24, 12, 24),
      "0 1px 2px 0 rgba(0, 0, 0, 0.05)", "#2563eb", "#ffffff", "#2563eb")),
    Preset("Secondary", P("transparent", "#374151", "#d1d5db", 2, 6, 16, "600", Pad(12, 24, 12, 24),
      "0 1px 2px 0 rgba(0, 0, 0, 0.05)", "#f9fafb", "#374151", "#9ca3af")),
    Preset("Ghost", P("transparent", "#3b82f6", "transparent", 2, 6, 16, "600", Pad(12, 24, 12, 24),
      "none", "#eff6ff", "#2563eb", "transparent")),
    Preset("Rounded", P("#10b981", "#ffffff", "#10b981", 2, 9999, 16, "600", Pad(12, 32, 12, 32),
      "0 4px 6px -1px rgba(0, 0, 0, 0.1)", "#059669", "#ffffff", "#059669")),
    Preset("Minimal", P("#f3f4f6", "#374151", "transparent", 0, 4, 14, "500", Pad(8, 16, 8, 16),
      "none", "#e5e7eb", "#374151", "transparent")),
    Preset("Gradient", P("linear-gradient(135deg, #667eea 0%, #764ba2 100%)", "#ffffff", "transparent", 0, 8, 16, "600",
      Pad(14, 28, 14, 28), "0 4px 6px -1px rgba(0, 0, 0, 0.1)",
      "linear-gradient(135deg, #5a6fd8 0%, #6a4190 100%)", "#ffffff", "transparent"))]

  /** Every preset sets its background, border and padding, and pads symmetrically. */
  lemma PresetsShape()
    ensures |Presets| == 6
    ensures forall p :: p in Presets ==>
      && p.style.padding.Some?
      && p.style.padding.value.top == p.style.padding.value.bottom
      && p.style.padding.value.left == p.style.padding.value.right
    ensures forall p :: p in Presets ==> p.style.backgroundColor.Some? && p.style.borderWidth.Some?
  {
  }

  /** No two presets share a name. */
  lemma PresetNamesDistinct()
    ensures forall i, j :: 0 <= i < j < |Presets| ==> Presets[i].name != Presets[j].name
  {
    var names := ["Primary", "Secondary", "Ghost", "Rounded", "Minimal", "Gradient"];
    assert forall k :: 0 <= k < |Presets| ==> Presets[k].name == names[k];
    assert names[2][1] != names[5][1];
  }

  function Pick<T>(update: Option<T>, current: Option<T>): Option<T> {
    if update.Some? then update else current
  }

  /** `handleStyleChange(updates)`: `{ ...value, ...updates }`. An update has the
      shape of a style (`Partial<ButtonStyle>`); its `Some` fields are the keys
      it carries. */
  function HandleStyleChange(v: ButtonStyle, u: ButtonStyle): (r: ButtonStyle)
    ensures r.backgroundColor == (if u.backgroundColor.Some? then u.backgroundColor else v.backgroundColor)
    ensures r.textColor == (if u.textColor.Some? then u.textColor else v.textColor)
    ensures r.borderColor == (if u.borderColor.Some? then u.borderColor else v.borderColor)
    ensures r.borderWidth == (if u.borderWidth.Some? then u.borderWidth else v.borderWidth)
    ensures r.borderRadius == (if u.borderRadius.Some? then u.borderRadius else v.borderRadius)
    ensures r.fontSize == (if u.fontSize.Some? then u.fontSize else v.fontSize)
    ensures r.fontWeight == (if u.fontWeight.Some? then u.fontWeight else v.fontWeight)
    ensures r.padding == (if u.padding.Some? then u.padding else v.padding)
    ensures r.shadow == (if u.shadow.Some? then u.shadow else v.shadow)
    ensures r.hoverBackgroundColor == (if u.hoverBackgroundColor.Some? then u.hoverBackgroundColor else v.hoverBackgroundColor)
    ensures r.hoverTextColor == (if u.hoverTextColor.Some? then u.hoverTextColor else v.hoverTextColor)
    ensures r.hoverBorderColor == (if u.hoverBorderColor.Some? then u.hoverBorderColor else v.hoverBorderColor)
  {
    ButtonStyle(
      Pick(u.backgroundColor, v.backgroundColor), Pick(u.textColor, v.textColor),
      Pick(u.borderColor, v.borderColor), Pick(u.borderWidth, v.borderWidth),
      Pick(u.borderRadius, v.borderRadius), Pick(u.fontSize, v.fontSize),
      Pick(u.fontWeight, v.fontWeight), Pick(u.padding, v.padding), Pick(u.shadow, v.shadow),
      Pick(u.hoverBackgroundColor, v.hoverBackgroundColor), Pick(u.hoverTextColor, v.hoverTextColor),
      Pick(u.hoverBorderColor, v.hoverBorderColor))
  }

  /** An empty update emits the style unchanged, and repeating an update
      changes nothing more. */
  lemma StyleChangeLaws(v: ButtonStyle, u: ButtonStyle)
    ensures HandleStyleChange(v, NoStyle) == v
    ensures HandleStyleChange(HandleStyleChange(v, u), u) == HandleStyleChange(v, u)
  {
  }

  /** `handlePresetSelect(preset)`: the preset replaces the style, whatever it
      was; a catalogue preset sets every colour, the shape and a symmetric
      padding. */
  function HandlePresetSelect(v: ButtonStyle, p: Preset): (r: ButtonStyle)
    ensures r == p.style
    ensures p in Presets ==>
      && r.backgroundColor.Some? && r.textColor.Some? && r.borderRadius.Some?
      && r.padding.Some? && r.padding.value.top == r.padding.value.bottom
      && r.padding.value.left == r.padding.value.right
  {
    p.style
  }

  /** After a preset, nothing of the previous style is left: two styles give the
      same result, and a catalogue preset leaves a complete, symmetric padding. */
  lemma PresetReplaces(v: ButtonStyle, w: ButtonStyle, p: Preset)
    ensures HandlePresetSelect(v, p) == HandlePresetSelect(w, p)
    ensures p in Presets ==>
      && HandlePresetSelect(v, p).padding.Some?
      && HandlePresetSelect(v, p).padding.value.top == HandlePresetSelect(v, p).padding.value.bottom
  {
  }

  /** The padding assumed when the style has none. */
  const DefaultPad := Pad(12, 24, 12, 24)

  function SetSide(p: Pad, side: Spacing.Side, n: int): (r: Pad)
    ensures side == Spacing.Top ==> r == p.(top := n)
    ensures side == Spacing.Right ==> r == p.(right := n)
    ensures side == Spacing.Bottom ==> r == p.(bottom := n)
    ensures side == Spacing.Left ==> r == p.(left := n)
  {
    match side
    case Top => p.(top := n)
    case Right => p.(right := n)
    case Bottom => p.(bottom := n)
    case Left => p.(left := n)
  }

  /** `handlePaddingChange(side, n)`: the current padding (or 12/24/12/24) with
      one side replaced; nothing else in the style changes. */
  function HandlePaddingChange(v: ButtonStyle, side: Spacing.Side, n: int): (r: ButtonStyle)
    ensures r.padding.Some?
    ensures r.padding.value == SetSide(if v.padding.Some? then v.padding.value else DefaultPad, side, n)
    ensures r == v.(padding := r.padding)
  {
    var current := if v.padding.Some? then v.padding.value else DefaultPad;
    HandleStyleChange(v, NoStyle.(padding := Some(SetSide(current, side, n))))
  }

  /** The top/bottom input as written: two `onChange` calls, each built from the
      same `value` the component was rendered with. The parent keeps the last. */
  function TopBottomEmissions(v: ButtonStyle, n: int): (r: seq<ButtonStyle>)
    ensures |r| == 2
    ensures r[0].padding.Some? && r[0].padding.value.top == n
    ensures r[1].padding.Some? && r[1].padding.value.bottom == n
  {
    [HandlePaddingChange(v, Spacing.Top, n), HandlePaddingChange(v, Spacing.Bottom, n)]
  }

  /** The left/right input as written, built the same way. */
  function LeftRightEmissions(v: ButtonStyle, n: int): (r: seq<ButtonStyle>)
    ensures |r| == 2
    ensures r[0].padding.Some? && r[0].padding.value.left == n
    ensures r[1].padding.Some? && r[1].padding.value.right == n
  {
    [HandlePaddingChange(v, Spacing.Left, n), HandlePaddingChange(v, Spacing.Right, n)]
  }

  /** The style the parent holds after the input's emissions. */
  function Final(emitted: seq<ButtonStyle>, v: ButtonStyle): ButtonStyle {
    if |emitted| == 0 then v else emitted[|emitted| - 1]
  }

  /** The top/bottom input loses its top edit, and the left/right input its
      left edit: the last emission still carries the old top (left). */
  lemma TwoEmissionsLoseFirstSide(v: ButtonStyle, n: int)
    ensures
      var before := if v.padding.Some? then v.padding.value else DefaultPad;
      && Final(TopBottomEmissions(v, n), v).padding.value.top == before.top
      && Final(LeftRightEmissions(v, n), v).padding.value.left == before.left
  {
  }

  /** A concrete case: typing 20 into the top/bottom input of a 12/24/12/24
      button leaves the top at 12 while the bottom becomes 20. */
  lemma TopBottomExample()
    ensures
      var v := NoStyle.(padding := Some(Pad(12, 24, 12, 24)));
      Final(TopBottomEmissions(v, 20), v).padding == Some(Pad(12, 24, 20, 24))
  {
  }

  /** The evidently intended top/bottom edit: one emission setting both sides. */
  function TopBottomChange(v: ButtonStyle, n: int): (r: ButtonStyle)
    ensures r.padding.Some? && r.padding.value.top == n && r.padding.value.bottom == n
    ensures r == v.(padding := r.padding)
  {
    var current := if v.padding.Some? then v.padding.value else DefaultPad;
    HandleStyleChange(v, NoStyle.(padding := Some(current.(top := n, bottom := n))))
  }

  /** The evidently intended left/right edit. */
  function LeftRightChange(v: ButtonStyle, n: int): (r: ButtonStyle)
    ensures r.padding.Some? && r.padding.value.left == n && r.padding.value.right == n
    ensures r == v.(padding := r.padding)
  {
    var current := if v.padding.Some? then v.padding.value else DefaultPad;
    HandleStyleChange(v, NoStyle.(padding := Some(current.(left := n, right := n))))
  }

  /** The corrected inputs keep a symmetric padding symmetric, keep the other
      pair of sides, and read back what was typed in both boxes. */
  lemma PairedChangesSymmetric(v: ButtonStyle, n: int, m: int)
    ensures
      var before := if v.padding.Some? then v.padding.value else DefaultPad;
      var r := LeftRightChange(TopBottomChange(v, n), m);
      && r.padding == Some(Pad(n, m, n, m))
      && TopBottomChange(v, n).padding.value.left == before.left
      && TopBottomChange(v, n).padding.value.right == before.right
      && (n != 0 && m != 0 ==> ShownPad(r) == (n, m))
      && ShownPad(TopBottomChange(v, 0)).0 == 12
  {
  }

  /** The two padding inputs: `padding?.top || 12` and `padding?.right || 24`. */
  function ShownPad(v: ButtonStyle): (int, int) {
    (OrNum(if v.padding.Some? then Some(v.padding.value.top) else None, 12),
     OrNum(if v.padding.Some? then Some(v.padding.value.right) else None, 24))
  }

  // -------------------------------------------------------------- preview

  /** `n || d` for an optional number: 0 is falsy. */
  function OrNum(o: Option<int>, d: int): (r: int)
    ensures o.Some? && o.value != 0 ==> r == o.value
    ensures o.None? || o.value == 0 ==> r == d
  {
    if o.Some? && o.value != 0 then o.value else d
  }

  /** `s || d` for an optional string: "" is falsy. */
  function OrText(o: Option<string>, d: string): (r: string)
    ensures o.Some? && o.value != "" ==> r == o.value
    ensures o.None? || o.value == "" ==> r == d
  {
    if o.Some? && o.value != "" then o.value else d
  }

  datatype PreviewStyle = PreviewStyle(
    backgroundColor: string,
    color: string,
    border: string,
    borderRadius: string,
    fontSize: string,
    fontWeight: string,
    padding: string,
    boxShadow: string)

  function Px(n: int): string {
    IntToString(n) + "px"
  }

  function Side(v: ButtonStyle, side: Spacing.Side): Option<int> {
    if v.padding.None? then None
    else match side
      case Top => Some(v.padding.value.top)
      case Right => Some(v.padding.value.right)
      case Bottom => Some(v.padding.value.bottom)
      case Left => Some(v.padding.value.left)
  }

  /** The colour the border is drawn in: border colour, else background, else blue. */
  function BorderColor(v: ButtonStyle): (r: string)
    ensures OrText(v.borderColor, "") != "" ==> r == v.borderColor.value
    ensures OrText(v.borderColor, "") == "" && OrText(v.backgroundColor, "") != "" ==> r == v.backgroundColor.value
    ensures OrText(v.borderColor, "") == "" && OrText(v.backgroundColor, "") == "" ==> r == "#3b82f6"
  {
    OrText(v.borderColor, OrText(v.backgroundColor, "#3b82f6"))
  }

  /** `buttonStyle`: the live preview, every unset or falsy field replaced by its default. */
  function Preview(v: ButtonStyle): (r: PreviewStyle)
    ensures r.border == Px(OrNum(v.borderWidth, 2)) + " solid " + BorderColor(v)
    ensures r.backgroundColor == OrText(v.backgroundColor, "#3b82f6")
    ensures r.fontWeight == OrText(v.fontWeight, "600")
  {
    PreviewStyle(
      OrText(v.backgroundColor, "#3b82f6"),
      OrText(v.textColor, "#ffffff"),
      Px(OrNum(v.borderWidth, 2)) + " solid " + BorderColor(v),
      Px(OrNum(v.borderRadius, 6)),
      Px(OrNum(v.fontSize, 16)),
      OrText(v.fontWeight, "600"),
      Px(OrNum(Side(v, Spacing.Top), 12)) + " " + Px(OrNum(Side(v, Spacing.Right), 24)) + " "
        + Px(OrNum(Side(v, Spacing.Bottom), 12)) + " " + Px(OrNum(Side(v, Spacing.Left), 24)),
      OrText(v.shadow, "0 1px 2px 0 rgba(0, 0, 0, 0.05)"))
  }

  /** A falsy field previews as its default: a zero border width draws like an
      unset one, and an empty style previews like the Primary preset's look. */
  lemma PreviewFallbacks(v: ButtonStyle)
    ensures Preview(v.(borderWidth := Some(0))) == Preview(v.(borderWidth := None))
    ensures Preview(v.(borderColor := Some(""))) == Preview(v.(borderColor := None))
    ensures Preview(NoStyle).border == Px(2) + " solid #3b82f6"
    ensures Preview(NoStyle).padding == Preview(NoStyle.(padding := Some(DefaultPad))).padding
  {
  }
}

=== FILE: catalogue.dfy ===
/** The section catalogue: the list of section types, the variants offered for
    each type, the renderer chosen for a type, and the sidebar that lets the
    user pick a type and variant. */
module Catalogue {
  import opened Wrappers
  import opened Text
  import opened Js
  import opened Types
  import opened Seqs

  /** `SectionVariant`. */
  datatype Variant = Variant(
    id: string,
    name: string,
    description: string,
    preview: string,
    defaultContent: Content,
    defaultStyles: SectionStyles)

  function V(id: string, name: string, description: string, preview: string): Variant {
    Variant(id, name, description, preview, map[], NoStyles)
  }

  /** `SECTION_VARIANTS`: the variants offered for a type. */
  function Variants(t: SectionType): seq<Variant> {
    match t
    case Header => [
      V("simple-nav", "Simple Navigation", "Logo on left, navigation in center, CTA on right", "/previews/header-simple.jpg"),
      V("centered-logo", "Centered Logo", "Logo centered at top, navigation below", "/previews/header-centered.jpg")]
    case Hero => [
      V("centered", "Centered", "Centered text with optional media below", "/previews/hero-centered.jpg"),
      V("split", "Split Layout", "Text on left, media on right", "/previews/hero-split.jpg")]
    case Features => [
      V("grid", "Grid Layout", "Simple grid with icons and text", "/previews/features-grid.jpg"),
      V("cards", "Card Layout", "Features displayed in cards with shadows", "/previews/features-cards.jpg")]
    case Pricing => [
      V("simple", "Simple", "Side-by-side pricing plans", "/previews/pricing-simple.jpg"),
      V("tiered", "Tiered", "Tiered pricing with popular plan highlighted", "/previews/pricing-tiered.jpg")]
    case Testimonials => [
      V("grid", "Grid", "Grid layout", ""),
      V("carousel", "Carousel", "Carousel layout", "")]
    case Cta => [
      V("simple", "Simple", "Simple CTA", ""),
      V("boxed", "Boxed", "Boxed CTA", "")]
    case About => [
      V("text-image", "Text + Image", "Text with image", ""),
      V("centered", "Centered", "Centered text", "")]
    case Team => [
      V("grid", "Grid", "Grid layout", ""),
      V("cards", "Cards", "Card layout", "")]
    case Faq => [
      V("accordion", "Accordion", "Accordion style", ""),
      V("grid", "Grid", "Grid layout", "")]
    case Contact => [
      V("form", "Form", "Contact form", ""),
      V("info", "Info", "Contact information", "")]
    case Newsletter => [
      V("simple", "Simple", "Simple signup", ""),
      V("boxed", "Boxed", "Boxed signup", "")]
    case Blog => [
      V("grid", "Grid", "Grid layout", ""),
      V("list", "List", "List layout", "")]
    case Gallery => [
      V("grid", "Grid", "Grid layout", ""),
      V("masonry", "Masonry", "Masonry layout", "")]
    case Stats => [
      V("horizontal", "Horizontal", "Horizontal layout", ""),
      V("grid", "Grid", "Grid layout", "")]
    case Footer => [
      V("minimal", "Minimal", "Minimal footer", ""),
      V("detailed", "Detailed", "Detailed footer", "")]
  }

  /** `SECTION_TYPES`. */
  const SectionTypes: seq<SectionType> := [
    Header, Hero, Features, Pricing, Testimonials, Cta, About, Team,
    Faq, Contact, Newsletter, Blog, Gallery, Stats, Footer]

  /** The catalogue lists each of the fifteen types exactly once. */
  lemma SectionTypesComplete()
    ensures |SectionTypes| == 15
    ensures forall t: SectionType :: t in SectionTypes
    ensures forall i, j :: 0 <= i < j < |SectionTypes| ==> SectionTypes[i] != SectionTypes[j]
  {
    forall t: SectionType
      ensures t in SectionTypes
    {
      match t {
        case Header => case Hero => case Features => case Pricing => case Testimonials =>
        case Cta => case About => case Team => case Faq => case Contact =>
        case Newsletter => case Blog => case Gallery => case Stats => case Footer =>
      }
    }
  }

  /** `getSectionVariants(type)`, looked up by wire name: `[]` when the table has
      no entry for the name. */
  function VariantsOf(kind: string): (r: seq<Variant>)
    ensures ParseType(kind).None? ==> r == []
    ensures ParseType(kind).Some? ==> |r| == 2 && r[0].id != r[1].id
    ensures forall i :: 0 <= i < |r| ==> r[i].defaultContent == map[] && r[i].defaultStyles == NoStyles
  {
    match ParseType(kind)
    case None => []
    case Some(t) => VariantsShape(t); Variants(t)
  }

  /** Every type offers exactly two variants with distinct ids, and none of
      them carries default content or styles. */
  lemma VariantsShape(t: SectionType)
    ensures |Variants(t)| == 2 && Variants(t)[0].id != Variants(t)[1].id
    ensures forall i :: 0 <= i < |Variants(t)| ==>
      Variants(t)[i].defaultContent == map[] && Variants(t)[i].defaultStyles == NoStyles
  {
    match t
    case Header => case Hero => case Features => case Pricing => case Testimonials =>
    case Cta => case About => case Team => case Faq => case Contact =>
    case Newsletter => case Blog => case Gallery => case Stats => case Footer =>
  }

  /** `SECTION_VARIANTS[type]?.find(v => v.id === variantId)`. */
  function FindVariant(t: SectionType, variantId: string): (r: Option<Variant>)
    ensures r.Some? ==> r.value in Variants(t) && r.value.id == variantId
    ensures r.None? ==> forall v :: v in Variants(t) ==> v.id != variantId
  {
    FirstWithId(Variants(t), variantId)
  }

  function FirstWithId(vs: seq<Variant>, id: string): (r: Option<Variant>)
    ensures r.Some? ==> r.value in vs && r.value.id == id
    ensures r.None? ==> forall v :: v in vs ==> v.id != id
  {
    if |vs| == 0 then None
    else if vs[0].id == id then Some(vs[0])
    else FirstWithId(vs[1..], id)
  }

  /** What the builder preview draws for a section: a dedicated template, a
      placeholder panel, or the "Unknown section type" fallback. */
  datatype Renderer =
    | Dedicated(t: SectionType)
    | Placeholder(caption: string)
    | UnknownType(name: string)

  /** `getSectionComponent(type)`: four types have templates, the rest have
      placeholder panels, and names outside the catalogue fall back. */
  function ComponentFor(kind: string): (r: Renderer)
    ensures r.UnknownType? <==> ParseType(kind).None?
    ensures r.UnknownType? ==> r.name == kind
    ensures r.Dedicated? ==> TypeName(r.t) == kind && r.t in {Header, Hero, Features, Pricing}
  {
    match ParseType(kind)
    case None => UnknownType(kind)
    case Some(Header) => Dedicated(Header)
    case Some(Hero) => Dedicated(Hero)
    case Some(Features) => Dedicated(Features)
    case Some(Pricing) => Dedicated(Pricing)
    case Some(Testimonials) => Placeholder("Testimonials")
    case Some(Cta) => Placeholder("CTA")
    case Some(About) => Placeholder("About")
    case Some(Team) => Placeholder("Team")
    case Some(Faq) => Placeholder("FAQ")
    case Some(Contact) => Placeholder("Contact")
    case Some(Newsletter) => Placeholder("Newsletter")
    case Some(Blog) => Placeholder("Blog")
    case Some(Gallery) => Placeholder("Gallery")
    case Some(Stats) => Placeholder("Stats")
    case Some(Footer) => Placeholder("Footer")
  }

  /** The text a placeholder panel shows for a section of the given variant. */
  function PlaceholderText(caption: string, variant: string): string {
    caption + " Section - " + variant
  }

  // ------------------------------------------------------------- sidebar

  /** `SECTION_NAMES`: the display name of a type. */
  function DisplayName(t: SectionType): string {
    match t
    case Header => "Header"
    case Hero => "Hero"
    case Features => "Features"
    case Pricing => "Pricing"
    case Testimonials => "Testimonials"
    case Cta => "Call to Action"
    case About => "About"
    case Team => "Team"
    case Faq => "FAQ"
    case Contact => "Contact"
    case Newsletter => "Newsletter"
    case Blog => "Blog"
    case Gallery => "Gallery"
    case Stats => "Statistics"
    case Footer => "Footer"
  }

  predicate MatchesSearch(t: SectionType, term: string) {
    Contains(Lower(DisplayName(t)), Lower(term))
  }

  function FilterTypes(ts: seq<SectionType>, term: string): (r: seq<SectionType>)
    ensures Subsequence(r, ts)
    ensures forall t :: t in r <==> t in ts && MatchesSearch(t, term)
  {
    if |ts| == 0 then []
    else if MatchesSearch(ts[0], term) then [ts[0]] + FilterTypes(ts[1..], term)
    else FilterTypes(ts[1..], term)
  }

  /** `filteredSectionTypes`: the catalogue types whose display name contains the
      search term, ignoring case, in catalogue order. */
  function FilteredSectionTypes(term: string): (r: seq<SectionType>)
    ensures Subsequence(r, SectionTypes)
    ensures forall t :: t in r <==> MatchesSearch(t, term)
  {
    FilterTypes(SectionTypes, term)
  }

  lemma {:induction false} FilterAll(ts: seq<SectionType>, term: string)
    requires forall t :: t in ts ==> MatchesSearch(t, term)
    ensures FilterTypes(ts, term) == ts
  {
    if |ts| > 0 {
      FilterAll(ts[1..], term);
    }
  }

  /** An empty search lists every type. */
  lemma EmptySearchListsAll()
    ensures FilteredSectionTypes("") == SectionTypes
  {
    forall t | t in SectionTypes
      ensures MatchesSearch(t, "")
    {
      assert Lower("") == "";
      assert StartsWith(Lower(DisplayName(t)), "");
    }
    FilterAll(SectionTypes, "");
  }

  /** The variant count shown beside a type: its number of catalogue entries. */
  function VariantCount(kind: string): (r: nat)
    ensures r == |VariantsOf(kind)|
    ensures r == if ParseType(kind).Some? then 2 else 0
  {
    |VariantsOf(kind)|
  }

  /** The sidebar's own state: the type whose variants are listed, if any. */
  datatype Sidebar = Sidebar(selectedType: Option<SectionType>, searchTerm: string)

  /** A request to the builder to add a section. */
  datatype AddRequest = AddRequest(t: SectionType, variantId: string)

  /** Pressing "Add Section" on a listed variant: asks the builder for that type
      and variant and returns to the type list. Nothing happens with no type open. */
  function ChooseVariant(sb: Sidebar, v: Variant): (r: (Sidebar, Option<AddRequest>))
    ensures sb.selectedType.None? ==> r == (sb, None)
    ensures sb.selectedType.Some? ==>
      r.1 == Some(AddRequest(sb.selectedType.value, v.id)) && r.0.selectedType.None?
      && r.0.searchTerm == sb.searchTerm
  {
    match sb.selectedType
    case None => (sb, None)
    case Some(t) => (sb.(selectedType := None), Some(AddRequest(t, v.id)))
  }
}

=== FILE: color.dfy ===
/** The colour picker: hex validation of typed input, the hex shown for a
    colour value (with its simplified rgb-to-hex conversion), and the picker's
    own state, which follows every colour it emits. */
module Color {
  import opened Wrappers
  import opened Text

  /** `/^#([A-Fa-f0-9]{6}|[A-Fa-f0-9]{3})$/`. */
  predicate IsHexColor(s: string) {
    (|s| == 4 || |s| == 7) && s[0] == '#' && forall i :: 1 <= i < |s| ==> IsHexDigit(s[i])
  }

  const Grays: seq<string> := ["#ffffff", "#f8fafc", "#f1f5f9", "#e2e8f0", "#cbd5e1", "#94a3b8", "#64748b", "#475569", "#334155", "#1e293b", "#0f172a", "#000000"]
  const Blues: seq<string> := ["#eff6ff", "#dbeafe", "#bfdbfe", "#93c5fd", "#60a5fa", "#3b82f6", "#2563eb", "#1d4ed8", "#1e40af", "#1e3a8a"]
  const Greens: seq<string> := ["#f0fdf4", "#dcfce7", "#bbf7d0", "#86efac", "#4ade80", "#22c55e", "#16a34a", "#15803d", "#166534", "#14532d"]
  const Reds: seq<string> := ["#fef2f2", "#fecaca", "#fca5a5", "#f87171", "#ef4444", "#dc2626", "#b91c1c", "#991b1b", "#7f1d1d", "#450a0a"]
  const Yellows: seq<string> := ["#fefce8", "#fef3c7", "#fde68a", "#fcd34d", "#fbbf24", "#f59e0b", "#d97706", "#b45309", "#92400e", "#78350f"]
  const Purples: seq<string> := ["#faf5ff", "#f3e8ff", "#e9d5ff", "#d8b4fe", "#c084fc", "#a855f7", "#9333ea", "#7c3aed", "#6d28d9", "#5b21b6"]

  /** `COLOR_PRESETS`: grays, blues, greens, reds, yellows and purples. */
  const Presets: seq<string> := Grays + Blues + Greens + Reds + Yellows + Purples

  /** `GRADIENT_PRESETS`. */
  const Gradients: seq<string> := [
    "linear-gradient(135deg, #667eea 0%, #764ba2 100%)",
    "linear-gradient(135deg, #f093fb 0%, #f5576c 100%)",
    "linear-gradient(135deg, #4facfe 0%, #00f2fe 100%)",
    "linear-gradient(135deg, #43e97b 0%, #38f9d7 100%)",
    "linear-gradient(135deg, #fa709a 0%, #fee140 100%)",
    "linear-gradient(135deg, #a8edea 0%, #fed6e3 100%)",
    "linear-gradient(135deg, #ff9a9e 0%, #fecfef 100%)",
    "linear-gradient(135deg, #ffecd2 0%, #fcb69f 100%)"]

  // ------------------------------------------------------------ digit runs

  /** Drops the characters before the first ASCII digit. */
  function SkipNonDigits(s: string): (r: string)
    ensures |r| <= |s| && r == s[|s| - |r|..]
    ensures |r| > 0 ==> IsDigit(r[0])
    ensures forall i :: 0 <= i < |s| - |r| ==> !IsDigit(s[i])
  {
    if |s| == 0 || IsDigit(s[0]) then s else SkipNonDigits(s[1..])
  }

  /** `s.match(/\d+/g)`: the maximal runs of ASCII digits, left to right (the
      empty list stands for the `null` of no match). */
  function DigitRuns(s: string): seq<string>
    decreases |s|
  {
    var t := SkipNonDigits(s);
    if |t| == 0 then []
    else
      var n := DigitPrefix(t);
      assert n > 0;
      [t[..n]] + DigitRuns(t[n..])
  }

  lemma {:induction false} SkipPrefix(pre: string, rest: string)
    requires forall i :: 0 <= i < |pre| ==> !IsDigit(pre[i])
    requires |rest| > 0 && IsDigit(rest[0])
    ensures SkipNonDigits(pre + rest) == rest
    decreases |pre|
  {
    if |pre| > 0 {
      assert (pre + rest)[0] == pre[0];
      assert (pre + rest)[1..] == pre[1..] + rest;
      SkipPrefix(pre[1..], rest);
    } else {
      assert pre + rest == rest;
    }
  }

  lemma {:induction false} PrefixOf(d: string, rest: string)
    requires AllDigits(d)
    requires |rest| > 0 ==> !IsDigit(rest[0])
    ensures DigitPrefix(d + rest) == |d|
    decreases |d|
  {
    if |d| == 0 {
      assert d + rest == rest;
    } else {
      assert (d + rest)[0] == d[0];
      assert (d + rest)[1..] == d[1..] + rest;
      PrefixOf(d[1..], rest);
    }
  }

  /** A run of digits between non-digits is the next match. */
  lemma RunsOf(pre: string, d: string, rest: string)
    requires forall i :: 0 <= i < |pre| ==> !IsDigit(pre[i])
    requires |d| > 0 && AllDigits(d)
    requires |rest| > 0 ==> !IsDigit(rest[0])
    ensures DigitRuns(pre + d + rest) == [d] + DigitRuns(rest)
  {
    var t := d + rest;
    assert pre + d + rest == pre + t;
    assert t[0] == d[0];
    SkipPrefix(pre, t);
    PrefixOf(d, rest);
    assert t[..|d|] == d && t[|d|..] == rest;
  }

  // ------------------------------------------------------------ hex pairs

  /** `x.toString(16).padStart(2, '0')`. */
  function Hex2(n: nat): string {
    PadStart(ToBase(n, 16), 2, '0')
  }

  lemma {:induction false} HexDigitsOf(n: nat)
    ensures forall i :: 0 <= i < |ToBase(n, 16)| ==> IsHexDigit(ToBase(n, 16)[i])
    decreases n
  {
    if n >= 16 {
      HexDigitsOf(n / 16);
    }
  }

  /** A colour channel prints as exactly two hex digits that read back as the channel. */
  lemma Hex2Channel(n: nat)
    requires n < 256
    ensures |Hex2(n)| == 2
    ensures forall i :: 0 <= i < 2 ==> IsHexDigit(Hex2(n)[i])
    ensures ParseBase(Hex2(n), 16) == n
  {
    ToBaseShort(n, 16);
    HexDigitsOf(n);
    ParseToBase(n, 16);
    var t := ToBase(n, 16);
    if |t| == 1 {
      assert Hex2(n) == ['0'] + t;
      ParseLeadingZero(t, 16);
    }
  }

  // --------------------------------------------------------- the hex shown

  /** `extractHexFromValue(v)`: a `#` value as it is; an `rgb…` value with three
      digit runs as `#` and the first three runs in two-digit hex; else white. */
  function ExtractHex(v: string): (r: string)
    ensures StartsWith(v, "#") ==> r == v
    ensures !StartsWith(v, "#") && !(StartsWith(v, "rgb") && |DigitRuns(v)| >= 3) ==> r == "#ffffff"
  {
    if StartsWith(v, "#") then v
    else if StartsWith(v, "rgb") && |DigitRuns(v)| >= 3 then
      var runs := DigitRuns(v);
      "#" + Hex2(ParseBase(runs[0], 10)) + Hex2(ParseBase(runs[1], 10)) + Hex2(ParseBase(runs[2], 10))
    else "#ffffff"
  }

  function Channels(r: nat, g: nat, b: nat): string {
    "#" + Hex2(r) + Hex2(g) + Hex2(b)
  }

  /** The three channels are the three pairs of the result. */
  lemma ChannelsRead(r: nat, g: nat, b: nat)
    requires r < 256 && g < 256 && b < 256
    ensures IsHexColor(Channels(r, g, b))
    ensures ParseBase(Channels(r, g, b)[1..3], 16) == r
    ensures ParseBase(Channels(r, g, b)[3..5], 16) == g
    ensures ParseBase(Channels(r, g, b)[5..7], 16) == b
  {
    Hex2Channel(r);
    Hex2Channel(g);
    Hex2Channel(b);
    var s := Channels(r, g, b);
    assert s[1..3] == Hex2(r) && s[3..5] == Hex2(g) && s[5..7] == Hex2(b);
  }

  function Rgb(r: nat, g: nat, b: nat): string {
    "rgb(" + NatToString(r) + ", " + NatToString(g) + ", " + NatToString(b) + ")"
  }

  lemma DecimalRun(n: nat)
    ensures |NatToString(n)| > 0 && AllDigits(NatToString(n))
    ensures ParseBase(NatToString(n), 10) == n
  {
    ToBaseDigits(n, 10);
    ParseToBase(n, 10);
  }

  lemma NoRunsAfter()
    ensures DigitRuns(")") == []
  {
  }

  lemma LastRun(B: string)
    requires |B| > 0 && AllDigits(B)
    ensures DigitRuns(", " + B + ")") == [B]
  {
    RunsOf(", ", B, ")");
    NoRunsAfter();
  }

  lemma NextRun(pre: string, d: string, rest: string)
    requires pre == ", " || pre == "rgb("
    requires |d| > 0 && AllDigits(d)
    requires |rest| > 0 && rest[0] == ','
    ensures DigitRuns(pre + d + rest) == [d] + DigitRuns(rest)
  {
    RunsOf(pre, d, rest);
  }

  lemma Regroup(a: string, R: string, b: string, G: string, c: string, B: string, d: string)
    ensures a + R + b + G + c + B + d == a + R + (b + G + (c + B + d))
  {
  }

  /** The digit runs of `rgb(R, G, B)` are the three numbers. */
  lemma RgbRuns(R: string, G: string, B: string)
    requires |R| > 0 && AllDigits(R) && |G| > 0 && AllDigits(G) && |B| > 0 && AllDigits(B)
    ensures DigitRuns("rgb(" + R + ", " + G + ", " + B + ")") == [R, G, B]
  {
    var s3 := ", " + B + ")";
    var s2 := ", " + G + s3;
    assert s3[0] == ',' && s2[0] == ',';
    LastRun(B);
    NextRun(", ", G, s3);
    NextRun("rgb(", R, s2);
    Regroup("rgb(", R, ", ", G, ", ", B, ")");
  }

  lemma RgbPrefix(R: string, G: string, B: string)
    ensures StartsWith("rgb(" + R + ", " + G + ", " + B + ")", "rgb")
    ensures !StartsWith("rgb(" + R + ", " + G + ", " + B + ")", "#")
  {
    var s := "rgb(" + R + ", " + G + ", " + B + ")";
    assert s[..3] == "rgb" && s[0] == 'r';
  }

  /** `rgb(r, g, b)` with channels below 256 converts to the hex colour of those
      channels, one the hex input accepts. */
  lemma RgbToHex(r: nat, g: nat, b: nat)
    requires r < 256 && g < 256 && b < 256
    ensures ExtractHex(Rgb(r, g, b)) == Channels(r, g, b)
    ensures IsHexColor(ExtractHex(Rgb(r, g, b)))
  {
    DecimalRun(r);
    DecimalRun(g);
    DecimalRun(b);
    RgbRuns(NatToString(r), NatToString(g), NatToString(b));
    RgbPrefix(NatToString(r), NatToString(g), NatToString(b));
    ChannelsRead(r, g, b);
  }

  predicate AllHex(cs: seq<string>) {
    forall i :: 0 <= i < |cs| ==> IsHexColor(cs[i])
  }

  lemma GraysHex() ensures AllHex(Grays) {}
  lemma BluesHex() ensures AllHex(Blues) {}
  lemma GreensHex() ensures AllHex(Greens) {}
  lemma RedsHex() ensures AllHex(Reds) {}
  lemma YellowsHex() ensures AllHex(Yellows) {}
  lemma PurplesHex() ensures AllHex(Purples) {}

  lemma AllHexAppend(a: seq<string>, b: seq<string>)
    requires AllHex(a) && AllHex(b)
    ensures AllHex(a + b)
  {
  }

  /** There are 62 solid presets and each passes the hex validation. */
  lemma PresetsAreHex()
    ensures |Presets| == 62
    ensures forall c :: c in Presets ==> IsHexColor(c)
  {
    GraysHex(); BluesHex(); GreensHex(); RedsHex(); YellowsHex(); PurplesHex();
    AllHexAppend(Grays, Blues);
    AllHexAppend(Grays + Blues, Greens);
    AllHexAppend(Grays + Blues + Greens, Reds);
    AllHexAppend(Grays + Blues + Greens + Reds, Yellows);
    AllHexAppend(Grays + Blues + Greens + Reds + Yellows, Purples);
  }

  // --------------------------------------------------------- picker state

  /** The picker's state: the colour it currently shows. */
  datatype Picker = Picker(current: string)

  /** The picker opens on its value, or white for an empty value. */
  function Open(value: string): (p: Picker)
    ensures value != "" ==> p.current == value
    ensures value == "" ==> p.current == "#ffffff"
  {
    Picker(if value != "" then value else "#ffffff")
  }

  datatype Event =
    | Choose(color: string)   // a swatch, a gradient, or the native colour input
    | HexTyped(text: string)  // the hex text box
    | CustomTyped(text: string)
    | CustomBlur
    | Transparent
    | Clear

  /** One event: the new state and the colour emitted through `onChange`, if any. */
  function Step(p: Picker, ev: Event): (r: (Picker, Option<string>))
    ensures r.1.Some? ==> r.0.current == r.1.value
    ensures ev.HexTyped? ==> (r.1.Some? <==> IsHexColor(ev.text))
    ensures ev.HexTyped? && !IsHexColor(ev.text) ==> r.0 == p
    ensures ev.CustomTyped? ==> r.1.None? && r.0.current == ev.text
    ensures ev.CustomBlur? ==> r == (p, Some(p.current))
    ensures ev.Transparent? ==> r.1 == Some("transparent")
    ensures ev.Clear? ==> r.1 == Some("")
    ensures ev.Choose? ==> r.1 == Some(ev.color)
  {
    match ev
    case Choose(c) => (Picker(c), Some(c))
    case HexTyped(t) => if IsHexColor(t) then (Picker(t), Some(t)) else (p, None)
    case CustomTyped(t) => (Picker(t), None)
    case CustomBlur => (p, Some(p.current))
    case Transparent => (Picker("transparent"), Some("transparent"))
    case Clear => (Picker(""), Some(""))
  }

  /** The text the hex box shows for the current colour. */
  function HexBoxText(p: Picker): (r: string)
    ensures StartsWith(p.current, "#") ==> r == p.current
    ensures !StartsWith(p.current, "#") ==> r == "#ffffff"
  {
    if StartsWith(p.current, "#") then p.current else "#ffffff"
  }

  /** A valid hex typed into the box is what the box then shows, and the colour
      input shows it too. */
  lemma HexTypedShows(p: Picker, t: string)
    requires IsHexColor(t)
    ensures HexBoxText(Step(p, HexTyped(t)).0) == t
    ensures ExtractHex(Step(p, HexTyped(t)).0.current) == t
  {
  }
}

=== FILE: data_store.dfy ===
/** The server-side, in-memory page store behind the API routes. The list of
    pages is passed in and returned; generated ids and the clock are parameters. */
module DataStore {
  import opened Wrappers
  import opened Text
  import opened Types
  import opened Seqs
  import opened PageList
  import opened Editor

  /** `getPages(userId)`: the user's pages, in store order. */
  function GetPages(pages: seq<Page>, userId: string): (r: seq<Page>)
    ensures forall p :: p in r <==> p in pages && p.userId == userId
    ensures Subsequence(r, pages)
  {
    OwnedByOrdered(pages, userId);
    OwnedBy(pages, userId)
  }

  /** The fields of a new page. `id` is present only when an untyped caller
      passes a record that has one, as the page route does with its request body. */
  datatype NewPage = NewPage(
    id: Option<string>,
    userId: string,
    title: string,
    slug: string,
    sections: seq<Section>,
    isPublished: bool,
    seoTitle: Option<string>,
    seoDescription: Option<string>,
    customCss: Option<string>,
    customJs: Option<string>)

  function Build(id: string, d: NewPage, now: int): Page {
    Page(id, d.userId, d.title, d.slug, d.sections, d.isPublished,
      d.seoTitle, d.seoDescription, d.customCss, d.customJs, now, now)
  }

  /** `createPage(pageData)` as written: the generated id comes first in the
      object literal, so an `id` in the data overrides it. */
  function CreatePageSpread(pages: seq<Page>, d: NewPage, newId: string, now: int): (r: (seq<Page>, Page))
    ensures r.1.id == d.id.GetOr(newId)
    ensures r.0 == pages + [r.1]
  {
    var p := Build(d.id.GetOr(newId), d, now);
    (pages + [p], p)
  }

  /** A request that names an existing page's id creates a second page with
      that id, and the id then finds only the older page. */
  lemma SpreadDuplicatesId(pages: seq<Page>, d: NewPage, newId: string, now: int)
    requires d.id.Some? && HasId(pages, d.id.value)
    ensures var r := CreatePageSpread(pages, d, newId, now);
      && !UniqueIds(r.0)
      && r.1.id == d.id.value
      && Find(r.0, d.id.value) == Find(pages, d.id.value)
  {
    var r := CreatePageSpread(pages, d, newId, now);
    var k :| 0 <= k < |pages| && pages[k].id == d.id.value;
    assert r.0[k].id == r.0[|pages|].id;
    IndexOfPrefix(pages, r.0, d.id.value);
  }

  /** `createPage(pageData)`, with the generated id always used. */
  function CreatePage(pages: seq<Page>, d: NewPage, newId: string, now: int): (r: (seq<Page>, Page))
    ensures r.0 == pages + [r.1] && |r.0| == |pages| + 1
    ensures r.1.id == newId && r.1.createdAt == now && r.1.updatedAt == now
    ensures r.1.title == d.title && r.1.slug == d.slug && r.1.userId == d.userId && r.1.sections == d.sections
    ensures !HasId(pages, newId) ==> Find(r.0, newId) == Some(r.1)
    ensures UniqueIds(pages) && !HasId(pages, newId) ==> UniqueIds(r.0)
  {
    var p := Build(newId, d, now);
    var ps := pages + [p];
    if !HasId(pages, newId) then
      IndexOfSame(pages, ps, newId, |pages|);
      (ps, p)
    else (ps, p)
  }

  /** Whatever an untyped caller passes, the page keeps its fresh id and the
      ids stay unique. */
  lemma CreateKeepsIdsUnique(pages: seq<Page>, d: NewPage, newId: string, now: int)
    requires UniqueIds(pages) && !HasId(pages, newId)
    ensures UniqueIds(CreatePage(pages, d, newId, now).0)
    ensures CreatePage(pages, d, newId, now).1 == CreatePageSpread(pages, d.(id := None), newId, now).1
  {
  }

  /** The keys of a `Partial<Page>` update. An optional field can be set to
      a value or explicitly to `undefined`, hence the nested Option. */
  datatype Patch = Patch(
    id: Option<string>,
    userId: Option<string>,
    title: Option<string>,
    slug: Option<string>,
    sections: Option<seq<Section>>,
    isPublished: Option<bool>,
    seoTitle: Option<Option<string>>,
    seoDescription: Option<Option<string>>,
    customCss: Option<Option<string>>,
    customJs: Option<Option<string>>,
    createdAt: Option<int>)

  const NoChange := Patch(None, None, None, None, None, None, None, None, None, None, None)

  function Pick<T>(u: Option<T>, old_: T): T {
    if u.Some? then u.value else old_
  }

  /** `{ ...page, ...updates, updatedAt: now }`. */
  function Merge(p: Page, u: Patch, now: int): (r: Page)
    ensures r.updatedAt == now
    ensures u.id.Some? ==> r.id == u.id.value
    ensures u.id.None? ==> r.id == p.id
    ensures u.userId.Some? ==> r.userId == u.userId.value
    ensures u.userId.None? ==> r.userId == p.userId
    ensures u.title.Some? ==> r.title == u.title.value
    ensures u.title.None? ==> r.title == p.title
    ensures u.slug.Some? ==> r.slug == u.slug.value
    ensures u.slug.None? ==> r.slug == p.slug
    ensures u.sections.Some? ==> r.sections == u.sections.value
    ensures u.sections.None? ==> r.sections == p.sections
    ensures u.isPublished.Some? ==> r.isPublished == u.isPublished.value
    ensures u.isPublished.None? ==> r.isPublished == p.isPublished
    ensures u.seoTitle.Some? ==> r.seoTitle == u.seoTitle.value
    ensures u.seoTitle.None? ==> r.seoTitle == p.seoTitle
    ensures u.seoDescription.Some? ==> r.seoDescription == u.seoDescription.value
    ensures u.seoDescription.None? ==> r.seoDescription == p.seoDescription
    ensures u.customCss.Some? ==> r.customCss == u.customCss.value
    ensures u.customCss.None? ==> r.customCss == p.customCss
    ensures u.customJs.Some? ==> r.customJs == u.customJs.value
    ensures u.customJs.None? ==> r.customJs == p.customJs
    ensures u.createdAt.Some? ==> r.createdAt == u.createdAt.value
    ensures u.createdAt.None? ==> r.createdAt == p.createdAt
    ensures u == NoChange ==> r == p.(updatedAt := now)
  {
    Page(Pick(u.id, p.id), Pick(u.userId, p.userId), Pick(u.title, p.title), Pick(u.slug, p.slug),
      Pick(u.sections, p.sections), Pick(u.isPublished, p.isPublished),
      Pick(u.seoTitle, p.seoTitle), Pick(u.seoDescription, p.seoDescription),
      Pick(u.customCss, p.customCss), Pick(u.customJs, p.customJs),
      Pick(u.createdAt, p.createdAt), now)
  }

  /** `updatePage(id, updates)`: null for an unknown id, else the first page
      with the id merged with the update, in place. */
  function UpdatePage(pages: seq<Page>, id: string, u: Patch, now: int): (r: (seq<Page>, Option<Page>))
    ensures r.1.None? <==> !HasId(pages, id)
    ensures r.1.None? ==> r.0 == pages
    ensures r.1.Some? ==>
      var k := IndexOf(pages, id).value;
      && r.1.value == Merge(pages[k], u, now)
      && |r.0| == |pages| && r.0[k] == r.1.value
      && forall i :: 0 <= i < |pages| && i != k ==> r.0[i] == pages[i]
  {
    match IndexOf(pages, id)
    case None => (pages, None)
    case Some(k) =>
      var p := Merge(pages[k], u, now);
      (pages[k := p], Some(p))
  }

  /** An update that keeps the id is found again under it, as the page that
      was there merged with the update. */
  lemma UpdateThenFind(pages: seq<Page>, id: string, u: Patch, now: int)
    requires HasId(pages, id) && (u.id.None? || u.id == Some(id))
    ensures Find(UpdatePage(pages, id, u, now).0, id) == UpdatePage(pages, id, u, now).1
    ensures Find(UpdatePage(pages, id, u, now).0, id) == Some(Merge(Find(pages, id).value, u, now))
  {
    var k := IndexOf(pages, id).value;
    var r := UpdatePage(pages, id, u, now);
    IndexOfSame(pages, r.0, id, k);
  }

  /** Two stores whose pages carry the same ids, place by place, find an id
      at the same place. */
  lemma IndexOfSameIds(a: seq<Page>, b: seq<Page>, j: string)
    requires |a| == |b| && forall i :: 0 <= i < |a| ==> a[i].id == b[i].id
    ensures IndexOf(a, j) == IndexOf(b, j)
  {
    match IndexOf(a, j)
    case None =>
    case Some(k) => IndexOfSame(a, b, j, k);
  }

  /** An update that keeps the id changes what no other id finds. */
  lemma UpdateKeepsOthers(pages: seq<Page>, id: string, u: Patch, now: int, j: string)
    requires u.id.None? || u.id == Some(id)
    requires j != id
    ensures Find(UpdatePage(pages, id, u, now).0, j) == Find(pages, j)
  {
    var r := UpdatePage(pages, id, u, now);
    if r.1.Some? {
      IndexOfSameIds(pages, r.0, j);
    }
  }

  /** `deletePage(id)`: false for an unknown id, else the first page with the
      id is spliced out. */
  function DeletePage(pages: seq<Page>, id: string): (r: (seq<Page>, bool))
    ensures r.1 <==> HasId(pages, id)
    ensures !r.1 ==> r.0 == pages
    ensures r.1 ==> |r.0| == |pages| - 1
    ensures r.1 ==> var k := IndexOf(pages, id).value; r.0 == pages[..k] + pages[k + 1..]
  {
    match IndexOf(pages, id)
    case None => (pages, false)
    case Some(k) => (pages[..k] + pages[k + 1..], true)
  }

  /** Deleting a page just created under a fresh id gives back the store. */
  lemma CreateThenDelete(pages: seq<Page>, d: NewPage, newId: string, now: int)
    requires !HasId(pages, newId)
    ensures DeletePage(CreatePage(pages, d, newId, now).0, newId) == (pages, true)
  {
    var ps := CreatePage(pages, d, newId, now).0;
    IndexOfSame(pages, ps, newId, |pages|);
    assert ps[..|pages|] == pages && ps[|pages| + 1..] == [];
    assert IndexOf(ps, newId) == Some(|pages|);
    assert DeletePage(ps, newId).0 == ps[..|pages|] + ps[|pages| + 1..];
    assert ps[..|pages|] + ps[|pages| + 1..] == pages;
  }

  /** With unique ids, a deleted page is gone for good. */
  lemma DeleteUnique(pages: seq<Page>, id: string)
    requires UniqueIds(pages)
    ensures !HasId(DeletePage(pages, id).0, id) && UniqueIds(DeletePage(pages, id).0)
  {
    if HasId(pages, id) {
      var k := IndexOf(pages, id).value;
      var r := DeletePage(pages, id).0;
      forall i | 0 <= i < |r|
        ensures r[i].id != id
      {
        if i < k { assert r[i] == pages[i]; } else { assert r[i] == pages[i + 1]; }
      }
      forall i, j | 0 <= i < j < |r|
        ensures r[i].id != r[j].id
      {
        var i' := if i < k then i else i + 1;
        var j' := if j < k then j else j + 1;
        assert r[i] == pages[i'] && r[j] == pages[j'];
      }
    }
  }

  /** `duplicatePage(id, userId)`: null for an unknown page or another owner's
      page; otherwise an unpublished copy is appended. */
  function DuplicatePage(pages: seq<Page>, id: string, userId: string, newId: string, now: int): (r: (seq<Page>, Option<Page>))
    ensures r.1.None? <==> !HasId(pages, id) || Find(pages, id).value.userId != userId
    ensures r.1.None? ==> r.0 == pages
    ensures r.1.Some? ==>
      var o := Find(pages, id).value;
      && r.0 == pages + [r.1.value]
      && r.1.value == o.(id := newId, title := o.title + " (Copy)",
           slug := o.slug + "-copy-" + IntToString(now), isPublished := false,
           createdAt := now, updatedAt := now)
  {
    match Find(pages, id)
    case None => (pages, None)
    case Some(o) =>
      if o.userId != userId then (pages, None)
      else
        var dup := o.(id := newId, title := o.title + " (Copy)",
          slug := o.slug + "-copy-" + IntToString(now), isPublished := false,
          createdAt := now, updatedAt := now);
        (pages + [dup], Some(dup))
  }

  /** A copy belongs to the one who asked for it, and it is listed for them. */
  lemma DuplicateOwned(pages: seq<Page>, id: string, userId: string, newId: string, now: int)
    requires DuplicatePage(pages, id, userId, newId, now).1.Some?
    ensures var r := DuplicatePage(pages, id, userId, newId, now);
      r.1.value.userId == userId && r.1.value in GetPages(r.0, userId)
  {
  }

  /** `updatePageSections(pageId, sections)`. */
  function UpdatePageSections(pages: seq<Page>, pageId: string, ss: seq<Section>, now: int): (r: (seq<Page>, Option<Page>))
    ensures r.1.None? <==> !HasId(pages, pageId)
    ensures r.1.Some? ==> r.1.value.sections == ss && r.1.value.id == pageId
    ensures r.1.Some? ==> r.1.value == Find(pages, pageId).value.(sections := ss, updatedAt := now)
  {
    match Find(pages, pageId)
    case None => (pages, None)
    case Some(_) => UpdatePage(pages, pageId, NoChange.(sections := Some(ss)), now)
  }

  /** After the sections are set, the page reads them back under its id, and
      every other id finds what it found before. */
  lemma SectionsThenFind(pages: seq<Page>, pageId: string, ss: seq<Section>, now: int, j: string)
    requires HasId(pages, pageId)
    ensures Find(UpdatePageSections(pages, pageId, ss, now).0, pageId).value.sections == ss
    ensures j != pageId ==> Find(UpdatePageSections(pages, pageId, ss, now).0, j) == Find(pages, j)
  {
    var u := NoChange.(sections := Some(ss));
    UpdateThenFind(pages, pageId, u, now);
    if j != pageId {
      UpdateKeepsOthers(pages, pageId, u, now, j);
    }
  }

  /** `addSectionToPage(pageId, section)`: appended after the page's sections, order as given. */
  function AddSectionToPage(pages: seq<Page>, pageId: string, s: Section, now: int): (r: (seq<Page>, Option<Page>))
    ensures r.1.None? <==> !HasId(pages, pageId)
    ensures r.1.Some? ==> r.1.value.sections == Find(pages, pageId).value.sections + [s]
    ensures r.1.Some? ==> Find(r.0, pageId) == r.1
  {
    match Find(pages, pageId)
    case None => (pages, None)
    case Some(p) =>
      var r := UpdatePage(pages, pageId, NoChange.(sections := Some(p.sections + [s])), now);
      UpdateThenFind(pages, pageId, NoChange.(sections := Some(p.sections + [s])), now);
      r
  }

  /** `removeSectionFromPage(pageId, sectionId)`: the sections with the id are
      filtered out and the others keep their `order` values. */
  function RemoveSectionFromPage(pages: seq<Page>, pageId: string, sectionId: string, now: int): (r: (seq<Page>, Option<Page>))
    ensures r.1.None? <==> !HasId(pages, pageId)
    ensures r.1.Some? ==> r.1.value.sections == RemoveId(Find(pages, pageId).value.sections, sectionId)
    ensures r.1.Some? ==> Find(r.0, pageId) == r.1
  {
    match Find(pages, pageId)
    case None => (pages, None)
    case Some(p) =>
      var r := UpdatePage(pages, pageId, NoChange.(sections := Some(RemoveId(p.sections, sectionId))), now);
      UpdateThenFind(pages, pageId, NoChange.(sections := Some(RemoveId(p.sections, sectionId))), now);
      r
  }

  /** Removing a section just added under an id the page did not use gives
      back the page's sections. */
  lemma AddThenRemove(pages: seq<Page>, pageId: string, s: Section, now: int, later: int)
    requires HasId(pages, pageId)
    requires forall t :: t in Find(pages, pageId).value.sections ==> t.id != s.id
    ensures var added := AddSectionToPage(pages, pageId, s, now).0;
      RemoveSectionFromPage(added, pageId, s.id, later).1.value.sections == Find(pages, pageId).value.sections
  {
    var ss := Find(pages, pageId).value.sections;
    RemoveAppend(ss, s, s.id);
    RemoveAbsent(ss, s.id);
  }

  /** `initializeDemoData()`: an empty store gets the demo user's landing page. */
  function InitializeDemoData(pages: seq<Page>, newId: string, now: int): (r: seq<Page>)
    ensures |pages| > 0 ==> r == pages
    ensures |pages| == 0 ==>
      && |r| == 1 && r[0].userId == "demo-user-1" && r[0].slug == "my-landing-page"
      && r[0].sections == [] && !r[0].isPublished
  {
    if |pages| == 0 then
      CreatePage(pages, NewPage(None, "demo-user-1", "My Landing Page", "my-landing-page", [], false,
        None, None, None, None), newId, now).0
    else pages
  }
}

=== FILE: editor.dfy ===
/** The page builder's editing session: the page being edited, the selected
    section, whether the customization panel is open, and a linear undo
    history with a cursor. Every edit produces a new page, records it in the
    history (dropping any redo tail) and makes it current. */
module Editor {
  import opened Wrappers
  import opened Js
  import opened Types
  import opened Seqs
  import opened Ordering
  import opened Catalogue
  import opened Slugs

  datatype Editor = Editor(
    page: Page,
    selected: Option<string>,
    customizing: bool,
    history: seq<Page>,
    cursor: nat)

  /** The history invariant: the cursor points into the history at the page shown. */
  predicate Valid(e: Editor) {
    e.cursor < |e.history| && e.history[e.cursor] == e.page
  }

  /** The page created when there is nothing to load. */
  function BlankPage(id: string, now: int): (p: Page)
    ensures p.id == id && p.userId == "demo" && p.title == "New Page" && p.slug == "new-page"
    ensures p.sections == [] && !p.isPublished && p.createdAt == now && p.updatedAt == now
  {
    Page(id, "demo", "New Page", "new-page", [], false, None, None, None, None, now, now)
  }

  /** `loadPage(page)`; `None` stands for `null` and starts a blank page. The
      history restarts with the loaded page; the selection is cleared and the
      panel closed. The same state is the one the builder starts in. */
  function LoadPage(page: Option<Page>, id: string, now: int): (r: Editor)
    ensures Valid(r) && r.history == [r.page] && r.cursor == 0
    ensures r.page == if page.Some? then page.value else BlankPage(id, now)
    ensures r.selected.None? && !r.customizing
  {
    var p := if page.Some? then page.value else BlankPage(id, now);
    Editor(p, None, false, [p], 0)
  }

  /** `setCurrentPage(p); addToHistory(p)`: keep the history up to the cursor,
      append `p` and point at it. */
  function Commit(e: Editor, p: Page): (r: Editor)
    ensures Valid(r) && r.page == p
    ensures e.cursor < |e.history| ==> r.history == e.history[..e.cursor + 1] + [p] && r.cursor == e.cursor + 1
    ensures r.selected == e.selected && r.customizing == e.customizing
  {
    var kept := if e.cursor + 1 <= |e.history| then e.history[..e.cursor + 1] else e.history;
    e.(page := p, history := kept + [p], cursor := |kept|)
  }

  /** Undo: step the cursor back and show that snapshot, if there is one. */
  function Undo(e: Editor): (r: Editor)
    requires Valid(e)
    ensures Valid(r) && r.history == e.history
    ensures e.cursor > 0 ==> r.cursor == e.cursor - 1
    ensures e.cursor == 0 ==> r == e
    ensures r.selected == e.selected && r.customizing == e.customizing
  {
    if e.cursor > 0 then e.(cursor := e.cursor - 1, page := e.history[e.cursor - 1]) else e
  }

  /** Redo: step the cursor forward and show that snapshot, if there is one. */
  function Redo(e: Editor): (r: Editor)
    requires Valid(e)
    ensures Valid(r) && r.history == e.history
    ensures e.cursor < |e.history| - 1 ==> r.cursor == e.cursor + 1
    ensures e.cursor == |e.history| - 1 ==> r == e
    ensures r.selected == e.selected && r.customizing == e.customizing
  {
    if e.cursor < |e.history| - 1 then e.(cursor := e.cursor + 1, page := e.history[e.cursor + 1]) else e
  }

  /** Redo undoes an undo, and undo undoes a redo. */
  lemma UndoRedo(e: Editor)
    requires Valid(e)
    ensures e.cursor > 0 ==> Redo(Undo(e)) == e
    ensures e.cursor < |e.history| - 1 ==> Undo(Redo(e)) == e
  {
  }

  /** After an edit there is nothing to redo, and undo brings back the page
      shown before the edit. */
  lemma CommitThenUndo(e: Editor, p: Page)
    requires Valid(e)
    ensures Redo(Commit(e, p)) == Commit(e, p)
    ensures Undo(Commit(e, p)).page == e.page
    ensures Undo(Commit(e, p)).cursor == e.cursor
  {
  }

  /** The page after a section edit: new sections and a fresh `updatedAt`. */
  function Edited(p: Page, sections: seq<Section>, now: int): Page {
    p.(sections := sections, updatedAt := now)
  }

  // ------------------------------------------------------------------ add

  /** `addSection(type, variantId)`: a variant the catalogue does not offer for
      the type changes nothing. Otherwise a section with the variant's (empty)
      defaults is appended with `order` = the previous section count, selected,
      and the panel opens. */
  function AddSection(e: Editor, t: SectionType, variantId: string, newId: string, now: int): (r: Editor)
    ensures FindVariant(t, variantId).None? ==> r == e
    ensures FindVariant(t, variantId).Some? ==> |r.page.sections| == |e.page.sections| + 1
    ensures FindVariant(t, variantId).Some? ==>
      var ss := e.page.sections;
      var s := r.page.sections[|ss|];
      && r.page.sections[..|ss|] == ss
      && s.id == newId && s.kind == TypeName(t) && s.variant == variantId
      && s.order == |ss| && s.content == map[] && s.styles == NoStyles
      && r.page == Edited(e.page, r.page.sections, now)
      && r.selected == Some(newId) && r.customizing
      && Valid(r)
      && (Dense(ss) ==> Dense(r.page.sections))
  {
    match FindVariant(t, variantId)
    case None => e
    case Some(v) =>
      VariantsShape(t);
      var ss := e.page.sections;
      var s := Section(newId, TypeName(t), variantId, v.defaultContent, v.defaultStyles, |ss|);
      assert (ss + [s])[..|ss|] == ss;
      Commit(e, Edited(e.page, ss + [s], now)).(selected := Some(newId), customizing := true)
  }

  // --------------------------------------------------------------- update

  /** `Partial<Section>`: the fields an update sets. */
  datatype SectionPatch = SectionPatch(
    id: Option<string>,
    kind: Option<string>,
    variant: Option<string>,
    content: Option<Content>,
    styles: Option<SectionStyles>,
    order: Option<int>)

  /** `{ ...section, ...updates }`. */
  function Apply(s: Section, u: SectionPatch): (r: Section)
    ensures u.id.Some? ==> r.id == u.id.value
    ensures u.id.None? ==> r.id == s.id
    ensures u.kind.Some? ==> r.kind == u.kind.value
    ensures u.kind.None? ==> r.kind == s.kind
    ensures u.variant.Some? ==> r.variant == u.variant.value
    ensures u.variant.None? ==> r.variant == s.variant
    ensures u.content.Some? ==> r.content == u.content.value
    ensures u.content.None? ==> r.content == s.content
    ensures u.styles.Some? ==> r.styles == u.styles.value
    ensures u.styles.None? ==> r.styles == s.styles
    ensures u.order.Some? ==> r.order == u.order.value
    ensures u.order.None? ==> r.order == s.order
  {
    Section(
      u.id.GetOr(s.id), u.kind.GetOr(s.kind), u.variant.GetOr(s.variant),
      u.content.GetOr(s.content), u.styles.GetOr(s.styles), u.order.GetOr(s.order))
  }

  function MapMatching(ss: seq<Section>, id: string, u: SectionPatch): (r: seq<Section>)
    ensures |r| == |ss|
    ensures forall i :: 0 <= i < |ss| ==> r[i] == if ss[i].id == id then Apply(ss[i], u) else ss[i]
  {
    seq(|ss|, i requires 0 <= i < |ss| => if ss[i].id == id then Apply(ss[i], u) else ss[i])
  }

  /** `updateSection(id, updates)`: every section with that id is merged with the
      update, the others are kept; the edit is recorded even when no section matches. */
  function UpdateSection(e: Editor, id: string, u: SectionPatch, now: int): (r: Editor)
    ensures Valid(r) && r.page == Edited(e.page, r.page.sections, now)
    ensures |r.page.sections| == |e.page.sections|
    ensures forall i :: 0 <= i < |e.page.sections| && e.page.sections[i].id != id ==>
      r.page.sections[i] == e.page.sections[i]
    ensures forall i :: 0 <= i < |e.page.sections| && e.page.sections[i].id == id ==>
      r.page.sections[i] == Apply(e.page.sections[i], u)
    ensures (forall s :: s in e.page.sections ==> s.id != id) ==> r.page.sections == e.page.sections
    ensures e.cursor < |e.history| ==> |r.history| == e.cursor + 2
    ensures u.order.None? && Dense(e.page.sections) ==> Dense(r.page.sections)
    ensures r.selected == e.selected && r.customizing == e.customizing
  {
    Commit(e, Edited(e.page, MapMatching(e.page.sections, id, u), now))
  }

  /** An update that keeps the id is found again at the same place, and that
      section reads back the content and styles the update set. */
  lemma UpdateReadsBack(e: Editor, id: string, u: SectionPatch, now: int)
    requires u.id.None? || u.id == Some(id)
    requires FindById(e.page.sections, id).Some?
    ensures var k := FindById(e.page.sections, id).value;
      var out := UpdateSection(e, id, u, now).page.sections;
      && FindById(out, id) == Some(k)
      && (u.content.Some? ==> out[k].content == u.content.value)
      && (u.styles.Some? ==> out[k].styles == u.styles.value)
      && out[k].kind == u.kind.GetOr(e.page.sections[k].kind)
  {
    var ss := e.page.sections;
    var k := FindById(ss, id).value;
    var out := UpdateSection(e, id, u, now).page.sections;
    assert out[k] == Apply(ss[k], u);
    forall j | 0 <= j < k
      ensures out[j].id != id
    {
      assert out[j] == ss[j];
    }
    FindByIdAt(out, id, k);
  }

  /** The first section carrying the id is the one `findIndex` reports. */
  lemma {:induction false} FindByIdAt(ss: seq<Section>, id: string, k: nat)
    requires k < |ss| && ss[k].id == id
    requires forall j :: 0 <= j < k ==> ss[j].id != id
    ensures FindById(ss, id) == Some(k)
  {
    if k > 0 {
      FindByIdAt(ss[1..], id, k - 1);
    }
  }

  // --------------------------------------------------------------- delete

  function RemoveId(ss: seq<Section>, id: string): (r: seq<Section>)
    ensures Subsequence(r, ss)
    ensures forall s :: s in r <==> s in ss && s.id != id
  {
    if |ss| == 0 then []
    else if ss[0].id == id then RemoveId(ss[1..], id)
    else [ss[0]] + RemoveId(ss[1..], id)
  }

  /** `deleteSection(id)`: drops every section with the id, renumbers the rest
      0..n-1 in their previous order, clears the selection and closes the panel. */
  function DeleteSection(e: Editor, id: string, now: int): (r: Editor)
    ensures Valid(r) && r.page == Edited(e.page, r.page.sections, now)
    ensures r.page.sections == Renumber(RemoveId(e.page.sections, id))
    ensures Dense(r.page.sections)
    ensures forall s :: s in r.page.sections ==> s.id != id
    ensures r.selected.None? && !r.customizing
  {
    var ss := Renumber(RemoveId(e.page.sections, id));
    assert forall i :: 0 <= i < |ss| ==> ss[i].id != id by {
      var kept := RemoveId(e.page.sections, id);
      forall i | 0 <= i < |ss|
        ensures ss[i].id != id
      {
        assert kept[i] in kept;
      }
    }
    Commit(e, Edited(e.page, ss, now)).(selected := None, customizing := false)
  }

  lemma {:induction false} RemoveAbsent(ss: seq<Section>, id: string)
    requires forall s :: s in ss ==> s.id != id
    ensures RemoveId(ss, id) == ss
  {
    if |ss| > 0 {
      assert ss[0] in ss;
      RemoveAbsent(ss[1..], id);
      assert [ss[0]] + ss[1..] == ss;
    }
  }

  /** Deleting a section that was just added restores the sections of a dense
      page, as long as the new id was not already in use. */
  lemma DeleteAfterAdd(e: Editor, t: SectionType, variantId: string, newId: string, now: int, later: int)
    requires Dense(e.page.sections)
    requires forall s :: s in e.page.sections ==> s.id != newId
    requires FindVariant(t, variantId).Some?
    ensures DeleteSection(AddSection(e, t, variantId, newId, now), newId, later).page.sections == e.page.sections
  {
    var ss := e.page.sections;
    var added := AddSection(e, t, variantId, newId, now).page.sections;
    assert added == ss + [added[|ss|]];
    RemoveAbsent(ss, newId);
    assert RemoveId(added, newId) == ss by {
      RemoveAppend(ss, added[|ss|], newId);
    }
    RenumberDense(ss);
  }

  lemma {:induction false} RemoveAppend(ss: seq<Section>, s: Section, id: string)
    requires s.id == id
    ensures RemoveId(ss + [s], id) == RemoveId(ss, id)
  {
    if |ss| == 0 {
      assert [s][1..] == [];
    } else {
      assert (ss + [s])[1..] == ss[1..] + [s];
      RemoveAppend(ss[1..], s, id);
    }
  }

  // ------------------------------------------------------------ duplicate

  /** `sections.find(s => s.id === id)`, with its position. */
  function FindById(ss: seq<Section>, id: string): (r: Option<nat>)
    ensures r.Some? ==> r.value < |ss| && ss[r.value].id == id
    ensures r.Some? ==> forall j :: 0 <= j < r.value ==> ss[j].id != id
    ensures r.None? ==> forall s :: s in ss ==> s.id != id
  {
    if |ss| == 0 then None
    else if ss[0].id == id then Some(0)
    else match FindById(ss[1..], id)
      case None => None
      case Some(k) => Some(k + 1)
  }

  function Shift(ss: seq<Section>): (r: seq<Section>)
    ensures |r| == |ss|
    ensures forall i :: 0 <= i < |ss| ==> r[i] == ss[i].(order := ss[i].order + 1)
  {
    seq(|ss|, i requires 0 <= i < |ss| => ss[i].(order := ss[i].order + 1))
  }

  /** `duplicateSection(id)` as written: the copy of the first match gets a new id
      and `order + 1`, and it is spliced in at index `order + 1` (clamped as
      `slice` clamps), with every later section's order raised by one. An
      unknown id changes nothing. */
  function DuplicateSection(e: Editor, id: string, newId: string, now: int): (r: Editor)
    ensures FindById(e.page.sections, id).None? ==> r == e
    ensures FindById(e.page.sections, id).Some? ==>
      var ss := e.page.sections;
      var orig := ss[FindById(ss, id).value];
      var k := SliceIndex(|ss|, orig.order + 1);
      && r.page.sections == ss[..k] + [orig.(id := newId, order := orig.order + 1)] + Shift(ss[k..])
      && r.page == Edited(e.page, r.page.sections, now)
      && Valid(r) && r.selected == e.selected && r.customizing == e.customizing
  {
    var ss := e.page.sections;
    match FindById(ss, id)
    case None => e
    case Some(i) =>
      var orig := ss[i];
      var copy := orig.(id := newId, order := orig.order + 1);
      var k := SliceIndex(|ss|, orig.order + 1);
      Commit(e, Edited(e.page, ss[..k] + [copy] + Shift(ss[k..]), now))
  }

  /** On a dense page the copy lands right after the original, everything else
      keeps its place, and the page stays dense. */
  lemma DuplicateDense(e: Editor, id: string, newId: string, now: int)
    requires Dense(e.page.sections)
    requires FindById(e.page.sections, id).Some?
    ensures
      var ss := e.page.sections;
      var i := FindById(ss, id).value;
      var out := DuplicateSection(e, id, newId, now).page.sections;
      && |out| == |ss| + 1
      && out[..i + 1] == ss[..i + 1]
      && out[i + 1] == ss[i].(id := newId, order := i + 1)
      && Ids(out[i + 2..]) == Ids(ss[i + 1..])
      && Dense(out)
  {
    var ss := e.page.sections;
    var i := FindById(ss, id).value;
    assert ss[i].order == i;
    assert SliceIndex(|ss|, i + 1) == i + 1;
    var copy := ss[i].(id := newId, order := i + 1);
    var out := DuplicateSection(e, id, newId, now).page.sections;
    assert out == ss[..i + 1] + [copy] + Shift(ss[i + 1..]);
    DenseInsert(ss, i, copy);
  }

  /** Splicing a copy ordered `i + 1` after position `i` of a dense list and
      shifting the rest leaves a dense list with the rest's ids in place. */
  lemma DenseInsert(ss: seq<Section>, i: nat, copy: Section)
    requires Dense(ss) && i < |ss| && copy.order == i + 1
    ensures var out := ss[..i + 1] + [copy] + Shift(ss[i + 1..]);
      && out[i + 2..] == Shift(ss[i + 1..])
      && Ids(out[i + 2..]) == Ids(ss[i + 1..])
      && Dense(out)
  {
    var tail := Shift(ss[i + 1..]);
    var out := ss[..i + 1] + [copy] + tail;
    assert out[i + 2..] == tail;
    forall k | 0 <= k < |out|
      ensures out[k].order == k
    {
      if k > i + 1 {
        assert out[k] == tail[k - i - 2];
      }
    }
    assert Ids(tail) == Ids(ss[i + 1..]);
  }

  /** The evidently intended duplicate: insert the copy directly after the first
      match by position and renumber, so the result is dense whatever the orders were. */
  function DuplicateSectionByPosition(e: Editor, id: string, newId: string, now: int): (r: Editor)
    ensures FindById(e.page.sections, id).None? ==> r == e
    ensures FindById(e.page.sections, id).Some? ==>
      var ss := e.page.sections;
      var i := FindById(ss, id).value;
      var out := r.page.sections;
      && |out| == |ss| + 1 && Dense(out)
      && Ids(out) == Ids(ss[..i + 1]) + [newId] + Ids(ss[i + 1..])
      && out[i + 1] == ss[i].(id := newId, order := i + 1)
      && Valid(r)
  {
    var ss := e.page.sections;
    match FindById(ss, id)
    case None => e
    case Some(i) =>
      var out := Renumber(ss[..i + 1] + [ss[i].(id := newId)] + ss[i + 1..]);
      IdsAppend3(ss[..i + 1], ss[i].(id := newId), ss[i + 1..]);
      Commit(e, Edited(e.page, out, now))
  }

  /** Sections added through the API all carry order 0 unless the request
      says otherwise. On such a page the copy of the second section is spliced
      in before its original, while the corrected duplicate puts it after. */
  lemma DuplicateNonDense(e: Editor, newId: string, now: int)
    requires |e.page.sections| == 2
    requires e.page.sections[0].order == 0 && e.page.sections[1].order == 0
    requires e.page.sections[0].id != e.page.sections[1].id
    ensures var ss := e.page.sections;
      Ids(DuplicateSection(e, ss[1].id, newId, now).page.sections) == [ss[0].id, newId, ss[1].id]
    ensures var ss := e.page.sections;
      Ids(DuplicateSectionByPosition(e, ss[1].id, newId, now).page.sections) == [ss[0].id, ss[1].id, newId]
  {
    var ss := e.page.sections;
    assert FindById(ss, ss[1].id) == Some(1);
    assert SliceIndex(|ss|, 1) == 1;
    var out := DuplicateSection(e, ss[1].id, newId, now).page.sections;
    assert out == ss[..1] + [ss[1].(id := newId, order := 1)] + Shift(ss[1..]);
    assert |out| == 3 && out[0].id == ss[0].id && out[1].id == newId && out[2].id == ss[1].id;
  }

  lemma IdsAppend3(a: seq<Section>, s: Section, b: seq<Section>)
    ensures Ids(a + [s] + b) == Ids(a) + [s.id] + Ids(b)
  {
  }

  // ----------------------------------------------------------------- move

  datatype Direction = Up | Down

  /** `sections.findIndex(s => s.id === id)`, with -1 for "not found". */
  function FindIndex(ss: seq<Section>, id: string): (r: int)
    ensures -1 <= r < |ss|
    ensures r >= 0 ==> ss[r].id == id && forall j :: 0 <= j < r ==> ss[j].id != id
    ensures r == -1 ==> forall s :: s in ss ==> s.id != id
  {
    match FindById(ss, id)
    case None => -1
    case Some(i) => i
  }

  /** Remove the element at `i`, then insert it at `j` (two `splice` calls). */
  function SpliceMove(ss: seq<Section>, i: nat, j: nat): (r: seq<Section>)
    requires i < |ss| && j < |ss|
    requires j == i + 1 || i == j + 1
    ensures |r| == |ss|
    ensures r == ss[i := ss[j]][j := ss[i]]
  {
    var rest := ss[..i] + ss[i + 1..];
    rest[..j] + [ss[i]] + rest[j..]
  }

  /** `moveSection(id, direction)`: an unknown id, moving the first section up or
      the last down change nothing; otherwise the section trades places with its
      neighbour and all orders are renumbered. */
  function MoveSection(e: Editor, id: string, dir: Direction, now: int): (r: Editor)
    ensures
      var ss := e.page.sections;
      var i := FindIndex(ss, id);
      var j := if dir == Up then i - 1 else i + 1;
      && (i == -1 || j < 0 || j >= |ss| ==> r == e)
      && (i != -1 && 0 <= j < |ss| ==>
            r.page.sections == Renumber(ss[i := ss[j]][j := ss[i]])
            && r.page == Edited(e.page, r.page.sections, now)
            && Valid(r) && r.selected == e.selected && r.customizing == e.customizing)
  {
    var ss := e.page.sections;
    var i := FindIndex(ss, id);
    if i == -1 then e
    else
      var j := if dir == Up then i - 1 else i + 1;
      if j < 0 || j >= |ss| then e
      else Commit(e, Edited(e.page, Renumber(SpliceMove(ss, i, j)), now))
  }

  /** On a dense page with distinct ids, moving a section down and then up again
      restores the sections. */
  lemma MoveDownUp(e: Editor, id: string, now: int, later: int)
    requires Dense(e.page.sections)
    requires forall a, b :: 0 <= a < b < |e.page.sections| ==> e.page.sections[a].id != e.page.sections[b].id
    requires 0 <= FindIndex(e.page.sections, id) < |e.page.sections| - 1
    ensures MoveSection(MoveSection(e, id, Down, now), id, Up, later).page.sections == e.page.sections
  {
    var ss := e.page.sections;
    var i := FindIndex(ss, id);
    var e1 := MoveSection(e, id, Down, now);
    var once := e1.page.sections;
    assert once == Renumber(ss[i := ss[i + 1]][i + 1 := ss[i]]);
    SwapFirstIndex(ss, i, once);
    assert FindIndex(once, id) == i + 1;
    SwapBack(ss, i, once);
  }

  lemma SwapFirstIndex(ss: seq<Section>, i: nat, once: seq<Section>)
    requires i + 1 < |ss|
    requires forall a, b :: 0 <= a < b < |ss| ==> ss[a].id != ss[b].id
    requires once == Renumber(ss[i := ss[i + 1]][i + 1 := ss[i]])
    ensures FindIndex(once, ss[i].id) == i + 1
  {
    var id := ss[i].id;
    assert once[i + 1].id == id;
    forall j | 0 <= j < i + 1
      ensures once[j].id != id
    {
    }
  }

  lemma SwapBack(ss: seq<Section>, i: nat, once: seq<Section>)
    requires Dense(ss) && i + 1 < |ss|
    requires once == Renumber(ss[i := ss[i + 1]][i + 1 := ss[i]])
    ensures Renumber(once[i + 1 := once[i]][i := once[i + 1]]) == ss
  {
    var twice := Renumber(once[i + 1 := once[i]][i := once[i + 1]]);
    forall k | 0 <= k < |ss|
      ensures twice[k] == ss[k]
    {
    }
  }

  // ---------------------------------------------------------------- title

  /** `updateTitle(title)`: sets the title verbatim and the slug derived from it. */
  function UpdateTitle(e: Editor, title: string, now: int): (r: Editor)
    ensures Valid(r)
    ensures r.page == e.page.(title := title, slug := TitleSlug(title), updatedAt := now)
    ensures WellFormed(r.page.slug) && r.page.slug != ""
    ensures r.selected == e.selected && r.customizing == e.customizing
  {
    Commit(e, e.page.(title := title, slug := TitleSlug(title), updatedAt := now))
  }
}

=== FILE: exporter.dfy ===
/** The static exporter: one HTML fragment and one CSS block per section, and
    the complete document built from them under the export options. Layout
    whitespace between tags is not reproduced; tags, attributes, text and their
    order are. Content is inserted without escaping, as the exporter does. */
module Exporter {
  import opened Wrappers
  import opened Text
  import opened Js
  import opened Types
  import opened Ordering
  import opened Sections

  /** `ExportOptions`. */
  datatype Options = Options(
    includeImages: bool,
    includeCustomCSS: bool,
    includeCustomJS: bool,
    includeAnalytics: bool,
    optimizeForSEO: bool,
    minifyCode: bool)

  /** The options the dialog opens with. */
  const DefaultOptions := Options(true, true, true, false, true, false)

  /** `cond ? markup : ''`. */
  function When(cond: bool, markup: string): (r: string)
    ensures cond ==> r == markup
    ensures !cond ==> r == ""
  {
    if cond then markup else ""
  }

  /** `a || b` on two property reads. */
  function Either(a: Option<Json>, b: Option<Json>): (r: Option<Json>)
    ensures Truthy(a) ==> r == a
    ensures !Truthy(a) ==> r == b
  {
    if Truthy(a) then a else b
  }

  // ----------------------------------------------------------- list items

  /** `items.map(f).join('')`, failing at the first item `f` throws on. */
  function Each(items: seq<Json>, f: Json -> Result<string, JsError>): (r: Result<string, JsError>)
    ensures r.Ok? <==> forall i :: 0 <= i < |items| ==> f(items[i]).Ok?
    ensures |items| == 0 ==> r == Ok("")
    decreases |items|
  {
    if |items| == 0 then Ok("")
    else
      var head :- f(items[0]);
      var tail :- Each(items[1..], f);
      assert forall i :: 1 <= i < |items| ==> items[i] == items[1..][i - 1];
      Ok(head + tail)
  }

  /** `v.map(...)` on a truthy value: only an array has `map`. */
  function MapJoin(v: Option<Json>, key: string, f: Json -> Result<string, JsError>): (r: Result<string, JsError>)
    requires Truthy(v)
    ensures !v.value.JArr? ==> r == Err(NotAnArray(key))
    ensures v.value.JArr? ==> r == Each(v.value.items, f)
  {
    match v.value
    case JArr(items) => Each(items, f)
    case _ => Err(NotAnArray(key))
  }

  /** `v.key` on a value that is not null: an object's entry, else undefined. */
  function Prop(v: Json, key: string): (r: Option<Json>)
    ensures !v.JNull? ==> Member(Some(v), key) == Ok(r)
  {
    if v.JObj? then Get(v.fields, key) else None
  }

  /** `href="${x.href || '#'}"` and `${x.text || x.label}` of a link-like value;
      reading a property of null or undefined throws. */
  function LinkParts(x: Option<Json>): (r: Result<(string, string), JsError>)
    ensures r.Err? <==> x == None || x == Some(JNull)
    ensures r.Ok? ==> r.value.0 == Show(OrStr(Prop(x.value, "href"), "#"))
    ensures r.Ok? ==> r.value.1 == Show(Either(Prop(x.value, "text"), Prop(x.value, "label")))
  {
    match x
    case None => Err(ReadOfNullish("href"))
    case Some(JNull) => Err(ReadOfNullish("href"))
    case Some(v) => Ok((Show(OrStr(Prop(v, "href"), "#")), Show(Either(Prop(v, "text"), Prop(v, "label")))))
  }

  function ListLink(item: Json): Result<string, JsError> {
    var p :- LinkParts(Some(item));
    Ok("<li><a href=\"" + p.0 + "\">" + p.1 + "</a></li>")
  }

  function Button(x: Option<Json>, cls: string): Result<string, JsError> {
    var p :- LinkParts(x);
    Ok("<a href=\"" + p.0 + "\" class=\"" + cls + "\">" + p.1 + "</a>")
  }

  /** A truthy button field as an anchor; nothing when the field is falsy. A
      truthy value is never null, so this never throws. */
  function OptButton(c: Content, key: string, cls: string): (r: string)
    ensures !Truthy(Get(c, key)) ==> r == ""
    ensures Truthy(Get(c, key)) ==> Button(Get(c, key), cls) == Ok(r)
  {
    if Truthy(Get(c, key)) then
      match Button(Get(c, key), cls)
      case Ok(b) => b
      case Err(_) => ""
    else ""
  }

  function FeatureItem(item: Json): Result<string, JsError> {
    if item.JNull? then Err(ReadOfNullish("icon"))
    else
      var icon, title, description := Prop(item, "icon"), Prop(item, "title"), Prop(item, "description");
      Ok("<div class=\"feature-item\">"
         + When(Truthy(icon), "<div class=\"feature-icon\">" + Show(icon) + "</div>")
         + When(Truthy(title), "<h3>" + Show(title) + "</h3>")
         + When(Truthy(description), "<p>" + Show(description) + "</p>")
         + "</div>")
  }

  function FooterColumn(column: Json): Result<string, JsError> {
    if column.JNull? then Err(ReadOfNullish("title"))
    else
      var title, links := Prop(column, "title"), Prop(column, "links");
      var lis :- if Truthy(links) then MapJoin(links, "links", ListLink) else Ok("");
      Ok("<div class=\"footer-column\">"
         + When(Truthy(title), "<h4>" + Show(title) + "</h4>")
         + When(Truthy(links), "<ul>" + lis + "</ul>")
         + "</div>")
  }

  // ------------------------------------------------------------ fragments

  /** The element a section is exported as. */
  function Element(kind: string): string {
    if kind == "header" then "header" else if kind == "footer" then "footer" else "section"
  }

  /** The class attribute every fragment carries: `section-{type} {variant}`. */
  function ClassAttr(s: Section): string {
    "section-" + s.kind + " " + s.variant
  }

  function Open(s: Section): string {
    "<" + Element(s.kind) + " class=\"" + ClassAttr(s) + "\" data-section-id=\"" + s.id + "\">"
  }

  function Close(s: Section): string {
    "</" + Element(s.kind) + ">"
  }

  /** `${content.key ? `<tag…>${content.key}</tag>` : ''}`. */
  function Markup(c: Content, key: string, open: string, close: string): (r: string)
    ensures !Truthy(Get(c, key)) ==> r == ""
    ensures Truthy(Get(c, key)) ==> r == open + Show(Get(c, key)) + close
  {
    When(Truthy(Get(c, key)), open + Show(Get(c, key)) + close)
  }

  /** The inner markup of each template. */
  function Body(s: Section): Result<string, JsError> {
    var c := s.content;
    if s.kind == "header" then
      var nav := Get(c, "navigation");
      var lis :- if Truthy(nav) then MapJoin(nav, "navigation", ListLink) else Ok("");
      Ok("<nav class=\"container mx-auto px-4\">"
         + Markup(c, "logo", "<div class=\"logo\">", "</div>")
         + When(Truthy(nav), "<ul class=\"nav-menu\">" + lis + "</ul>")
         + OptButton(c, "ctaButton", "cta-button")
         + "</nav>")
    else if s.kind == "hero" then
      Ok(HeroBody(c))
    else if s.kind == "features" then
      var fs := Get(c, "features");
      var items :- if Truthy(fs) then MapJoin(fs, "features", FeatureItem) else Ok("");
      Ok("<div class=\"container mx-auto px-4\">"
         + Markup(c, "title", "<h2>", "</h2>")
         + Markup(c, "description", "<p class=\"section-description\">", "</p>")
         + When(Truthy(fs), "<div class=\"features-grid\">" + items + "</div>")
         + "</div>")
    else if s.kind == "cta" then
      Ok("<div class=\"container mx-auto px-4\">"
         + Markup(c, "title", "<h2>", "</h2>")
         + Markup(c, "description", "<p>", "</p>")
         + OptButton(c, "button", "cta-button")
         + "</div>")
    else if s.kind == "footer" then
      var cols := Get(c, "columns");
      var items :- if Truthy(cols) then MapJoin(cols, "columns", FooterColumn) else Ok("");
      Ok("<div class=\"container mx-auto px-4\">"
         + When(Truthy(cols), "<div class=\"footer-columns\">" + items + "</div>")
         + Markup(c, "copyright", "<div class=\"copyright\">", "</div>")
         + "</div>")
    else
      Ok(GenericBody(c))
  }

  /** The hero template reads `title`, `subtitle`, `description`, `primaryButton`
      and `secondaryButton`. */
  function HeroBody(c: Content): string {
    "<div class=\"container mx-auto px-4\">"
    + Markup(c, "title", "<h1>", "</h1>")
    + Markup(c, "subtitle", "<p class=\"subtitle\">", "</p>")
    + Markup(c, "description", "<p class=\"description\">", "</p>")
    + OptButton(c, "primaryButton", "primary-button")
    + OptButton(c, "secondaryButton", "secondary-button")
    + "</div>"
  }

  /** The template of every type without its own: title and description only. */
  function GenericBody(c: Content): string {
    "<div class=\"container mx-auto px-4\">"
    + Markup(c, "title", "<h2>", "</h2>")
    + Markup(c, "description", "<p>", "</p>")
    + "</div>"
  }

  /** `generateSectionHTML(section)`: the section's element, carrying its type,
      variant and id, around the template's markup. */
  function SectionHtml(s: Section): (r: Result<string, JsError>)
    ensures r.Ok? ==> Body(s).Ok? && r.value == Open(s) + Body(s).value + Close(s)
    ensures r.Err? <==> Body(s).Err?
  {
    var body :- Body(s);
    Ok(Open(s) + body + Close(s))
  }

  /** Only the header, features and footer templates can throw: through a truthy
      list field that is not an array, or a null item in one. */
  lemma OnlyListsThrow(s: Section)
    requires SectionHtml(s).Err?
    ensures s.kind == "header" || s.kind == "features" || s.kind == "footer"
  {
  }

  /** A type without its own template (pricing, for one) gets the generic
      block, never an error. */
  lemma GenericFallback(s: Section)
    requires s.kind !in {"header", "hero", "features", "cta", "footer"}
    ensures SectionHtml(s) == Ok(Open(s) + GenericBody(s.content) + Close(s))
  {
  }

  /** A section with empty content exports as its bare template: no field
      produces markup and nothing throws. */
  lemma EmptyContentBare(s: Section)
    requires s.content == map[]
    ensures SectionHtml(s).Ok?
    ensures s.kind == "hero" ==> SectionHtml(s).value == Open(s) + "<div class=\"container mx-auto px-4\"></div>" + Close(s)
    ensures s.kind == "header" ==> SectionHtml(s).value == Open(s) + "<nav class=\"container mx-auto px-4\"></nav>" + Close(s)
  {
  }

  /** The hero template reads none of the keys the factory's hero content has
      (`headline`, `subheadline`, `cta`, …): a new hero exports as an empty container. */
  lemma FactoryHeroExportsEmpty(now: string)
    ensures HeroBody(TypeContent(Hero, now)) == "<div class=\"container mx-auto px-4\"></div>"
  {
    var c := TypeContent(Hero, now);
    assert "title" !in c && "subtitle" !in c && "description" !in c;
    assert "primaryButton" !in c && "secondaryButton" !in c;
  }

  /** Links default their target to `#` and their text to `label` when `text`
      is falsy. */
  lemma LinkFallbacks(name: string)
    ensures ListLink(JObj(map["label" := JStr(name)])) == Ok("<li><a href=\"#\">" + name + "</a></li>")
    ensures ListLink(JObj(map["text" := JStr(""), "label" := JStr(name), "href" := JStr("")]))
         == Ok("<li><a href=\"#\">" + name + "</a></li>")
  {
    ShowStrings(name, name);
    ShowStrings("#", "#");
    var o := JObj(map["label" := JStr(name)]);
    assert Prop(o, "href") == None && Prop(o, "text") == None && Prop(o, "label") == Some(JStr(name));
    assert LinkParts(Some(o)) == Ok(("#", name));
    assert "<li><a href=\"" + "#" + "\">" == "<li><a href=\"#\">";
    var o2 := JObj(map["text" := JStr(""), "label" := JStr(name), "href" := JStr("")]);
    assert Prop(o2, "href") == Some(JStr("")) && Prop(o2, "text") == Some(JStr(""));
    assert Prop(o2, "label") == Some(JStr(name));
  }

  /** A null entry in the navigation list throws; a navigation string throws too. */
  lemma NavigationErrors(s: Section)
    requires s.kind == "header"
    ensures Get(s.content, "navigation") == Some(JArr([JNull])) ==> SectionHtml(s) == Err(ReadOfNullish("href"))
    ensures Get(s.content, "navigation") == Some(JStr("home")) ==> SectionHtml(s) == Err(NotAnArray("navigation"))
  {
    if Get(s.content, "navigation") == Some(JArr([JNull])) {
      assert ListLink(JNull) == Err(ReadOfNullish("href"));
      assert Each([JNull], ListLink) == Err(ReadOfNullish("href"));
    }
  }

  // -------------------------------------------------------------- styles

  function Px(n: int): string {
    IntToString(n) + "px;"
  }

  /** One declaration per set colour: `background-color: …;`, then `color: …;`. */
  function ColorDecls(st: SectionStyles): (r: seq<string>)
    ensures forall i :: 0 <= i < |r| ==> |r[i]| > 0 && (r[i][0] == 'b' || r[i][0] == 'c')
    ensures Filled(st.backgroundColor) ==> "background-color: " + st.backgroundColor.value + ";" in r
    ensures Filled(st.textColor) ==> "color: " + st.textColor.value + ";" in r
  {
    (if Filled(st.backgroundColor) then ["background-color: " + st.backgroundColor.value + ";"] else [])
    + (if Filled(st.textColor) then ["color: " + st.textColor.value + ";"] else [])
  }

  /** Four `padding-…` declarations from the box, or `padding: 4rem 0;` without one. */
  function PaddingDecls(st: SectionStyles): (r: seq<string>)
    ensures st.padding.None? ==> r == ["padding: 4rem 0;"]
    ensures st.padding.Some? ==>
      && |r| == 4
      && (forall i :: 0 <= i < 4 ==> |r[i]| > 8 && r[i][0] == 'p' && r[i][7] == '-')
      && r[0] == "padding-top: " + Px(st.padding.value.top)
      && r[1] == "padding-bottom: " + Px(st.padding.value.bottom)
      && r[2] == "padding-left: " + Px(st.padding.value.left)
      && r[3] == "padding-right: " + Px(st.padding.value.right)
  {
    match st.padding
    case Some(b) => ["padding-top: " + Px(b.top), "padding-bottom: " + Px(b.bottom),
                     "padding-left: " + Px(b.left), "padding-right: " + Px(b.right)]
    case None => ["padding: 4rem 0;"]
  }

  /** `margin-top` and `margin-bottom` from the margin; left and right never. */
  function MarginDecls(st: SectionStyles): (r: seq<string>)
    ensures st.margin.None? ==> r == []
    ensures st.margin.Some? ==> r == ["margin-top: " + Px(st.margin.value.top), "margin-bottom: " + Px(st.margin.value.bottom)]
    ensures forall i :: 0 <= i < |r| ==> |r[i]| > 0 && r[i][0] == 'm'
  {
    match st.margin
    case Some(m) => ["margin-top: " + Px(m.top), "margin-bottom: " + Px(m.bottom)]
    case None => []
  }

  /** The generated declarations of a section's CSS block, in order; the style's
      own `customCss` follows them. */
  function Declarations(st: SectionStyles): seq<string> {
    ColorDecls(st) + PaddingDecls(st) + MarginDecls(st)
  }

  lemma NoFallbackInColors(st: SectionStyles)
    ensures "padding: 4rem 0;" !in ColorDecls(st)
  {
    assert "padding: 4rem 0;"[0] == 'p';
  }

  lemma NoFallbackInMargin(st: SectionStyles)
    ensures "padding: 4rem 0;" !in MarginDecls(st)
  {
    assert "padding: 4rem 0;"[0] == 'p';
  }

  lemma NoFallbackInBox(st: SectionStyles)
    requires st.padding.Some?
    ensures "padding: 4rem 0;" !in PaddingDecls(st)
  {
    assert "padding: 4rem 0;"[7] == ':';
  }

  /** The fallback padding appears exactly when there is no padding box. */
  lemma FallbackPaddingIff(st: SectionStyles)
    ensures st.padding.None? <==> "padding: 4rem 0;" in Declarations(st)
  {
    NoFallbackInColors(st);
    NoFallbackInMargin(st);
    if st.padding.Some? {
      NoFallbackInBox(st);
    } else {
      assert PaddingDecls(st)[0] in Declarations(st);
    }
  }

  /** A declaration starting with `m` appears exactly when there is a margin. */
  lemma MarginIff(st: SectionStyles)
    ensures st.margin.None? <==> forall i :: 0 <= i < |Declarations(st)| ==> Declarations(st)[i][0] != 'm'
  {
    var c, pd, m := ColorDecls(st), PaddingDecls(st), MarginDecls(st);
    var d := Declarations(st);
    assert forall i :: 0 <= i < |c| ==> d[i] == c[i];
    assert forall i :: 0 <= i < |pd| ==> d[|c| + i] == pd[i];
    assert forall i :: 0 <= i < |m| ==> d[|c| + |pd| + i] == m[i];
    if st.margin.Some? {
      assert d[|c| + |pd|][0] == 'm';
    }
  }

  /** `.section-{type}.{variant}`: the two classes of the section's fragment. */
  function Selector(s: Section): string {
    ".section-" + s.kind + "." + s.variant
  }

  /** `generateSectionCSS(section)`: one rule for the section's selector whose
      body is the style declarations followed by the custom CSS, if any. */
  function SectionCss(s: Section): (r: string)
    ensures StartsWith(r, Selector(s) + " {") && EndsWith(r, "}") && |r| > |Selector(s) + " {"|
    ensures r[|Selector(s) + " {"|..|r| - 1] == Join(Declarations(s.styles), "") + OrElse(s.styles.customCss, "")
  {
    var open, body := Selector(s) + " {", Join(Declarations(s.styles), "") + OrElse(s.styles.customCss, "");
    var r := open + body + "}";
    assert r[..|open|] == open;
    assert r[|open|..|r| - 1] == body;
    r
  }

  // ------------------------------------------------------------ document

  /** Each section's fragment, in list order; the first throwing section aborts. */
  function Fragments(ss: seq<Section>): (r: Result<seq<string>, JsError>)
    ensures r.Ok? <==> forall i :: 0 <= i < |ss| ==> SectionHtml(ss[i]).Ok?
    ensures r.Ok? ==> |r.value| == |ss| && forall i :: 0 <= i < |ss| ==> SectionHtml(ss[i]) == Ok(r.value[i])
  {
    if |ss| == 0 then Ok([])
    else
      var head :- SectionHtml(ss[0]);
      var tail :- Fragments(ss[1..]);
      assert forall i :: 1 <= i < |ss| ==> ss[i] == ss[1..][i - 1];
      Ok([head] + tail)
  }

  /** Each section's CSS block, in list order. */
  function Blocks(ss: seq<Section>): (r: seq<string>)
    ensures |r| == |ss| && forall i :: 0 <= i < |ss| ==> r[i] == SectionCss(ss[i])
  {
    if |ss| == 0 then [] else [SectionCss(ss[0])] + Blocks(ss[1..])
  }

  /** The parts of the exported document that depend on the page and the options. */
  datatype Document = Document(
    title: string,
    seoMeta: string,
    analytics: string,
    sectionCss: seq<string>,
    pageCss: string,
    fragments: seq<string>,
    pageJs: string)

  function Description(p: Page): string {
    OrElse(p.seoDescription, p.title + " - Created with Marketing Site Builder")
  }

  /** The description, keywords, author, Open Graph and Twitter tags. */
  function SeoMeta(p: Page): (r: string)
    ensures r != ""
  {
    var title := OrElse(p.seoTitle, p.title);
    "<meta name=\"description\" content=\"" + Description(p) + "\">"
    + "<meta name=\"keywords\" content=\"marketing, website, " + Lower(p.title) + "\">"
    + "<meta name=\"author\" content=\"Marketing Site Builder\">"
    + "<meta property=\"og:title\" content=\"" + title + "\">"
    + "<meta property=\"og:description\" content=\"" + Description(p) + "\">"
    + "<meta property=\"og:type\" content=\"website\">"
    + "<meta name=\"twitter:card\" content=\"summary_large_image\">"
    + "<meta name=\"twitter:title\" content=\"" + title + "\">"
    + "<meta name=\"twitter:description\" content=\"" + Description(p) + "\">"
  }

  /** The analytics placeholder: the tag-manager loader and its configuration script. */
  const AnalyticsSnippet :=
    "<!-- Google Analytics placeholder -->"
    + "<script async src=\"https://www.googletagmanager.com/gtag/js?id=GA_MEASUREMENT_ID\"></script>"
    + "<script>window.dataLayer = window.dataLayer || [];function gtag(){dataLayer.push(arguments);}"
    + "gtag('js', new Date());gtag('config', 'GA_MEASUREMENT_ID');</script>"

  /** The SEO tags, present exactly when the option asks for them. */
  function SeoPart(p: Page, o: Options): (r: string)
    ensures r != "" <==> o.optimizeForSEO
  {
    if o.optimizeForSEO then SeoMeta(p) else ""
  }

  /** The analytics snippet, present exactly when the option asks for it. */
  function AnalyticsPart(o: Options): (r: string)
    ensures r != "" <==> o.includeAnalytics
  {
    if o.includeAnalytics then AnalyticsSnippet else ""
  }

  /** The page's own CSS, when the option is on and the page has some. */
  function PageCss(p: Page, o: Options): (r: string)
    ensures o.includeCustomCSS && Filled(p.customCss) ==> r == p.customCss.value
    ensures !(o.includeCustomCSS && Filled(p.customCss)) ==> r == ""
  {
    if o.includeCustomCSS && Filled(p.customCss) then p.customCss.value else ""
  }

  /** The page's own script, wrapped in a script element, when the option is on
      and the page has some. */
  function PageJs(p: Page, o: Options): (r: string)
    ensures o.includeCustomJS && Filled(p.customJs) ==> r == "<script>" + p.customJs.value + "</script>"
    ensures !(o.includeCustomJS && Filled(p.customJs)) ==> r == ""
  {
    if o.includeCustomJS && Filled(p.customJs) then "<script>" + p.customJs.value + "</script>" else ""
  }

  /** The variable parts of `generateCompleteHTML()`, over the sections sorted by order. */
  function Compose(p: Page, o: Options): (r: Result<Document, JsError>)
    ensures r.Ok? <==> forall s :: s in p.sections ==> SectionHtml(s).Ok?
    ensures r.Ok? ==>
      var ss := SortByOrder(p.sections);
      && |r.value.fragments| == |ss| == |r.value.sectionCss|
      && (forall i :: 0 <= i < |ss| ==> SectionHtml(ss[i]) == Ok(r.value.fragments[i]))
      && (forall i :: 0 <= i < |ss| ==> r.value.sectionCss[i] == SectionCss(ss[i]))
    ensures r.Ok? ==> r.value.title == OrElse(p.seoTitle, p.title)
    ensures r.Ok? ==> (r.value.seoMeta != "" <==> o.optimizeForSEO)
    ensures r.Ok? ==> (r.value.analytics != "" <==> o.includeAnalytics)
    ensures r.Ok? ==> r.value.pageCss == PageCss(p, o) && r.value.pageJs == PageJs(p, o)
  {
    var ss := SortByOrder(p.sections);
    SameMembers(ss, p.sections);
    match Fragments(ss)
    case Err(e) => Err(e)
    case Ok(frags) =>
      Ok(Document(OrElse(p.seoTitle, p.title), SeoPart(p, o), AnalyticsPart(o),
        Blocks(ss), PageCss(p, o), frags, PageJs(p, o)))
  }

  lemma SameMembers(a: seq<Section>, b: seq<Section>)
    requires multiset(a) == multiset(b)
    ensures forall s :: s in a <==> s in b
    ensures (forall i :: 0 <= i < |a| ==> SectionHtml(a[i]).Ok?) <==> (forall s :: s in b ==> SectionHtml(s).Ok?)
  {
    forall s
      ensures s in a <==> s in b
    {
      assert s in a <==> s in multiset(a);
      assert s in b <==> s in multiset(b);
    }
  }

  /** The fixed text of the exported document, between the parts. */
  const ExportHead := "<html lang=\"en\"><head><meta charset=\"UTF-8\">"
    + "<meta name=\"viewport\" content=\"width=device-width, initial-scale=1.0\">"
  const ExportFooter := "<!-- Generated with Marketing Site Builder -->"
    + "<script>console.log('This page was generated with Marketing Site Builder');</script>"

  /** The exported text: a fixed frame around the parts. The head holds the
      title, the SEO tags and the analytics snippet, then one stylesheet in
      which the section blocks follow the base stylesheet and precede the page
      CSS; the body holds the fragments and then the page script. The base
      stylesheet is fixed text and is passed in. */
  function Render(d: Document, baseCss: string): (r: string)
    ensures StartsWith(r, "<!DOCTYPE html>" + ExportHead + "<title>" + d.title + "</title>"
      + d.seoMeta + d.analytics + "<style>" + baseCss)
    ensures Contains(r, Join(d.sectionCss, "\n") + d.pageCss + "</style></head><body>"
      + Join(d.fragments, "\n") + d.pageJs)
    ensures EndsWith(r, ExportFooter + "</body></html>")
  {
    Framed(
      "<!DOCTYPE html>" + ExportHead + "<title>" + d.title + "</title>"
        + d.seoMeta + d.analytics + "<style>" + baseCss,
      Join(d.sectionCss, "\n") + d.pageCss + "</style></head><body>"
        + Join(d.fragments, "\n") + d.pageJs,
      ExportFooter + "</body></html>")
  }

  /** `generateCompleteHTML()`. */
  function CompleteHtml(p: Page, o: Options, baseCss: string): (r: Result<string, JsError>)
    ensures r.Ok? <==> Compose(p, o).Ok?
    ensures r.Ok? ==> r.value == Render(Compose(p, o).value, baseCss)
  {
    var d :- Compose(p, o);
    Ok(Render(d, baseCss))
  }

  /** The page as the export leaves it: the sort runs in place on its sections. */
  function SortedInPlace(p: Page): (r: Page)
    ensures r == p.(sections := r.sections)
    ensures SortedByOrder(r.sections) && multiset(r.sections) == multiset(p.sections)
  {
    p.(sections := SortByOrder(p.sections))
  }

  /** Exporting again after the in-place sort gives the same document, and a
      densely numbered page is not reordered at all. */
  lemma ExportAfterSort(p: Page, o: Options)
    ensures Compose(SortedInPlace(p), o) == Compose(p, o)
    ensures Dense(p.sections) ==> SortedInPlace(p) == p
  {
    SortIdempotent(p.sections);
    SameOrder(p, SortedInPlace(p), o);
    if Dense(p.sections) {
      DenseSorted(p.sections);
    }
  }

  /** Only the sorted sections and the other fields reach the document. */
  lemma SameOrder(p: Page, q: Page, o: Options)
    requires q == p.(sections := q.sections) && SortByOrder(q.sections) == SortByOrder(p.sections)
    ensures Compose(q, o) == Compose(p, o)
  {
    assert SeoPart(q, o) == SeoPart(p, o) && PageCss(q, o) == PageCss(p, o) && PageJs(q, o) == PageJs(p, o);
  }
}

=== FILE: fonts.dfy ===
/** The font picker: the catalogue of system and web fonts, the font shown as
    current, the search/category filter, and what selecting a font emits. */
module Fonts {
  import opened Wrappers
  import opened Text
  import opened Seqs

  datatype Category = Serif | SansSerif | Monospace | Display | Handwriting

  function CategoryId(c: Category): string {
    match c
    case Serif => "serif"
    case SansSerif => "sans-serif"
    case Monospace => "monospace"
    case Display => "display"
    case Handwriting => "handwriting"
  }

  datatype Font = Font(name: string, displayName: string, category: Category, weights: seq<string>, cssFamily: string)

  /** `GOOGLE_FONTS`. */
  const GoogleFonts: seq<Font> := [
    Font("inter", "Inter", SansSerif, ["300", "400", "500", "600", "700"], "Inter, sans-serif"),
    Font("roboto", "Roboto", SansSerif, ["300", "400", "500", "700"], "Roboto, sans-serif"),
    Font("open-sans", "Open Sans", SansSerif, ["300", "400", "600", "700"], "Open Sans, sans-serif"),
    Font("lato", "Lato", SansSerif, ["300", "400", "700"], "Lato, sans-serif"),
    Font("poppins", "Poppins", SansSerif, ["300", "400", "500", "600", "700"], "Poppins, sans-serif"),
    Font("nunito", "Nunito", SansSerif, ["300", "400", "600", "700"], "Nunito, sans-serif"),
    Font("montserrat", "Montserrat", SansSerif, ["300", "400", "500", "600", "700"], "Montserrat, sans-serif"),
    Font("playfair-display", "Playfair Display", Serif, ["400", "500", "600", "700"], "Playfair Display, serif"),
    Font("merriweather", "Merriweather", Serif, ["300", "400", "700"], "Merriweather, serif"),
    Font("crimson-pro", "Crimson Pro", Serif, ["300", "400", "500", "600"], "Crimson Pro, serif"),
    Font("libre-baskerville", "Libre Baskerville", Serif, ["400", "700"], "Libre Baskerville, serif"),
    Font("oswald", "Oswald", Display, ["300", "400", "500", "600", "700"], "Oswald, sans-serif"),
    Font("raleway", "Raleway", Display, ["300", "400", "500", "600", "700"], "Raleway, sans-serif"),
    Font("bebas-neue", "Bebas Neue", Display, ["400"], "Bebas Neue, sans-serif"),
    Font("fira-code", "Fira Code", Monospace, ["300", "400", "500"], "Fira Code, monospace"),
    Font("jetbrains-mono", "JetBrains Mono", Monospace, ["300", "400", "500", "700"], "JetBrains Mono, monospace")]

  /** `SYSTEM_FONTS`. */
  const SystemFonts: seq<Font> := [
    Font("system-ui", "System UI", SansSerif, ["400", "500", "600", "700"], "system-ui, -apple-system, sans-serif"),
    Font("helvetica", "Helvetica", SansSerif, ["400", "700"], "Helvetica, Arial, sans-serif"),
    Font("arial", "Arial", SansSerif, ["400", "700"], "Arial, sans-serif"),
    Font("georgia", "Georgia", Serif, ["400", "700"], "Georgia, serif"),
    Font("times", "Times New Roman", Serif, ["400", "700"], "Times, Times New Roman, serif"),
    Font("courier", "Courier New", Monospace, ["400", "700"], "Courier New, monospace")]

  /** `allFonts`: the system fonts, then the web fonts. */
  const AllFonts: seq<Font> := SystemFonts + GoogleFonts

  /** There are 22 fonts with distinct names, and every font offers a weight. */
  lemma CatalogueShape()
    ensures |AllFonts| == 22
    ensures AllFonts[..6] == SystemFonts && AllFonts[6..] == GoogleFonts
    ensures forall f :: f in AllFonts ==> |f.weights| > 0
    ensures forall i, j :: 0 <= i < j < |AllFonts| ==> AllFonts[i].name != AllFonts[j].name
  {
    WeightsOffered();
    NamesDistinct();
  }

  lemma WeightsOffered()
    ensures forall f :: f in AllFonts ==> |f.weights| > 0
  {
  }

  lemma NamesDistinct()
    ensures forall i, j :: 0 <= i < j < |AllFonts| ==> AllFonts[i].name != AllFonts[j].name
  {
  }

  predicate Denotes(f: Font, value: string) {
    f.cssFamily == value || f.name == value
  }

  function FirstDenoting(fs: seq<Font>, value: string): (r: Option<nat>)
    ensures r.Some? ==>
      && r.value < |fs| && Denotes(fs[r.value], value)
      && forall j :: 0 <= j < r.value ==> !Denotes(fs[j], value)
    ensures r.None? ==> forall f :: f in fs ==> !Denotes(f, value)
  {
    if |fs| == 0 then None
    else if Denotes(fs[0], value) then Some(0)
    else match FirstDenoting(fs[1..], value)
      case None => None
      case Some(k) => Some(k + 1)
  }

  /** `currentFont`: the first font whose CSS family or name is `value`, else
      the first system font. */
  function CurrentFont(value: string): (r: Font)
    ensures r in AllFonts
    ensures (exists f :: f in AllFonts && Denotes(f, value)) ==>
      exists i :: 0 <= i < |AllFonts| && r == AllFonts[i] && Denotes(r, value)
        && forall j :: 0 <= j < i ==> !Denotes(AllFonts[j], value)
    ensures (forall f :: f in AllFonts ==> !Denotes(f, value)) ==> r == SystemFonts[0]
  {
    match FirstDenoting(AllFonts, value)
    case None => AllFonts[0]
    case Some(i) => AllFonts[i]
  }

  lemma {:induction false} FirstDenotingAt(fs: seq<Font>, value: string, i: nat)
    requires i < |fs| && Denotes(fs[i], value)
    requires forall j :: 0 <= j < i ==> !Denotes(fs[j], value)
    ensures FirstDenoting(fs, value) == Some(i)
  {
    if i > 0 {
      FirstDenotingAt(fs[1..], value, i - 1);
    }
  }

  /** The panel's default family and a font's own name both find that font. */
  lemma CurrentFontExamples()
    ensures CurrentFont("Inter, sans-serif") == GoogleFonts[0]
    ensures CurrentFont("inter") == GoogleFonts[0]
  {
    FirstDenotingAt(AllFonts, "Inter, sans-serif", 6);
    FirstDenotingAt(AllFonts, "inter", 6);
  }

  /** A family no font has (here the empty one) shows the first system font. */
  lemma CurrentFontUnknown()
    ensures CurrentFont("") == SystemFonts[0]
  {
  }

  predicate MatchesFilter(f: Font, term: string, category: string) {
    Contains(Lower(f.displayName), Lower(term)) && (category == "all" || CategoryId(f.category) == category)
  }

  function FilterFonts(fs: seq<Font>, term: string, category: string): (r: seq<Font>)
    ensures Subsequence(r, fs)
    ensures forall f :: f in r <==> f in fs && MatchesFilter(f, term, category)
  {
    if |fs| == 0 then []
    else if MatchesFilter(fs[0], term, category) then [fs[0]] + FilterFonts(fs[1..], term, category)
    else FilterFonts(fs[1..], term, category)
  }

  /** `filteredFonts`: in catalogue order, the fonts whose display name contains
      the term (ignoring case) and whose category is the one chosen, or any for "all". */
  function FilteredFonts(term: string, category: string): (r: seq<Font>)
    ensures Subsequence(r, AllFonts)
    ensures forall f :: f in r <==> f in AllFonts && MatchesFilter(f, term, category)
  {
    FilterFonts(AllFonts, term, category)
  }

  lemma {:induction false} FilterKeepsAll(fs: seq<Font>, term: string, category: string)
    requires forall f :: f in fs ==> MatchesFilter(f, term, category)
    ensures FilterFonts(fs, term, category) == fs
  {
    if |fs| > 0 {
      FilterKeepsAll(fs[1..], term, category);
    }
  }

  /** With no search term and category "all", every font is listed. */
  lemma NoFilterListsAll()
    ensures FilteredFonts("", "all") == AllFonts
  {
    forall f | f in AllFonts
      ensures MatchesFilter(f, "", "all")
    {
      assert Lower("") == "";
      assert StartsWith(Lower(f.displayName), "");
    }
    FilterKeepsAll(AllFonts, "", "all");
  }

  /** What one `handleFontSelect(font)` emits: the family, and a weight change
      when a weight handler is present and the font lacks the current weight. */
  datatype Selection = Selection(family: string, weight: Option<string>)

  function HandleFontSelect(f: Font, selectedWeight: string, hasWeightHandler: bool): (r: Selection)
    requires |f.weights| > 0
    ensures r.family == f.cssFamily
    ensures r.weight.Some? <==> hasWeightHandler && selectedWeight !in f.weights
    ensures r.weight.Some? ==> r.weight.value in f.weights
    ensures r.weight.Some? && "400" in f.weights ==> r.weight.value == "400"
    ensures r.weight.Some? && "400" !in f.weights ==> r.weight.value == f.weights[0]
  {
    var w := if hasWeightHandler && selectedWeight !in f.weights then
      Some(if "400" in f.weights then "400" else f.weights[0])
    else None;
    Selection(f.cssFamily, w)
  }

  /** After a selection with a weight handler, the weight in effect is one the
      new font offers, and a weight it offers is never changed. */
  lemma SelectionWeightOffered(f: Font, selectedWeight: string)
    requires |f.weights| > 0
    ensures HandleFontSelect(f, selectedWeight, true).weight.GetOr(selectedWeight) in f.weights
    ensures selectedWeight in f.weights ==> HandleFontSelect(f, selectedWeight, true).weight.None?
  {
  }
}

=== FILE: image.dfy ===
/** The image field: file validation, the upload guard, URL entry and removal.
    Reading the file as a data URL is done by the browser; its outcome is an input. */
module Image {
  import opened Wrappers
  import opened Text

  /** The two facts of a `File` the field reads. */
  datatype File = File(mime: string, size: nat)

  const InvalidType := "Please select a valid image file"

  function TooLarge(maxSizeMB: nat): string {
    "File size must be less than " + NatToString(maxSizeMB) + "MB"
  }

  /** The default of the `maxSizeMB` prop. */
  const DefaultMaxSizeMB: nat := 5

  /** `maxSizeMB * 1024 * 1024`. */
  function Limit(maxSizeMB: nat): nat {
    maxSizeMB * 1024 * 1024
  }

  /** `validateFile(file)`: the error message, or None for an acceptable file. */
  function ValidateFile(f: File, maxSizeMB: nat): (r: Option<string>)
    ensures r.None? <==> StartsWith(f.mime, "image/") && f.size <= Limit(maxSizeMB)
    ensures !StartsWith(f.mime, "image/") ==> r == Some(InvalidType)
    ensures StartsWith(f.mime, "image/") && f.size > Limit(maxSizeMB) ==> r == Some(TooLarge(maxSizeMB))
  {
    if !StartsWith(f.mime, "image/") then Some(InvalidType)
    else if f.size > Limit(maxSizeMB) then Some(TooLarge(maxSizeMB))
    else None
  }

  /** A file of exactly the limit is accepted and one byte more is not. */
  lemma LimitInclusive(mime: string, maxSizeMB: nat)
    requires StartsWith(mime, "image/")
    ensures ValidateFile(File(mime, maxSizeMB * 1048576), maxSizeMB).None?
    ensures ValidateFile(File(mime, maxSizeMB * 1048576 + 1), maxSizeMB) == Some(TooLarge(maxSizeMB))
  {
  }

  /** The field's own state. */
  datatype Field = Field(error: Option<string>, uploading: bool)

  /** What the browser's file reader did with a valid file. */
  datatype ReadOutcome = Loaded(dataUrl: string) | ReadFailed

  /** The field after an event, what it emitted through `onChange`, and whether
      it called `onRemove`. */
  datatype Outcome = Outcome(field: Field, emitted: Option<string>, removed: bool)

  /** `handleFileUpload(file)` through to the reader's callback. */
  function HandleFileUpload(st: Field, f: File, maxSizeMB: nat, read: ReadOutcome): (r: Outcome)
    ensures ValidateFile(f, maxSizeMB).Some? ==>
      r == Outcome(st.(error := ValidateFile(f, maxSizeMB)), None, false)
    ensures ValidateFile(f, maxSizeMB).None? && read.Loaded? ==>
      r == Outcome(Field(None, false), Some(read.dataUrl), false)
    ensures ValidateFile(f, maxSizeMB).None? && read.ReadFailed? ==>
      r == Outcome(Field(Some("Failed to read file"), false), None, false)
  {
    match ValidateFile(f, maxSizeMB)
    case Some(e) => Outcome(st.(error := Some(e)), None, false)
    case None =>
      match read
      case Loaded(url) => Outcome(Field(None, false), Some(url), false)
      case ReadFailed => Outcome(Field(Some("Failed to read file"), false), None, false)
  }

  /** A drop or a file-input change uploads the first file, if any. */
  function HandleFiles(st: Field, files: seq<File>, maxSizeMB: nat, read: ReadOutcome): (r: Outcome)
    ensures |files| == 0 ==> r == Outcome(st, None, false)
    ensures |files| > 0 ==> r == HandleFileUpload(st, files[0], maxSizeMB, read)
  {
    if |files| > 0 then HandleFileUpload(st, files[0], maxSizeMB, read) else Outcome(st, None, false)
  }

  /** An upload emits only what the reader produced, and only for a valid file. */
  lemma UploadEmitsOnlyValid(st: Field, f: File, maxSizeMB: nat, read: ReadOutcome)
    ensures HandleFileUpload(st, f, maxSizeMB, read).emitted.Some? <==>
      ValidateFile(f, maxSizeMB).None? && read.Loaded?
    ensures HandleFileUpload(st, f, maxSizeMB, read).emitted.Some? ==>
      HandleFileUpload(st, f, maxSizeMB, read).emitted.value == read.dataUrl
    ensures HandleFileUpload(st, f, maxSizeMB, read).emitted.None? ==>
      HandleFileUpload(st, f, maxSizeMB, read).field.error.Some?
  {
  }

  /** `handleUrlInput(url)`: a URL that is not blank is emitted trimmed and clears the error. */
  function HandleUrlInput(st: Field, url: string): (r: Outcome)
    ensures AllSpace(url) ==> r == Outcome(st, None, false)
    ensures !AllSpace(url) ==> r == Outcome(st.(error := None), Some(Trim(url)), false)
  {
    var t := Trim(url);
    if t != "" then Outcome(st.(error := None), Some(t), false) else Outcome(st, None, false)
  }

  lemma {:induction false} TrimStartClean(s: string)
    requires |s| > 0 ==> !IsJsSpace(s[0])
    ensures TrimStart(s) == s
  {
  }

  lemma {:induction false} TrimEndClean(s: string)
    requires |s| > 0 ==> !IsJsSpace(s[|s| - 1])
    ensures TrimEnd(s) == s
  {
  }

  /** An emitted URL is non-empty, has no edge whitespace, and re-entering it emits it unchanged. */
  lemma UrlEmittedClean(st: Field, url: string)
    requires HandleUrlInput(st, url).emitted.Some?
    ensures var u := HandleUrlInput(st, url).emitted.value;
      && u != "" && !IsJsSpace(u[0]) && !IsJsSpace(u[|u| - 1])
      && HandleUrlInput(st, u).emitted == Some(u)
  {
    var u := Trim(url);
    TrimStartClean(u);
    TrimEndClean(u);
  }

  /** `handleRemove()`: `onRemove` when the prop is given, else `onChange('')`. */
  function HandleRemove(st: Field, hasOnRemove: bool): (r: Outcome)
    ensures r.field.error.None? && r.field.uploading == st.uploading
    ensures hasOnRemove ==> r.removed && r.emitted.None?
    ensures !hasOnRemove ==> !r.removed && r.emitted == Some("")
  {
    if hasOnRemove then Outcome(st.(error := None), None, true)
    else Outcome(st.(error := None), Some(""), false)
  }
}

=== FILE: json.dfy ===
/** The open-ended content bag of a section, and the few JavaScript value
    rules the page builder relies on when it reads that bag: truthiness,
    property access, `Array.isArray`, and how `${value}` prints a value. */
module Js {
  import opened Wrappers
  import opened Text

  /** A JSON-like value. Numbers are integers: nothing in the page builder
      computes with fractional content numbers. */
  datatype Json =
    | JNull
    | JBool(b: bool)
    | JNum(n: int)
    | JStr(s: string)
    | JArr(items: seq<Json>)
    | JObj(fields: map<string, Json>)

  /** `SectionContent`: string keys to arbitrary values; a missing key reads as `undefined`. */
  type Content = map<string, Json>

  /** The reasons a JavaScript expression in the core can throw. */
  datatype JsError =
    | ReadOfNullish(key: string)  // `x.key` where x is null or undefined
    | NotAnArray(key: string)     // `x.key.map(...)` where x.key is truthy but not an array

  /** `obj[key]`: the value, or `undefined` (None) when the key is absent. */
  function Get(obj: Content, key: string): (r: Option<Json>)
    ensures r.Some? <==> key in obj
    ensures r.Some? ==> r.value == obj[key]
  {
    if key in obj then Some(obj[key]) else None
  }

  /** JavaScript truthiness of a possibly-undefined value. */
  predicate Truthy(v: Option<Json>) {
    match v
    case None => false
    case Some(JNull) => false
    case Some(JBool(b)) => b
    case Some(JNum(n)) => n != 0
    case Some(JStr(s)) => s != ""
    case Some(JArr(_)) => true
    case Some(JObj(_)) => true
  }

  /** `v.key` for any JavaScript value: throws on `null`/`undefined`, looks the key
      up on an object, and yields `undefined` on other primitives and arrays
      (none of the keys the core reads exist on them). */
  function Member(v: Option<Json>, key: string): (r: Result<Option<Json>, JsError>)
    ensures r.Err? <==> v == None || v == Some(JNull)
    ensures r.Ok? && r.value.Some? ==> v.Some? && v.value.JObj? && key in v.value.fields
  {
    match v
    case None => Err(ReadOfNullish(key))
    case Some(JNull) => Err(ReadOfNullish(key))
    case Some(JObj(f)) => Ok(Get(f, key))
    case Some(_) => Ok(None)
  }

  /** `a || b` where `b` is a literal string fallback. */
  function OrStr(a: Option<Json>, b: string): (r: Option<Json>)
    ensures Truthy(a) ==> r == a
    ensures !Truthy(a) ==> r == Some(JStr(b))
  {
    if Truthy(a) then a else Some(JStr(b))
  }

  /** `${v}` in a template literal (and `String(v)`): arrays print as their
      elements joined with ",", with `null` elements printing as nothing. */
  function Show(v: Option<Json>): string {
    match v
    case None => "undefined"
    case Some(j) => ShowJson(j)
  }

  function ShowJson(j: Json): string {
    match j
    case JNull => "null"
    case JBool(b) => if b then "true" else "false"
    case JNum(n) => IntToString(n)
    case JStr(s) => s
    case JObj(_) => "[object Object]"
    case JArr(items) =>
      Join(seq(|items|, i requires 0 <= i < |items| =>
        if items[i].JNull? then "" else ShowJson(items[i])), ",")
  }

  /** A string value prints as itself; a one-element array prints as its element. */
  lemma ShowStrings(s: string, t: string)
    ensures Show(Some(JStr(s))) == s
    ensures Show(Some(JArr([JStr(t)]))) == t
  {
    var items := [JStr(t)];
    assert seq(|items|, i requires 0 <= i < |items| =>
      if items[i].JNull? then "" else ShowJson(items[i])) == [t];
  }
}

=== FILE: links.dfy ===
/** Shareable links of a page: the default public link, creating and
    deleting links, and expiry. Dates are millisecond timestamps; the random
    ids, the URL token and the site origin are parameters. */
module Links {
  import opened Wrappers
  import opened Text
  import opened Seqs

  datatype ShareLink = ShareLink(
    id: string,
    name: string,
    url: string,
    description: string,
    expiresAt: Option<int>,
    passwordProtected: bool,
    password: Option<string>,
    views: nat,
    uniqueVisitors: nat,
    lastAccessed: Option<int>,
    createdAt: int)

  /** The creation form; an empty expiry field is None. */
  datatype Form = Form(name: string, description: string, expiresAt: Option<int>, passwordProtected: bool, password: string)

  const EmptyForm := Form("", "", None, false, "")

  const PublicId := "public"

  /** The link every page starts with: public, never expiring, open to anyone. */
  function DefaultLink(origin: string, slug: string, views: nat, visitors: nat, now: int): (l: ShareLink)
    ensures l.id == PublicId && l.expiresAt.None? && !l.passwordProtected
    ensures StartsWith(l.url, origin) && EndsWith(l.url, slug)
  {
    Affixes(origin, "/p/", slug);
    ShareLink(PublicId, "Public Link", origin + "/p/" + slug, "Anyone with this link can view your page",
      None, false, None, views, visitors, Some(now), now)
  }

  /** `loadShareLinks()`: the stored list, or just the default link when
      nothing is stored. Decoding the stored text is left out. */
  function LoadLinks(stored: Option<seq<ShareLink>>, origin: string, slug: string, views: nat, visitors: nat, now: int): (r: seq<ShareLink>)
    ensures stored.Some? ==> r == stored.value
    ensures stored.None? ==> |r| == 1 && r[0].id == PublicId
  {
    match stored
    case Some(ls) => ls
    case None => [DefaultLink(origin, slug, views, visitors, now)]
  }

  /** `crypto.randomUUID().substring(0, 8)`. */
  function Token(uuid: string): (t: string)
    ensures |t| <= 8 && StartsWith(uuid, t)
    ensures |t| == if |uuid| <= 8 then |uuid| else 8
  {
    if |uuid| <= 8 then uuid else uuid[..8]
  }

  /** `handleCreateLink()`: nothing happens for a name that is blank once
      trimmed; otherwise a fresh link with no visits is appended and the form
      is cleared. */
  function CreateLink(links: seq<ShareLink>, form: Form, origin: string, id: string, uuid: string, now: int): (r: (seq<ShareLink>, Form))
    ensures Trim(form.name) == "" <==> r == (links, form)
    ensures Trim(form.name) != "" ==>
      && |r.0| == |links| + 1 && r.0[..|links|] == links && r.1 == EmptyForm
      && var l := r.0[|links|];
      && l.id == id && l.name == form.name && l.description == form.description
      && l.expiresAt == form.expiresAt && l.passwordProtected == form.passwordProtected
      && (l.password.Some? <==> form.passwordProtected)
      && (l.password.Some? ==> l.password.value == form.password)
      && l.views == 0 && l.uniqueVisitors == 0 && l.lastAccessed.None? && l.createdAt == now
  {
    if Trim(form.name) == "" then (links, form)
    else
      var l := ShareLink(id, form.name, origin + "/share/" + Token(uuid), form.description, form.expiresAt,
        form.passwordProtected, if form.passwordProtected then Some(form.password) else None,
        0, 0, None, now);
      assert (links + [l])[..|links|] == links;
      (links + [l], EmptyForm)
  }

  /** `links.filter(link => link.id !== id)`. */
  function WithoutLink(links: seq<ShareLink>, id: string): (r: seq<ShareLink>)
    ensures forall l :: l in r <==> l in links && l.id != id
  {
    if |links| == 0 then []
    else if links[0].id == id then WithoutLink(links[1..], id)
    else [links[0]] + WithoutLink(links[1..], id)
  }

  /** Each surviving link stays as many times as it was there. */
  lemma {:induction false} WithoutLinkCounts(links: seq<ShareLink>, id: string)
    ensures forall l :: multiset(WithoutLink(links, id))[l] == if l.id == id then 0 else multiset(links)[l]
  {
    if |links| > 0 {
      WithoutLinkCounts(links[1..], id);
      assert links == [links[0]] + links[1..];
      if links[0].id != id {
        assert WithoutLink(links, id) == [links[0]] + WithoutLink(links[1..], id);
      }
    }
  }

  /** `handleDeleteLink(id)`: the public link cannot be deleted, and nothing
      changes unless the user confirms. */
  function DeleteLink(links: seq<ShareLink>, id: string, confirmed: bool): (r: seq<ShareLink>)
    ensures id == PublicId || !confirmed ==> r == links
    ensures id != PublicId && confirmed ==> forall l :: l in r <==> l in links && l.id != id
  {
    if id == PublicId || !confirmed then links else WithoutLink(links, id)
  }

  /** Whatever is deleted, a public link that was there stays. */
  lemma PublicSurvives(links: seq<ShareLink>, id: string, confirmed: bool, l: ShareLink)
    requires l in links && l.id == PublicId
    ensures l in DeleteLink(links, id, confirmed)
  {
  }

  /** Removing an id no link carries changes nothing. */
  lemma {:induction false} WithoutAbsent(links: seq<ShareLink>, id: string)
    requires forall i :: 0 <= i < |links| ==> links[i].id != id
    ensures WithoutLink(links, id) == links
  {
    if |links| > 0 {
      WithoutAbsent(links[1..], id);
    }
  }

  /** The filter keeps the surviving links in their order. */
  lemma {:induction false} WithoutLinkOrdered(links: seq<ShareLink>, id: string)
    ensures Subsequence(WithoutLink(links, id), links)
  {
    if |links| > 0 {
      WithoutLinkOrdered(links[1..], id);
      if links[0].id == id {
        SkipHead(WithoutLink(links[1..], id), links);
      } else {
        assert WithoutLink(links, id)[1..] == WithoutLink(links[1..], id);
      }
    }
  }

  /** The filter distributes over concatenation. */
  lemma {:induction false} WithoutAppend(a: seq<ShareLink>, b: seq<ShareLink>, id: string)
    ensures WithoutLink(a + b, id) == WithoutLink(a, id) + WithoutLink(b, id)
  {
    if |a| == 0 {
      assert a + b == b;
    } else {
      assert (a + b)[1..] == a[1..] + b;
      WithoutAppend(a[1..], b, id);
    }
  }

  /** Deleting a link just created under a fresh id, and confirming, restores
      the links as they were. */
  lemma CreateThenDelete(links: seq<ShareLink>, form: Form, origin: string, id: string, uuid: string, now: int)
    requires Trim(form.name) != "" && id != PublicId
    requires forall i :: 0 <= i < |links| ==> links[i].id != id
    ensures DeleteLink(CreateLink(links, form, origin, id, uuid, now).0, id, true) == links
  {
    var r := CreateLink(links, form, origin, id, uuid, now).0;
    assert r == links + [r[|links|]];
    WithoutAppend(links, [r[|links|]], id);
    WithoutAbsent(links, id);
    assert WithoutLink([r[|links|]], id) == [];
  }

  /** `isLinkExpired(link)`: it has an expiry and that moment has passed. A
      link without an expiry never expires; one with an expiry is live up to
      and including that moment. */
  predicate IsExpired(l: ShareLink, now: int): (b: bool)
    ensures l.expiresAt.None? ==> !b
    ensures l.expiresAt.Some? && now <= l.expiresAt.value ==> !b
    ensures l.expiresAt.Some? && now > l.expiresAt.value ==> b
  {
    l.expiresAt.Some? && l.expiresAt.value < now
  }

  /** The default link never expires, and an expired link stays expired. */
  lemma ExpiryFacts(origin: string, slug: string, views: nat, visitors: nat, created: int, l: ShareLink, now: int, later: int)
    requires now <= later
    ensures !IsExpired(DefaultLink(origin, slug, views, visitors, created), now)
    ensures IsExpired(l, now) ==> IsExpired(l, later)
  {
  }
}

=== FILE: ordering.dfy ===
/** The `order` field of sections: dense numbering, renumbering, and the
    stable sort by `order` that both renderers apply before emitting. */
module Ordering {
  import opened Types

  /** The builder's invariant: each section's `order` is its position. */
  predicate Dense(ss: seq<Section>) {
    forall i :: 0 <= i < |ss| ==> ss[i].order == i
  }

  predicate SortedByOrder(ss: seq<Section>) {
    forall i, j :: 0 <= i < j < |ss| ==> ss[i].order <= ss[j].order
  }

  /** `ss.map((s, index) => ({ ...s, order: index }))`. */
  function Renumber(ss: seq<Section>): (r: seq<Section>)
    ensures |r| == |ss| && Dense(r)
    ensures forall i :: 0 <= i < |ss| ==> r[i] == ss[i].(order := i)
    ensures Ids(r) == Ids(ss)
  {
    seq(|ss|, i requires 0 <= i < |ss| => ss[i].(order := i))
  }

  /** A dense list is its own renumbering. */
  lemma RenumberDense(ss: seq<Section>)
    requires Dense(ss)
    ensures Renumber(ss) == ss
  {
  }

  /** The sections whose `order` equals `k`, in list order. */
  function WithOrder(ss: seq<Section>, k: int): (r: seq<Section>)
    ensures |r| <= |ss|
    ensures forall i :: 0 <= i < |r| ==> r[i].order == k
  {
    if |ss| == 0 then []
    else WithOrder(ss[..|ss| - 1], k) + (if ss[|ss| - 1].order == k then [ss[|ss| - 1]] else [])
  }

  lemma {:induction false} WithOrderAppend(a: seq<Section>, b: seq<Section>, k: int)
    ensures WithOrder(a + b, k) == WithOrder(a, k) + WithOrder(b, k)
    decreases |b|
  {
    if |b| > 0 {
      assert (a + b)[..|a + b| - 1] == a + b[..|b| - 1];
      WithOrderAppend(a, b[..|b| - 1], k);
    } else {
      assert a + b == a;
    }
  }

  /** Inserts `x` after every element whose order is not greater than its own:
      one step of a stable insertion sort. */
  function Insert(s: seq<Section>, x: Section): (r: seq<Section>)
    ensures |r| == |s| + 1
  {
    if |s| == 0 then [x]
    else if s[|s| - 1].order <= x.order then s + [x]
    else Insert(s[..|s| - 1], x) + [s[|s| - 1]]
  }

  /** Insertion brings in nothing but `x`. */
  lemma {:induction false} InsertMembers(s: seq<Section>, x: Section)
    ensures forall y :: y in Insert(s, x) ==> y in s || y == x
  {
    if |s| > 0 && s[|s| - 1].order > x.order {
      var init := s[..|s| - 1];
      InsertMembers(init, x);
      assert s == init + [s[|s| - 1]];
    }
  }

  /** Insertion into a sorted list keeps it sorted. */
  lemma {:induction false} InsertSorted(s: seq<Section>, x: Section)
    requires SortedByOrder(s)
    ensures SortedByOrder(Insert(s, x))
  {
    if |s| > 0 && s[|s| - 1].order > x.order {
      var last := s[|s| - 1];
      var init := s[..|s| - 1];
      var front := Insert(init, x);
      assert s == init + [last];
      assert SortedByOrder(init);
      InsertSorted(init, x);
      InsertMembers(init, x);
      forall i | 0 <= i < |front|
        ensures front[i].order <= last.order
      {
        assert front[i] in front;
      }
      assert Insert(s, x) == front + [last];
    }
  }

  /** Insertion adds exactly `x`. */
  lemma {:induction false} InsertPermutes(s: seq<Section>, x: Section)
    ensures multiset(Insert(s, x)) == multiset(s) + multiset{x}
  {
    if |s| > 0 && s[|s| - 1].order > x.order {
      var init := s[..|s| - 1];
      InsertPermutes(init, x);
      assert s == init + [s[|s| - 1]];
    }
  }

  lemma WithOrderSingle(x: Section, k: int)
    ensures WithOrder([x], k) == if x.order == k then [x] else []
  {
    assert [x][..0] == [];
  }

  /** Insertion keeps every order class in its previous relative order, with
      the inserted element last in its class. */
  lemma {:induction false} InsertWithOrder(s: seq<Section>, x: Section, k: int)
    ensures WithOrder(Insert(s, x), k) == WithOrder(s + [x], k)
  {
    if |s| > 0 && s[|s| - 1].order > x.order {
      var last := s[|s| - 1];
      var init := s[..|s| - 1];
      var front := Insert(init, x);
      assert Insert(s, x) == front + [last];
      assert WithOrder(front, k) == WithOrder(init + [x], k) by {
        InsertWithOrder(init, x, k);
      }
      assert WithOrder(front + [last], k) == WithOrder(front, k) + WithOrder([last], k) by {
        WithOrderAppend(front, [last], k);
      }
      assert WithOrder(init + [x], k) == WithOrder(init, k) + WithOrder([x], k) by {
        WithOrderAppend(init, [x], k);
      }
      assert WithOrder(init, k) + WithOrder([x], k) + WithOrder([last], k) == WithOrder(init + [last] + [x], k) by {
        PassLast(init, last, x, k);
      }
      assert init + [last] == s;
    }
  }

  /** Moving `x` in front of a later element of a greater order leaves every
      order class as it was. */
  lemma PassLast(init: seq<Section>, last: Section, x: Section, k: int)
    requires last.order > x.order
    ensures WithOrder(init, k) + WithOrder([x], k) + WithOrder([last], k) == WithOrder(init + [last] + [x], k)
  {
    WithOrderSingle(x, k);
    WithOrderSingle(last, k);
    assert init + [last] + [x] == init + ([last] + [x]);
    WithOrderAppend([last], [x], k);
    WithOrderAppend(init, [last] + [x], k);
  }

  /** Insertion sort by order, from the last element backwards. */
  function InsertionSort(ss: seq<Section>): (r: seq<Section>)
    ensures |r| == |ss|
  {
    if |ss| == 0 then [] else Insert(InsertionSort(ss[..|ss| - 1]), ss[|ss| - 1])
  }

  /** The insertion sort sorts, permutes, and keeps each order class in order. */
  lemma InsertionSortFacts(ss: seq<Section>)
    ensures SortedByOrder(InsertionSort(ss))
    ensures multiset(InsertionSort(ss)) == multiset(ss)
    ensures forall k :: WithOrder(InsertionSort(ss), k) == WithOrder(ss, k)
  {
    InsertionSortSorts(ss);
    InsertionSortPermutes(ss);
    forall k
      ensures WithOrder(InsertionSort(ss), k) == WithOrder(ss, k)
    {
      InsertionSortStable(ss, k);
    }
  }

  lemma {:induction false} InsertionSortSorts(ss: seq<Section>)
    ensures SortedByOrder(InsertionSort(ss))
  {
    if |ss| > 0 {
      InsertionSortSorts(ss[..|ss| - 1]);
      InsertSorted(InsertionSort(ss[..|ss| - 1]), ss[|ss| - 1]);
    }
  }

  lemma {:induction false} InsertionSortPermutes(ss: seq<Section>)
    ensures multiset(InsertionSort(ss)) == multiset(ss)
  {
    if |ss| > 0 {
      var init := ss[..|ss| - 1];
      var x := ss[|ss| - 1];
      var sorted := InsertionSort(init);
      assert InsertionSort(ss) == Insert(sorted, x);
      assert multiset(Insert(sorted, x)) == multiset(sorted) + multiset{x} by {
        InsertPermutes(sorted, x);
      }
      assert multiset(sorted) == multiset(init) by {
        InsertionSortPermutes(init);
      }
      assert multiset(ss) == multiset(init) + multiset{x} by {
        assert ss == init + [x];
      }
    }
  }

  lemma {:induction false} InsertionSortStable(ss: seq<Section>, k: int)
    ensures WithOrder(InsertionSort(ss), k) == WithOrder(ss, k)
  {
    if |ss| > 0 {
      var init := ss[..|ss| - 1];
      var x := ss[|ss| - 1];
      var sorted := InsertionSort(init);
      assert InsertionSort(ss) == Insert(sorted, x);
      assert WithOrder(Insert(sorted, x), k) == WithOrder(sorted, k) + WithOrder([x], k) by {
        InsertWithOrder(sorted, x, k);
        WithOrderAppend(sorted, [x], k);
      }
      assert WithOrder(sorted, k) == WithOrder(init, k) by {
        InsertionSortStable(init, k);
      }
      assert WithOrder(ss, k) == WithOrder(init, k) + WithOrder([x], k) by {
        assert ss == init + [x];
        WithOrderAppend(init, [x], k);
      }
    }
  }

  /** `sections.sort((a, b) => a.order - b.order)`: a stable sort by order. */
  function SortByOrder(ss: seq<Section>): (r: seq<Section>)
    ensures SortedByOrder(r)
    ensures multiset(r) == multiset(ss) && |r| == |ss|
    ensures forall k :: WithOrder(r, k) == WithOrder(ss, k)
  {
    InsertionSortFacts(ss);
    InsertionSort(ss)
  }

  /** An already sorted list comes back unchanged; in particular a dense one. */
  lemma SortSorted(ss: seq<Section>)
    requires SortedByOrder(ss)
    ensures SortByOrder(ss) == ss
  {
    InsertionSortSorted(ss);
  }

  lemma {:induction false} InsertionSortSorted(ss: seq<Section>)
    requires SortedByOrder(ss)
    ensures InsertionSort(ss) == ss
  {
    if |ss| > 0 {
      var init := ss[..|ss| - 1];
      var x := ss[|ss| - 1];
      assert SortedByOrder(init);
      InsertionSortSorted(init);
      if |init| > 0 {
        assert init[|init| - 1].order <= x.order;
      }
      assert ss == init + [x];
    }
  }

  /** Sorting twice is sorting once (the renderers sort the page in place). */
  lemma SortIdempotent(ss: seq<Section>)
    ensures SortByOrder(SortByOrder(ss)) == SortByOrder(ss)
  {
    SortSorted(SortByOrder(ss));
  }

  lemma DenseSorted(ss: seq<Section>)
    requires Dense(ss)
    ensures SortByOrder(ss) == ss
  {
    SortSorted(ss);
  }
}

=== FILE: page_list.dfy ===
/** The lookups and filters both page stores perform over their list of pages. */
module PageList {
  import opened Wrappers
  import opened Types
  import opened Seqs

  /** `pages.findIndex(p => p.id === id)`, with -1 as None. */
  function IndexOf(pages: seq<Page>, id: string): (r: Option<nat>)
    ensures r.None? <==> forall i :: 0 <= i < |pages| ==> pages[i].id != id
    ensures r.Some? ==>
      && r.value < |pages| && pages[r.value].id == id
      && forall i :: 0 <= i < r.value ==> pages[i].id != id
  {
    if |pages| == 0 then None
    else if pages[0].id == id then Some(0)
    else match IndexOf(pages[1..], id)
      case None => None
      case Some(k) => Some(k + 1)
  }

  /** `pages.find(p => p.id === id) || null`: a page object is always truthy. */
  function Find(pages: seq<Page>, id: string): (r: Option<Page>)
    ensures r.None? <==> IndexOf(pages, id).None?
    ensures r.Some? ==> r.value == pages[IndexOf(pages, id).value]
  {
    match IndexOf(pages, id)
    case None => None
    case Some(k) => Some(pages[k])
  }

  /** A lookup checks the first page, then the rest. */
  lemma FindCons(p: Page, rest: seq<Page>, id: string)
    ensures Find([p] + rest, id) == if p.id == id then Some(p) else Find(rest, id)
  {
    assert ([p] + rest)[1..] == rest;
  }

  /** Two lists that agree on which positions before `k` carry an id, and
      both carry it at `k`, find it first at `k`. */
  lemma IndexOfSame(a: seq<Page>, b: seq<Page>, id: string, k: nat)
    requires k < |b| && b[k].id == id && k <= |a|
    requires forall i :: 0 <= i < k ==> a[i].id != id && b[i].id == a[i].id
    ensures IndexOf(b, id) == Some(k)
  {
    match IndexOf(b, id)
    case None =>
    case Some(j) =>
      assert !(j < k);
  }

  /** Appending cannot change where an id already present is found first. */
  lemma IndexOfPrefix(a: seq<Page>, b: seq<Page>, id: string)
    requires |a| <= |b| && a == b[..|a|] && HasId(a, id)
    ensures IndexOf(b, id) == IndexOf(a, id)
  {
    IndexOfSame(a, b, id, IndexOf(a, id).value);
  }

  /** Some page carries the id. */
  predicate HasId(pages: seq<Page>, id: string) {
    exists i :: 0 <= i < |pages| && pages[i].id == id
  }

  /** No two pages share an id. */
  predicate UniqueIds(pages: seq<Page>) {
    forall i, j :: 0 <= i < j < |pages| ==> pages[i].id != pages[j].id
  }

  /** `pages.filter(p => p.id !== id)`. */
  function WithoutId(pages: seq<Page>, id: string): (r: seq<Page>)
    ensures forall p :: p in r <==> p in pages && p.id != id
    ensures |r| <= |pages|
  {
    if |pages| == 0 then []
    else if pages[0].id == id then WithoutId(pages[1..], id)
    else [pages[0]] + WithoutId(pages[1..], id)
  }

  /** Each surviving page stays as many times as it was there. */
  lemma {:induction false} WithoutIdCounts(pages: seq<Page>, id: string)
    ensures forall p :: multiset(WithoutId(pages, id))[p] == if p.id == id then 0 else multiset(pages)[p]
  {
    if |pages| > 0 {
      WithoutIdCounts(pages[1..], id);
      assert pages == [pages[0]] + pages[1..];
      if pages[0].id != id {
        assert WithoutId(pages, id) == [pages[0]] + WithoutId(pages[1..], id);
      }
    }
  }

  /** The filter keeps the surviving pages in their order. */
  lemma {:induction false} WithoutIdOrdered(pages: seq<Page>, id: string)
    ensures Subsequence(WithoutId(pages, id), pages)
    ensures !HasId(pages, id) ==> WithoutId(pages, id) == pages
  {
    if |pages| > 0 {
      WithoutIdOrdered(pages[1..], id);
      if pages[0].id == id {
        SkipHead(WithoutId(pages[1..], id), pages);
      } else {
        assert WithoutId(pages, id)[1..] == WithoutId(pages[1..], id);
        if !HasId(pages, id) {
          assert !HasId(pages[1..], id) by {
            forall i | 0 <= i < |pages[1..]|
              ensures pages[1..][i].id != id
            {
              assert pages[1..][i] == pages[i + 1];
            }
          }
          assert pages == [pages[0]] + pages[1..];
        }
      }
    }
  }

  /** `pages.filter(p => p.userId === userId)`. */
  function OwnedBy(pages: seq<Page>, userId: string): (r: seq<Page>)
    ensures forall p :: p in r <==> p in pages && p.userId == userId
  {
    if |pages| == 0 then []
    else if pages[0].userId == userId then [pages[0]] + OwnedBy(pages[1..], userId)
    else OwnedBy(pages[1..], userId)
  }

  /** The filter keeps the user's pages in store order. */
  lemma {:induction false} OwnedByOrdered(pages: seq<Page>, userId: string)
    ensures Subsequence(OwnedBy(pages, userId), pages)
  {
    if |pages| > 0 {
      OwnedByOrdered(pages[1..], userId);
      if pages[0].userId == userId {
        assert OwnedBy(pages, userId)[1..] == OwnedBy(pages[1..], userId);
      } else {
        SkipHead(OwnedBy(pages[1..], userId), pages);
      }
    }
  }

  /** `pages.find(p => p.slug === slug) || null`. */
  function FindBySlug(pages: seq<Page>, slug: string): (r: Option<Page>)
    ensures r.None? <==> forall i :: 0 <= i < |pages| ==> pages[i].slug != slug
    ensures r.Some? ==> r.value in pages && r.value.slug == slug
  {
    if |pages| == 0 then None
    else if pages[0].slug == slug then Some(pages[0])
    else FindBySlug(pages[1..], slug)
  }
}

=== FILE: pages_store.dfy ===
/** The browser-side page store: the saved pages and the page last opened.
    Both live in `localStorage` as JSON; here they are a list and an optional
    page, and the encoding is left out. */
module PagesStore {
  import opened Wrappers
  import opened Text
  import opened Types
  import opened PageList

  datatype Store = Store(pages: seq<Page>, current: Option<Page>)

  /** What `savePage` stores for a page: an update keeps the page's own
      creation time, a new page gets the current time for both. */
  function Stamped(page: Page, isNew: bool, now: int): (r: Page)
    ensures r.updatedAt == now && r.createdAt == (if isNew then now else page.createdAt)
    ensures r.(createdAt := page.createdAt, updatedAt := page.updatedAt) == page
  {
    if isNew then page.(createdAt := now, updatedAt := now) else page.(updatedAt := now)
  }

  /** `savePage(page)`: replace the first page with the same id, or append;
      then remember the page, as given, as the current one. */
  function SavePage(st: Store, page: Page, now: int): (r: Store)
    ensures r.current == Some(page)
    ensures |r.pages| == |st.pages| + (if HasId(st.pages, page.id) then 0 else 1)
    ensures Find(r.pages, page.id) == Some(Stamped(page, !HasId(st.pages, page.id), now))
    ensures forall i :: 0 <= i < |st.pages| && st.pages[i].id != page.id ==> r.pages[i] == st.pages[i]
  {
    match IndexOf(st.pages, page.id)
    case Some(k) =>
      var ps := st.pages[k := Stamped(page, false, now)];
      assert IndexOf(ps, page.id) == Some(k) by { IndexOfSame(st.pages, ps, page.id, k); }
      Store(ps, Some(page))
    case None =>
      var ps := st.pages + [Stamped(page, true, now)];
      assert IndexOf(ps, page.id) == Some(|st.pages|) by { IndexOfSame(st.pages, ps, page.id, |st.pages|); }
      Store(ps, Some(page))
  }

  /** Saving leaves what every other id looks up unchanged. */
  lemma SaveKeepsOthers(st: Store, page: Page, now: int, other: string)
    requires other != page.id
    ensures Find(SavePage(st, page, now).pages, other) == Find(st.pages, other)
  {
    var ps := SavePage(st, page, now).pages;
    match IndexOf(st.pages, other)
    case None =>
      assert forall i :: 0 <= i < |ps| ==> ps[i].id != other by {
        forall i | 0 <= i < |ps|
          ensures ps[i].id != other
        {
          if i < |st.pages| && st.pages[i].id != page.id {
            assert ps[i] == st.pages[i];
          }
        }
      }
    case Some(k) =>
      assert st.pages[k].id != page.id;
      IndexOfSame(st.pages, ps, other, k);
  }

  /** `deletePage(pageId)`: every page with the id goes, and the current page
      is forgotten when it had that id. */
  function DeletePage(st: Store, id: string): (r: Store)
    ensures !HasId(r.pages, id)
    ensures forall p :: p in r.pages <==> p in st.pages && p.id != id
    ensures r.current == (if st.current.Some? && st.current.value.id == id then None else st.current)
  {
    Store(WithoutId(st.pages, id), if st.current.Some? && st.current.value.id == id then None else st.current)
  }

  /** Deleting one id leaves what every other id looks up unchanged. */
  lemma {:induction false} DeleteKeepsOthers(pages: seq<Page>, id: string, other: string)
    requires other != id
    ensures Find(WithoutId(pages, id), other) == Find(pages, other)
  {
    if |pages| > 0 {
      var t := pages[1..];
      DeleteKeepsOthers(t, id, other);
      assert pages == [pages[0]] + t;
      FindCons(pages[0], t, other);
      if pages[0].id != id {
        assert WithoutId(pages, id) == [pages[0]] + WithoutId(t, id);
        FindCons(pages[0], WithoutId(t, id), other);
      }
    }
  }

  /** `duplicatePage(pageId)`: a copy under a fresh id, marked as a copy,
      unpublished, and saved. */
  function DuplicatePage(st: Store, id: string, newId: string, now: int): (r: (Store, Option<Page>))
    ensures r.1.None? <==> !HasId(st.pages, id)
    ensures r.1.None? ==> r.0 == st
    ensures r.1.Some? ==>
      var o := Find(st.pages, id).value;
      && r.1.value == o.(id := newId, title := o.title + " (Copy)",
           slug := o.slug + "-copy-" + IntToString(now), isPublished := false,
           createdAt := now, updatedAt := now)
      && r.0 == SavePage(st, r.1.value, now)
  {
    match Find(st.pages, id)
    case None => (st, None)
    case Some(o) =>
      var dup := o.(id := newId, title := o.title + " (Copy)",
        slug := o.slug + "-copy-" + IntToString(now), isPublished := false,
        createdAt := now, updatedAt := now);
      (SavePage(st, dup, now), Some(dup))
  }

  /** With a fresh id the copy is added after the existing pages, which stay as they were. */
  lemma DuplicateAppends(st: Store, id: string, newId: string, now: int)
    requires HasId(st.pages, id) && !HasId(st.pages, newId)
    ensures var r := DuplicatePage(st, id, newId, now);
      && r.0.pages == st.pages + [r.1.value]
      && r.1.value.sections == Find(st.pages, id).value.sections
      && !r.1.value.isPublished
  {
    var r := DuplicatePage(st, id, newId, now);
    assert IndexOf(st.pages, newId).None?;
  }

  /** `exportPage(pageId)`: the serialised page, or null for an unknown id. The
      serialiser is a parameter. */
  function ExportPage(st: Store, id: string, stringify: Page -> string): (r: Option<string>)
    ensures r.None? <==> !HasId(st.pages, id)
    ensures r.Some? ==> r.value == stringify(Find(st.pages, id).value)
  {
    match Find(st.pages, id)
    case None => None
    case Some(p) => Some(stringify(p))
  }

  /** A parsed import: the record read as a page (a missing text field reads as
      empty), and whether its `sections` was an array. */
  datatype Parsed = Parsed(page: Page, sectionsIsArray: bool)

  /** `importPage(json)` after parsing: the record must have an id, a title
      and a section array; it is saved under a fresh id and an `imported-` slug. */
  function ImportPage(st: Store, rec: Parsed, newId: string, now: int): (r: (Store, Option<Page>))
    ensures r.1.None? <==> rec.page.id == "" || rec.page.title == "" || !rec.sectionsIsArray
    ensures r.1.None? ==> r.0 == st
    ensures r.1.Some? ==>
      && r.1.value == rec.page.(id := newId, title := rec.page.title + " (Imported)",
           slug := "imported-" + IntToString(now), isPublished := false,
           createdAt := now, updatedAt := now)
      && r.0 == SavePage(st, r.1.value, now)
  {
    if rec.page.id == "" || rec.page.title == "" || !rec.sectionsIsArray then (st, None)
    else
      var p := rec.page.(id := newId, title := rec.page.title + " (Imported)",
        slug := "imported-" + IntToString(now), isPublished := false,
        createdAt := now, updatedAt := now);
      (SavePage(st, p, now), Some(p))
  }

  /** An exported page imports back as a new unpublished page with the same
      sections, owner and SEO fields, found under its new id. */
  lemma ExportThenImport(st: Store, id: string, newId: string, now: int)
    requires id != "" && HasId(st.pages, id) && Find(st.pages, id).value.title != ""
    ensures var o := Find(st.pages, id).value;
      var r := ImportPage(st, Parsed(o, true), newId, now);
      && r.1.Some?
      && r.1.value.sections == o.sections && r.1.value.userId == o.userId
      && r.1.value.seoTitle == o.seoTitle && r.1.value.seoDescription == o.seoDescription
      && Find(r.0.pages, newId) == Some(r.1.value)
  {
    var o := Find(st.pages, id).value;
    assert o.id == id;
    var r := ImportPage(st, Parsed(o, true), newId, now);
    assert Stamped(r.1.value, !HasId(st.pages, newId), now) == r.1.value;
  }

  /** `clearAllPages()`. */
  function ClearAllPages(st: Store): (r: Store)
    ensures forall id :: Find(r.pages, id).None? && r.current.None?
  {
    Store([], None)
  }
}

=== FILE: panel.dfy ===
/** The builder's two editing surfaces around the editor state: the
    customization panel, which turns field edits on the selected section into
    `onUpdateSection(id, updates)` calls, and the builder preview, which renders
    the sections sorted by order, handles selection clicks and decides which
    move buttons are live. */
module Panel {
  import opened Wrappers
  import opened Text
  import opened Js
  import opened Types
  import opened Ordering
  import opened Spacing
  import opened Editor

  /** One `onUpdateSection(id, updates)` call. */
  datatype Update = Update(id: string, patch: SectionPatch)

  function ContentPatch(c: Content): SectionPatch {
    SectionPatch(None, None, None, Some(c), None, None)
  }

  function StylesPatch(st: SectionStyles): SectionPatch {
    SectionPatch(None, None, None, None, Some(st), None)
  }

  /** `b` is `a` with `key` set to `v`, and every other key kept as it was. */
  predicate SetsOnly(a: map<string, Json>, b: map<string, Json>, key: string, v: Json) {
    b.Keys == a.Keys + {key} && b[key] == v && forall k :: k in a && k != key ==> b[k] == a[k]
  }

  /** `currentPage.sections.find(s => s.id === selectedSectionId)`. */
  function SelectedSection(e: Editor): (r: Option<Section>)
    ensures e.selected.None? ==> r.None?
    ensures r.Some? ==> r.value in e.page.sections && Some(r.value.id) == e.selected
    ensures r.None? && e.selected.Some? ==> forall s :: s in e.page.sections ==> s.id != e.selected.value
  {
    match e.selected
    case None => None
    case Some(id) =>
      match FindById(e.page.sections, id)
      case None => None
      case Some(i) => Some(e.page.sections[i])
  }

  // ------------------------------------------------------------- content

  /** `handleContentChange(key, value)`: the section's content with one key set,
      sent as a content-only update. With no section the panel shows a
      placeholder and nothing is sent. */
  function HandleContentChange(section: Option<Section>, key: string, value: Json): (r: Option<Update>)
    ensures section.None? ==> r.None?
    ensures section.Some? ==>
      && r.Some? && r.value.id == section.value.id
      && r.value.patch.content.Some?
      && r.value.patch == ContentPatch(r.value.patch.content.value)
      && SetsOnly(section.value.content, r.value.patch.content.value, key, value)
  {
    match section
    case None => None
    case Some(s) => Some(Update(s.id, ContentPatch(s.content[key := value])))
  }

  /** Sending a key's present value back changes nothing. */
  lemma ContentChangeSameValue(s: Section, key: string)
    requires key in s.content
    ensures HandleContentChange(Some(s), key, s.content[key]).value.patch.content.value == s.content
  {
  }

  /** The update reaches the editor: on a page with distinct ids, the selected
      section's content now reads `value` at `key`, and no other section moves. */
  lemma ContentChangeApplied(e: Editor, key: string, value: Json, now: int)
    requires SelectedSection(e).Some?
    requires forall a, b :: 0 <= a < b < |e.page.sections| ==> e.page.sections[a].id != e.page.sections[b].id
    ensures
      var u := HandleContentChange(SelectedSection(e), key, value).value;
      var r := UpdateSection(e, u.id, u.patch, now);
      var i := FindById(e.page.sections, e.selected.value).value;
      && Get(r.page.sections[i].content, key) == Some(value)
      && r.page.sections[i].styles == e.page.sections[i].styles
      && forall j :: 0 <= j < |e.page.sections| && j != i ==> r.page.sections[j] == e.page.sections[j]
  {
  }

  // -------------------------------------------------------------- styles

  /** `Partial<SectionStyles>`: `Some` marks a key present in the update. */
  datatype StylePatch = StylePatch(
    backgroundColor: Option<string>,
    textColor: Option<string>,
    padding: Option<Box>,
    margin: Option<Margin>,
    customCss: Option<string>,
    fontFamily: Option<string>,
    fontWeight: Option<string>)

  const EmptyPatch := StylePatch(None, None, None, None, None, None, None)

  function Pick<T>(update: Option<T>, current: Option<T>): Option<T> {
    if update.Some? then update else current
  }

  /** `{ ...styles, ...updates }`. */
  function MergeStyles(st: SectionStyles, u: StylePatch): (r: SectionStyles)
    ensures u.backgroundColor.Some? ==> r.backgroundColor == u.backgroundColor
    ensures u.backgroundColor.None? ==> r.backgroundColor == st.backgroundColor
    ensures u.textColor.Some? ==> r.textColor == u.textColor
    ensures u.textColor.None? ==> r.textColor == st.textColor
    ensures u.padding.Some? ==> r.padding == u.padding
    ensures u.padding.None? ==> r.padding == st.padding
    ensures u.margin.Some? ==> r.margin == u.margin
    ensures u.margin.None? ==> r.margin == st.margin
    ensures u.customCss.Some? ==> r.customCss == u.customCss
    ensures u.customCss.None? ==> r.customCss == st.customCss
    ensures u.fontFamily.Some? ==> r.fontFamily == u.fontFamily
    ensures u.fontFamily.None? ==> r.fontFamily == st.fontFamily
    ensures u.fontWeight.Some? ==> r.fontWeight == u.fontWeight
    ensures u.fontWeight.None? ==> r.fontWeight == st.fontWeight
  {
    SectionStyles(
      Pick(u.backgroundColor, st.backgroundColor), Pick(u.textColor, st.textColor),
      Pick(u.padding, st.padding), Pick(u.margin, st.margin), Pick(u.customCss, st.customCss),
      Pick(u.fontFamily, st.fontFamily), Pick(u.fontWeight, st.fontWeight))
  }

  /** Two updates in a row, as one: the later one wins key by key. */
  function Then(u1: StylePatch, u2: StylePatch): StylePatch {
    StylePatch(
      Pick(u2.backgroundColor, u1.backgroundColor), Pick(u2.textColor, u1.textColor),
      Pick(u2.padding, u1.padding), Pick(u2.margin, u1.margin), Pick(u2.customCss, u1.customCss),
      Pick(u2.fontFamily, u1.fontFamily), Pick(u2.fontWeight, u1.fontWeight))
  }

  /** The merge laws: an empty update keeps the styles, repeating an update
      changes nothing more, and two merges are one merge of the combined update. */
  lemma MergeLaws(st: SectionStyles, u: StylePatch, u2: StylePatch)
    ensures MergeStyles(st, EmptyPatch) == st
    ensures MergeStyles(MergeStyles(st, u), u) == MergeStyles(st, u)
    ensures MergeStyles(MergeStyles(st, u), u2) == MergeStyles(st, Then(u, u2))
  {
  }

  /** `handleStyleChange(updates)`: the merged styles, as a styles-only update. */
  function HandleStyleChange(section: Option<Section>, u: StylePatch): (r: Option<Update>)
    ensures section.None? ==> r.None?
    ensures section.Some? ==>
      && r.Some? && r.value.id == section.value.id
      && r.value.patch == StylesPatch(MergeStyles(section.value.styles, u))
  {
    match section
    case None => None
    case Some(s) => Some(Update(s.id, StylesPatch(MergeStyles(s.styles, u))))
  }

  // ------------------------------------------------------------- padding

  function BoxSpacing(b: Box): (r: SpacingValue)
    ensures Full(r)
  {
    SpacingValue(Some(b.top), Some(b.right), Some(b.bottom), Some(b.left))
  }

  function SpacingBox(v: SpacingValue): (r: Box)
    requires Full(v)
    ensures BoxSpacing(r) == v
  {
    Box(v.top.value, v.bottom.value, v.left.value, v.right.value)
  }

  /** The padding the control shows: the section's box, or zero on every side. */
  function ShownPadding(st: SectionStyles): (r: SpacingValue)
    ensures Full(r)
    ensures st.padding.None? ==> r == All(0)
    ensures st.padding.Some? ==> SpacingBox(r) == st.padding.value
  {
    if st.padding.Some? then BoxSpacing(st.padding.value) else All(0)
  }

  /** A side edit in the padding control: the control's value is complete, so
      the emitted padding is a complete box again. */
  function PaddingChange(section: Option<Section>, linked: bool, side: Side, n: int): (r: Option<Update>)
    ensures section.None? ==> r.None?
    ensures section.Some? ==>
      && r.Some? && r.value.id == section.value.id
      && r.value.patch.styles.Some? && r.value.patch.styles.value.padding.Some?
      && var before := ShownPadding(section.value.styles);
         var after := BoxSpacing(r.value.patch.styles.value.padding.value);
         && SideOf(after, side) == Some(n)
         && (linked ==> forall s :: SideOf(after, s) == Some(n))
         && (!linked ==> forall s :: s != side ==> SideOf(after, s) == SideOf(before, s))
    ensures section.Some? ==> r.value.patch.styles.value == section.value.styles.(padding := r.value.patch.styles.value.padding)
  {
    match section
    case None => None
    case Some(s) =>
      var v := HandleValueChange(ShownPadding(s.styles), linked, side, n);
      HandleStyleChange(section, EmptyPatch.(padding := Some(SpacingBox(v))))
  }

  // -------------------------------------------------------------- margin

  /** The margin the control shows: top and bottom of the section's margin,
      zero left and right. */
  function ShownMargin(st: SectionStyles): (r: SpacingValue)
    ensures Full(r) && r.left == Some(0) && r.right == Some(0)
    ensures st.margin.Some? ==> r.top == Some(st.margin.value.top) && r.bottom == Some(st.margin.value.bottom)
    ensures st.margin.None? ==> r == All(0)
  {
    match st.margin
    case Some(m) => SpacingValue(Some(m.top), Some(0), Some(m.bottom), Some(0))
    case None => All(0)
  }

  /** What the margin control's `onChange` keeps: top and bottom, missing as 0. */
  function MarginOf(v: SpacingValue): (r: Margin)
    ensures r.top == Reading(v, Top) && r.bottom == Reading(v, Bottom)
  {
    Margin(v.top.GetOr(0), v.bottom.GetOr(0))
  }

  /** A side edit in the margin control (negative values allowed). */
  function MarginChange(section: Option<Section>, linked: bool, side: Side, n: int): (r: Option<Update>)
    ensures section.None? ==> r.None?
    ensures section.Some? ==>
      && r.Some? && r.value.id == section.value.id
      && r.value.patch.styles.Some? && r.value.patch.styles.value.margin.Some?
      && r.value.patch.styles.value == section.value.styles.(margin := r.value.patch.styles.value.margin)
  {
    match section
    case None => None
    case Some(s) =>
      var v := HandleValueChange(ShownMargin(s.styles), linked, side, n);
      HandleStyleChange(section, EmptyPatch.(margin := Some(MarginOf(v))))
  }

  /** The margin a section ends up with after an edit, in terms of its old one:
      left and right edits are dropped, a top or bottom edit sets that side, and
      a linked edit sets both. */
  lemma MarginChangeEffect(s: Section, linked: bool, side: Side, n: int)
    ensures
      var before := if s.styles.margin.Some? then s.styles.margin.value else Margin(0, 0);
      var m := MarginChange(Some(s), linked, side, n).value.patch.styles.value.margin.value;
      && (linked ==> m == Margin(n, n))
      && (!linked && side in {Left, Right} ==> m == before)
      && (!linked && side == Top ==> m == before.(top := n))
      && (!linked && side == Bottom ==> m == before.(bottom := n))
  {
  }

  // ------------------------------------------------------- primary button

  /** The own enumerable keys an object spread `{...v}` copies: an object's
      fields, a string's characters and an array's items under the index
      keys "0", "1", ..., and nothing for `undefined`, `null`, booleans and
      numbers. */
  function Fields(v: Option<Json>): (r: map<string, Json>)
    ensures v.Some? && v.value.JObj? ==> r == v.value.fields
    ensures v.Some? && v.value.JStr? ==>
      && (forall i :: 0 <= i < |v.value.s| ==> NatToString(i) in r && r[NatToString(i)] == JStr([v.value.s[i]]))
      && (forall k :: k in r ==> exists i :: 0 <= i < |v.value.s| && k == NatToString(i))
    ensures v.Some? && v.value.JArr? ==>
      && (forall i :: 0 <= i < |v.value.items| ==> NatToString(i) in r && r[NatToString(i)] == v.value.items[i])
      && (forall k :: k in r ==> exists i :: 0 <= i < |v.value.items| && k == NatToString(i))
    ensures v.None? || v.value.JNull? || v.value.JBool? || v.value.JNum? ==> r == map[]
  {
    match v
    case Some(JObj(f)) => f
    case Some(JStr(s)) => Indexed(seq(|s|, i requires 0 <= i < |s| => JStr([s[i]])))
    case Some(JArr(items)) => Indexed(items)
    case _ => map[]
  }

  /** `items` keyed by their printed indices. */
  function Indexed(items: seq<Json>): (r: map<string, Json>)
    ensures forall i :: 0 <= i < |items| ==> NatToString(i) in r && r[NatToString(i)] == items[i]
    ensures forall k :: k in r ==> exists i :: 0 <= i < |items| && k == NatToString(i)
  {
    forall i: nat, j: nat | NatToString(i) == NatToString(j) ensures i == j {
      NatToStringInjective(i, j);
    }
    map i | 0 <= i < |items| :: NatToString(i) := items[i]
  }

  /** The primary-button inputs are offered for hero and CTA sections whose
      `cta` is truthy. */
  predicate HasPrimaryInputs(s: Section) {
    (s.kind == "hero" || s.kind == "cta") && Truthy(Get(s.content, "cta"))
  }

  /** Typing into the primary-button text (`field` = "text") or URL
      (`field` = "href") input: `cta.primary[field]` is set and everything else
      in `cta.primary`, in `cta` and in the content is kept. */
  function EditPrimary(section: Option<Section>, field: string, v: string): (r: Option<Update>)
    ensures r.Some? <==> section.Some? && HasPrimaryInputs(section.value)
    ensures r.Some? ==>
      var c := section.value.content;
      var cta := Fields(Get(c, "cta"));
      var primary := Fields(Get(cta, "primary"));
      && r.value.id == section.value.id
      && r.value.patch.content.Some? && r.value.patch == ContentPatch(r.value.patch.content.value)
      && var c2 := r.value.patch.content.value;
         && c2.Keys == c.Keys
         && (forall k :: k in c && k != "cta" ==> c2[k] == c[k])
         && c2["cta"].JObj?
         && (forall k :: k in cta && k != "primary" ==> k in c2["cta"].fields && c2["cta"].fields[k] == cta[k])
         && "primary" in c2["cta"].fields && c2["cta"].fields["primary"].JObj?
         && var p2 := c2["cta"].fields["primary"].fields;
            && p2.Keys == primary.Keys + {field}
            && p2[field] == JStr(v)
            && (forall k :: k in primary && k != field ==> p2[k] == primary[k])
  {
    match section
    case None => None
    case Some(s) =>
      if !HasPrimaryInputs(s) then None
      else
        var cta := Fields(Get(s.content, "cta"));
        var primary := Fields(Get(cta, "primary"));
        HandleContentChange(section, "cta", JObj(cta["primary" := JObj(primary[field := JStr(v)])]))
  }

  /** A string or array `cta` is spread into the new `cta` object: its
      characters or items stay under their index keys beside `primary`. */
  lemma EditPrimarySpreadsCta(s: Section, field: string, v: string, i: nat)
    requires HasPrimaryInputs(s)
    requires Get(s.content, "cta").value.JStr? || Get(s.content, "cta").value.JArr?
    requires i < (if Get(s.content, "cta").value.JStr? then |Get(s.content, "cta").value.s| else |Get(s.content, "cta").value.items|)
    ensures
      var cta := Get(s.content, "cta").value;
      var c2 := EditPrimary(Some(s), field, v).value.patch.content.value;
      && NatToString(i) in c2["cta"].fields
      && c2["cta"].fields[NatToString(i)] == (if cta.JStr? then JStr([cta.s[i]]) else cta.items[i])
  {
    NatToStringStartsWithDigit(i);
    assert NatToString(i) != "primary";
  }

  /** The string "Go" spreads as `{"0": "G", "1": "o"}`. */
  lemma SpreadGo()
    ensures Fields(Some(JStr("Go"))) == map["0" := JStr("G"), "1" := JStr("o")]
  {
    SpreadTwo('G', 'o');
  }

  lemma FirstIndices()
    ensures NatToString(0) == "0" && NatToString(1) == "1"
  {
  }

  /** A two-character string spreads into its two characters under "0" and "1". */
  lemma SpreadTwo(a: char, b: char)
    ensures Fields(Some(JStr([a, b]))) == map["0" := JStr([a]), "1" := JStr([b])]
  {
    var f := Fields(Some(JStr([a, b])));
    FirstIndices();
    SpreadTwoKeys(a, b);
    assert "0" in f && f["0"] == JStr([a]);
    assert "1" in f && f["1"] == JStr([b]);
  }

  lemma SpreadTwoKeys(a: char, b: char)
    ensures forall k :: k in Fields(Some(JStr([a, b]))) ==> k == "0" || k == "1"
  {
    var f := Fields(Some(JStr([a, b])));
    FirstIndices();
    forall k | k in f
      ensures k == "0" || k == "1"
    {
      var i :| 0 <= i < 2 && k == NatToString(i);
      assert i == 0 || i == 1;
    }
  }

  /** A hero whose `cta` is the string "Go": typing "Buy" as the button text
      gives `cta = {"0": "G", "1": "o", "primary": {"text": "Buy"}}`. */
  lemma EditPrimaryOnStringCta(s: Section)
    requires s.kind == "hero" && s.content == map["cta" := JStr("Go")]
    ensures EditPrimary(Some(s), "text", "Buy").value.patch.content.value
      == map["cta" := JObj(map["0" := JStr("G"), "1" := JStr("o"), "primary" := JObj(map["text" := JStr("Buy")])])]
  {
    SpreadGo();
    assert Get(s.content, "cta") == Some(JStr("Go"));
    var cta := Fields(Get(s.content, "cta"));
    assert Get(cta, "primary") == None;
    assert Fields(Get(cta, "primary")) == map[];
  }

  /** `content.cta.primary?.[field] || content.primaryButton?.[field] || ''`:
      what the input shows. The value under `cta.primary` wins when it is
      truthy, the legacy `primaryButton` one next, and otherwise the input is
      empty: it never shows a falsy value other than the empty string. */
  function ShownPrimary(c: Content, field: string): (r: Option<Json>)
    ensures Truthy(r) || r == Some(JStr(""))
    ensures var fromCta := Get(Fields(Get(Fields(Get(c, "cta")), "primary")), field);
      var fromButton := Get(Fields(Get(c, "primaryButton")), field);
      && (Truthy(fromCta) ==> r == fromCta)
      && (!Truthy(fromCta) && Truthy(fromButton) ==> r == fromButton)
      && (!Truthy(fromCta) && !Truthy(fromButton) ==> r == Some(JStr("")))
  {
    var primary := Get(Fields(Get(c, "cta")), "primary");
    var fromCta := if primary == None || primary == Some(JNull) then None else Get(Fields(primary), field);
    var button := Get(c, "primaryButton");
    var fromButton := if button == None || button == Some(JNull) then None else Get(Fields(button), field);
    if Truthy(fromCta) then fromCta else if Truthy(fromButton) then fromButton else Some(JStr(""))
  }

  /** What is typed is what the input then shows, when it is not empty. */
  lemma EditPrimaryShows(s: Section, field: string, v: string)
    requires HasPrimaryInputs(s) && v != ""
    ensures ShownPrimary(EditPrimary(Some(s), field, v).value.patch.content.value, field) == Some(JStr(v))
  {
  }

  // ------------------------------------------------------ builder preview

  /** `handleSectionClick(id)`: clicking the selected section deselects it,
      clicking another selects that one. */
  function ClickSection(selected: Option<string>, id: string): (r: Option<string>)
    ensures selected == Some(id) ==> r.None?
    ensures selected != Some(id) ==> r == Some(id)
  {
    if selected == Some(id) then None else Some(id)
  }

  /** A click on the selected section and the background have the same effect;
      a second click on a section undoes the first only when it was selected
      or nothing was. */
  lemma ClickTwice(selected: Option<string>, id: string)
    ensures selected == Some(id) ==> ClickSection(selected, id) == ClickBackground(selected)
    ensures ClickSection(ClickSection(selected, id), id) == selected <==> selected == Some(id) || selected.None?
  {
  }

  /** The click on the preview's background: the selection is cleared. */
  function ClickBackground(selected: Option<string>): (r: Option<string>)
    ensures r.None?
  {
    None
  }

  /** Selecting through the preview leaves the page and its history alone. */
  function Select(e: Editor, id: string): (r: Editor)
    ensures r.page == e.page && r.history == e.history && r.cursor == e.cursor
    ensures Valid(e) ==> Valid(r)
    ensures (r.selected == Some(id)) != (e.selected == Some(id))
  {
    e.(selected := ClickSection(e.selected, id))
  }

  /** The preview sorts `page.sections` in place before drawing them: the page
      shown, and its snapshot at the cursor, end up sorted by order. */
  function Render(e: Editor): (r: Editor)
    requires Valid(e)
    ensures Valid(r) && |r.history| == |e.history| && r.cursor == e.cursor
    ensures SortedByOrder(r.page.sections)
    ensures multiset(r.page.sections) == multiset(e.page.sections)
    ensures r.page == e.page.(sections := r.page.sections)
    ensures Dense(e.page.sections) ==> r == e
  {
    var p := e.page.(sections := SortByOrder(e.page.sections));
    if Dense(e.page.sections) then DenseSorted(e.page.sections); e
    else e.(page := p, history := e.history[e.cursor := p])
  }

  /** The move-up button is disabled when `order == 0`. */
  predicate UpButtonEnabled(s: Section) {
    s.order != 0
  }

  /** The move-down button is disabled when `order == sections.length - 1`. */
  predicate DownButtonEnabled(s: Section, count: nat) {
    s.order != count - 1
  }

  /** The section template is given `onMoveUp` only when `order > 0`. */
  predicate UpHandlerGiven(s: Section) {
    s.order > 0
  }

  /** The section template is given `onMoveDown` only when `order < length - 1`. */
  predicate DownHandlerGiven(s: Section, count: nat) {
    s.order < count - 1
  }

  /** On a dense page with distinct ids, the buttons and the template's handlers
      agree, and a move is offered exactly when the editor would perform it. */
  lemma MoveOfferedIffPerformed(e: Editor, i: nat, now: int)
    requires Valid(e) && Dense(e.page.sections) && i < |e.page.sections|
    requires forall a, b :: 0 <= a < b < |e.page.sections| ==> e.page.sections[a].id != e.page.sections[b].id
    ensures
      var ss := e.page.sections;
      && (UpButtonEnabled(ss[i]) <==> UpHandlerGiven(ss[i]))
      && (DownButtonEnabled(ss[i], |ss|) <==> DownHandlerGiven(ss[i], |ss|))
      && (UpButtonEnabled(ss[i]) <==> MoveSection(e, ss[i].id, Up, now) != e)
      && (DownButtonEnabled(ss[i], |ss|) <==> MoveSection(e, ss[i].id, Down, now) != e)
  {
    var ss := e.page.sections;
    assert FindIndex(ss, ss[i].id) == i by {
      forall j | 0 <= j < i
        ensures ss[j].id != ss[i].id
      {
      }
    }
    if i > 0 {
      assert MoveSection(e, ss[i].id, Up, now).cursor == e.cursor + 1;
    }
    if i < |ss| - 1 {
      assert MoveSection(e, ss[i].id, Down, now).cursor == e.cursor + 1;
    }
  }

  /** Edits made inside a rendered section are forwarded with its own id. */
  function ForwardContent(s: Section, c: Content): (r: Update)
    ensures r.id == s.id && r.patch.content == Some(c)
    ensures UpdateTouchesOnly(r, s)
  {
    Update(s.id, ContentPatch(c))
  }

  function ForwardStyles(s: Section, st: SectionStyles): (r: Update)
    ensures r.id == s.id && r.patch.styles == Some(st)
    ensures UpdateTouchesOnly(r, s)
  {
    Update(s.id, StylesPatch(st))
  }

  /** The update targets `s` and sets neither its id, type, variant nor order. */
  predicate UpdateTouchesOnly(u: Update, s: Section) {
    u.id == s.id && u.patch.id.None? && u.patch.kind.None? && u.patch.variant.None? && u.patch.order.None?
  }

  /** A forwarded edit keeps a dense page dense and leaves every other section alone. */
  lemma ForwardedEditLocal(e: Editor, s: Section, u: Update, now: int)
    requires UpdateTouchesOnly(u, s) && Dense(e.page.sections)
    ensures Dense(UpdateSection(e, u.id, u.patch, now).page.sections)
    ensures forall j :: 0 <= j < |e.page.sections| && e.page.sections[j].id != s.id ==>
      UpdateSection(e, u.id, u.patch, now).page.sections[j] == e.page.sections[j]
  {
  }
}

=== FILE: preview.dfy ===
/** The page-management preview: the in-page rendering of a page at a device
    width, and the stand-alone HTML document opened in a new tab. */
module Preview {
  import opened Wrappers
  import opened Text
  import opened Js
  import opened Types
  import opened Ordering

  // ------------------------------------------------------------ in page

  /** The three device widths a preview can take. */
  datatype Device = Desktop | Tablet | Mobile

  /** The inline width and max-width of the page container. */
  datatype Width = Width(width: string, maxWidth: string)

  /** `getViewportStyles()`: the full width on a desktop, a fixed width on a
      tablet or a phone. */
  function ViewportStyles(d: Device): (r: Width)
    ensures d.Desktop? <==> r.width == "100%"
    ensures !d.Desktop? ==> r.maxWidth == r.width && EndsWith(r.width, "px")
  {
    match d
    case Desktop => Width("100%", "none")
    case Tablet => Width("768px", "768px")
    case Mobile => Width("375px", "375px")
  }

  /** The border drawn around the page when the device frame is shown. */
  datatype Frame = Frame(border: string, borderRadius: string, boxShadow: string, relative: bool)

  /** `getFrameStyles()`: nothing without a device frame, else the frame of the device. */
  function FrameStyles(d: Device, showDeviceFrame: bool): (r: Option<Frame>)
    ensures r.Some? <==> showDeviceFrame
    ensures r.Some? ==> (r.value.relative <==> !d.Desktop?)
  {
    if !showDeviceFrame then None
    else match d
      case Desktop => Some(Frame("8px solid #e5e7eb", "8px", "0 10px 25px rgba(0, 0, 0, 0.1)", false))
      case Tablet => Some(Frame("12px solid #374151", "20px", "0 10px 25px rgba(0, 0, 0, 0.2)", true))
      case Mobile => Some(Frame("8px solid #1f2937", "24px", "0 8px 20px rgba(0, 0, 0, 0.3)", true))
  }

  /** One rendered section: the registered component given the section's own
      props (and no-op handlers), or the "not found" panel. */
  datatype Item<C> =
    | Rendered(component: C, id: string, variant: string, content: Content, styles: SectionStyles)
    | NotFound(key: string, message: string)

  /** `renderSection(section)` against the component registry, which is a
      parameter: the name the preview imports is not among the registry
      file's exports, so the table it is meant to read is passed in. */
  function RenderSection<C>(registry: map<string, C>, s: Section): (r: Item<C>)
    ensures r.NotFound? <==> s.kind !in registry
    ensures r.NotFound? ==> r.key == s.id && r.message == "Section type \"" + s.kind + "\" not found"
    ensures r.Rendered? ==>
      r == Rendered(registry[s.kind], s.id, s.variant, s.content, s.styles)
  {
    if s.kind in registry then Rendered(registry[s.kind], s.id, s.variant, s.content, s.styles)
    else NotFound(s.id, "Section type \"" + s.kind + "\" not found")
  }

  /** What the preview component draws: the container width, the page's CSS,
      the sections and the page's script; the frame around it when asked. */
  datatype Rendering<C> = Rendering(
    frame: Option<Frame>,
    width: Width,
    css: Option<string>,
    items: seq<Item<C>>,
    js: Option<string>)

  /** `PagePreview({ page, viewport, showDeviceFrame })`, and the page as the
      in-place sort leaves it. */
  function RenderPage<C>(registry: map<string, C>, p: Page, d: Device, showDeviceFrame: bool): (r: (Rendering<C>, Page))
    ensures r.1 == p.(sections := SortByOrder(p.sections))
    ensures |r.0.items| == |p.sections|
    ensures forall i :: 0 <= i < |p.sections| ==> r.0.items[i] == RenderSection(registry, r.1.sections[i])
    ensures r.0.css.Some? <==> Filled(p.customCss)
    ensures r.0.js.Some? <==> Filled(p.customJs)
    ensures r.0.css.Some? ==> r.0.css == p.customCss
    ensures r.0.js.Some? ==> r.0.js == p.customJs
    ensures r.0.frame == FrameStyles(d, showDeviceFrame) && r.0.width == ViewportStyles(d)
  {
    var ss := SortByOrder(p.sections);
    var items := seq(|ss|, i requires 0 <= i < |ss| => RenderSection(registry, ss[i]));
    (Rendering(FrameStyles(d, showDeviceFrame), ViewportStyles(d),
       if Filled(p.customCss) then p.customCss else None,
       items,
       if Filled(p.customJs) then p.customJs else None),
     p.(sections := ss))
  }

  /** The rendered items are the page's sections in ascending order, and every
      section is drawn, found in the registry or not. */
  lemma RenderedInOrder<C>(registry: map<string, C>, p: Page, d: Device, frame: bool)
    ensures var r := RenderPage(registry, p, d, frame).0;
      && (forall i, j :: 0 <= i < j < |r.items| && r.items[i].Rendered? && r.items[j].Rendered? ==>
            exists a, b :: a in p.sections && b in p.sections && a.id == r.items[i].id && b.id == r.items[j].id && a.order <= b.order)
      && multiset(SortByOrder(p.sections)) == multiset(p.sections)
  {
    var ss := SortByOrder(p.sections);
    var r := RenderPage(registry, p, d, frame).0;
    forall i, j | 0 <= i < j < |r.items| && r.items[i].Rendered? && r.items[j].Rendered?
      ensures exists a, b :: a in p.sections && b in p.sections && a.id == r.items[i].id && b.id == r.items[j].id && a.order <= b.order
    {
      assert ss[i] in multiset(p.sections) && ss[j] in multiset(p.sections);
      assert ss[i].order <= ss[j].order;
    }
  }

  // ------------------------------------------------------- new-tab HTML

  /** `s.charAt(0).toUpperCase() + s.slice(1)`. */
  function Capitalize(s: string): (r: string)
    ensures |r| == |s|
    ensures |s| > 0 ==> r[0] == UpperChar(s[0]) && r[1..] == s[1..]
  {
    if |s| == 0 then "" else [UpperChar(s[0])] + s[1..]
  }

  /** The heading of a section's block. */
  function Heading(kind: string): string {
    Capitalize(kind) + " Section"
  }

  /** Capitalising changes the case of the first letter only, so lower-casing
      undoes it. */
  lemma CapitalizeLower(s: string)
    ensures Lower(Capitalize(s)) == Lower(s)
  {
    var r := Capitalize(s);
    assert forall i :: 0 <= i < |s| ==> LowerChar(r[i]) == LowerChar(s[i]);
  }

  lemma LowerTypeName(t: SectionType)
    ensures Lower(TypeName(t)) == TypeName(t)
  {
    LowerLetters(TypeName(t));
  }

  /** The heading names the section's type: the type is recovered from it, so
      two types never share a heading. */
  lemma HeadingNamesType(t: SectionType, u: SectionType)
    ensures var h := Heading(TypeName(t));
      EndsWith(h, " Section") && Lower(h[..|h| - 8]) == TypeName(t)
    ensures Heading(TypeName(t)) == Heading(TypeName(u)) ==> t == u
  {
    LowerTypeName(t);
    LowerTypeName(u);
    HeadingRecovers(TypeName(t));
    HeadingRecovers(TypeName(u));
    if Heading(TypeName(t)) == Heading(TypeName(u)) {
      TypeNameInjective(t, u);
    }
  }

  /** A lower-case kind is read back from its heading by dropping " Section"
      and lower-casing. */
  lemma HeadingRecovers(kind: string)
    requires Lower(kind) == kind
    ensures var h := Heading(kind);
      EndsWith(h, " Section") && Lower(h[..|h| - 8]) == kind
  {
    var h := Heading(kind);
    assert h[..|h| - 8] == Capitalize(kind);
    assert h[|h| - 8..] == " Section";
    CapitalizeLower(kind);
  }

  lemma TypeNameInjective(t: SectionType, u: SectionType)
    requires TypeName(t) == TypeName(u)
    ensures t == u
  {
  }

  /** `<tag>value</tag>` when the content value is truthy, otherwise nothing. */
  function Line(c: Content, key: string, open: string, close: string): (r: string)
    requires open != ""
    ensures r != "" <==> Truthy(Get(c, key))
    ensures r != "" ==> StartsWith(r, open) && EndsWith(r, close)
    ensures r != "" ==> r == open + Show(Get(c, key)) + close
  {
    if Truthy(Get(c, key)) then
      Affixes(open, Show(Get(c, key)), close);
      open + Show(Get(c, key)) + close
    else ""
  }

  /** The opening tag of a section's block: its type and variant classes and its id. */
  function BlockOpen(s: Section): string {
    "<div class=\"section-" + s.kind + " section-" + s.variant + "\" data-section-id=\"" + s.id + "\">"
  }

  const TitleOpen := "<h4 class=\"mt-4 font-medium\">"
  const DescriptionOpen := "<p class=\"text-gray-700\">"

  /** The close of a block: the content's title and description lines, when
      they are truthy, and the closing tags. */
  function BlockLines(c: Content): string {
    Line(c, "title", TitleOpen, "</h4>") + Line(c, "description", DescriptionOpen, "</p>") + "</div></div>"
  }

  /** One section's block: the heading, the variant, and the content's title
      and description lines when they are truthy. */
  function Block(s: Section): string {
    BlockOpen(s) + BlockMiddle(s) + BlockLines(s.content)
  }

  function BlockMiddle(s: Section): string {
    "<div class=\"p-8 border-b border-gray-200\"><h3 class=\"text-lg font-semibold text-gray-900 mb-2\">"
      + Heading(s.kind) + "</h3><p class=\"text-gray-600 text-sm\">Variant: " + s.variant + "</p>"
  }

  /** A block opens with the section's own tag and closes with its content lines. */
  lemma BlockShape(s: Section)
    ensures StartsWith(Block(s), BlockOpen(s)) && EndsWith(Block(s), BlockLines(s.content))
  {
    Affixes(BlockOpen(s), BlockMiddle(s), BlockLines(s.content));
  }

  /** The parts of `generatePreviewHTML(page)` that depend on the page. */
  datatype PreviewParts = PreviewParts(
    title: string,
    descriptionMeta: string,
    css: string,
    blocks: seq<string>,
    script: string)

  function DescriptionMeta(p: Page): (r: string)
    ensures r != "" <==> Filled(p.seoDescription)
    ensures Filled(p.seoDescription) ==> Contains(r, p.seoDescription.value)
  {
    if Filled(p.seoDescription) then
      var pre := "<meta name=\"description\" content=\"";
      var v := p.seoDescription.value;
      var m := pre + v + "\">";
      assert m[|pre|..|pre| + |v|] == v;
      ContainsAt(m, v, |pre|);
      m
    else ""
  }

  function Script(p: Page): (r: string)
    ensures r != "" <==> Filled(p.customJs)
  {
    if Filled(p.customJs) then "<script>" + p.customJs.value + "</script>" else ""
  }

  /** One block per section, in the order given. */
  function Blocks(ss: seq<Section>): seq<string> {
    seq(|ss|, i requires 0 <= i < |ss| => Block(ss[i]))
  }

  /** The parts of the new-tab document, one block per section in ascending order. */
  function Parts(p: Page): (r: PreviewParts)
    ensures r.title == OrElse(p.seoTitle, p.title)
    ensures r.descriptionMeta != "" <==> Filled(p.seoDescription)
    ensures Filled(p.seoDescription) ==> Contains(r.descriptionMeta, p.seoDescription.value)
    ensures r.css == (if Filled(p.customCss) then p.customCss.value else "")
    ensures r.script != "" <==> Filled(p.customJs)
    ensures |r.blocks| == |p.sections|
  {
    var ss := SortByOrder(p.sections);
    PreviewParts(
      OrElse(p.seoTitle, p.title),
      DescriptionMeta(p),
      OrElse(p.customCss, ""),
      Blocks(ss),
      Script(p))
  }

  /** The fixed text of the preview document, between the parts. */
  const PreviewHead := "<html lang=\"en\"><head><meta charset=\"UTF-8\">"
    + "<meta name=\"viewport\" content=\"width=device-width, initial-scale=1.0\">"
  const PreviewAssets := "<script src=\"https://cdn.tailwindcss.com\"></script>"
    + "<style>body { font-family: -apple-system, BlinkMacSystemFont, \"Segoe UI\", Roboto, \"Helvetica Neue\", Arial, sans-serif; }"
  const PreviewBody := "</head><body class=\"bg-white\">"
    + "<div class=\"preview-watermark fixed top-4 right-4 bg-blue-600 text-white px-3 py-1 rounded-full text-sm font-medium z-50\">Preview Mode</div>"

  /** `generatePreviewHTML(page)`, without the template's layout whitespace:
      a complete document titled with the SEO title or the title, whose
      stylesheet ends with the page's custom CSS and whose page container holds
      the section blocks in ascending order. */
  function PreviewHtml(p: Page): (r: string)
    ensures StartsWith(r, "<!DOCTYPE html>" + PreviewHead + "<title>" + OrElse(p.seoTitle, p.title) + "</title>"
      + DescriptionMeta(p) + PreviewAssets + OrElse(p.customCss, "") + "</style>" + PreviewBody)
    ensures Contains(r, "<div class=\"min-h-screen\">" + Join(Blocks(SortByOrder(p.sections)), "") + "</div>")
    ensures EndsWith(r, Script(p) + "</body></html>")
  {
    var d := Parts(p);
    Framed(
      "<!DOCTYPE html>" + PreviewHead + "<title>" + d.title + "</title>"
        + d.descriptionMeta + PreviewAssets + d.css + "</style>" + PreviewBody,
      "<div class=\"min-h-screen\">" + Join(d.blocks, "") + "</div>",
      d.script + "</body></html>")
  }

  /** Block `i` is the block of the `i`-th section by ascending order: the
      blocks appear in order, each is the block of a section of the page, and
      each section of the page has one. */
  lemma BlocksInOrder(p: Page)
    ensures var ss := SortByOrder(p.sections);
      && SortedByOrder(ss) && Parts(p).blocks == Blocks(ss) && |ss| == |p.sections|
      && (forall i :: 0 <= i < |ss| ==> ss[i] in p.sections)
      && (forall s :: s in p.sections ==> exists i :: 0 <= i < |ss| && ss[i] == s)
  {
    BlocksCover(SortByOrder(p.sections), p.sections);
  }

  lemma BlocksCover(ss: seq<Section>, ps: seq<Section>)
    requires multiset(ss) == multiset(ps)
    ensures forall i :: 0 <= i < |ss| ==> ss[i] in ps
    ensures forall s :: s in ps ==> exists i :: 0 <= i < |ss| && ss[i] == s
  {
    forall i | 0 <= i < |ss|
      ensures ss[i] in ps
    {
      assert ss[i] in multiset(ss);
    }
    forall s | s in ps
      ensures exists i :: 0 <= i < |ss| && ss[i] == s
    {
      assert s in multiset(ss);
    }
  }
}

=== FILE: publisher.dfy ===
/** The publish dialog: toggling a page's published flag and the public URL shown. */
module Publisher {
  import opened Types

  /** `getPublicUrl()`: `${origin}/p/${slug}`. */
  function PublicUrl(origin: string, slug: string): (r: string)
    ensures |r| == |origin| + 3 + |slug|
    ensures r[..|origin|] == origin && r[|origin|..|origin| + 3] == "/p/" && r[|origin| + 3..] == slug
  {
    origin + "/p/" + slug
  }

  /** `handlePublishToggle()`: the page handed to `onPublishToggle` and the
      URL the dialog then shows ("" after unpublishing). */
  function Toggle(p: Page, origin: string, now: int): (r: (Page, string))
    ensures r.0 == p.(isPublished := !p.isPublished, updatedAt := now)
    ensures !p.isPublished ==> r.1 == PublicUrl(origin, p.slug)
    ensures p.isPublished ==> r.1 == ""
  {
    (p.(isPublished := !p.isPublished, updatedAt := now), if !p.isPublished then PublicUrl(origin, p.slug) else "")
  }

  /** Toggling twice gives back the page, apart from the last `updatedAt`, and
      a URL is shown exactly when the toggle published the page. */
  lemma ToggleTwice(p: Page, origin: string, t1: int, t2: int)
    ensures Toggle(Toggle(p, origin, t1).0, origin, t2).0 == p.(updatedAt := t2)
    ensures Toggle(p, origin, t1).1 != "" <==> Toggle(p, origin, t1).0.isPublished
  {
  }

  /** The URL shown after publishing is the one the dialog offers to copy for the new page. */
  lemma PublishedUrlIsPublic(p: Page, origin: string, now: int)
    requires !p.isPublished
    ensures Toggle(p, origin, now).1 == PublicUrl(origin, Toggle(p, origin, now).0.slug)
  {
  }
}

=== FILE: responsive.dfy ===
/** The responsive preview: a device viewport that can be rotated and zoomed.
    The window size is a parameter. */
module Responsive {
  import opened Preview

  /** A device's portrait size in pixels. */
  datatype Config = Config(name: string, width: nat, height: nat)

  /** The three device sizes. */
  function ConfigOf(d: Device): (c: Config)
    ensures c.width > 0 && c.height > 0
    ensures d.Desktop? <==> c.width > c.height
  {
    match d
    case Desktop => Config("Desktop", 1200, 800)
    case Tablet => Config("Tablet", 768, 1024)
    case Mobile => Config("Mobile", 375, 667)
  }

  datatype View = View(viewport: Device, rotated: bool, zoom: real)

  /** The preview opens on the desktop, upright, at full size. */
  const Initial := View(Desktop, false, 1.0)

  /** The size shown: the device's size, with the sides swapped when rotated. */
  function DisplaySize(v: View): (r: (nat, nat))
    ensures !v.rotated ==> r == (ConfigOf(v.viewport).width, ConfigOf(v.viewport).height)
    ensures v.rotated ==> r == (ConfigOf(v.viewport).height, ConfigOf(v.viewport).width)
    ensures r.0 > 0 && r.1 > 0
  {
    var c := ConfigOf(v.viewport);
    if v.rotated then (c.height, c.width) else (c.width, c.height)
  }

  /** The rotate button; it is offered only when `CanRotate` holds. */
  function Rotate(v: View): (r: View)
    ensures r.rotated != v.rotated && r.viewport == v.viewport && r.zoom == v.zoom
    ensures DisplaySize(r) == (DisplaySize(v).1, DisplaySize(v).0)
  {
    v.(rotated := !v.rotated)
  }

  /** The rotate button is shown only for the tablet and the phone. */
  predicate CanRotate(v: View) { !v.viewport.Desktop? }

  /** The desktop is shown upright. */
  predicate Upright(v: View) { v.viewport.Desktop? ==> !v.rotated }

  /** Every control the toolbar offers keeps the desktop upright, starting
      from the initial view. */
  lemma DesktopStaysUpright(v: View, d: Device, z: real)
    ensures Upright(Initial)
    ensures Upright(ChangeViewport(v, d))
    ensures Upright(v) ==> Upright(ChangeZoom(v, z))
    ensures Upright(v) && CanRotate(v) ==> Upright(Rotate(v))
  {
  }

  /** Rotating twice returns to the same view. */
  lemma RotateTwice(v: View)
    ensures Rotate(Rotate(v)) == v
  {
  }

  /** `handleViewportChange(viewport)`: a new device is shown upright. */
  function ChangeViewport(v: View, d: Device): (r: View)
    ensures r.viewport == d && !r.rotated && r.zoom == v.zoom
    ensures DisplaySize(r) == (ConfigOf(d).width, ConfigOf(d).height)
  {
    View(d, false, v.zoom)
  }

  function Max(a: real, b: real): real { if a >= b then a else b }

  function Min(a: real, b: real): real { if a <= b then a else b }

  /** `handleZoomChange(z)`: the zoom is clamped to 25% to 200%. */
  function ChangeZoom(v: View, z: real): (r: View)
    ensures 0.25 <= r.zoom <= 2.0
    ensures 0.25 <= z <= 2.0 ==> r.zoom == z
    ensures z < 0.25 ==> r.zoom == 0.25
    ensures z > 2.0 ==> r.zoom == 2.0
    ensures r.viewport == v.viewport && r.rotated == v.rotated
  {
    v.(zoom := Max(0.25, Min(2.0, z)))
  }

  /** The zoom buttons step by a quarter; each is disabled at its end of the
      range, which for a zoom in range is exactly when a click would not
      change it. */
  predicate CanZoomIn(v: View): (b: bool)
    ensures 0.25 <= v.zoom <= 2.0 ==> (b <==> ZoomIn(v).zoom != v.zoom)
  {
    !(v.zoom >= 2.0)
  }

  predicate CanZoomOut(v: View): (b: bool)
    ensures 0.25 <= v.zoom <= 2.0 ==> (b <==> ZoomOut(v).zoom != v.zoom)
  {
    !(v.zoom <= 0.25)
  }

  /** Zoom in a quarter, stopping at 200%; the device and rotation stay. */
  function ZoomIn(v: View): (r: View)
    ensures 0.25 <= r.zoom <= 2.0 && r.viewport == v.viewport && r.rotated == v.rotated
    ensures 0.0 <= v.zoom <= 1.75 ==> r.zoom == Max(0.25, v.zoom + 0.25)
    ensures v.zoom >= 1.75 ==> r.zoom == 2.0
    ensures v.zoom >= 0.25 ==> r.zoom >= v.zoom || v.zoom > 2.0
  {
    ChangeZoom(v, v.zoom + 0.25)
  }

  /** Zoom out a quarter, stopping at 25%; the device and rotation stay. */
  function ZoomOut(v: View): (r: View)
    ensures 0.25 <= r.zoom <= 2.0 && r.viewport == v.viewport && r.rotated == v.rotated
    ensures 0.5 <= v.zoom <= 2.25 ==> r.zoom == v.zoom - 0.25
    ensures v.zoom <= 0.5 ==> r.zoom == 0.25
    ensures v.zoom <= 2.0 ==> r.zoom <= v.zoom || v.zoom < 0.25
  {
    ChangeZoom(v, v.zoom - 0.25)
  }

  /** Zooming in and back out returns to the same zoom while the step up stays
      within range, and clamping a zoom twice is clamping it once. */
  lemma ZoomSteps(v: View, z: real)
    requires 0.25 <= v.zoom <= 1.75
    ensures ZoomOut(ZoomIn(v)) == v
    ensures ChangeZoom(ChangeZoom(v, z), ChangeZoom(v, z).zoom) == ChangeZoom(v, z)
  {
  }

  /** `getScaleToFit()`: the largest scale at which the display fits a window
      less 300 pixels across and 200 down, but never above 1. */
  function ScaleToFit(v: View, innerWidth: int, innerHeight: int): (s: real)
    ensures var (w, h) := DisplaySize(v);
      && s <= 1.0
      && s * (w as real) <= (innerWidth - 300) as real
      && s * (h as real) <= (innerHeight - 200) as real
      && (s == 1.0 || s * (w as real) == (innerWidth - 300) as real || s * (h as real) == (innerHeight - 200) as real)
  {
    var (w, h) := DisplaySize(v);
    var sx := (innerWidth - 300) as real / w as real;
    var sy := (innerHeight - 200) as real / h as real;
    Min(Min(sx, sy), 1.0)
  }

  /** `autoFitZoom()`: the fit scale, not clamped to the zoom range. */
  function AutoFit(v: View, innerWidth: int, innerHeight: int): (r: View)
    ensures r.zoom <= 1.0 && r.viewport == v.viewport && r.rotated == v.rotated
    ensures r.zoom == ScaleToFit(v, innerWidth, innerHeight)
    ensures r == v.(zoom := r.zoom)
  {
    v.(zoom := ScaleToFit(v, innerWidth, innerHeight))
  }

  /** Auto-fit can leave the zoom below the 25% the zoom buttons keep to: a
      1200-pixel desktop in a 500-pixel-wide window is fitted at one sixth. */
  lemma AutoFitBelowRange()
    ensures AutoFit(Initial, 500, 1000).zoom < 0.25
  {
    assert ScaleToFit(Initial, 500, 1000) == 200.0 / 1200.0;
  }
}

=== FILE: rich_text.dfy ===
/** The markdown-style toolbar of the rich-text editor: wrapping the selected
    text, turning the cursor's line into a list item, and inserting a heading.
    The textarea's selection is passed in; its browser guarantee
    `start <= end <= |value|` is the only precondition. */
module RichText {
  import opened Wrappers
  import opened Text

  /** A toolbar command; a link carries what the URL prompt returned (None when cancelled). */
  datatype Command = Bold | Italic | Underline | Code | Link(url: Option<string>)

  /** The new text and the selection the editor restores afterwards. */
  datatype Edit = Edit(value: string, selStart: nat, selEnd: nat)

  /** The marker written on both sides of the selection. */
  function Wrapper(c: Command): string
    requires !c.Link?
  {
    match c
    case Bold => "**"
    case Italic => "*"
    case Underline => "__"
    case Code => "`"
  }

  /** The replacement for the selected text. */
  function Formatted(c: Command, sel: string): string
    requires c.Link? ==> c.url.Some?
  {
    if c.Link? then "[" + sel + "](" + c.url.value + ")" else Wrapper(c) + sel + Wrapper(c)
  }

  /** `formatText(command)`: nothing for an empty selection or a cancelled or
      empty URL; otherwise the selection replaced by its formatted form. */
  function FormatText(value: string, start: nat, end: nat, c: Command): (r: Option<Edit>)
    requires start <= end <= |value|
    ensures r.None? <==> start == end || (c.Link? && !Filled(c.url))
    ensures r.Some? ==>
      && |r.value.value| > |value|
      && r.value.selStart <= r.value.selEnd <= |r.value.value|
      && r.value.value[..start] == value[..start]
      && r.value.value[|r.value.value| - (|value| - end)..] == value[end..]
    ensures r.Some? && !c.Link? ==>
      && |r.value.value| == |value| + 2 * |Wrapper(c)|
      && r.value.selStart == start + |Wrapper(c)|
      && r.value.value[r.value.selStart..r.value.selEnd] == value[start..end]
    ensures r.Some? && c.Link? ==>
      && r.value.selStart == start
      && r.value.value[start..r.value.selEnd] == "[" + value[start..end] + "](" + c.url.value + ")"
  {
    var sel := value[start..end];
    if sel == "" then None
    else if c.Link? && !Filled(c.url) then None
    else
      var f := Formatted(c, sel);
      var nv := Replace(value, start, end, f);
      if c.Link? then
        Some(Edit(nv, start, start + |f|))
      else
        var w := |Wrapper(c)|;
        assert f[w..w + |sel|] == sel;
        SliceOfSlice(nv, start, start + |f|, w, w + |sel|);
        Some(Edit(nv, start + w, start + w + |sel|))
  }

  /** `value.substring(0, start) + f + value.substring(end)`. */
  function Replace(value: string, start: nat, end: nat, f: string): (nv: string)
    requires start <= end <= |value|
    ensures |nv| == |value| - (end - start) + |f|
    ensures nv[..start] == value[..start]
    ensures nv[start..start + |f|] == f
    ensures nv[|nv| - (|value| - end)..] == value[end..]
  {
    var nv := value[..start] + f + value[end..];
    assert nv[..start] == value[..start];
    assert nv[start..start + |f|] == f;
    assert nv[|nv| - (|value| - end)..] == value[end..];
    nv
  }

  lemma SliceOfSlice(v: string, i: nat, j: nat, p: nat, q: nat)
    requires i <= j <= |v| && p <= q <= j - i
    ensures v[i + p..i + q] == v[i..j][p..q]
  {
    forall n | 0 <= n < q - p
      ensures v[i + p..i + q][n] == v[i..j][p..q][n]
    {
    }
  }

  /** Removing the two markers around the restored selection gives back the
      original text, and the markers are exactly there. */
  lemma UnwrapRestores(value: string, start: nat, end: nat, c: Command)
    requires start < end <= |value| && !c.Link?
    ensures var e := FormatText(value, start, end, c).value; var w := |Wrapper(c)|;
      && e.selStart >= w && e.selEnd + w <= |e.value|
      && e.value[e.selStart - w..e.selStart] == Wrapper(c)
      && e.value[e.selEnd..e.selEnd + w] == Wrapper(c)
      && e.value[..e.selStart - w] + e.value[e.selStart..e.selEnd] + e.value[e.selEnd + w..] == value
  {
    var w := Wrapper(c);
    var nv := Replace(value, start, end, w + value[start..end] + w);
    assert FormatText(value, start, end, c) == Some(Edit(nv, start + |w|, start + |w| + (end - start)));
    UnwrapPieces(value, start, end, w, nv);
  }

  lemma UnwrapPieces(value: string, start: nat, end: nat, w: string, nv: string)
    requires start <= end <= |value|
    requires |nv| == |value| + 2 * |w|
    requires nv[..start] == value[..start]
    requires nv[start..start + 2 * |w| + (end - start)] == w + value[start..end] + w
    requires nv[start + 2 * |w| + (end - start)..] == value[end..]
    ensures var i := start + |w|; var j := i + (end - start);
      && j + |w| <= |nv|
      && i >= |w| && nv[i - |w|..i] == w && nv[j..j + |w|] == w
      && nv[..i - |w|] + nv[i..j] + nv[j + |w|..] == value
  {
    var sel := value[start..end];
    var f := w + sel + w;
    var i, j, k := start + |w|, start + |w| + |sel|, start + |f|;
    WrappedParts(w, sel);
    Within(nv, start, k, f, 0, |w|, w);
    Within(nv, start, k, f, |w|, |w| + |sel|, sel);
    Within(nv, start, k, f, |w| + |sel|, |f|, w);
    Rejoin(value, start, end);
  }

  lemma WrappedParts(w: string, sel: string)
    ensures var f := w + sel + w;
      && f[..|w|] == w && f[|w|..|w| + |sel|] == sel && f[|w| + |sel|..] == w
  {
    var f := w + sel + w;
    assert f[..|w|] == w;
    assert f[|w|..|w| + |sel|] == sel;
    assert f[|w| + |sel|..] == w;
  }

  /** A piece of a piece is a piece of the whole. */
  lemma Within(v: string, i: nat, j: nat, f: string, p: nat, q: nat, piece: string)
    requires i <= j <= |v| && v[i..j] == f && p <= q <= |f| && f[p..q] == piece
    ensures v[i + p..i + q] == piece
  {
    SliceOfSlice(v, i, j, p, q);
  }

  /** Cutting a sequence in three and joining the pieces gives it back. */
  lemma Rejoin(v: string, i: nat, j: nat)
    requires i <= j <= |v|
    ensures v[..i] + v[i..j] + v[j..] == v
  {
    assert v[..i] + v[i..j] == v[..j];
  }

  // ------------------------------------------------------------- lists

  /** Where line `i` of the split text starts: each earlier line and its newline. */
  function Offset(lines: seq<string>, i: nat): nat
    requires i <= |lines|
  {
    if i == 0 then 0 else Offset(lines, i - 1) + |lines[i - 1]| + 1
  }

  /** The cursor at `start` is on line `i` or an earlier one. */
  predicate Reaches(lines: seq<string>, i: nat, start: nat)
    requires i < |lines|
  {
    Offset(lines, i) + |lines[i]| >= start
  }

  function LineFrom(lines: seq<string>, i: nat, start: nat): (r: nat)
    requires i <= |lines|
    ensures r < |lines| || (|lines| == 0 && r == 0)
    ensures (exists j :: i <= j < |lines| && Reaches(lines, j, start)) ==>
      && i <= r < |lines| && Reaches(lines, r, start)
      && forall j :: i <= j < r ==> !Reaches(lines, j, start)
    ensures (forall j :: i <= j < |lines| ==> !Reaches(lines, j, start)) ==> r == 0
    decreases |lines| - i
  {
    if i == |lines| then 0
    else if Reaches(lines, i, start) then i
    else LineFrom(lines, i + 1, start)
  }

  /** The line the cursor is on: the first whose end the cursor does not pass,
      or line 0 when the cursor lies beyond the text. */
  function CursorLine(lines: seq<string>, start: nat): (r: nat)
    requires |lines| >= 1
    ensures r < |lines|
    ensures (exists j :: 0 <= j < |lines| && Reaches(lines, j, start)) ==>
      && Reaches(lines, r, start)
      && forall j :: 0 <= j < r ==> !Reaches(lines, j, start)
    ensures (forall j :: 0 <= j < |lines| ==> !Reaches(lines, j, start)) ==> r == 0
  {
    LineFrom(lines, 0, start)
  }

  /** `line.replace(/^(\d+\.\s|- )/, '')`: one ordered or bulleted marker removed. */
  function StripListMarker(line: string): (r: string)
    ensures EndsWith(line, r)
  {
    var n := DigitPrefix(line);
    if 0 < n && n + 2 <= |line| && line[n] == '.' && IsJsSpace(line[n + 1]) then line[n + 2..]
    else if StartsWith(line, "- ") then line[2..]
    else line
  }

  function ListMarker(ordered: bool): string {
    if ordered then "1. " else "- "
  }

  /** The cursor's line as a list item. */
  function ListLine(line: string, ordered: bool): (r: string)
    ensures StartsWith(r, ListMarker(ordered))
  {
    ListMarker(ordered) + StripListMarker(line)
  }

  /** A marker the editor writes is the marker it strips. */
  lemma StripWritten(ordered: bool, rest: string)
    ensures StripListMarker(ListMarker(ordered) + rest) == rest
  {
    var line := ListMarker(ordered) + rest;
    if ordered {
      assert line[0] == '1' && line[1] == '.' && line[2] == ' ';
      assert DigitPrefix(line[1..]) == 0;
      assert DigitPrefix(line) == 1;
    } else {
      assert line[0] == '-' && DigitPrefix(line) == 0;
      assert line[..2] == "- ";
    }
    assert line[|ListMarker(ordered)|..] == rest;
  }

  /** Making a line a list item twice is making it once, and switching the
      kind of list replaces the marker instead of stacking a second one. */
  lemma ListLineLaws(line: string, ordered: bool, other: bool)
    ensures ListLine(ListLine(line, ordered), ordered) == ListLine(line, ordered)
    ensures ListLine(ListLine(line, other), ordered) == ListLine(line, ordered)
  {
    StripWritten(ordered, StripListMarker(line));
    StripWritten(other, StripListMarker(line));
  }

  lemma FreeSuffix(line: string, r: string, marker: string)
    requires Free(line, '\n') && Free(marker, '\n') && EndsWith(line, r)
    ensures Free(marker + r, '\n')
  {
    assert forall i :: 0 <= i < |r| ==> r[i] == line[|line| - |r| + i];
  }

  /** `insertList(ordered)`: the cursor's line gets the list marker, after one
      existing marker is stripped. */
  function InsertList(value: string, start: nat, ordered: bool): (r: string)
    ensures var lines := Split(value, '\n'); var k := CursorLine(lines, start);
      Split(r, '\n') == lines[k := ListLine(lines[k], ordered)]
  {
    var lines := Split(value, '\n');
    var k := CursorLine(lines, start);
    var out := lines[k := ListLine(lines[k], ordered)];
    SplitPiecesFree(value, '\n');
    FreeSuffix(lines[k], StripListMarker(lines[k]), ListMarker(ordered));
    SplitJoin(out, '\n');
    Join(out, "\n")
  }

  /** The number of lines is kept and only the cursor's line changes. */
  lemma ListKeepsOtherLines(value: string, start: nat, ordered: bool)
    ensures |Split(InsertList(value, start, ordered), '\n')| == |Split(value, '\n')|
    ensures forall i :: 0 <= i < |Split(value, '\n')| && i != CursorLine(Split(value, '\n'), start) ==>
      Split(InsertList(value, start, ordered), '\n')[i] == Split(value, '\n')[i]
  {
  }

  /** A second list command changes nothing more, as long as the cursor is
      still on the line the first one changed. */
  lemma InsertListTwice(value: string, start: nat, ordered: bool)
    ensures CursorLine(Split(InsertList(value, start, ordered), '\n'), start) == CursorLine(Split(value, '\n'), start) ==>
      InsertList(InsertList(value, start, ordered), start, ordered) == InsertList(value, start, ordered)
  {
    var v1 := InsertList(value, start, ordered);
    var lines := Split(value, '\n');
    var k := CursorLine(lines, start);
    if CursorLine(Split(v1, '\n'), start) == k {
      ListLineLaws(lines[k], ordered, ordered);
      JoinSplit(v1, '\n');
      JoinSplit(InsertList(v1, start, ordered), '\n');
      assert Split(InsertList(v1, start, ordered), '\n') == Split(v1, '\n');
    }
  }

  /** A cursor at the very start is on the first line. */
  lemma CursorAtStart(lines: seq<string>)
    requires |lines| >= 1
    ensures CursorLine(lines, 0) == 0
  {
    assert Reaches(lines, 0, 0);
  }

  // ----------------------------------------------------------- headings

  /** `insertHeading(level)`: the selection (or the word Heading when nothing is
      selected) behind `level` hashes and a space. */
  function InsertHeading(value: string, start: nat, end: nat, level: nat): (r: Edit)
    requires start <= end <= |value|
    ensures r.selStart == start + level + 1 && r.selStart <= r.selEnd <= |r.value|
    ensures r.value[..start] == value[..start]
    ensures r.value[start..r.selStart] == Repeat('#', level) + " "
    ensures start < end ==> r.value[r.selStart..r.selEnd] == value[start..end]
    ensures start == end ==> r.value[r.selStart..r.selEnd] == "Heading"
    ensures r.value[r.selEnd..] == value[end..]
  {
    var sel := if start < end then value[start..end] else "Heading";
    var h := Repeat('#', level) + " " + sel;
    var nv := value[..start] + h + value[end..];
    assert nv[..start] == value[..start];
    assert nv[start..start + level + 1] == Repeat('#', level) + " ";
    assert nv[start + level + 1..start + level + 1 + |sel|] == sel;
    assert nv[start + level + 1 + |sel|..] == value[end..];
    Edit(nv, start + level + 1, start + level + 1 + |sel|)
  }
}

=== FILE: sections.dfy ===
/** The section factory: the starter content and styles of each section type,
    and `createSection`, which assembles a section from them. */
module Sections {
  import opened Wrappers
  import opened Js
  import opened Types

  function Link(text: string, href: string): Json {
    JObj(map["text" := JStr(text), "href" := JStr(href)])
  }

  function NavItem(name: string, href: string): Json {
    JObj(map["label" := JStr(name), "href" := JStr(href)])
  }

  function Logo(): Json {
    JObj(map["text" := JStr("Your Logo"), "image" := JNull])
  }

  function Strs(ss: seq<string>): Json {
    JArr(seq(|ss|, i requires 0 <= i < |ss| => JStr(ss[i])))
  }

  /** The starter content of a known type. `now` is the ISO time stamp the blog
      post sample is dated with. */
  function TypeContent(t: SectionType, now: string): Content {
    match t
    case Header => map[
      "logo" := Logo(),
      "navigation" := JArr([NavItem("Home", "#"), NavItem("Features", "#features"),
                            NavItem("Pricing", "#pricing"), NavItem("Contact", "#contact")]),
      "cta" := Link("Get Started", "#")]
    case Hero => map[
      "headline" := JStr("Welcome to Your Amazing Product"),
      "subheadline" := JStr("Build something incredible with our powerful tools"),
      "cta" := JObj(map["primary" := Link("Get Started", "#"), "secondary" := Link("Learn More", "#")]),
      "image" := JNull,
      "videoUrl" := JNull]
    case Features => map[
      "title" := JStr("Amazing Features"),
      "subtitle" := JStr("Everything you need to succeed"),
      "features" := JArr([
        JObj(map["title" := JStr("Feature One"), "description" := JStr("Description of your first amazing feature"), "icon" := JStr("\U{1F680}")]),
        JObj(map["title" := JStr("Feature Two"), "description" := JStr("Description of your second amazing feature"), "icon" := JStr("\U{26A1}")]),
        JObj(map["title" := JStr("Feature Three"), "description" := JStr("Description of your third amazing feature"), "icon" := JStr("\U{1F3AF}")])])]
    case Pricing => map[
      "title" := JStr("Simple Pricing"),
      "subtitle" := JStr("Choose the perfect plan for your needs"),
      "plans" := JArr([
        JObj(map["name" := JStr("Basic"), "price" := JStr("$9"), "period" := JStr("/month"),
                 "features" := Strs(["Feature 1", "Feature 2", "Feature 3"]),
                 "cta" := Link("Get Started", "#")]),
        JObj(map["name" := JStr("Pro"), "price" := JStr("$29"), "period" := JStr("/month"),
                 "features" := Strs(["Everything in Basic", "Feature 4", "Feature 5"]),
                 "popular" := JBool(true),
                 "cta" := Link("Get Started", "#")])])]
    case Testimonials => map[
      "title" := JStr("What Our Customers Say"),
      "testimonials" := JArr([
        JObj(map["text" := JStr("This product has completely transformed how we work. Highly recommended!"),
                 "author" := JStr("John Doe"), "role" := JStr("CEO, Company Inc."), "avatar" := JNull])])]
    case Cta => map[
      "title" := JStr("Ready to Get Started?"),
      "subtitle" := JStr("Join thousands of satisfied customers today"),
      "cta" := Link("Get Started Now", "#")]
    case About => map[
      "title" := JStr("About Us"),
      "content" := JStr("We are passionate about creating amazing products that help people achieve their goals."),
      "image" := JNull]
    case Team => map[
      "title" := JStr("Meet Our Team"),
      "members" := JArr([
        JObj(map["name" := JStr("Jane Smith"), "role" := JStr("CEO & Founder"),
                 "bio" := JStr("Passionate about building great products"), "avatar" := JNull,
                 "social" := JObj(map["linkedin" := JStr("#"), "twitter" := JStr("#")])])])]
    case Faq => map[
      "title" := JStr("Frequently Asked Questions"),
      "questions" := JArr([
        JObj(map["question" := JStr("How does this work?"),
                 "answer" := JStr("It works by doing amazing things that help you achieve your goals.")])])]
    case Contact => map[
      "title" := JStr("Get In Touch"),
      "subtitle" := JStr("We would love to hear from you"),
      "email" := JStr("hello@example.com"),
      "phone" := JStr("+1 (555) 123-4567"),
      "address" := JStr("123 Main St, City, State 12345")]
    case Newsletter => map[
      "title" := JStr("Stay Updated"),
      "subtitle" := JStr("Get the latest news and updates delivered to your inbox"),
      "placeholder" := JStr("Enter your email address"),
      "cta" := Link("Subscribe", "#")]
    case Blog => map[
      "title" := JStr("Latest News"),
      "posts" := JArr([
        JObj(map["title" := JStr("Blog Post Title"), "excerpt" := JStr("A brief description of this blog post..."),
                 "date" := JStr(now), "image" := JNull, "href" := JStr("#")])])]
    case Gallery => map[
      "title" := JStr("Gallery"),
      "images" := JArr([])]
    case Stats => map[
      "title" := JStr("By the Numbers"),
      "stats" := JArr([
        JObj(map["number" := JStr("1000+"), "label" := JStr("Happy Customers")]),
        JObj(map["number" := JStr("99%"), "label" := JStr("Satisfaction Rate")]),
        JObj(map["number" := JStr("24/7"), "label" := JStr("Support Available")])])]
    case Footer => map[
      "logo" := Logo(),
      "links" := JArr([NavItem("Privacy Policy", "#"), NavItem("Terms of Service", "#")]),
      "social" := JArr([
        JObj(map["platform" := JStr("twitter"), "href" := JStr("#")]),
        JObj(map["platform" := JStr("facebook"), "href" := JStr("#")]),
        JObj(map["platform" := JStr("linkedin"), "href" := JStr("#")])]),
      "copyright" := JStr("\U{00A9} 2024 Your Company. All rights reserved.")]
  }

  /** `getDefaultContent(type, variant)`: the starter content of the type, or `{}`
      for a name outside the catalogue. The variant plays no part. */
  function DefaultContent(kind: string, variant: string, now: string): (r: Content)
    ensures ParseType(kind).None? ==> r == map[]
    ensures ParseType(kind).Some? ==> r == TypeContent(ParseType(kind).value, now)
  {
    match ParseType(kind)
    case None => map[]
    case Some(t) => TypeContent(t, now)
  }

  /** Two variants of one type start with the same content. */
  lemma DefaultContentIgnoresVariant(kind: string, v1: string, v2: string, now: string)
    ensures DefaultContent(kind, v1, now) == DefaultContent(kind, v2, now)
  {
  }

  /** The vertical padding of a known type's default styles. */
  function VerticalPadding(t: SectionType): int {
    match t
    case Header => 16
    case Newsletter => 60
    case Footer => 60
    case _ => 80
  }

  function Colors(t: SectionType): (string, string) {
    match t
    case Header => ("#ffffff", "#000000")
    case Hero => ("#f8fafc", "#1e293b")
    case Features => ("#ffffff", "#374151")
    case Pricing => ("#f8fafc", "#374151")
    case Testimonials => ("#ffffff", "#374151")
    case Cta => ("#3b82f6", "#ffffff")
    case About => ("#ffffff", "#374151")
    case Team => ("#f8fafc", "#374151")
    case Faq => ("#ffffff", "#374151")
    case Contact => ("#f8fafc", "#374151")
    case Newsletter => ("#1e293b", "#ffffff")
    case Blog => ("#ffffff", "#374151")
    case Gallery => ("#f8fafc", "#374151")
    case Stats => ("#3b82f6", "#ffffff")
    case Footer => ("#1e293b", "#ffffff")
  }

  /** The styles used for a name outside the catalogue. */
  const FallbackStyles := SectionStyles(Some("#ffffff"), Some("#000000"), Some(Box(40, 40, 24, 24)), None, None, None, None)

  /** `getDefaultStyles(type)`. Every style sets both colours and a padding box
      that is symmetric vertically and 24 px on each side. */
  function DefaultStyles(kind: string): (r: SectionStyles)
    ensures r.backgroundColor.Some? && r.textColor.Some? && r.padding.Some?
    ensures r.padding.value.top == r.padding.value.bottom
    ensures r.padding.value.left == r.padding.value.right == 24
    ensures r.margin.None? && r.customCss.None? && r.fontFamily.None? && r.fontWeight.None?
    ensures ParseType(kind).None? ==> r == FallbackStyles
    ensures ParseType(kind).Some? ==> r.padding.value.top == VerticalPadding(ParseType(kind).value)
  {
    match ParseType(kind)
    case None => FallbackStyles
    case Some(t) =>
      var v := VerticalPadding(t);
      SectionStyles(Some(Colors(t).0), Some(Colors(t).1), Some(Box(v, v, 24, 24)), None, None, None, None)
  }

  /** `createSection(type, variant, order = 0)`: `id` is the fresh identifier. */
  function CreateSection(id: string, kind: string, variant: string, order: Option<int>, now: string): (r: Section)
    ensures r.id == id && r.kind == kind && r.variant == variant
    ensures r.order == (if order.Some? then order.value else 0)
    ensures r.content == DefaultContent(kind, variant, now)
    ensures r.styles == DefaultStyles(kind)
  {
    Section(id, kind, variant, DefaultContent(kind, variant, now), DefaultStyles(kind), order.GetOr(0))
  }
}

=== FILE: seo.dfy ===
/** The SEO optimiser: six penalty-scored categories, their overall score,
    and the one-click fixes offered next to the suggestions. */
module Seo {
  import opened Wrappers
  import opened Text
  import opened Js
  import opened Types

  /** One category's score, with the issues and suggestions that explain it. */
  datatype Category = Category(score: int, issues: seq<string>, suggestions: seq<string>)

  datatype Analysis = Analysis(
    title: Category,
    description: Category,
    headings: Category,
    content: Category,
    images: Category,
    performance: Category,
    overall: int)

  // The suggestion texts are written in pieces so that proofs can look at
  // each piece on its own.
  const AddTitleTip := "Add a descriptive " + "page title"
  const ShortTitleTip := "Make your title " + "30-60 characters long"
  const LongTitleTip := "Keep your title " + "under 60 characters"
  const SeoTitleTip := "Set a custom " + "SEO title" + " for better " + "search results"
  const DescriptionTip := "Add" + " a compelling " + "meta description"

  /** Every suggestion the title category can make. */
  const TitleTips := [AddTitleTip, ShortTitleTip, LongTitleTip, SeoTitleTip]

  /** The title category: missing, too short (under 30) or too long (over 60),
      and 10 more off without an SEO title. */
  function TitleCategory(p: Page): (c: Category)
    ensures -10 <= c.score <= 100
    ensures p.title == "" ==> c.score == (if Filled(p.seoTitle) then 0 else -10)
    ensures p.title != "" ==>
      c.score == 100 - (if |p.title| < 30 then 20 else 0) - (if |p.title| > 60 then 30 else 0)
                     - (if Filled(p.seoTitle) then 0 else 10)
    ensures SeoTitleTip in c.suggestions <==> !Filled(p.seoTitle)
    ensures forall s :: s in c.suggestions ==> s in TitleTips
  {
    var base :=
      if p.title == "" then Category(0, ["Page title is missing"], [AddTitleTip])
      else
        var short := if |p.title| < 30
          then Category(80, ["Page title is too short"], [ShortTitleTip])
          else Category(100, [], []);
        if |p.title| > 60
        then Category(short.score - 30, short.issues + ["Page title is too long"],
          short.suggestions + [LongTitleTip])
        else short;
    if Filled(p.seoTitle) then base
    else Category(base.score - 10, base.issues, base.suggestions + [SeoTitleTip])
  }

  /** The description category: missing, under 120 or over 160 characters. */
  function DescriptionCategory(p: Page): (c: Category)
    ensures 0 <= c.score <= 100
    ensures !Filled(p.seoDescription) <==> c.score == 0
    ensures Filled(p.seoDescription) ==>
      c.score == 100 - (if |p.seoDescription.value| < 120 then 20 else 0)
                     - (if |p.seoDescription.value| > 160 then 30 else 0)
    ensures DescriptionTip in c.suggestions <==> !Filled(p.seoDescription)
  {
    if !Filled(p.seoDescription) then
      Category(0, ["Meta description is missing"], [DescriptionTip])
    else
      var d := p.seoDescription.value;
      if |d| < 120 then
        Category(80, ["Meta description is too short"], ["Make your description 120-160 characters"])
      else if |d| > 160 then
        Category(70, ["Meta description is too long"], ["Keep your description under 160 characters"])
      else Category(100, [], [])
  }

  /** The section types that carry a heading. */
  predicate HasHeading(s: Section) {
    s.kind in ["hero", "features", "about", "cta"]
  }

  /** A hero section with a truthy title: the page's H1. */
  predicate IsH1(s: Section) {
    s.kind == "hero" && Truthy(Get(s.content, "title"))
  }

  function HeadingsCategory(ss: seq<Section>): (c: Category)
    ensures 20 <= c.score <= 100
    ensures c.score == 100
      - (if exists s :: s in ss && HasHeading(s) then 0 else 50)
      - (if exists s :: s in ss && IsH1(s) then 0 else 30)
  {
    var some := exists s :: s in ss && HasHeading(s);
    var h1 := exists s :: s in ss && IsH1(s);
    var c := if some then Category(100, [], [])
      else Category(50, ["No sections with headings found"], ["Add sections with clear headings (Hero, Features, etc.)"]);
    if h1 then c
    else Category(c.score - 30, c.issues + ["No H1 heading found"], c.suggestions + ["Add a main heading in your Hero section"])
  }

  /** `content.description || content.content`. */
  function TextValue(s: Section): Option<Json> {
    var d := Get(s.content, "description");
    if Truthy(d) then d else Get(s.content, "content")
  }

  /** A section whose description or content is truthy. */
  predicate HasText(s: Section) {
    Truthy(TextValue(s))
  }

  /** `text.split(' ').length`: one more than the number of spaces. */
  function Words(s: Section): nat {
    |Split(Show(TextValue(s)), ' ')|
  }

  /** The words of all sections with text. */
  function TotalWords(ss: seq<Section>): (n: nat)
    ensures (exists s :: s in ss && HasText(s)) ==> n >= 1
    ensures (forall s :: s in ss ==> !HasText(s)) ==> n == 0
  {
    if |ss| == 0 then 0
    else
      var rest := TotalWords(ss[1..]);
      assert forall s :: s in ss[1..] ==> s in ss;
      assert ss[0] in ss;
      (if HasText(ss[0]) then Words(ss[0]) else 0) + rest
  }

  function ContentCategory(ss: seq<Section>): (c: Category)
    ensures 0 <= c.score <= 100
    ensures c.score == 100
      - (if exists s :: s in ss && HasText(s) then 0 else 60)
      - (if TotalWords(ss) < 300 then 40 else 0)
    ensures (forall s :: s in ss ==> !HasText(s)) ==> c.score == 0
  {
    var some := exists s :: s in ss && HasText(s);
    var c := if some then Category(100, [], [])
      else Category(40, ["Very little content found"], ["Add more descriptive content to your sections"]);
    if TotalWords(ss) < 300
    then Category(c.score - 40, c.issues + ["Content is too short for good SEO"], c.suggestions + ["Aim for at least 300 words of quality content"])
    else c
  }

  predicate HasImage(s: Section) {
    Truthy(Get(s.content, "image")) || Truthy(Get(s.content, "images"))
  }

  /** The image category never scores above 80: images present are assumed to
      lack alt text. */
  function ImagesCategory(ss: seq<Section>): (c: Category)
    ensures (exists s :: s in ss && HasImage(s)) <==> c.score == 70
    ensures c.score in {70, 80}
  {
    if exists s :: s in ss && HasImage(s) then
      Category(70, ["Some images may be missing alt text"], ["Add descriptive alt text to all images for accessibility"])
    else Category(80, [], ["Consider adding images to make your page more engaging"])
  }

  function PerformanceCategory(p: Page): (c: Category)
    ensures 40 <= c.score <= 100
    ensures c.score == 100
      - (if Filled(p.customCss) && |p.customCss.value| > 5000 then 20 else 0)
      - (if Filled(p.customJs) && |p.customJs.value| > 10000 then 30 else 0)
      - (if |p.sections| > 15 then 10 else 0)
  {
    var c0 := Category(100, [], []);
    var c1 := if Filled(p.customCss) && |p.customCss.value| > 5000
      then Category(c0.score - 20, ["Large amount of custom CSS"], ["Consider optimizing your custom CSS"]) else c0;
    var c2 := if Filled(p.customJs) && |p.customJs.value| > 10000
      then Category(c1.score - 30, c1.issues + ["Large amount of custom JavaScript"], c1.suggestions + ["Consider optimizing your custom JavaScript"]) else c1;
    if |p.sections| > 15
    then Category(c2.score - 10, c2.issues, c2.suggestions + ["Consider if all sections are necessary for page speed"])
    else c2
  }

  /** `Math.round(sum / 6)`: the nearest integer, halves rounding up. */
  function RoundSixth(sum: int): (r: int)
    ensures sum - 3 < 6 * r <= sum + 3
  {
    (sum + 3) / 6
  }

  /** `analyzePage(page)`. */
  function AnalyzePage(p: Page): (a: Analysis)
    ensures a.title == TitleCategory(p) && a.description == DescriptionCategory(p)
    ensures a.headings == HeadingsCategory(p.sections) && a.content == ContentCategory(p.sections)
    ensures a.images == ImagesCategory(p.sections) && a.performance == PerformanceCategory(p)
    ensures var sum := a.title.score + a.description.score + a.headings.score
        + a.content.score + a.images.score + a.performance.score;
      sum - 3 < 6 * a.overall <= sum + 3
  {
    var t := TitleCategory(p);
    var d := DescriptionCategory(p);
    var h := HeadingsCategory(p.sections);
    var c := ContentCategory(p.sections);
    var i := ImagesCategory(p.sections);
    var f := PerformanceCategory(p);
    Analysis(t, d, h, c, i, f, RoundSixth(t.score + d.score + h.score + c.score + i.score + f.score))
  }

  /** Every category scores at most 100, only the title can go below zero, and
      the overall score lies between 20 and 97: images never score above 80. */
  lemma ScoreBounds(p: Page)
    ensures var a := AnalyzePage(p);
      && -10 <= a.title.score <= 100
      && 0 <= a.description.score <= 100 && 20 <= a.headings.score <= 100
      && 0 <= a.content.score <= 100 && 70 <= a.images.score <= 80
      && 40 <= a.performance.score <= 100
      && 20 <= a.overall <= 97
  {
    var a := AnalyzePage(p);
    var sum := a.title.score + a.description.score + a.headings.score
      + a.content.score + a.images.score + a.performance.score;
    assert 120 <= sum <= 580;
  }

  /** A page without title or SEO title scores -10 on its title. */
  lemma TitleCanBeNegative(p: Page)
    requires p.title == "" && !Filled(p.seoTitle)
    ensures AnalyzePage(p).title.score == -10
  {
  }

  // --------------------------------------------------------- score colours

  /** The three bands a score is shown in. */
  datatype Band = Good | Fair | Poor

  function Hue(b: Band): string {
    match b
    case Good => "green"
    case Fair => "yellow"
    case Poor => "red"
  }

  /** 80 and above is good, 60 to 79 fair, below 60 poor. */
  function ScoreBand(score: int): (b: Band)
    ensures b == Good <==> score >= 80
    ensures b == Poor <==> score < 60
  {
    if score >= 80 then Good else if score >= 60 then Fair else Poor
  }

  /** `getScoreColor(score)`. */
  function ScoreColor(score: int): (r: string)
    ensures StartsWith(r, "text-") && EndsWith(r, "-600")
  {
    var r := if score >= 80 then "text-green-600" else if score >= 60 then "text-yellow-600" else "text-red-600";
    Affixes("text-", Hue(ScoreBand(score)), "-600");
    r
  }

  /** `getScoreBackground(score)`. */
  function ScoreBackground(score: int): (r: string)
    ensures StartsWith(r, "bg-") && EndsWith(r, "-100")
  {
    var r := if score >= 80 then "bg-green-100" else if score >= 60 then "bg-yellow-100" else "bg-red-100";
    Affixes("bg-", Hue(ScoreBand(score)), "-100");
    r
  }

  /** Text colour and background always show the same band. */
  lemma ColoursAgree(score: int)
    ensures ScoreColor(score) == "text-" + Hue(ScoreBand(score)) + "-600"
    ensures ScoreBackground(score) == "bg-" + Hue(ScoreBand(score)) + "-100"
  {
    if score >= 80 {
      assert "text-" + "green" + "-600" == "text-green-600" && "bg-" + "green" + "-100" == "bg-green-100";
    } else if score >= 60 {
      assert "text-" + "yellow" + "-600" == "text-yellow-600" && "bg-" + "yellow" + "-100" == "bg-yellow-100";
    } else {
      assert "text-" + "red" + "-600" == "text-red-600" && "bg-" + "red" + "-100" == "bg-red-100";
    }
  }

  /** A higher score never shows in a worse band. */
  lemma BandMonotone(s: int, t: int)
    requires s <= t
    ensures ScoreBand(s) == Good ==> ScoreBand(t) == Good
    ensures ScoreBand(t) == Poor ==> ScoreBand(s) == Poor
  {
  }

  /** The schema.org `WebPage` record shown for the page. */
  datatype StructuredData = StructuredData(name: string, description: Option<string>, url: string)

  /** `generateStructuredData()`: named by the SEO title, or the title. */
  function PageStructuredData(p: Page): (r: StructuredData)
    ensures Filled(p.seoTitle) ==> r.name == p.seoTitle.value
    ensures !Filled(p.seoTitle) ==> r.name == p.title
    ensures r.description == p.seoDescription
    ensures StartsWith(r.url, "/") && r.url[1..] == p.slug
  {
    StructuredData(OrElse(p.seoTitle, p.title), p.seoDescription, "/" + p.slug)
  }

  // ---------------------------------------------------------- quick fixes

  /** The generated meta description of the description fix. */
  function FixedDescription(title: string): string {
    title + " - Created with Marketing Site Builder. Discover amazing features and benefits."
  }

  /** `handleQuickFix(type, suggestion)`: an SEO-title suggestion of the title
      category copies the title; a meta-description suggestion of the
      description category writes a generated description. */
  function QuickFix(p: Page, category: string, suggestion: string): (r: Page)
    ensures r.(seoTitle := p.seoTitle, seoDescription := p.seoDescription) == p
    ensures r.seoTitle != p.seoTitle ==> category == "title" && r.seoTitle == Some(p.title)
    ensures r.seoDescription != p.seoDescription ==>
      category == "description" && r.seoDescription == Some(FixedDescription(p.title))
  {
    if category == "title" && Contains(suggestion, "SEO title") then p.(seoTitle := Some(p.title))
    else if category == "description" && Contains(suggestion, "meta description") then
      p.(seoDescription := Some(FixedDescription(p.title)))
    else p
  }

  /** As written, the fix button appears only next to suggestions of the title
      and description categories that contain `Add`. */
  predicate Offered(category: string, suggestion: string) {
    (category == "title" || category == "description") && Contains(suggestion, "Add")
  }

  /** The fix button for a suggestion with the matching text of its category. */
  predicate OfferedFixed(category: string, suggestion: string) {
    || ((category == "title" || category == "description") && Contains(suggestion, "Add"))
    || (category == "title" && Contains(suggestion, "SEO title"))
  }

  /** Text containing a non-empty string contains its first character. */
  lemma {:induction false} ContainsFirst(s: string, sub: string)
    requires |sub| > 0 && Contains(s, sub)
    ensures sub[0] in s
  {
    if StartsWith(s, sub) {
      assert s[0] == sub[0];
    } else {
      ContainsFirst(s[1..], sub);
      assert forall c :: c in s[1..] ==> c in s;
    }
  }

  /** None of the title suggestions has both `Add` and `SEO title`: each
      lacks a capital A or a capital S. */
  lemma TitleTipsLackAddOrSeo(s: string)
    requires s in TitleTips
    ensures !(Contains(s, "Add") && Contains(s, "SEO title"))
  {
    TitleTipLetters();
    if Contains(s, "Add") && Contains(s, "SEO title") {
      ContainsFirst(s, "Add");
      ContainsFirst(s, "SEO title");
    }
  }

  lemma TitleTipLetters()
    ensures 'S' !in AddTitleTip && 'A' !in ShortTitleTip && 'A' !in LongTitleTip && 'A' !in SeoTitleTip
  {
    NoLetter('S', "Add a descriptive ", "page title");
    NoLetter('A', "Make your title ", "30-60 characters long");
    NoLetter('A', "Keep your title ", "under 60 characters");
    NoLetter('A', "Set a custom ", "SEO title");
    NoLetter('A', " for better ", "search results");
    assert SeoTitleTip == ("Set a custom " + "SEO title") + (" for better " + "search results");
  }

  /** A letter in neither part is not in the whole. */
  lemma NoLetter(c: char, a: string, b: string)
    requires forall i :: 0 <= i < |a| ==> a[i] != c
    requires forall i :: 0 <= i < |b| ==> b[i] != c
    ensures c !in a + b
  {
  }

  /** Whatever the page, no offered title suggestion triggers the title fix:
      offering needs `Add` and the fix needs `SEO title`, and no title
      suggestion has both. Clicking any offered title fix leaves the page as it was. */
  lemma TitleFixNeverApplies(p: Page, s: string)
    requires s in AnalyzePage(p).title.suggestions && Offered("title", s)
    ensures QuickFix(p, "title", s) == p
  {
    TitleTipsLackAddOrSeo(s);
  }

  /** With the fix offered for its own text, a page that has a title but no SEO
      title is offered the fix, and applying it clears the suggestion and
      raises the title score by 10. */
  lemma TitleFixOffered(p: Page)
    requires p.title != "" && !Filled(p.seoTitle)
    ensures SeoTitleTip in AnalyzePage(p).title.suggestions
    ensures OfferedFixed("title", SeoTitleTip)
    ensures var q := QuickFix(p, "title", SeoTitleTip);
      && SeoTitleTip !in AnalyzePage(q).title.suggestions
      && AnalyzePage(q).title.score == AnalyzePage(p).title.score + 10
  {
    assert Contains(SeoTitleTip, "SEO title") by {
      ContainsAt(SeoTitleTip, "SEO title", |"Set a custom "|);
    }
    var q := QuickFix(p, "title", SeoTitleTip);
    assert q == p.(seoTitle := Some(p.title));
    assert TitleCategory(p).score == 100 - (if |p.title| < 30 then 20 else 0) - (if |p.title| > 60 then 30 else 0) - 10;
    assert TitleCategory(q).score == 100 - (if |p.title| < 30 then 20 else 0) - (if |p.title| > 60 then 30 else 0);
  }

  /** The description fix is offered for a missing description, and applying
      it leaves a description, so that category no longer scores 0. */
  lemma DescriptionFixApplies(p: Page)
    requires !Filled(p.seoDescription)
    ensures DescriptionTip in AnalyzePage(p).description.suggestions
    ensures Offered("description", DescriptionTip)
    ensures var q := QuickFix(p, "description", DescriptionTip);
      && q.seoDescription == Some(FixedDescription(p.title))
      && AnalyzePage(q).description.score > 0
      && DescriptionTip !in AnalyzePage(q).description.suggestions
  {
    DescriptionTipWords();
    var q := QuickFix(p, "description", DescriptionTip);
    assert q == p.(seoDescription := Some(FixedDescription(p.title)));
    assert Filled(q.seoDescription);
    assert AnalyzePage(q).description == DescriptionCategory(q);
  }

  lemma DescriptionTipWords()
    ensures Contains(DescriptionTip, "Add") && Contains(DescriptionTip, "meta description")
  {
    Affixes("Add", " a compelling ", "meta description");
    ContainsAt(DescriptionTip, "meta description", |"Add" + " a compelling "|);
  }
}

=== FILE: seqs.dfy ===
/** Generic facts about sequences used by the list-editing operations. */
module Seqs {

  /** `a` is `b` with some elements left out, the rest in their original order. */
  predicate Subsequence<T(==)>(a: seq<T>, b: seq<T>) {
    if |a| == 0 then true
    else if |b| == 0 then false
    else if a[0] == b[0] then Subsequence(a[1..], b[1..])
    else Subsequence(a, b[1..])
  }

  lemma {:induction false} SubsequenceRefl<T>(a: seq<T>)
    ensures Subsequence(a, a)
  {
    if |a| > 0 {
      SubsequenceRefl(a[1..]);
    }
  }

  /** A subsequence of a list's tail is a subsequence of the list. */
  lemma {:induction false} SkipHead<T>(a: seq<T>, b: seq<T>)
    requires |b| > 0 && Subsequence(a, b[1..])
    ensures Subsequence(a, b)
    decreases |a| + |b|, 1
  {
    if |a| > 0 && a[0] == b[0] {
      SubsequenceWeaken(a, b[1..]);
    }
  }

  /** Dropping the head of a subsequence leaves a subsequence. */
  lemma {:induction false} SubsequenceWeaken<T>(a: seq<T>, c: seq<T>)
    requires |a| > 0 && Subsequence(a, c)
    ensures Subsequence(a[1..], c)
    decreases |a| + |c|, 0
  {
    if a[0] == c[0] {
      SkipHead(a[1..], c);
    } else {
      SubsequenceWeaken(a, c[1..]);
      SkipHead(a[1..], c);
    }
  }

  /** `s.slice(0, n)` and `s.slice(n)` cut at this index: a negative `n`
      counts from the end, and both ends are clamped to the list. */
  function SliceIndex(len: nat, n: int): (k: nat)
    ensures k <= len
    ensures 0 <= n <= len ==> k == n
    ensures n > len ==> k == len
    ensures n < 0 ==> k == if len + n < 0 then 0 else len + n
  {
    if n < 0 then (if len + n < 0 then 0 else len + n)
    else if n > len then len
    else n
  }
}

=== FILE: settings.dfy ===
/** The page-settings dialog: the form it opens with, field edits, the slug
    normaliser, the validity that enables Save, and the page Save produces. */
module Settings {
  import opened Wrappers
  import opened Text
  import opened Types
  import opened Slugs

  /** The dialog's form: every field is plain text, an unset one is "". */
  datatype Form = Form(title: string, slug: string, seoTitle: string, seoDescription: string, customCss: string, customJs: string)

  /** The initial form: the page's fields, with `|| ''` for the optional ones. */
  function OpenForm(p: Page): (f: Form)
    ensures f.title == p.title && f.slug == p.slug
    ensures Filled(p.seoTitle) ==> f.seoTitle == p.seoTitle.value
    ensures !Filled(p.seoTitle) ==> f.seoTitle == ""
    ensures Filled(p.seoDescription) ==> f.seoDescription == p.seoDescription.value
    ensures !Filled(p.seoDescription) ==> f.seoDescription == ""
    ensures Filled(p.customCss) ==> f.customCss == p.customCss.value
    ensures !Filled(p.customCss) ==> f.customCss == ""
    ensures Filled(p.customJs) ==> f.customJs == p.customJs.value
    ensures !Filled(p.customJs) ==> f.customJs == ""
  {
    Form(p.title, p.slug, OrElse(p.seoTitle, ""), OrElse(p.seoDescription, ""), OrElse(p.customCss, ""), OrElse(p.customJs, ""))
  }

  /** The fields edited verbatim through `handleInputChange`. */
  datatype Field = Title | SeoTitle | SeoDescription | CustomCss | CustomJs

  function HandleInputChange(f: Form, field: Field, value: string): (r: Form)
    ensures r.slug == f.slug
    ensures field.Title? ==> r == f.(title := value)
    ensures field.SeoTitle? ==> r == f.(seoTitle := value)
    ensures field.SeoDescription? ==> r == f.(seoDescription := value)
    ensures field.CustomCss? ==> r == f.(customCss := value)
    ensures field.CustomJs? ==> r == f.(customJs := value)
  {
    match field
    case Title => f.(title := value)
    case SeoTitle => f.(seoTitle := value)
    case SeoDescription => f.(seoDescription := value)
    case CustomCss => f.(customCss := value)
    case CustomJs => f.(customJs := value)
  }

  /** `handleSlugChange(value)`: the slug field holds the normalised input. */
  function HandleSlugChange(f: Form, value: string): (r: Form)
    ensures r == f.(slug := r.slug)
    ensures WellFormed(r.slug) && NoEdgeHyphen(r.slug)
  {
    f.(slug := SettingsSlug(value))
  }

  /** Retyping the slug the dialog shows leaves the form as it is. */
  lemma SlugEditStable(f: Form, value: string)
    ensures var g := HandleSlugChange(f, value); HandleSlugChange(g, g.slug) == g
  {
    SettingsSlugIdempotent(value);
  }

  /** `isFormValid`: both the title and the slug have something besides whitespace. */
  predicate IsFormValid(f: Form): (b: bool)
    ensures b <==> !AllSpace(f.title) && !AllSpace(f.slug)
  {
    Trim(f.title) != "" && Trim(f.slug) != ""
  }

  lemma SlugNotBlank(s: string)
    requires WellFormed(s)
    ensures AllSpace(s) <==> s == ""
  {
    if s != "" {
      SlugCharNotSpace(s[0]);
    }
  }

  /** After a slug edit, Save is enabled exactly when the title is not blank and
      the normalised slug is not empty. */
  lemma SlugEditValidity(f: Form, value: string)
    ensures IsFormValid(HandleSlugChange(f, value)) <==> !AllSpace(f.title) && SettingsSlug(value) != ""
  {
    SlugNotBlank(SettingsSlug(value));
  }

  /** `formData.x || undefined`. */
  function Unset(s: string): (r: Option<string>)
    ensures r.None? <==> s == ""
    ensures r.Some? ==> r.value == s
  {
    if s != "" then Some(s) else None
  }

  /** `handleSave()`: the page with the form's fields, empty optional text
      dropped, and `updatedAt` set to `now`. */
  function HandleSave(p: Page, f: Form, now: int): (r: Page)
    ensures r.id == p.id && r.userId == p.userId && r.sections == p.sections
    ensures r.isPublished == p.isPublished && r.createdAt == p.createdAt
    ensures r.title == f.title && r.slug == f.slug && r.updatedAt == now
    ensures r.seoTitle == Unset(f.seoTitle) && r.seoDescription == Unset(f.seoDescription)
    ensures r.customCss == Unset(f.customCss) && r.customJs == Unset(f.customJs)
  {
    p.(title := f.title, slug := f.slug, seoTitle := Unset(f.seoTitle), seoDescription := Unset(f.seoDescription),
       customCss := Unset(f.customCss), customJs := Unset(f.customJs), updatedAt := now)
  }

  /** Reopening the dialog on a saved page shows the form that was saved. */
  lemma SaveThenOpen(p: Page, f: Form, now: int)
    ensures OpenForm(HandleSave(p, f, now)) == f
  {
  }

  /** No optional text field holds the empty string. */
  predicate NoEmptyText(p: Page) {
    p.seoTitle != Some("") && p.seoDescription != Some("") && p.customCss != Some("") && p.customJs != Some("")
  }

  /** Saving an untouched form changes only `updatedAt`, unless the page held
      empty optional text, which Save turns into an absent field. */
  lemma OpenThenSave(p: Page, now: int)
    ensures NoEmptyText(p) ==> HandleSave(p, OpenForm(p), now) == p.(updatedAt := now)
    ensures p.seoTitle == Some("") ==> HandleSave(p, OpenForm(p), now).seoTitle.None?
  {
  }
}

=== FILE: slugs.dfy ===
/** The two slug normalisers: the one the builder derives from a new title, and
    the stricter one the settings dialog applies to a typed slug. Both lower-case
    ASCII letters, drop characters other than letters, digits, whitespace and
    hyphens, turn each whitespace run into one hyphen and squeeze hyphen runs. */
module Slugs {
  import opened Text

  predicate IsSlugChar(c: char) {
    IsLowerAlnum(c) || c == '-'
  }

  /** Only `[a-z0-9-]` and never two hyphens in a row. */
  predicate WellFormed(s: string) {
    (forall i :: 0 <= i < |s| ==> IsSlugChar(s[i]))
    && (forall i :: 0 <= i < |s| - 1 ==> !(s[i] == '-' && s[i + 1] == '-'))
  }

  predicate NoEdgeHyphen(s: string) {
    |s| > 0 ==> s[0] != '-' && s[|s| - 1] != '-'
  }

  /** The characters of `s` other than hyphens, and other than whitespace as
      well when `spaces`, in their order. */
  function DropSeparators(s: string, spaces: bool): (r: string)
    ensures |r| <= |s|
    ensures forall i :: 0 <= i < |r| ==> r[i] != '-' && (spaces ==> !IsJsSpace(r[i]))
  {
    if |s| == 0 then ""
    else if s[0] == '-' || (spaces && IsJsSpace(s[0])) then DropSeparators(s[1..], spaces)
    else [s[0]] + DropSeparators(s[1..], spaces)
  }

  /** The `[a-z0-9]` characters of `s`, in their order. */
  function AlnumsOf(s: string): (r: string)
    ensures forall i :: 0 <= i < |r| ==> IsLowerAlnum(r[i])
  {
    if |s| == 0 then ""
    else if IsLowerAlnum(s[0]) then [s[0]] + AlnumsOf(s[1..])
    else AlnumsOf(s[1..])
  }

  /** Separators in front of a text do not show in its filter. */
  lemma {:induction false} DropLeadingSeparators(s: string, k: nat, spaces: bool)
    requires k <= |s|
    requires forall i :: 0 <= i < k ==> s[i] == '-' || (spaces && IsJsSpace(s[i]))
    ensures DropSeparators(s, spaces) == DropSeparators(s[k..], spaces)
  {
    if k > 0 {
      assert s[1..][k - 1..] == s[k..];
      DropLeadingSeparators(s[1..], k - 1, spaces);
    }
  }

  lemma HyphenThenFilter(q: string, r: string)
    requires r == "-" + q
    ensures DropSeparators(r, true) == DropSeparators(q, true)
  {
    assert r[1..] == q;
  }

  lemma CharThenFilter(s: string, q: string, r: string)
    requires |s| > 0 && !IsJsSpace(s[0])
    requires r == [s[0]] + q && DropSeparators(q, true) == DropSeparators(s[1..], true)
    ensures DropSeparators(r, true) == DropSeparators(s, true)
  {
    assert r[1..] == q;
  }

  /** Without whitespace the two filters agree. */
  lemma {:induction false} DropWithoutSpaces(s: string)
    requires forall i :: 0 <= i < |s| ==> !IsJsSpace(s[i])
    ensures DropSeparators(s, true) == DropSeparators(s, false)
  {
    if |s| > 0 {
      DropWithoutSpaces(s[1..]);
    }
  }

  /** `.replace(/[^a-z0-9\s-]/g, '')`. */
  function KeepSlugInput(s: string): (r: string)
    ensures forall i :: 0 <= i < |r| ==> IsSlugChar(r[i]) || IsJsSpace(r[i])
    ensures forall c :: c in r <==> c in s && (IsSlugChar(c) || IsJsSpace(c))
    ensures (forall i :: 0 <= i < |s| ==> IsSlugChar(s[i]) || IsJsSpace(s[i])) ==> r == s
    ensures DropSeparators(r, true) == AlnumsOf(s)
  {
    if |s| == 0 then ""
    else if IsSlugChar(s[0]) || IsJsSpace(s[0]) then
      var r := [s[0]] + KeepSlugInput(s[1..]);
      assert r[1..] == KeepSlugInput(s[1..]);
      r
    else KeepSlugInput(s[1..])
  }

  function SkipWhile(s: string, dash: bool): (r: string)
    ensures |r| <= |s| && r == s[|s| - |r|..]
    ensures |r| > 0 ==> (if dash then r[0] != '-' else !IsJsSpace(r[0]))
    ensures forall i :: 0 <= i < |s| - |r| ==> (if dash then s[i] == '-' else IsJsSpace(s[i]))
  {
    if |s| > 0 && (if dash then s[0] == '-' else IsJsSpace(s[0])) then SkipWhile(s[1..], dash) else s
  }

  /** `.replace(/\s+/g, '-')`: every maximal whitespace run becomes one hyphen. */
  function SpacesToHyphens(s: string): (r: string)
    ensures Spaced(s, r)
    decreases |s|
  {
    if |s| == 0 then ""
    else if IsJsSpace(s[0]) then
      var rest := SkipWhile(s, false);
      var q := SpacesToHyphens(rest);
      SpacedRun(s, rest, q);
      "-" + q
    else
      var q := SpacesToHyphens(s[1..]);
      SpacedKeep(s, q);
      [s[0]] + q
  }

  /** What replacing whitespace runs promises: no whitespace is left, every
      character is a hyphen or comes from the input, the text starts with a
      hyphen exactly when the input starts with a hyphen or whitespace, input
      without whitespace is kept as it is, and every character that is
      neither whitespace nor a hyphen is kept, in order. */
  predicate Spaced(s: string, r: string) {
    && (forall i :: 0 <= i < |r| ==> !IsJsSpace(r[i]))
    && (forall i :: 0 <= i < |r| ==> r[i] == '-' || r[i] in s)
    && ((|r| > 0 && r[0] == '-') <==> (|s| > 0 && (s[0] == '-' || IsJsSpace(s[0]))))
    && ((forall i :: 0 <= i < |s| ==> !IsJsSpace(s[i])) ==> r == s)
    && DropSeparators(r, true) == DropSeparators(s, true)
  }

  lemma SpacedRun(s: string, rest: string, q: string)
    requires |s| > 0 && IsJsSpace(s[0]) && |rest| < |s| && rest == s[|s| - |rest|..]
    requires forall i :: 0 <= i < |s| - |rest| ==> IsJsSpace(s[i])
    requires Spaced(rest, q)
    ensures Spaced(s, "-" + q)
  {
    var r := "-" + q;
    assert forall i :: 0 < i < |r| ==> r[i] == q[i - 1];
    assert forall c :: c in rest ==> c in s;
    HyphenThenFilter(q, r);
    DropLeadingSeparators(s, |s| - |rest|, true);
  }

  lemma SpacedKeep(s: string, q: string)
    requires |s| > 0 && !IsJsSpace(s[0]) && Spaced(s[1..], q)
    ensures Spaced(s, [s[0]] + q)
  {
    var r := [s[0]] + q;
    assert forall i :: 0 < i < |r| ==> r[i] == q[i - 1];
    assert forall c :: c in s[1..] ==> c in s;
    CharThenFilter(s, q, r);
    if forall i :: 0 <= i < |s| ==> !IsJsSpace(s[i]) {
      assert forall i :: 0 <= i < |s| - 1 ==> !IsJsSpace(s[1..][i]);
      assert s == [s[0]] + s[1..];
    }
  }

  /** `.replace(/-+/g, '-')`: every maximal hyphen run becomes one hyphen. */
  function SqueezeHyphens(s: string): (r: string)
    ensures Squeezed(s, r)
    decreases |s|
  {
    if |s| == 0 then ""
    else if s[0] == '-' then
      var rest := SkipWhile(s, true);
      var q := SqueezeHyphens(rest);
      SqueezeDash(s, rest, q);
      "-" + q
    else
      var q := SqueezeHyphens(s[1..]);
      SqueezeKeep(s, q);
      [s[0]] + q
  }

  predicate SlugChars(s: string) {
    forall i :: 0 <= i < |s| ==> IsSlugChar(s[i])
  }

  /** What squeezing promises: no two hyphens in a row, every character other
      than a hyphen kept in order, no character outside the slug alphabet
      unless there was one, the same first hyphen, no trailing hyphen that was
      not there, and nothing only from nothing. */
  predicate Squeezed(s: string, r: string) {
    && (forall i :: 0 <= i < |r| - 1 ==> !(r[i] == '-' && r[i + 1] == '-'))
    && DropSeparators(r, false) == DropSeparators(s, false)
    && (SlugChars(s) ==> SlugChars(r))
    && ((|r| > 0 && r[0] == '-') <==> (|s| > 0 && s[0] == '-'))
    && (|r| > 0 && r[|r| - 1] == '-' ==> |s| > 0 && s[|s| - 1] == '-')
    && (|r| == 0 <==> |s| == 0)
  }

  lemma SqueezeDash(s: string, rest: string, q: string)
    requires |s| > 0 && s[0] == '-' && |rest| < |s| && rest == s[|s| - |rest|..]
    requires forall i :: 0 <= i < |s| - |rest| ==> s[i] == '-'
    requires |rest| > 0 ==> rest[0] != '-'
    requires Squeezed(rest, q)
    ensures Squeezed(s, "-" + q)
  {
    var r := "-" + q;
    var k := |s| - |rest|;
    assert r[1..] == q;
    DropLeadingSeparators(s, k, false);
    forall i | 0 <= i < |r| - 1
      ensures !(r[i] == '-' && r[i + 1] == '-')
    {
      if i == 0 {
        assert r[1] == q[0];
      } else {
        assert r[i] == q[i - 1] && r[i + 1] == q[i];
      }
    }
    if SlugChars(s) {
      assert SlugChars(rest) by {
        assert forall j :: 0 <= j < |rest| ==> rest[j] == s[k + j];
      }
      assert forall i :: 0 < i < |r| ==> r[i] == q[i - 1];
    }
    if |q| == 0 {
      assert s[|s| - 1] == '-';
    } else {
      assert r[|r| - 1] == q[|q| - 1];
      assert rest[|rest| - 1] == s[|s| - 1];
    }
  }

  lemma SqueezeKeep(s: string, q: string)
    requires |s| > 0 && s[0] != '-' && Squeezed(s[1..], q)
    ensures Squeezed(s, [s[0]] + q)
  {
    var r := [s[0]] + q;
    assert r[1..] == q;
    assert forall i :: 0 < i < |r| ==> r[i] == q[i - 1];
    if SlugChars(s) {
      assert SlugChars(s[1..]) by {
        assert forall j :: 0 <= j < |s| - 1 ==> s[1..][j] == s[j + 1];
      }
    }
    if |q| > 0 {
      assert s[1..][|s| - 2] == s[|s| - 1];
    }
  }

  /** The pipeline both normalisers share, ending before their last step. */
  function Normalize(value: string): (r: string)
    ensures WellFormed(r)
    ensures DropSeparators(r, false) == AlnumsOf(Lower(value))
  {
    var kept := KeepSlugInput(Lower(value));
    var spaced := SpacesToHyphens(kept);
    DropWithoutSpaces(spaced);
    SqueezeHyphens(spaced)
  }

  lemma SlugCharNotSpace(c: char)
    requires IsSlugChar(c)
    ensures !IsJsSpace(c)
  {
  }

  /** A slug has no whitespace, so it is its own `trim()`. */
  lemma TrimSlug(s: string)
    requires WellFormed(s)
    ensures Trim(s) == s
  {
    if |s| > 0 {
      SlugCharNotSpace(s[0]);
      SlugCharNotSpace(s[|s| - 1]);
      assert TrimStart(s) == s;
      assert TrimEnd(s) == s;
    }
  }

  /** The slug `updateTitle` stores: the normalised title, then `.trim()`, and
      "untitled" when nothing is left. Edge hyphens survive. */
  function TitleSlug(title: string): (r: string)
    ensures WellFormed(r) && r != ""
    ensures Normalize(title) == "" ==> r == "untitled"
    ensures Normalize(title) != "" ==> r == Normalize(title)
  {
    var s := Normalize(title);
    TrimSlug(s);
    if Trim(s) == "" then "untitled" else Trim(s)
  }

  /** A title that already is a slug is stored as it is, so retyping the
      stored slug as the title changes nothing. */
  lemma TitleSlugFixed(title: string)
    ensures WellFormed(title) && title != "" ==> TitleSlug(title) == title
    ensures TitleSlug(TitleSlug(title)) == TitleSlug(title)
  {
    if WellFormed(title) {
      NormalizeFixed(title);
    }
    NormalizeFixed(TitleSlug(title));
  }

  /** `.replace(/^-|-$/g, '')`: one leading and one trailing hyphen go. */
  function StripEdgeHyphens(s: string): (r: string)
    ensures WellFormed(s) ==> WellFormed(r) && NoEdgeHyphen(r)
  {
    var a := if |s| > 0 && s[0] == '-' then s[1..] else s;
    var r := if |a| > 0 && a[|a| - 1] == '-' then a[..|a| - 1] else a;
    StripEdgeSlice(s, a, r);
    r
  }

  lemma StripEdgeSlice(s: string, a: string, r: string)
    requires a == if |s| > 0 && s[0] == '-' then s[1..] else s
    requires r == if |a| > 0 && a[|a| - 1] == '-' then a[..|a| - 1] else a
    ensures WellFormed(s) ==> WellFormed(r) && NoEdgeHyphen(r)
  {
    var off := |s| - |a|;
    assert r == s[off..off + |r|];
    if WellFormed(s) {
      forall i | 0 <= i < |r|
        ensures IsSlugChar(r[i])
      {
        assert r[i] == s[off + i];
      }
      forall i | 0 <= i < |r| - 1
        ensures !(r[i] == '-' && r[i + 1] == '-')
      {
        assert r[i] == s[off + i] && r[i + 1] == s[off + i + 1];
      }
      if |r| > 0 {
        assert r[0] == s[off];
        assert off == 1 ==> s[0] == '-';
        assert r[|r| - 1] == s[off + |r| - 1];
        assert off + |r| < |s| ==> s[off + |r|] == '-';
      }
    }
  }

  /** `handleSlugChange`: the settings dialog's normaliser. */
  function SettingsSlug(value: string): (r: string)
    ensures WellFormed(r) && NoEdgeHyphen(r)
  {
    StripEdgeHyphens(Normalize(value))
  }

  lemma LowerSlug(s: string)
    requires WellFormed(s)
    ensures Lower(s) == s
  {
  }

  lemma {:induction false} SqueezeWellFormed(s: string)
    requires forall i :: 0 <= i < |s| - 1 ==> !(s[i] == '-' && s[i + 1] == '-')
    ensures SqueezeHyphens(s) == s
    decreases |s|
  {
    if |s| > 0 {
      var t := s[1..];
      assert s == [s[0]] + t;
      forall i | 0 <= i < |t| - 1
        ensures !(t[i] == '-' && t[i + 1] == '-')
      {
        assert t[i] == s[i + 1] && t[i + 1] == s[i + 2];
      }
      SqueezeWellFormed(t);
      if s[0] == '-' {
        assert SkipWhile(s, true) == t by {
          assert |t| > 0 ==> t[0] == s[1] && s[1] != '-';
          assert SkipWhile(s, true) == SkipWhile(t, true);
        }
      }
    }
  }

  /** Normalising a well-formed slug changes nothing. */
  lemma NormalizeFixed(s: string)
    requires WellFormed(s)
    ensures Normalize(s) == s
  {
    LowerSlug(s);
    assert KeepSlugInput(s) == s;
    forall i | 0 <= i < |s|
      ensures !IsJsSpace(s[i])
    {
      SlugCharNotSpace(s[i]);
    }
    assert SpacesToHyphens(s) == s;
    SqueezeWellFormed(s);
  }

  /** Typing the dialog's own output back in gives the same slug. */
  lemma SettingsSlugIdempotent(value: string)
    ensures SettingsSlug(SettingsSlug(value)) == SettingsSlug(value)
  {
    var r := SettingsSlug(value);
    NormalizeFixed(r);
    assert StripEdgeHyphens(r) == r;
  }

  lemma NormalizeSpaced()
    ensures Normalize(" a ") == "-a-"
  {
    LowerSpaced();
    KeepSpaced();
    HyphenSpaced();
    SqueezeSpaced();
    NormalizeSteps(" a ", " a ", " a ", "-a-", "-a-");
  }

  lemma LowerSpaced()
    ensures Lower(" a ") == " a "
  {
    var l := Lower(" a ");
    assert l[0] == LowerChar(' ') && l[1] == LowerChar('a') && l[2] == LowerChar(' ');
  }

  lemma KeepSpaced()
    ensures KeepSlugInput(" a ") == " a "
  {
    var s := " a ";
    assert forall i :: 0 <= i < |s| ==> IsSlugChar(s[i]) || IsJsSpace(s[i]);
  }

  lemma HyphenSpaced()
    ensures SpacesToHyphens(" a ") == "-a-"
  {
    assert Word("a");
    HyphenAround("a");
    assert " a " == " " + "a" + " ";
  }

  lemma SqueezeSpaced()
    ensures SqueezeHyphens("-a-") == "-a-"
  {
    var s := "-a-";
    assert forall i :: 0 <= i < |s| - 1 ==> !(s[i] == '-' && s[i + 1] == '-');
    SqueezeWellFormed(s);
  }

  /** The builder keeps a leading and a trailing hyphen: " a " becomes "-a-". */
  lemma TitleSlugKeepsEdges()
    ensures TitleSlug(" a ") == "-a-"
  {
    NormalizeSpaced();
    assert WellFormed("-a-");
    TrimSlug("-a-");
  }

  lemma StripExample()
    ensures StripEdgeHyphens("-a-") == "a"
  {
    var n := "-a-";
    assert |n| == 3 && n[0] == '-';
    var a := n[1..];
    assert |a| == 2 && a[1] == '-';
    assert a[..1] == "a";
  }

  /** The settings dialog turns the same input into "a". */
  lemma SettingsSlugStripsEdges()
    ensures SettingsSlug(" a ") == "a"
  {
    NormalizeSpaced();
    StripExample();
  }

  /** Filtering the input works piece by piece. */
  lemma {:induction false} KeepAppend(a: string, b: string)
    ensures KeepSlugInput(a + b) == KeepSlugInput(a) + KeepSlugInput(b)
  {
    if |a| > 0 {
      var ab := a + b;
      assert ab[0] == a[0] && ab[1..] == a[1..] + b;
      KeepAppend(a[1..], b);
      if IsSlugChar(a[0]) || IsJsSpace(a[0]) {
        assert [a[0]] + (KeepSlugInput(a[1..]) + KeepSlugInput(b))
          == [a[0]] + KeepSlugInput(a[1..]) + KeepSlugInput(b);
      }
    } else {
      assert a + b == b;
    }
  }

  lemma HyphenForSpace(b: string)
    requires |b| > 0 ==> !IsJsSpace(b[0])
    ensures SpacesToHyphens(" " + b) == "-" + SpacesToHyphens(b)
  {
    assert (" " + b)[1..] == b;
    assert SkipWhile(" " + b, false) == b;
  }

  lemma CopyNonSpace(t: string)
    requires |t| > 0 && !IsJsSpace(t[0])
    ensures SpacesToHyphens(t) == [t[0]] + SpacesToHyphens(t[1..])
  {
  }

  lemma Regroup(a: string, x: string)
    requires |a| > 0
    ensures [a[0]] + (a[1..] + "-" + x) == a + "-" + x
  {
    assert a == [a[0]] + a[1..];
  }

  /** A space between a word and the rest becomes a hyphen. */
  lemma {:induction false} SpaceBetween(a: string, b: string)
    requires forall i :: 0 <= i < |a| ==> !IsJsSpace(a[i])
    requires |b| > 0 ==> !IsJsSpace(b[0])
    ensures SpacesToHyphens(a + " " + b) == a + "-" + SpacesToHyphens(b)
  {
    if |a| == 0 {
      assert a + " " + b == " " + b;
      HyphenForSpace(b);
    } else {
      var t := a + " " + b;
      assert t[1..] == a[1..] + " " + b;
      SpaceBetween(a[1..], b);
      CopyNonSpace(t);
      Regroup(a, SpacesToHyphens(b));
    }
  }

  /** A run of lower-case letters and digits. */
  predicate Word(w: string) {
    |w| > 0 && forall i :: 0 <= i < |w| ==> IsLowerAlnum(w[i])
  }

  lemma WordKept(w: string)
    requires Word(w)
    ensures KeepSlugInput(w) == w && SpacesToHyphens(w) == w
  {
    forall i | 0 <= i < |w|
      ensures !IsJsSpace(w[i])
    {
      SlugCharNotSpace(w[i]);
    }
  }

  /** Words joined by single hyphens are well formed. */
  lemma HyphenJoinWellFormed(a: string, b: string)
    requires Word(a) && WellFormed(b) && (|b| > 0 ==> b[0] != '-')
    ensures WellFormed(a + "-" + b)
  {
    var t := a + "-" + b;
    forall i | 0 <= i < |t| - 1
      ensures !(t[i] == '-' && t[i + 1] == '-')
    {
      if i < |a| {
        assert t[i] == a[i];
      } else if i == |a| {
        assert t[i + 1] == b[0];
      } else {
        assert t[i] == b[i - |a| - 1] && t[i + 1] == b[i - |a|];
      }
    }
  }

  /** Normalising is lower-casing, filtering, replacing whitespace runs and
      squeezing, one after the other. */
  lemma NormalizeSteps(x: string, l: string, k: string, sp: string, r: string)
    requires Lower(x) == l && KeepSlugInput(l) == k && SpacesToHyphens(k) == sp && SqueezeHyphens(sp) == r
    ensures Normalize(x) == r
  {
  }

  lemma LowerThreeWords(a: string, b: string, c: string, rest: string)
    ensures Lower(a + " " + b + " " + c + rest) == Lower(a) + " " + Lower(b) + " " + Lower(c) + Lower(rest)
  {
    assert Lower(" ") == " ";
    LowerAppend(a + " " + b + " " + c, rest);
    LowerAppend(a + " " + b + " ", c);
    LowerAppend(a + " " + b, " ");
    LowerAppend(a + " ", b);
    LowerAppend(a, " ");
  }

  lemma KeepThreeWords(a: string, b: string, c: string, rest: string)
    requires Word(a) && Word(b) && Word(c) && KeepSlugInput(rest) == ""
    ensures KeepSlugInput(a + " " + b + " " + c + rest) == a + " " + b + " " + c
  {
    assert SlugOrSpace(" ");
    SlugOrSpaceAppend(a, " ");
    SlugOrSpaceAppend(a + " ", b);
    SlugOrSpaceAppend(a + " " + b, " ");
    SlugOrSpaceAppend(a + " " + b + " ", c);
    KeepAppend(a + " " + b + " " + c, rest);
  }

  predicate SlugOrSpace(t: string) {
    forall i :: 0 <= i < |t| ==> IsSlugChar(t[i]) || IsJsSpace(t[i])
  }

  lemma SlugOrSpaceAppend(x: string, y: string)
    requires (SlugOrSpace(x) || Word(x)) && (SlugOrSpace(y) || Word(y))
    ensures SlugOrSpace(x + y)
  {
    forall i | 0 <= i < |x + y|
      ensures IsSlugChar((x + y)[i]) || IsJsSpace((x + y)[i])
    {
      if i < |x| {
        assert (x + y)[i] == x[i];
      } else {
        assert (x + y)[i] == y[i - |x|];
      }
    }
  }

  lemma WordNoSpace(w: string)
    requires Word(w)
    ensures forall i :: 0 <= i < |w| ==> !IsJsSpace(w[i])
  {
    forall i | 0 <= i < |w|
      ensures !IsJsSpace(w[i])
    {
      SlugCharNotSpace(w[i]);
    }
  }

  /** A word wrapped in single spaces becomes the word wrapped in hyphens. */
  lemma HyphenAround(w: string)
    requires Word(w)
    ensures SpacesToHyphens(" " + w + " ") == "-" + w + "-"
  {
    SpaceAtEnd(w);
    assert " " + w + " " == " " + (w + " ");
    HyphenForSpace(w + " ");
  }

  lemma SpaceAtEnd(w: string)
    requires Word(w)
    ensures SpacesToHyphens(w + " ") == w + "-"
  {
    WordNoSpace(w);
    assert SpacesToHyphens("") == "";
    SpaceBetween(w, "");
    assert w + " " == w + " " + "";
  }

  lemma SpacesTwoWords(b: string, c: string)
    requires Word(b) && Word(c)
    ensures SpacesToHyphens(b + " " + c) == b + "-" + c
  {
    WordKept(c);
    WordNoSpace(b);
    SpaceBetween(b, c);
  }

  lemma SpacesThreeWords(a: string, b: string, c: string)
    requires Word(a) && Word(b) && Word(c)
    ensures SpacesToHyphens(a + " " + b + " " + c) == a + "-" + b + "-" + c
  {
    SpacesNested(a, b, c);
    Reassociate(a, " ", b, " ", c);
    Reassociate(a, "-", b, "-", c);
  }

  lemma Reassociate(a: string, x: string, b: string, y: string, c: string)
    ensures a + x + b + y + c == a + x + (b + y + c)
  {
  }

  lemma SpacesNested(a: string, b: string, c: string)
    requires Word(a) && Word(b) && Word(c)
    ensures SpacesToHyphens(a + " " + (b + " " + c)) == a + "-" + (b + "-" + c)
  {
    SpacesTwoWords(b, c);
    WordNoSpace(a);
    assert (b + " " + c)[0] == b[0];
    SpaceBetween(a, b + " " + c);
  }

  lemma SqueezeThreeWords(a: string, b: string, c: string)
    requires Word(a) && Word(b) && Word(c)
    ensures SqueezeHyphens(a + "-" + b + "-" + c) == a + "-" + b + "-" + c
  {
    assert WellFormed(c);
    HyphenJoinWellFormed(b, c);
    HyphenJoinWellFormed(a, b + "-" + c);
    assert a + "-" + b + "-" + c == a + "-" + (b + "-" + c);
    SqueezeWellFormed(a + "-" + b + "-" + c);
  }

  /** Three words with single spaces between them and only dropped characters
      after them normalise to the lower-cased words joined by hyphens. */
  lemma NormalizeThreeWords(a: string, b: string, c: string, rest: string)
    requires Word(Lower(a)) && Word(Lower(b)) && Word(Lower(c))
    requires KeepSlugInput(Lower(rest)) == ""
    ensures Normalize(a + " " + b + " " + c + rest) == Lower(a) + "-" + Lower(b) + "-" + Lower(c)
  {
    var la, lb, lc := Lower(a), Lower(b), Lower(c);
    LowerThreeWords(a, b, c, rest);
    KeepThreeWords(la, lb, lc, Lower(rest));
    SpacesThreeWords(la, lb, lc);
    SqueezeThreeWords(la, lb, lc);
    NormalizeSteps(a + " " + b + " " + c + rest, la + " " + lb + " " + lc + Lower(rest),
      la + " " + lb + " " + lc, la + "-" + lb + "-" + lc, la + "-" + lb + "-" + lc);
  }

  lemma LowerExampleWords()
    ensures Lower("My") == "my" && Lower("Cool") == "cool" && Lower("Page") == "page" && Lower("!!") == "!!"
  {
    var w, x, y, z := Lower("My"), Lower("Cool"), Lower("Page"), Lower("!!");
    assert w[0] == LowerChar('M') && w[1] == LowerChar('y');
    assert x[0] == LowerChar('C') && x[1] == LowerChar('o') && x[2] == LowerChar('o') && x[3] == LowerChar('l');
    assert y[0] == LowerChar('P') && y[1] == LowerChar('a') && y[2] == LowerChar('g') && y[3] == LowerChar('e');
    assert z[0] == LowerChar('!') && z[1] == LowerChar('!');
  }

  lemma ExampleWords()
    ensures Word("my") && Word("cool") && Word("page") && KeepSlugInput("!!") == ""
  {
  }

  lemma ExampleParts()
    ensures "My Cool Page!!" == "My" + " " + "Cool" + " " + "Page" + "!!"
    ensures "my" + "-" + "cool" + "-" + "page" == "my-cool-page"
  {
  }

  lemma NormalizeExample()
    ensures Normalize("My Cool Page!!") == "my-cool-page"
  {
    LowerExampleWords();
    ExampleWords();
    NormalizeThreeWords("My", "Cool", "Page", "!!");
    ExampleParts();
  }

  /** The title "My Cool Page!!" gives the slug "my-cool-page". */
  lemma TitleSlugExample()
    ensures TitleSlug("My Cool Page!!") == "my-cool-page"
  {
    NormalizeExample();
  }

  lemma LowerHyphens()
    ensures Lower("a--b") == "a--b"
  {
    var l := Lower("a--b");
    assert l[0] == LowerChar('a') && l[1] == LowerChar('-') && l[2] == LowerChar('-') && l[3] == LowerChar('b');
  }

  lemma FilterHyphens()
    ensures KeepSlugInput("a--b") == "a--b" && SpacesToHyphens("a--b") == "a--b"
  {
    var s := "a--b";
    assert forall i :: 0 <= i < |s| ==> IsSlugChar(s[i]);
  }

  /** A character other than a hyphen is copied. */
  lemma SqueezeCopy(s: string)
    requires |s| > 0 && s[0] != '-'
    ensures SqueezeHyphens(s) == [s[0]] + SqueezeHyphens(s[1..])
  {
  }

  /** A run of `k` hyphens becomes one. */
  lemma SqueezeRun(s: string, k: nat)
    requires 0 < k <= |s| && (forall i :: 0 <= i < k ==> s[i] == '-') && (k < |s| ==> s[k] != '-')
    ensures SqueezeHyphens(s) == "-" + SqueezeHyphens(s[k..])
  {
    SkipRun(s, k);
  }

  lemma {:induction false} SkipRun(s: string, k: nat)
    requires k <= |s| && (forall i :: 0 <= i < k ==> s[i] == '-') && (k < |s| ==> s[k] != '-')
    ensures SkipWhile(s, true) == s[k..]
  {
    if k > 0 {
      var t := s[1..];
      assert forall i :: 0 <= i < k - 1 ==> t[i] == s[i + 1];
      SkipRun(t, k - 1);
      assert t[k - 1..] == s[k..];
    }
  }

  lemma SqueezeExampleHyphens()
    ensures SqueezeHyphens("a--b") == "a-b"
  {
    var s := "a--b";
    SqueezeCopy(s);
    assert s[1..] == "--b";
    SqueezeRun("--b", 2);
    assert "--b"[2..] == "b";
    SqueezeWellFormed("b");
  }

  lemma NormalizeSqueezes()
    ensures Normalize("a--b") == "a-b"
  {
    LowerHyphens();
    FilterHyphens();
    SqueezeExampleHyphens();
    NormalizeSteps("a--b", "a--b", "a--b", "a--b", "a-b");
  }

  /** A run of hyphens in a title is squeezed to one: "a--b" gives "a-b". */
  lemma TitleSlugSqueezes()
    ensures TitleSlug("a--b") == "a-b"
  {
    NormalizeSqueezes();
  }
}

=== FILE: spacing.dfy ===
/** The four-sided spacing editor used for padding and margin: per-side edits
    (optionally linked so that one edit sets every side), a uniform slider,
    presets, and the "is it uniform" reading that drives the slider. */
module Spacing {
  import opened Wrappers

  /** `SpacingValue`: each side may be missing. */
  datatype SpacingValue = SpacingValue(top: Option<int>, right: Option<int>, bottom: Option<int>, left: Option<int>)

  datatype Side = Top | Right | Bottom | Left

  function SideOf(v: SpacingValue, side: Side): Option<int> {
    match side
    case Top => v.top
    case Right => v.right
    case Bottom => v.bottom
    case Left => v.left
  }

  /** The same number on all four sides. */
  function All(n: int): (r: SpacingValue)
    ensures forall side :: SideOf(r, side) == Some(n)
  {
    SpacingValue(Some(n), Some(n), Some(n), Some(n))
  }

  /** Every side is set. */
  predicate Full(v: SpacingValue) {
    v.top.Some? && v.right.Some? && v.bottom.Some? && v.left.Some?
  }

  datatype Preset = Preset(name: string, value: SpacingValue)

  /** `SPACING_PRESETS`. */
  const Presets: seq<Preset> := [
    Preset("None", All(0)), Preset("XS", All(4)), Preset("SM", All(8)), Preset("MD", All(16)),
    Preset("LG", All(24)), Preset("XL", All(32)), Preset("2XL", All(48))]

  /** `{ ...value, [side]: n }`. */
  function SetSide(v: SpacingValue, side: Side, n: int): (r: SpacingValue)
    ensures SideOf(r, side) == Some(n)
    ensures forall other :: other != side ==> SideOf(r, other) == SideOf(v, other)
  {
    match side
    case Top => v.(top := Some(n))
    case Right => v.(right := Some(n))
    case Bottom => v.(bottom := Some(n))
    case Left => v.(left := Some(n))
  }

  /** `handleValueChange(side, n)`: linked edits set all four sides, unlinked
      edits set only the named side. */
  function HandleValueChange(v: SpacingValue, linked: bool, side: Side, n: int): (r: SpacingValue)
    ensures linked ==> forall s :: SideOf(r, s) == Some(n)
    ensures !linked ==> SideOf(r, side) == Some(n)
    ensures !linked ==> forall other :: other != side ==> SideOf(r, other) == SideOf(v, other)
    ensures Full(v) ==> Full(r)
  {
    if linked then All(n) else SetSide(v, side, n)
  }

  /** `handleUniformChange(n)`. */
  function HandleUniformChange(n: int): (r: SpacingValue)
    ensures forall s :: SideOf(r, s) == Some(n)
    ensures IsUniform(r) && CurrentUniformValue(r) == n
  {
    All(n)
  }

  /** `handlePresetSelect(preset)`: the preset's value is emitted as it is. */
  function HandlePresetSelect(p: Preset): (r: SpacingValue)
    ensures p in Presets ==> IsUniform(r) && Full(r)
  {
    p.value
  }

  /** A side as the uniform reading sees it: missing counts as 0. */
  function Reading(v: SpacingValue, side: Side): int {
    SideOf(v, side).GetOr(0)
  }

  /** `isUniform()`: all four readings are equal. */
  predicate IsUniform(v: SpacingValue) {
    var vs := [Reading(v, Top), Reading(v, Right), Reading(v, Bottom), Reading(v, Left)];
    forall i :: 0 <= i < |vs| ==> vs[i] == vs[0]
  }

  /** `getCurrentUniformValue()`: the common reading, or 0 when the sides differ. */
  function CurrentUniformValue(v: SpacingValue): (r: int)
    ensures IsUniform(v) ==> forall s :: Reading(v, s) == r
    ensures !IsUniform(v) ==> r == 0
  {
    UniformIff(v);
    if IsUniform(v) then Reading(v, Top) else 0
  }

  /** Uniformity is exactly "every side reads the same". */
  lemma UniformIff(v: SpacingValue)
    ensures IsUniform(v) <==> forall a, b :: Reading(v, a) == Reading(v, b)
  {
    if IsUniform(v) {
      var vs := [Reading(v, Top), Reading(v, Right), Reading(v, Bottom), Reading(v, Left)];
      assert vs[1] == vs[0] && vs[2] == vs[0] && vs[3] == vs[0];
      forall a, b
        ensures Reading(v, a) == Reading(v, b)
      {
        match a {
          case Top => case Right => case Bottom => case Left =>
        }
      }
    }
  }

  /** Every preset is uniform, sets all sides, and the presets grow strictly. */
  lemma PresetsUniform()
    ensures forall p :: p in Presets ==> IsUniform(p.value) && Full(p.value)
    ensures forall i, j :: 0 <= i < j < |Presets| ==>
      CurrentUniformValue(Presets[i].value) < CurrentUniformValue(Presets[j].value)
  {
    var ns := [0, 4, 8, 16, 24, 32, 48];
    assert forall k :: 0 <= k < |Presets| ==> Presets[k].value == All(ns[k]);
    forall k | 0 <= k < |ns|
      ensures IsUniform(All(ns[k])) && CurrentUniformValue(All(ns[k])) == ns[k]
    {
      AllUniform(ns[k]);
    }
  }

  /** Setting all four sides to one value reads back as that value. */
  lemma AllUniform(n: int)
    ensures IsUniform(All(n)) && CurrentUniformValue(All(n)) == n
  {
  }

  /** A linked edit, read back through the uniform slider, gives the value typed. */
  lemma LinkedEditReadsBack(v: SpacingValue, side: Side, n: int)
    ensures IsUniform(HandleValueChange(v, true, side, n))
    ensures CurrentUniformValue(HandleValueChange(v, true, side, n)) == n
  {
  }

  /** Retyping a side's current value changes nothing. */
  lemma UnlinkedEditSame(v: SpacingValue, side: Side)
    requires SideOf(v, side).Some?
    ensures HandleValueChange(v, false, side, SideOf(v, side).value) == v
  {
  }

  /** Two unlinked edits of the same side: the second wins. */
  lemma UnlinkedEditTwice(v: SpacingValue, side: Side, m: int, n: int)
    ensures HandleValueChange(HandleValueChange(v, false, side, m), false, side, n)
         == HandleValueChange(v, false, side, n)
  {
  }

  /** `actualMin`: the lowest number the inputs accept. */
  function InputMin(min: int, max: int, allowNegative: bool): (r: int)
    ensures allowNegative ==> r == -max
    ensures !allowNegative ==> r == min
  {
    if allowNegative then -max else min
  }

  /** A number the side inputs accept. */
  predicate InRange(n: int, min: int, max: int, allowNegative: bool) {
    InputMin(min, max, allowNegative) <= n <= max
  }

  /** With negatives allowed the accepted range is mirrored around 0 and
      ignores `min`; without, nothing below `min` is accepted. */
  lemma RangeShape(n: int, min: int, max: int)
    ensures InRange(n, min, max, true) <==> InRange(-n, min, max, true)
    ensures InRange(n, min, max, true) <==> -max <= n <= max
    ensures InRange(n, min, max, false) ==> min <= n
  {
  }

  /** The props' defaults: min 0 and max 200. */
  const DefaultMin := 0
  const DefaultMax := 200
}

=== FILE: speed.dfy ===
/** The page-speed analyser: estimated metrics, the issues they raise, the
    score those issues leave, and the fixed list of suggested optimisations. */
module Speed {
  import opened Wrappers
  import opened Text
  import opened Js
  import opened Types

  datatype Metrics = Metrics(
    loadTime: int,
    contentSize: nat,
    requests: nat,
    images: nat,
    scripts: nat,
    stylesheets: nat)

  datatype IssueKind = Critical | Warning | Info

  datatype Issue = Issue(kind: IssueKind, title: string, description: string, impact: string, suggestion: string)

  datatype Effort = Low | Medium | High

  datatype Optimization = Optimization(title: string, description: string, impact: string, effort: Effort, enabled: bool)

  datatype Analysis = Analysis(metrics: Metrics, score: int, issues: seq<Issue>, optimizations: seq<Optimization>)

  // ------------------------------------------------------------- metrics

  /** The images a section adds: the length of an `images` array, else one
      when it has a truthy `image` or `images`, else none. */
  function SectionImages(s: Section): (n: nat)
    ensures n > 0 ==> Truthy(Get(s.content, "image")) || Truthy(Get(s.content, "images"))
    ensures IsArray(Get(s.content, "images")) ==> n == |Get(s.content, "images").value.items|
    ensures Truthy(Get(s.content, "image")) || Truthy(Get(s.content, "images")) ==>
      IsArray(Get(s.content, "images")) || n == 1
  {
    if Truthy(Get(s.content, "image")) || Truthy(Get(s.content, "images")) then
      match Get(s.content, "images")
      case Some(JArr(items)) => |items|
      case _ => 1
    else 0
  }

  /** `Array.isArray(v)`. */
  predicate IsArray(v: Option<Json>) {
    v.Some? && v.value.JArr?
  }

  /** The images of all sections. */
  function Images(ss: seq<Section>): (n: nat)
    ensures (forall i :: 0 <= i < |ss| ==> SectionImages(ss[i]) == 0) ==> n == 0
  {
    if |ss| == 0 then 0 else SectionImages(ss[0]) + Images(ss[1..])
  }

  /** The serialised size of all section contents; the serialiser is a parameter. */
  function ContentSize(ss: seq<Section>, stringify: Content -> string): (n: nat)
    ensures |ss| > 0 ==> n >= |stringify(ss[0].content)|
  {
    if |ss| == 0 then 0 else |stringify(ss[0].content)| + ContentSize(ss[1..], stringify)
  }

  /** Section counts add up over concatenation. */
  lemma {:induction false} ImagesAppend(a: seq<Section>, b: seq<Section>)
    ensures Images(a + b) == Images(a) + Images(b)
  {
    if |a| > 0 {
      assert (a + b)[1..] == a[1..] + b;
      ImagesAppend(a[1..], b);
    } else {
      assert a + b == b;
    }
  }

  /** The `forEach` loop adds the last section's images to the count of the ones before it. */
  lemma ImagesSnoc(ss: seq<Section>)
    requires |ss| > 0
    ensures Images(ss) == Images(ss[..|ss| - 1]) + SectionImages(ss[|ss| - 1])
  {
    var init, last := ss[..|ss| - 1], ss[|ss| - 1];
    assert init + [last] == ss;
    ImagesAppend(init, [last]);
    ImagesOne(last);
  }

  lemma ImagesOne(s: Section)
    ensures Images([s]) == SectionImages(s)
  {
    assert [s][1..] == [];
  }

  /** Content sizes add up over concatenation. */
  lemma {:induction false} ContentSizeAppend(a: seq<Section>, b: seq<Section>, stringify: Content -> string)
    ensures ContentSize(a + b, stringify) == ContentSize(a, stringify) + ContentSize(b, stringify)
  {
    if |a| > 0 {
      assert (a + b)[1..] == a[1..] + b;
      ContentSizeAppend(a[1..], b, stringify);
    } else {
      assert a + b == b;
    }
  }

  /** The `forEach` loop adds the last section's serialised length to the size of the ones before it. */
  lemma ContentSizeSnoc(ss: seq<Section>, stringify: Content -> string)
    requires |ss| > 0
    ensures ContentSize(ss, stringify) == ContentSize(ss[..|ss| - 1], stringify) + |stringify(ss[|ss| - 1].content)|
  {
    var init, last := ss[..|ss| - 1], ss[|ss| - 1];
    assert init + [last] == ss;
    ContentSizeAppend(init, [last], stringify);
    ContentSizeOne(last, stringify);
  }

  lemma ContentSizeOne(s: Section, stringify: Content -> string)
    ensures ContentSize([s], stringify) == |stringify(s.content)|
  {
    assert [s][1..] == [];
  }

  /** The length of an optional custom code field, zero when unset or empty. */
  function CodeLength(o: Option<string>): (n: nat)
    ensures n > 0 <==> Filled(o)
  {
    if Filled(o) then |o.value| else 0
  }

  function Min(a: int, b: int): int {
    if a <= b then a else b
  }

  /** `Math.round(800 + Math.min(contentSize / 100, 2000) + 200 * images + 300 * scripts)`,
      as the integer nearest to that real number, halves up. */
  function LoadTime(contentSize: nat, images: nat, scripts: nat): (t: int)
    ensures var x200 := 200 * (800 + 200 * images + 300 * scripts) + Min(2 * contentSize, 400000);
      200 * t - 100 <= x200 < 200 * t + 100
  {
    800 + Min((contentSize + 50) / 100, 2000) + 200 * images + 300 * scripts
  }

  /** The metrics of `analyzePage`: one request for the HTML and one per image,
      one stylesheet, and one script exactly when there is custom JavaScript. */
  function PageMetrics(p: Page, stringify: Content -> string): (m: Metrics)
    ensures m.requests == 1 + m.images && m.stylesheets == 1
    ensures m.scripts == (if Filled(p.customJs) then 1 else 0)
    ensures m.images == Images(p.sections)
    ensures m.contentSize == ContentSize(p.sections, stringify) + CodeLength(p.customCss) + CodeLength(p.customJs)
    ensures 800 <= m.loadTime <= 2800 + 200 * m.images + 300 * m.scripts
    ensures m.loadTime == LoadTime(m.contentSize, m.images, m.scripts)
  {
    var images := Images(p.sections);
    var scripts := if Filled(p.customJs) then 1 else 0;
    var size := ContentSize(p.sections, stringify) + CodeLength(p.customCss) + CodeLength(p.customJs);
    Metrics(LoadTime(size, images, scripts), size, 1 + images, images, scripts, 1)
  }

  // -------------------------------------------------------------- issues

  /** A section whose own custom CSS is over 1000 characters. */
  predicate HeavySection(s: Section) {
    Filled(s.styles.customCss) && |s.styles.customCss.value| > 1000
  }

  /** One warning per heavy section, in section order. */
  function SectionIssues(ss: seq<Section>): (r: seq<Issue>)
    ensures |r| == HeavySections(ss)
    ensures forall i :: 0 <= i < |r| ==> r[i].kind == Warning
  {
    if |ss| == 0 then []
    else
      var rest := SectionIssues(ss[1..]);
      if HeavySection(ss[0]) then
        var s := ss[0];
        [Issue(Warning, "Large custom CSS in section",
          "Section \"" + s.kind + "\" has " + NatToString(|s.styles.customCss.value|) + " characters of custom CSS",
          "May slow down rendering", "Consider moving repetitive styles to global CSS")] + rest
      else rest
  }

  /** How many sections are heavy. */
  function HeavySections(ss: seq<Section>): (n: nat)
    ensures n <= |ss|
  {
    if |ss| == 0 then 0 else (if HeavySection(ss[0]) then 1 else 0) + HeavySections(ss[1..])
  }

  /** `Math.round(n / 1000)` for a length. */
  function Kilobytes(n: nat): nat {
    (n + 500) / 1000
  }

  /** The issue when its condition holds, else nothing. */
  function Flag(cond: bool, issue: Issue): (r: seq<Issue>)
    ensures |r| == (if cond then 1 else 0)
    ensures forall k :: Count(r, k) == (if cond && issue.kind == k then 1 else 0)
  {
    if cond then [issue] else []
  }

  /** The issues about the page as a whole, in the order they are raised:
      large custom CSS, large custom JavaScript, many sections, many images. */
  function PageWideIssues(p: Page, m: Metrics): (r: seq<Issue>)
    ensures |r| == (if CodeLength(p.customCss) > 10000 then 1 else 0)
      + (if CodeLength(p.customJs) > 20000 then 1 else 0)
      + (if |p.sections| > 12 then 1 else 0)
      + (if m.images > 8 then 1 else 0)
    ensures Count(r, Critical) == (if CodeLength(p.customCss) > 10000 then 1 else 0)
      + (if CodeLength(p.customJs) > 20000 then 1 else 0)
    ensures Count(r, Info) == 0
  {
    var css := Flag(CodeLength(p.customCss) > 10000,
      Issue(Critical, "Large custom CSS file", "Custom CSS is " + NatToString(Kilobytes(CodeLength(p.customCss))) + "KB",
        "Significantly impacts load time", "Minify CSS and remove unused styles"));
    var js := Flag(CodeLength(p.customJs) > 20000,
      Issue(Critical, "Large custom JavaScript file", "Custom JavaScript is " + NatToString(Kilobytes(CodeLength(p.customJs))) + "KB",
        "Blocks page rendering", "Minify JavaScript and consider async loading"));
    var many := Flag(|p.sections| > 12,
      Issue(Warning, "Many sections on page", "Page has " + NatToString(|p.sections|) + " sections",
        "May increase render time", "Consider splitting into multiple pages"));
    var pics := Flag(m.images > 8,
      Issue(Warning, "Many images", "Page contains " + NatToString(m.images) + " images",
        "Increases load time and bandwidth", "Implement lazy loading and image optimization"));
    CountAppend(css, js, Critical);
    CountAppend(css + js, many, Critical);
    CountAppend(css + js + many, pics, Critical);
    CountAppend(css, js, Info);
    CountAppend(css + js, many, Info);
    CountAppend(css + js + many, pics, Info);
    css + js + many + pics
  }

  /** Every issue of `analyzePage`: one warning per heavy section, then the
      page-wide ones. */
  function PageIssues(p: Page, m: Metrics): (r: seq<Issue>)
    ensures |r| == HeavySections(p.sections) + |PageWideIssues(p, m)|
    ensures Count(r, Critical) == (if CodeLength(p.customCss) > 10000 then 1 else 0)
      + (if CodeLength(p.customJs) > 20000 then 1 else 0)
    ensures Count(r, Info) == 0
  {
    var sec := SectionIssues(p.sections);
    var wide := PageWideIssues(p, m);
    AllWarnings(sec);
    CountAppend(sec, wide, Critical);
    CountAppend(sec, wide, Info);
    sec + wide
  }

  /** How many issues have the kind. */
  function Count(issues: seq<Issue>, k: IssueKind): (n: nat)
    ensures n <= |issues|
  {
    if |issues| == 0 then 0 else (if issues[0].kind == k then 1 else 0) + Count(issues[1..], k)
  }

  lemma {:induction false} CountAppend(a: seq<Issue>, b: seq<Issue>, k: IssueKind)
    ensures Count(a + b, k) == Count(a, k) + Count(b, k)
  {
    if |a| > 0 {
      assert (a + b)[1..] == a[1..] + b;
      CountAppend(a[1..], b, k);
    } else {
      assert a + b == b;
    }
  }

  lemma {:induction false} AllWarnings(issues: seq<Issue>)
    requires forall i :: 0 <= i < |issues| ==> issues[i].kind == Warning
    ensures Count(issues, Critical) == 0 && Count(issues, Info) == 0
    ensures Count(issues, Warning) == |issues|
  {
    if |issues| > 0 {
      AllWarnings(issues[1..]);
    }
  }

  // --------------------------------------------------------------- score

  function Weight(k: IssueKind): nat {
    match k
    case Critical => 25
    case Warning => 15
    case Info => 5
  }

  /** The extra points a slow estimated load costs. */
  function LoadPenalty(loadTime: int): (n: nat)
    ensures n == 0 <==> loadTime <= 1000
  {
    if loadTime > 3000 then 30 else if loadTime > 2000 then 20 else if loadTime > 1000 then 10 else 0
  }

  /** The score loop: 100, less each issue's weight and the load penalty,
      floored at 0. */
  method Score(issues: seq<Issue>, loadTime: int) returns (score: int)
    ensures 0 <= score <= 100
    ensures score == Max0(100 - 25 * Count(issues, Critical) - 15 * Count(issues, Warning)
      - 5 * Count(issues, Info) - LoadPenalty(loadTime))
    ensures score == 100 <==> |issues| == 0 && loadTime <= 1000
  {
    score := 100;
    var i := 0;
    while i < |issues|
      invariant 0 <= i <= |issues|
      invariant score == 100 - 25 * Count(issues[..i], Critical) - 15 * Count(issues[..i], Warning)
        - 5 * Count(issues[..i], Info)
      invariant score <= 100 - 5 * i
    {
      assert issues[..i + 1] == issues[..i] + [issues[i]];
      CountAppend(issues[..i], [issues[i]], Critical);
      CountAppend(issues[..i], [issues[i]], Warning);
      CountAppend(issues[..i], [issues[i]], Info);
      if issues[i].kind == Critical { score := score - 25; }
      if issues[i].kind == Warning { score := score - 15; }
      if issues[i].kind == Info { score := score - 5; }
      i := i + 1;
    }
    assert issues[..i] == issues;
    score := score - LoadPenalty(loadTime);
    if score < 0 { score := 0; }
  }

  function Max0(x: int): int {
    if x < 0 then 0 else x
  }

  /** `analyzePage(page)`. */
  method AnalyzePage(p: Page, stringify: Content -> string) returns (a: Analysis)
    ensures a.metrics == PageMetrics(p, stringify)
    ensures a.issues == PageIssues(p, a.metrics)
    ensures a.optimizations == Optimizations
    ensures 0 <= a.score <= 100
    ensures a.score == Max0(100 - 15 * HeavySections(p.sections)
      - 25 * (if CodeLength(p.customCss) > 10000 then 1 else 0)
      - 25 * (if CodeLength(p.customJs) > 20000 then 1 else 0)
      - 15 * (if |p.sections| > 12 then 1 else 0)
      - 15 * (if a.metrics.images > 8 then 1 else 0)
      - LoadPenalty(a.metrics.loadTime))
  {
    var m := PageMetrics(p, stringify);
    var issues := PageIssues(p, m);
    var n := |issues|;
    assert Count(issues, Warning) == n - Count(issues, Critical) - Count(issues, Info) by {
      Partition(issues);
    }
    var score := Score(issues, m.loadTime);
    a := Analysis(m, score, issues, Optimizations);
  }

  /** Every issue has exactly one kind. */
  lemma {:induction false} Partition(issues: seq<Issue>)
    ensures Count(issues, Critical) + Count(issues, Warning) + Count(issues, Info) == |issues|
  {
    if |issues| > 0 {
      Partition(issues[1..]);
    }
  }

  /** A page with no sections and no custom code loads in the base 800 ms, with
      one request, and scores 100. */
  method EmptyPageIsFast(p: Page, stringify: Content -> string) returns (a: Analysis)
    requires |p.sections| == 0 && !Filled(p.customCss) && !Filled(p.customJs)
    ensures a.metrics == Metrics(800, 0, 1, 0, 0, 1) && a.issues == [] && a.score == 100
  {
    a := AnalyzePage(p, stringify);
  }

  // --------------------------------------------------------- optimisations

  /** The six optimisations `analyzePage` always suggests, none applied. */
  const Optimizations := [
    Optimization("Enable image lazy loading", "Load images only when they come into view",
      "Reduces initial page load by 20-40%", Low, false),
    Optimization("Minify CSS and JavaScript", "Remove whitespace and comments from code",
      "Reduces file size by 15-25%", Low, false),
    Optimization("Optimize images", "Compress images and use modern formats (WebP)",
      "Reduces image size by 30-60%", Medium, false),
    Optimization("Enable browser caching", "Cache static resources in browser",
      "Improves repeat visit speed by 50-80%", Medium, false),
    Optimization("Use a CDN", "Serve content from geographically distributed servers",
      "Reduces load time by 20-50%", High, false),
    Optimization("Preload critical resources", "Load important resources early",
      "Improves perceived performance by 10-20%", Medium, false)]

  lemma OptimizationsDisabled()
    ensures |Optimizations| == 6
    ensures forall o :: o in Optimizations ==> !o.enabled
  {
  }

  // ------------------------------------------------------------- colours

  /** The four bands a speed score is shown in. */
  datatype Band = Fast | Moderate | Slow | Poor

  function Hue(b: Band): string {
    match b
    case Fast => "green"
    case Moderate => "yellow"
    case Slow => "orange"
    case Poor => "red"
  }

  /** 90 and above, 70 to 89, 50 to 69, below 50. */
  function ScoreBand(score: int): (b: Band)
    ensures b == Fast <==> score >= 90
    ensures b == Moderate <==> 70 <= score < 90
    ensures b == Slow <==> 50 <= score < 70
    ensures b == Poor <==> score < 50
  {
    if score >= 90 then Fast else if score >= 70 then Moderate else if score >= 50 then Slow else Poor
  }

  /** `getScoreColor(score)`. */
  function ScoreColor(score: int): (r: string)
    ensures StartsWith(r, "text-") && EndsWith(r, "-600")
  {
    var r := if score >= 90 then "text-green-600" else if score >= 70 then "text-yellow-600"
      else if score >= 50 then "text-orange-600" else "text-red-600";
    Affixes("text-", Hue(ScoreBand(score)), "-600");
    r
  }

  /** `getScoreBackground(score)`. */
  function ScoreBackground(score: int): (r: string)
    ensures StartsWith(r, "bg-") && EndsWith(r, "-100")
  {
    var r := if score >= 90 then "bg-green-100" else if score >= 70 then "bg-yellow-100"
      else if score >= 50 then "bg-orange-100" else "bg-red-100";
    Affixes("bg-", Hue(ScoreBand(score)), "-100");
    r
  }

  /** Text colour and background always show the same band. */
  lemma ColoursAgree(score: int)
    ensures ScoreColor(score) == "text-" + Hue(ScoreBand(score)) + "-600"
    ensures ScoreBackground(score) == "bg-" + Hue(ScoreBand(score)) + "-100"
  {
    if score >= 90 {
      assert "text-" + "green" + "-600" == "text-green-600" && "bg-" + "green" + "-100" == "bg-green-100";
    } else if score >= 70 {
      assert "text-" + "yellow" + "-600" == "text-yellow-600" && "bg-" + "yellow" + "-100" == "bg-yellow-100";
    } else if score >= 50 {
      assert "text-" + "orange" + "-600" == "text-orange-600" && "bg-" + "orange" + "-100" == "bg-orange-100";
    } else {
      assert "text-" + "red" + "-600" == "text-red-600" && "bg-" + "red" + "-100" == "bg-red-100";
    }
  }

  /** `getIssueColor(type)`. */
  function IssueColor(k: IssueKind): (r: string)
    ensures StartsWith(r, "text-") && EndsWith(r, "-600")
  {
    var hue := match k
      case Critical => "red"
      case Warning => "yellow"
      case Info => "blue";
    Affixes("text-", hue, "-600");
    "text-" + hue + "-600"
  }
}

=== FILE: text.dfy ===
/** String helpers with the semantics of the JavaScript built-ins the page
    builder calls: whitespace classes, trim, ASCII case mapping, substring
    search, split/join, number-to-text and hex conversion. */
module Text {
  import opened Wrappers

  /** The characters matched by JavaScript's `\s` and removed by `trim()`
      (WhiteSpace and LineTerminator of the ECMAScript grammar). */
  predicate IsJsSpace(c: char) {
    c == '\t' || c == '\n' || c == '\U{000B}' || c == '\U{000C}' || c == '\r' || c == ' '
    || c == '\U{00A0}' || c == '\U{1680}' || ('\U{2000}' <= c <= '\U{200A}')
    || c == '\U{2028}' || c == '\U{2029}' || c == '\U{202F}' || c == '\U{205F}'
    || c == '\U{3000}' || c == '\U{FEFF}'
  }

  predicate IsDigit(c: char) {
    '0' <= c <= '9'
  }

  /** The length of the leading run of ASCII digits. */
  function DigitPrefix(s: string): (n: nat)
    ensures n <= |s|
    ensures forall i :: 0 <= i < n ==> IsDigit(s[i])
    ensures n < |s| ==> !IsDigit(s[n])
  {
    if |s| == 0 || !IsDigit(s[0]) then 0 else 1 + DigitPrefix(s[1..])
  }

  predicate AllDigits(s: string) {
    forall i :: 0 <= i < |s| ==> IsDigit(s[i])
  }

  predicate IsLowerAlnum(c: char) {
    ('a' <= c <= 'z') || IsDigit(c)
  }

  /** A string property is "set" in the JavaScript sense: present and non-empty. */
  predicate Filled(o: Option<string>) {
    o.Some? && o.value != ""
  }

  /** `a || b` on optional strings: `a` when it is non-empty, otherwise `b`. */
  function OrElse(a: Option<string>, b: string): string {
    if Filled(a) then a.value else b
  }

  // ---------------------------------------------------------------- case

  /** `toLowerCase()` restricted to ASCII letters. */
  function LowerChar(c: char): char {
    if 'A' <= c <= 'Z' then (c as int - 'A' as int + 'a' as int) as char else c
  }

  function UpperChar(c: char): char {
    if 'a' <= c <= 'z' then (c as int - 'a' as int + 'A' as int) as char else c
  }

  function Lower(s: string): (r: string)
    ensures |r| == |s|
    ensures forall i :: 0 <= i < |s| ==> r[i] == LowerChar(s[i])
  {
    if |s| == 0 then "" else [LowerChar(s[0])] + Lower(s[1..])
  }

  /** Lower-casing leaves a text of lower-case letters alone. */
  lemma LowerLetters(s: string)
    requires forall i :: 0 <= i < |s| ==> 'a' <= s[i] <= 'z'
    ensures Lower(s) == s
  {
    assert forall i :: 0 <= i < |s| ==> LowerChar(s[i]) == s[i];
  }

  /** Lower-casing works piece by piece. */
  lemma {:induction false} LowerAppend(a: string, b: string)
    ensures Lower(a + b) == Lower(a) + Lower(b)
  {
    if |a| > 0 {
      assert (a + b)[1..] == a[1..] + b;
      LowerAppend(a[1..], b);
    } else {
      assert a + b == b;
    }
  }

  // ---------------------------------------------------------------- trim

  predicate AllSpace(s: string) {
    forall i :: 0 <= i < |s| ==> IsJsSpace(s[i])
  }

  function TrimStart(s: string): (r: string)
    ensures |r| <= |s| && r == s[|s| - |r|..]
    ensures AllSpace(s[..|s| - |r|])
    ensures |r| > 0 ==> !IsJsSpace(r[0])
  {
    if |s| > 0 && IsJsSpace(s[0]) then
      var r := TrimStart(s[1..]);
      TrimStartStep(s, r);
      r
    else s
  }

  lemma TrimStartStep(s: string, r: string)
    requires |s| > 0 && IsJsSpace(s[0])
    requires |r| <= |s| - 1 && r == s[1..][|s| - 1 - |r|..]
    requires AllSpace(s[1..][..|s| - 1 - |r|])
    ensures r == s[|s| - |r|..] && AllSpace(s[..|s| - |r|])
  {
    var k := |s| - |r|;
    assert s[1..][k - 1..] == s[k..];
    forall i | 0 <= i < k
      ensures IsJsSpace(s[..k][i])
    {
      if i > 0 {
        assert s[..k][i] == s[1..][..k - 1][i - 1];
      }
    }
  }

  function TrimEnd(s: string): (r: string)
    ensures |r| <= |s| && r == s[..|r|]
    ensures AllSpace(s[|r|..])
    ensures |r| > 0 ==> !IsJsSpace(r[|r| - 1])
  {
    if |s| > 0 && IsJsSpace(s[|s| - 1]) then
      var r := TrimEnd(s[..|s| - 1]);
      assert s[..|s| - 1][|r|..] == s[|r|..|s| - 1];
      r
    else s
  }

  /** `String.prototype.trim`. */
  function Trim(s: string): (r: string)
    ensures r == "" <==> AllSpace(s)
    ensures |r| > 0 ==> !IsJsSpace(r[0]) && !IsJsSpace(r[|r| - 1])
  {
    var a := TrimStart(s);
    var r := TrimEnd(a);
    TrimParts(s, a, r);
    r
  }

  lemma TrimParts(s: string, a: string, r: string)
    requires a == TrimStart(s) && r == TrimEnd(a)
    ensures r == "" <==> AllSpace(s)
  {
    var k := |s| - |a|;
    if a == "" {
      assert s[..k] == s;
    } else {
      assert a[0] == s[k];
      assert a[0..] == a;
    }
  }

  // ------------------------------------------------------------- search

  predicate StartsWith(s: string, prefix: string) {
    |prefix| <= |s| && s[..|prefix|] == prefix
  }

  predicate EndsWith(s: string, suffix: string) {
    |suffix| <= |s| && s[|s| - |suffix|..] == suffix
  }

  /** A string starts with its first part and ends with its last. */
  lemma Affixes(a: string, m: string, b: string)
    ensures StartsWith(a + m + b, a) && EndsWith(a + m + b, b)
  {
    assert (a + m + b)[..|a|] == a;
    assert (a + m + b)[|a + m + b| - |b|..] == b;
  }

  /** `s.includes(sub)`: some suffix of `s` starts with `sub`. */
  predicate Contains(s: string, sub: string) {
    StartsWith(s, sub) || (|s| > 0 && Contains(s[1..], sub))
  }

  /** An occurrence at a known position is enough for `includes`. */
  lemma {:induction false} ContainsAt(s: string, sub: string, i: nat)
    requires i + |sub| <= |s| && s[i..i + |sub|] == sub
    ensures Contains(s, sub)
  {
    if i > 0 {
      assert s[1..][i - 1..i - 1 + |sub|] == s[i..i + |sub|];
      ContainsAt(s[1..], sub, i - 1);
    }
  }

  /** A string contains each of its middle parts. */
  lemma ContainsMiddle(a: string, m: string, b: string)
    ensures Contains(a + m + b, m)
  {
    assert (a + m + b)[|a|..|a| + |m|] == m;
    ContainsAt(a + m + b, m, |a|);
  }

  /** A text made of a head, a middle part and a tail starts with the head,
      contains the middle part and ends with the tail. */
  function Framed(head: string, middle: string, tail: string): (r: string)
    ensures StartsWith(r, head) && Contains(r, middle) && EndsWith(r, tail)
  {
    Affixes(head, middle, tail);
    ContainsMiddle(head, middle, tail);
    head + middle + tail
  }

  // -------------------------------------------------------- split / join

  /** `s.split(sep)` for a one-character separator. */
  function Split(s: string, sep: char): (r: seq<string>)
    ensures |r| >= 1
  {
    if |s| == 0 then [""]
    else
      var rest := Split(s[1..], sep);
      if s[0] == sep then [""] + rest
      else [[s[0]] + rest[0]] + rest[1..]
  }

  /** `parts.join(sep)`. */
  function Join(parts: seq<string>, sep: string): string {
    if |parts| == 0 then ""
    else if |parts| == 1 then parts[0]
    else parts[0] + sep + Join(parts[1..], sep)
  }

  predicate Free(s: string, c: char) {
    forall i :: 0 <= i < |s| ==> s[i] != c
  }

  /** No piece produced by `split` contains the separator. */
  lemma {:induction false} SplitPiecesFree(s: string, sep: char)
    ensures forall k :: 0 <= k < |Split(s, sep)| ==> Free(Split(s, sep)[k], sep)
  {
    if |s| > 0 {
      SplitPiecesFree(s[1..], sep);
    }
  }

  /** Joining the pieces of a split gives back the original text. */
  lemma {:induction false} JoinSplit(s: string, sep: char)
    ensures Join(Split(s, sep), [sep]) == s
  {
    if |s| > 0 {
      JoinSplit(s[1..], sep);
      var rest := Split(s[1..], sep);
      if s[0] != sep && |rest| > 1 {
        assert Join(rest, [sep]) == rest[0] + [sep] + Join(rest[1..], [sep]);
      }
    }
  }

  lemma {:induction false} SplitFree(a: string, sep: char)
    requires Free(a, sep)
    ensures Split(a, sep) == [a]
  {
    if |a| > 0 {
      assert Free(a[1..], sep);
      SplitFree(a[1..], sep);
      assert [a[0]] + a[1..] == a;
    }
  }

  lemma {:induction false} SplitAcross(a: string, sep: char, b: string)
    requires Free(a, sep)
    ensures Split(a + [sep] + b, sep) == [a] + Split(b, sep)
  {
    if |a| == 0 {
      assert (a + [sep] + b)[1..] == b;
    } else {
      assert (a + [sep] + b)[1..] == a[1..] + [sep] + b;
      SplitAcross(a[1..], sep, b);
      assert [a[0]] + a[1..] == a;
    }
  }

  /** Splitting a join of separator-free pieces gives back the pieces. */
  lemma {:induction false} SplitJoin(parts: seq<string>, sep: char)
    requires |parts| >= 1
    requires forall k :: 0 <= k < |parts| ==> Free(parts[k], sep)
    ensures Split(Join(parts, [sep]), sep) == parts
  {
    if |parts| == 1 {
      SplitFree(parts[0], sep);
    } else {
      SplitJoin(parts[1..], sep);
      SplitAcross(parts[0], sep, Join(parts[1..], [sep]));
      assert [parts[0]] + parts[1..] == parts;
    }
  }

  // ------------------------------------------------------------- repeat

  /** `c.repeat(n)`. */
  function Repeat(c: char, n: nat): (r: string)
    ensures |r| == n && forall i :: 0 <= i < n ==> r[i] == c
  {
    if n == 0 then "" else [c] + Repeat(c, n - 1)
  }

  /** `s.padStart(width, c)`. */
  function PadStart(s: string, width: nat, c: char): (r: string)
    ensures |s| >= width ==> r == s
    ensures |s| < width ==> |r| == width && r[width - |s|..] == s
  {
    if |s| >= width then s else Repeat(c, width - |s|) + s
  }

  // ------------------------------------------------------ number to text

  function DigitChar(d: nat): char
    requires d < 16
  {
    if d < 10 then ('0' as int + d) as char else ('a' as int + d - 10) as char
  }

  predicate IsHexDigit(c: char) {
    IsDigit(c) || ('a' <= c <= 'f') || ('A' <= c <= 'F')
  }

  function DigitValue(c: char): nat {
    if IsDigit(c) then c as int - '0' as int
    else if 'a' <= c <= 'f' then c as int - 'a' as int + 10
    else if 'A' <= c <= 'F' then c as int - 'A' as int + 10
    else 0
  }

  /** `n.toString(base)` for a non-negative integer: most significant digit
      first, lower-case letters, no leading zeros. */
  function ToBase(n: nat, base: nat): (r: string)
    requires 2 <= base <= 16
    ensures |r| >= 1
    decreases n
  {
    if n < base then [DigitChar(n)] else ToBase(n / base, base) + [DigitChar(n % base)]
  }

  /** The value of a digit string read in `base`, most significant first. */
  function ParseBase(s: string, base: nat): nat {
    if |s| == 0 then 0 else ParseBase(s[..|s| - 1], base) * base + DigitValue(s[|s| - 1])
  }

  /** Reading back a printed number gives the number. */
  lemma {:induction false} ParseToBase(n: nat, base: nat)
    requires 2 <= base <= 16
    ensures ParseBase(ToBase(n, base), base) == n
    decreases n
  {
    if n >= base {
      DivSmaller(n, base);
      ParseToBase(n / base, base);
      ParseLastDigit(n, base);
    } else {
      ParseOneDigit(n, base);
    }
  }

  lemma ParseOneDigit(n: nat, base: nat)
    requires 2 <= base <= 16 && n < base
    ensures ParseBase(ToBase(n, base), base) == n
  {
    var d := [DigitChar(n)];
    assert ToBase(n, base) == d;
    assert d[..0] == [];
    assert ParseBase(d, base) == DigitValue(DigitChar(n)) by {
      assert ParseBase([], base) == 0;
    }
    DigitBack(n);
  }

  /** The step of the round trip: the last digit printed is `n % base`. */
  lemma ParseLastDigit(n: nat, base: nat)
    requires 2 <= base <= 16 && n >= base
    requires ParseBase(ToBase(n / base, base), base) == n / base
    ensures ParseBase(ToBase(n, base), base) == n
  {
    var q, r := n / base, n % base;
    ParseSnoc(ToBase(q, base), DigitChar(r), base);
    DigitBack(r);
    DivMod(n, base);
  }

  lemma ParseSnoc(s: string, c: char, base: nat)
    ensures ParseBase(s + [c], base) == ParseBase(s, base) * base + DigitValue(c)
  {
    assert (s + [c])[..|s|] == s;
  }

  lemma DivSmaller(n: nat, base: nat)
    requires 2 <= base <= n
    ensures n / base < n
  {
    DivMod(n, base);
  }

  lemma DivMod(n: nat, base: nat)
    requires base > 0
    ensures n == (n / base) * base + n % base
  {
  }

  /** A printed digit reads back as itself. */
  lemma DigitBack(d: nat)
    requires d < 16
    ensures DigitValue(DigitChar(d)) == d
    ensures d < 10 ==> IsDigit(DigitChar(d))
  {
  }

  /** Printed digits are digits of the base. */
  lemma {:induction false} ToBaseDigits(n: nat, base: nat)
    requires 2 <= base <= 16
    ensures forall i :: 0 <= i < |ToBase(n, base)| ==> DigitValue(ToBase(n, base)[i]) < base
    ensures base == 10 ==> forall i :: 0 <= i < |ToBase(n, base)| ==> IsDigit(ToBase(n, base)[i])
    decreases n
  {
    var r := ToBase(n, base);
    if n >= base {
      var t := ToBase(n / base, base);
      var c := DigitChar(n % base);
      DivSmaller(n, base);
      ToBaseDigits(n / base, base);
      assert r == t + [c];
      DigitBack(n % base);
      assert r[|t|] == c;
      assert forall i :: 0 <= i < |t| ==> r[i] == t[i];
    } else {
      DigitBack(n);
    }
  }

  /** A leading zero does not change the value of a digit string. */
  lemma {:induction false} ParseLeadingZero(s: string, base: nat)
    ensures ParseBase(['0'] + s, base) == ParseBase(s, base)
    decreases |s|
  {
    if |s| > 0 {
      var t := ['0'] + s;
      assert t[..|t| - 1] == ['0'] + s[..|s| - 1];
      ParseLeadingZero(s[..|s| - 1], base);
    }
  }

  /** Values below `base` print as one digit, and below `base * base` as at most two. */
  lemma ToBaseShort(n: nat, base: nat)
    requires 2 <= base <= 16
    ensures n < base ==> |ToBase(n, base)| == 1
    ensures n < base * base ==> |ToBase(n, base)| <= 2
  {
    if base <= n < base * base {
      assert n / base < base;
    }
  }

  /** `n.toString()` for a non-negative integer. */
  function NatToString(n: nat): string {
    ToBase(n, 10)
  }

  /** Distinct numbers print differently. */
  lemma NatToStringInjective(a: nat, b: nat)
    ensures NatToString(a) == NatToString(b) ==> a == b
  {
    ParseToBase(a, 10);
    ParseToBase(b, 10);
  }

  /** A printed number starts with a decimal digit. */
  lemma NatToStringStartsWithDigit(n: nat)
    ensures IsDigit(NatToString(n)[0])
  {
    ToBaseDigits(n, 10);
  }

  /** `${n}` for an integer. */
  function IntToString(i: int): string {
    if i < 0 then "-" + NatToString(-i) else NatToString(i)
  }
}

=== FILE: types.dfy ===
/** The document model of the page builder: pages made of ordered, typed sections. */
module Types {
  import opened Wrappers
  import opened Js

  /** The fifteen section types a page can hold. */
  datatype SectionType =
    | Header | Hero | Features | Pricing | Testimonials | Cta | About | Team
    | Faq | Contact | Newsletter | Blog | Gallery | Stats | Footer

  /** The wire name of a type, as stored in `Section.type`. */
  function TypeName(t: SectionType): string {
    match t
    case Header => "header"
    case Hero => "hero"
    case Features => "features"
    case Pricing => "pricing"
    case Testimonials => "testimonials"
    case Cta => "cta"
    case About => "about"
    case Team => "team"
    case Faq => "faq"
    case Contact => "contact"
    case Newsletter => "newsletter"
    case Blog => "blog"
    case Gallery => "gallery"
    case Stats => "stats"
    case Footer => "footer"
  }

  /** The type a wire name denotes, if any. */
  function ParseType(s: string): (r: Option<SectionType>)
    ensures r.Some? ==> TypeName(r.value) == s
    ensures r.None? ==> forall t :: TypeName(t) != s
  {
    if s == "header" then Some(Header)
    else if s == "hero" then Some(Hero)
    else if s == "features" then Some(Features)
    else if s == "pricing" then Some(Pricing)
    else if s == "testimonials" then Some(Testimonials)
    else if s == "cta" then Some(Cta)
    else if s == "about" then Some(About)
    else if s == "team" then Some(Team)
    else if s == "faq" then Some(Faq)
    else if s == "contact" then Some(Contact)
    else if s == "newsletter" then Some(Newsletter)
    else if s == "blog" then Some(Blog)
    else if s == "gallery" then Some(Gallery)
    else if s == "stats" then Some(Stats)
    else if s == "footer" then Some(Footer)
    else None
  }

  /** Four-sided spacing, in pixels. */
  datatype Box = Box(top: int, bottom: int, left: int, right: int)

  /** Vertical spacing outside a section, in pixels. */
  datatype Margin = Margin(top: int, bottom: int)

  /** `SectionStyles`: every field is optional. The font fields are not in the
      declared interface but the customization panel writes them. */
  datatype SectionStyles = SectionStyles(
    backgroundColor: Option<string>,
    textColor: Option<string>,
    padding: Option<Box>,
    margin: Option<Margin>,
    customCss: Option<string>,
    fontFamily: Option<string>,
    fontWeight: Option<string>)

  const NoStyles := SectionStyles(None, None, None, None, None, None, None)

  /** One block of a page. `kind` is the wire name of its type: requests can
      carry names outside the fifteen, and every consumer has a fallback for them. */
  datatype Section = Section(
    id: string,
    kind: string,
    variant: string,
    content: Content,
    styles: SectionStyles,
    order: int)

  /** A page; dates are millisecond timestamps. */
  datatype Page = Page(
    id: string,
    userId: string,
    title: string,
    slug: string,
    sections: seq<Section>,
    isPublished: bool,
    seoTitle: Option<string>,
    seoDescription: Option<string>,
    customCss: Option<string>,
    customJs: Option<string>,
    createdAt: int,
    updatedAt: int)

  /** The ids of a section list, in order. */
  function Ids(ss: seq<Section>): (r: seq<string>)
    ensures |r| == |ss|
    ensures forall i :: 0 <= i < |ss| ==> r[i] == ss[i].id
  {
    if |ss| == 0 then [] else [ss[0].id] + Ids(ss[1..])
  }
}

=== FILE: wrappers.dfy ===
/** Optional values and error-carrying results, used wherever the page builder
    returns `null`/`undefined` or throws. */
module Wrappers {

  /** A value that may be absent: JavaScript's `undefined`/`null` for one field. */
  datatype Option<+T> = None | Some(value: T) {

    /** The wrapped value, or `default` when absent. */
    function GetOr(default: T): T {
      match this
      case Some(v) => v
      case None => default
    }
  }

  /** Either a value or the error that the source would throw. */
  datatype Result<+T, +E> = Ok(value: T) | Err(error: E) {

    predicate IsFailure() {
      Err?
    }

    function PropagateFailure<U>(): Result<U, E>
      requires Err?
    {
      Err(error)
    }

    function Extract(): T
      requires Ok?
    {
      value
    }
  }
}
